=== FILE: README.md ===
# newmojochat1: a Dafny model of the chat front end's deterministic core

newmojochat1 is a chat application with two assistant personas, "Mojo"
and "Mojo++". It has Next.js API routes and Netlify functions that call
the model provider, and a React front end that streams the replies. This
project models the deterministic logic between those foreign calls and
proves properties of it.

- **The streaming path.**
  - The route handlers turn upstream model events into `data: …` records (`StreamProducer`).
  - `StreamingManager.startStream` reads those records back and turns them into callbacks (`StreamConsumer`).
  - `AIService.parseStream` is a second reader of the same records (`AIService`).
  - The registry of active streams is modelled with its `finally` block (`StreamRegistry`).
  - `updateStreamingMessage` merges metadata (`StreamingMessage`).
  - The two ends are connected by round-trip lemmas (`StreamPipeline`).
  - A reader that buffers partial lines is the corrected consumer (`BufferedConsumer`).
- **The request handlers** (`ChatHandlers`), covering the `mojo`, `mojo-plus` and `mojo-ai-sdk` routes and the two Netlify functions:
  - admission checks;
  - error mapping;
  - the conversation text;
  - the user-context system instruction;
  - the JSON replies;
  - the AI SDK tools' `execute`.
- **The client services.**
  - `AIService` requests and error texts.
  - Realtime channel bookkeeping and typing indicators (`Realtime`).
  - The preferences cache with merge, validate, import and export (`Preferences`).
  - File validation and upload (`FileUpload`).
  - MCP server configuration and the MCP client's request shaping (`McpConfig`, `Mcp`).
- **The components' state logic.**
  - The chat view's message list, the send lifecycle, rerun and editing (`ChatView`).
  - The toast queue (`Toasts`).
  - The message composer and the edit dialog (`MessageInput`, `MessageEditor`).
  - Profile saving (`Profile`), account settings (`AccountSettings`) and sign-up (`SignUp`).
  - Sidebar navigation state (`Navigation`).

Some behaviour is foreign to the model and is passed in as a parameter:

- **JSON.** `JSON.parse` and `JSON.stringify` are one `JsonCodec` parameter. Round trips are stated for codecs that are faithful on the values concerned.
- **Remote calls.** Network, database and model calls are parameters: the reply or error each one settles with.
- **Time and identifiers.** Clocks, timers and generated ids are parameters too.

JavaScript's `||` and truthiness, `String.prototype.split` and `trim`, and
UTF-16 `.length` are written out in `Text` and `JsonValue`.

## Model

| member | source | states |
|---|---|---|
| StreamConsumer.Effects | src/lib/streaming.ts:52-79 | each line of a read is classified once, in order: the effect list is as long as the line list |
| StreamConsumer.UntilDoneSpec | src/lib/streaming.ts:60-63 | scanning stops at the first `[DONE]` line: the kept lines are the longest prefix without one, and a `[DONE]` exists exactly when the scan stops early |
| StreamConsumer.ScanLinesAgrees | src/lib/streaming.ts:54-79 | the inner line loop emits one `onChunk` per text or tool line before `[DONE]`, each with the content accumulated so far, and reports whether `[DONE]` was met |
| StreamConsumer.ConsumeReadsAgrees | src/lib/streaming.ts:46-87 | the read loop, from any accumulated content, equals the reference run over the flat list of lines of all reads processed |
| StreamConsumer.ConsumeAgreesWithReference | src/lib/streaming.ts:27-97 | `startStream` as a whole is `onStart` followed by the reference run over the inspected lines |
| StreamConsumer.ChunkCallsCumulative | src/lib/streaming.ts:67-73 | every `onChunk` carries a prefix of the final text, and the prefixes grow from call to call |
| StreamConsumer.RunShape | src/lib/streaming.ts:41-92 | a run is `onStart`, then growing `onChunk` calls, then at most one closing callback, and it settles as the ending dictates |
| StreamConsumer.ResolvedContent | src/lib/streaming.ts:60-87 | the promise resolves exactly when `[DONE]` was met or the reader finished, and then with the text of the lines before `[DONE]` |
| StreamConsumer.CallbackDiscipline | src/lib/streaming.ts:41-92 | `onStart` is first; `onChunk` texts grow; a resolved run ends with exactly one `onComplete` of the resolved content and never calls `onError` |
| StreamConsumer.CancelledRunIsSilent | src/lib/streaming.ts:82-92 | a stream cancelled before `[DONE]` rejects with the cancellation (or the pending read's error) and calls neither `onComplete` nor `onError` |
| StreamConsumer.FailedRunReportsOnce | src/lib/streaming.ts:89-93 | a read that fails before `[DONE]` is reported once to `onError`, as the last call, and rejects the promise with the same error |
| StreamConsumer.IgnoredLineIsSkipped | src/lib/streaming.ts:57-78 | deleting a line the consumer ignores changes nothing about the scan of a read |
| StreamConsumer.UnparsableLineIgnored | src/lib/streaming.ts:74-77 | a `data: ` line whose payload does not parse is skipped |
| StreamConsumer.EffectsAppend | src/lib/streaming.ts:52-54 | classifying two runs of lines one after the other equals classifying their concatenation |
| StreamConsumer.UntilDoneAppend | src/lib/streaming.ts:60-63 | the first `[DONE]` of joined runs lies in the first run or, failing that, in the second |
| StreamConsumer.ChunkCallsAppend | src/lib/streaming.ts:67-69 | the chunk calls of joined runs are the first run's, then the second's continuing from the first's text |
| StreamConsumer.TextUpToAppend | src/lib/streaming.ts:68 | the text accumulated over joined runs is the first run's text followed by the second's |
| StreamConsumer.ScanRead | src/lib/streaming.ts:54-79 | the imperative line loop of one read produces the same calls, content and stop flag as the functional scan |
| StreamConsumer.DoReadStep | src/lib/streaming.ts:46-80 | one iteration of the imperative read loop settles or continues as the functional step does |
| StreamConsumer.ReadLoop | src/lib/streaming.ts:40-93 | the imperative read loop makes the same calls and settles the same way as `startStream`'s functional model |
| StreamConsumer.StartStream | src/lib/streaming.ts:27-97 | the imperative `startStream` equals the reference run: `onStart`, chunk calls, closing call and outcome |
| StreamProducer.ToolName | src/app/api/chat/mojo/route.ts:223-240 | an output item is published as `image_generation`, `code_interpreter` or `mcp_call` exactly when its `type` is the matching `*_call`; any other item is not published |
| StreamProducer.Normalize | src/app/api/chat/mojo/route.ts:208-247 | a truthy `delta` is always sent as content; a completion marker is sent exactly for a `done` event that is not a text event; a tool record carries the item itself; whatever is emitted is well formed |
| StreamProducer.Emitted | src/app/api/chat/mojo/route.ts:208-248 | at most one record per upstream event, each well formed |
| StreamProducer.BodyAppend | src/app/api/chat/mojo/route.ts:215 | the body of consecutive record runs is the concatenation of their bodies: each record is one frame |
| StreamProducer.ProduceStep | src/app/api/chat/mojo/route.ts:208-248 | an event adds exactly its own frame to the body, or nothing when it yields no record |
| StreamProducer.DoneEventFrame | src/app/api/chat/mojo/route.ts:219-221 | a `done` event that is not a text event yields exactly `data: [DONE]\n\n` |
| StreamPipeline.DoneInSpec | src/lib/streaming.ts:60-63 | the consumer meets `[DONE]` exactly when the completion marker is among the records, and then it sits right after the records kept before it |
| StreamPipeline.FrameLineIsOneLine | src/app/api/chat/mojo/route.ts:215 | a serialised record never contains a newline, so the frame's `\n\n` is its only line break |
| StreamPipeline.SplitBody | src/lib/streaming.ts:52 | splitting a body at newlines gives each record's line, each followed by an empty line, and one final empty piece |
| StreamPipeline.FrameLineDecodes | src/lib/streaming.ts:57-73 | the consumer reads each produced record line as that record: its text, its tool chunk, or `[DONE]` |
| StreamPipeline.BlankLineIgnored | src/lib/streaming.ts:57 | the empty line that ends a frame means nothing to the consumer |
| StreamPipeline.EffectsOfFrames | src/lib/streaming.ts:52-79 | the lines of a body read as the records' effects, each followed by an ignored line |
| StreamPipeline.ScanRecords | src/lib/streaming.ts:54-79 | scanning whole records reports the chunk of each record before `[DONE]`, accumulates their text, and stops at `[DONE]` or continues into what follows |
| StreamPipeline.RecordRead | src/lib/streaming.ts:46-87 | a read that holds whole records ends the run at a `[DONE]` record, and otherwise reports its records and passes their text on |
| StreamPipeline.SingleReadRoundTrip | src/lib/streaming.ts:27-97 | a route's body read in one piece resolves with the text of the records before the first `[DONE]`, and its chunks are those records' objects, in order |
| StreamPipeline.AlignedRoundTrip | src/lib/streaming.ts:46-87 | however a body is split into reads at record boundaries, the consumer reports every record before `[DONE]` in order and resolves with their text |
| StreamPipeline.ProduceThenConsume | src/app/api/chat/mojo/route.ts:208-253 | the route's response read in one piece resolves with the text of the upstream events up to the first completion event, and its chunks are the emitted records |
| StreamPipeline.CutRecordIsLost | src/lib/streaming.ts:51-79 | a text record cut by a read boundary inside its payload is lost: read whole it resolves with its text, cut it resolves with nothing |
| StreamPipeline.BeforeAppend | src/lib/streaming.ts:60-63 | the records before `[DONE]` of joined runs are those of the first run when it has `[DONE]`, and otherwise the first run followed by those of the second |
| StreamPipeline.GroupsReadAsRecords | src/lib/streaming.ts:51-52 | when the codec fits every record, every group of whole records reads as that group's records |
| BufferedConsumer.Pending | src/lib/streaming.ts:51-52 | the text kept back for the next read never contains a newline |
| BufferedConsumer.CompleteLinesConcat | src/lib/streaming.ts:51-52 | the complete lines of a longer text are those of its start, then those of the carry plus the rest |
| BufferedConsumer.BufferedReadsAgree | src/lib/streaming.ts:46-87 | the buffered read loop is the reference run over the complete lines of everything read, carry included |
| BufferedConsumer.BufferedConsumeSpec | src/lib/streaming.ts:27-97 | the buffered consumer is `onStart` followed by the reference run over the complete lines of the joined reads |
| BufferedConsumer.CutsDoNotMatter | src/lib/streaming.ts:46-52 | two read sequences with the same joined text and the same ending give the same run |
| BufferedConsumer.AnyCutRoundTrip | src/lib/streaming.ts:27-97 | a route's body cut into reads anywhere resolves with the text of the records before `[DONE]`, and its chunks are those records' objects |
| BufferedConsumer.CutRecordIsKept | src/lib/streaming.ts:51-79 | the record that the unbuffered consumer loses is kept wherever the cut falls |
| StreamRegistry.Cancel | src/lib/streaming.ts:100-106 | `cancelStream(id)` aborts the controller registered under the id, if any, and forgets only that id; an unknown id changes nothing |
| StreamRegistry.CancelAll | src/lib/streaming.ts:109-114 | every registered controller is aborted and the map is emptied |
| StreamRegistry.Begin | src/lib/streaming.ts:32-36 | a stream under a used id aborts the previous controller, then registers its own, leaving other ids alone |
| StreamRegistry.Finish | src/lib/streaming.ts:94-96 | the `finally` block as written deletes the id whichever controller is registered there now |
| StreamRegistry.FinishOwn | src/lib/streaming.ts:94-96 | the intended `finally` removes the id only while the call's own controller is registered there |
| StreamRegistry.ActiveMeansLive | src/lib/streaming.ts:117-119 | in a consistent registry, `isStreamActive(id)` holds exactly when a running, un-aborted stream owns the id |
| StreamRegistry.CancelKeepsConsistent | src/lib/streaming.ts:100-106 | cancelling keeps "registered exactly while live" true |
| StreamRegistry.CancelAllKeepsConsistent | src/lib/streaming.ts:109-114 | cancelling everything keeps the registry consistent |
| StreamRegistry.BeginKeepsConsistent | src/lib/streaming.ts:32-36 | starting a stream keeps the registry consistent |
| StreamRegistry.FinishOwnKeepsConsistent | src/lib/streaming.ts:94-96 | the intended `finally` keeps the registry consistent |
| StreamRegistry.SameIdFinishDropsSuccessor | src/lib/streaming.ts:94-96 | as written, when stream A's `finally` runs after stream B restarted the same id, B is live but no longer registered, and `cancelStream` cannot reach it |
| StreamRegistry.SameIdFinishOwnKeepsSuccessor | src/lib/streaming.ts:32-36 | with the intended `finally`, the same interleaving leaves B registered and cancellable |
| StreamRegistry.RunKeepsConsistent | src/lib/streaming.ts:27-119 | with the intended `finally`, after any sequence of starts, cancels and finishes, an id is active exactly while a live stream holds it |
| StreamingMessage.Update | src/lib/streaming.ts:208-221 | the id is kept, content and completion flag are replaced, and the metadata holds every old key the update does not mention, with the update's keys winning |
| StreamingMessage.UpdateTwice | src/lib/streaming.ts:208-221 | two updates in a row equal one update whose additions are both merged, the later winning |
| StreamingMessage.UpdateIdempotent | src/lib/streaming.ts:208-221 | repeating an update changes nothing |
| AIService.Spread | src/lib/ai.ts:85-88 | `{...base, ...over}` takes each option from `over` when present there, otherwise from `base` |
| AIService.MessagesJson | src/lib/ai.ts:48-51 | the messages are serialised one for one, in order |
| JsonValue.SpreadEntries | src/lib/preferences.ts:193-196 | an object spread copies an object's fields, an array's elements and a string's characters under their decimal indexes, and nothing from `null`, a boolean or a number |
| JsonValue.WithOptional | src/lib/ai.ts:48-51 | an option present in the request adds its key and an absent one adds nothing, as `JSON.stringify` drops `undefined` (the MCP request bodies are built the same way) |
| AIService.Chat | src/lib/ai.ts:98-112 | `mojo++` goes to the mojo-plus endpoint with `reasoning_effort` defaulting to `medium`; any other model goes to the mojo endpoint with the options untouched; the messages and the present options are always in the body |
| AIService.RequestJsonFields | src/lib/ai.ts:48-51 | the request body is an object of at most the four known keys, each present exactly when its option is |
| AIService.ResponseFailure | src/lib/ai.ts:54-57 | a non-OK response throws the body's truthy `error` as text, else `HTTP <status>: <statusText>` (an unparsable body counts as `{}`); an OK response throws nothing; a `null` body throws a TypeError |
| AIService.HandleError | src/lib/ai.ts:164-174 | a truthy `message` wins, then a string error is itself, else the fixed fallback text; reading `.message` of `null` throws |
| AIService.HandleErrorObject | src/lib/ai.ts:188-192 | rethrowing an `Error` keeps a non-empty message and replaces an empty one with the fallback |
| AIService.StatusFailureSurvivesRethrow | src/lib/ai.ts:54-57 | the `HTTP <status>: <statusText>` text is never empty, so `useAI` passes it through unchanged |
| AIService.FormatMessages | src/lib/ai.ts:154-161 | only user and assistant messages are kept, never more than were given, and nothing is lost when all are conversational |
| AIService.FormatOne | src/lib/ai.ts:155-160 | one message is kept, with its role and content, exactly when its role is user or assistant |
| AIService.FormatAppend | src/lib/ai.ts:155-160 | formatting distributes over concatenation, so together with the one-message case the filter is fully determined |
| AIService.FormatIdempotent | src/lib/ai.ts:154-161 | formatting an already formatted list changes nothing |
| AIService.ParseLine | src/lib/ai.ts:128-145 | a line ends the generator exactly when it is `data: [DONE]`, and every value it yields is truthy |
| AIService.TextsAppend | src/lib/ai.ts:139 | the text of two runs of yielded values is the first's text followed by the second's |
| AIService.ParsersCoherent | src/lib/ai.ts:128-145 | `parseStream` and `startStream` interpret every line alike: they stop on the same lines, and the parser yields exactly where the consumer appends text |
| AIService.ParseLinesAgree | src/lib/ai.ts:126-146 | over one read both readers stop together, and the consumer's content grows by exactly the yielded text |
| AIService.ParseReadsAgree | src/lib/ai.ts:120-147 | over the same reads the parser fails exactly when the consumer rejects, with the same error, and otherwise the consumer resolves with the text of what the parser yielded |
| AIService.ParseStreamAgreesWithConsumer | src/lib/ai.ts:115-151 | on an uncancelled stream `parseStream` throws exactly when `startStream` rejects, and otherwise the consumer's content is the yielded contents' text, in order |
| ChatHandlers.Admit | src/app/api/chat/mojo/route.ts:118-137 | the checks run in each handler's order: the Netlify preflight and method check, the API-key check where the handler has one, a body that throws, then a missing message array; an admitted body gives back its messages, `stream` and `userId` |
| ChatHandlers.KeyCheckPrecedesBody | src/app/api/chat/mojo/route.ts:121-127 | without a key, the handlers that check for one answer 500 before the body is read |
| ChatHandlers.MojoPlusIgnoresKey | src/app/api/chat/mojo-plus/route.ts:121-131 | the mojo-plus handlers never consult the API key |
| ChatHandlers.MapError | netlify/functions/chat-mojo.js:285-300 | first match wins: quota or rate limit gives 429, a missing model or an MCP failure gives 503 where the handler knows them, else 500 `Internal server error`; details are attached by the Netlify functions and by the AI SDK route's MCP reply only |
| ChatHandlers.PlusRouteAddsModelNotFound | src/app/api/chat/mojo-plus/route.ts:306-333 | the mojo-plus route differs from the mojo route only on `model_not_found` that is not also a quota or rate-limit error |
| ChatHandlers.Preliminary | src/app/api/chat/mojo/route.ts:118-137 | a handler answers before the model call exactly when admission fails, and a thrown body error goes through the error mapping |
| ChatHandlers.ConversationLines | src/app/api/chat/mojo/route.ts:162-164 | each message gives one line, in order |
| ChatHandlers.ConversationText | src/app/api/chat/mojo/route.ts:162-164 | building the conversation text fails exactly when some message is `null` |
| ChatHandlers.ConversationLineRole | src/app/api/chat/mojo/route.ts:163 | a line starts `User: ` exactly when its role is `user`, and `Assistant: ` otherwise |
| ChatHandlers.ConversationAppend | src/app/api/chat/mojo/route.ts:162-164 | the text of a longer conversation is the texts of its parts with a blank line between |
| ChatHandlers.RoleAndContent | netlify/functions/chat-mojo.js:206-209 | reducing a message throws exactly when it is `null`; otherwise the reduced message has exactly the original's `role` and `content`, and no other key |
| ChatHandlers.RolesAndContents | src/app/api/chat/mojo-ai-sdk/route.ts:259-262 | mapping the messages throws exactly when one is `null`; otherwise each message is reduced in place, in order |
| ChatHandlers.InputMessages | netlify/functions/chat-mojo.js:201-210 | building the input throws exactly when a message is `null`; otherwise it is the system message followed by each message's role and content, in order |
| ChatHandlers.InputMatchesConversation | netlify/functions/chat-mojo.js:201-210 | the model input and the `mojo` handlers' conversation text fail on the same messages, and each input entry renders as the line written for the same message |
| ChatHandlers.ModelInput | netlify/functions/chat-mojo.js:201-210 | a `null` message sends the thrown `TypeError` to the handler's `catch` and its reply, any other list becomes the model input |
| ChatHandlers.NullMessageIsInternal | netlify/functions/chat-mojo.js:285-310 | the reply to a `null` message is the generic 500 `Internal server error`, since the `TypeError` has no code and does not mention MCP |
| ChatHandlers.LookedUpProfile | src/app/api/chat/mojo/route.ts:139-156 | the profile is used only for a truthy `userId` with a client and a lookup that returned data without an error |
| ChatHandlers.LookedUpName | src/app/api/chat/mojo-plus/route.ts:133-149 | the name is used only when the lookup succeeded and its `full_name` is truthy |
| ChatHandlers.Sentence | src/app/api/chat/mojo/route.ts:78-108 | a field contributes its sentence exactly when it is truthy |
| ChatHandlers.InterestsSentence | src/app/api/chat/mojo/route.ts:94-96 | the interests sentence appears only for a non-empty list, its items joined by `, ` |
| ChatHandlers.Sentences | src/app/api/chat/mojo/route.ts:75-113 | the eight context sentences come in the fixed order name, location, age, occupation, interests, hobbies, goals, bio, each present exactly when its field is truthy |
| ChatHandlers.ProfileInstruction | src/app/api/chat/mojo/route.ts:74-116 | without a profile the instruction is the base prompt; with one it is the base prompt, the User Context header, the sentences of the truthy fields in the order name, location, age, occupation, interests, hobbies, goals, bio, and the closing paragraph |
| ChatHandlers.ReducedInstruction | src/app/api/chat/mojo-ai-sdk/route.ts:187-195 | without a profile the base prompt; with one the base prompt, the header, the name, location and interests sentences (the same as the full section's), and the shorter closing |
| ChatHandlers.ReducedIgnoresOtherFields | src/app/api/chat/mojo-ai-sdk/route.ts:188-193 | two profiles that agree on name, location and interests get the same reduced instruction, whatever their other fields |
| ChatHandlers.ReducedIsFullOfThreeFields | src/app/api/chat/mojo-ai-sdk/route.ts:189-192 | the reduced section's sentences are exactly the full section's sentences of the profile cut down to name, location and interests |
| ChatHandlers.EmptyProfileHasEmptySection | src/app/api/chat/mojo/route.ts:75-112 | a found profile with no truthy field still adds the header and closing, with nothing between them |
| ChatHandlers.NameInstruction | src/app/api/chat/mojo-plus/route.ts:114-116 | the mojo-plus prompt gains a User Context section exactly when a truthy name is known |
| ChatHandlers.NameContextIffName | src/app/api/chat/mojo-plus/route.ts:133-149 | the mojo-plus prompt changes exactly when `userId` is truthy, there is a client, and the lookup returns a truthy name without error |
| ChatHandlers.ToolItems | src/app/api/chat/mojo/route.ts:276-280 | only output items of the three tool-call types are kept, in order, and all are kept when all are tool calls |
| ChatHandlers.ToolItemsAppend | src/app/api/chat/mojo/route.ts:276-280 | the filter distributes over concatenation, so with the one-item case it is fully determined |
| ChatHandlers.TypesOf | src/app/api/chat/mojo/route.ts:303 | `tools_used` lists each tool item's `type`, one for one |
| ChatHandlers.ResponsesReply | src/app/api/chat/mojo/route.ts:274-305 | 500 `No response generated` exactly when both the text and the tool list are empty; otherwise the text, `tool_calls` only when there are tools, the tool types, and the model names; mojo-plus always reports `reasoning_effort: 'high'` |
| ChatHandlers.ToolNames | src/app/api/chat/mojo-ai-sdk/route.ts:279 | `tools_used` holds each call's `toolName`, one for one |
| ChatHandlers.SdkReply | src/app/api/chat/mojo-ai-sdk/route.ts:268-281 | the AI SDK reply always succeeds with the text; `tool_calls` only when there are some; `tools_used` holds each call's `toolName`, in order (null where a call has none) |
| ChatHandlers.ExecuteTool | src/app/api/chat/mojo-ai-sdk/route.ts:41-66 | a tool returns the body's truthy `result`, else its default text, and a failure (including a `null` body) becomes a text naming the error; it never throws |
| ChatHandlers.ExecuteToolOutcome | src/app/api/chat/mojo-ai-sdk/route.ts:41-66 | a tool's result is always truthy; it reads as the tool's failure when the fetch threw or the body was `null`, and otherwise only when the passed-on text itself starts with the failure prefix |
| ChatHandlers.DefaultIsNoFailure | src/app/api/chat/mojo-ai-sdk/route.ts:138-141 | the search and documentation defaults never read as their tool's failure text |
| ChatHandlers.ResolvedNameCanReadAsFailure | src/app/api/chat/mojo-ai-sdk/route.ts:98-101 | a library named `resolution failed: ` makes a successful `resolve_library` read as its failure text |
| Realtime.ChatEventOf | src/lib/realtime.ts:27-89 | the chat channel forwards exactly the inserts, updates and deletes of that chat's messages and the updates of the chat row; a delete carries only the old row's id; no typing event comes from it |
| Realtime.UserChatsEventOf | src/lib/realtime.ts:102-121 | the user's chat list forwards only updates of that user's chats, carrying the new chat row |
| Realtime.MessageChangesReachOwnChatOnly | src/lib/realtime.ts:31-72 | a message change reaches a chat's channel exactly when it belongs to that chat |
| Realtime.KeysAreDistinct | src/lib/realtime.ts:22 | the chat, user-chats and typing keys never collide, and different ids within a family get different keys |
| Realtime.Unsubscribe | src/lib/realtime.ts:189-195 | the key's channel, if any, is removed and only that key is forgotten; an unknown key changes nothing |
| Realtime.Subscribe | src/lib/realtime.ts:21-25 | a subscription first drops any channel under the key, then stores a fresh channel under it and returns the key, leaving other keys alone |
| Realtime.UnsubscribeAll | src/lib/realtime.ts:198-209 | every channel is removed, every pending typing timer is cleared, and both maps end empty |
| Realtime.SendTyping | src/lib/realtime.ts:128-159 | the broadcast goes on the chat's typing channel; starting sends `typing_start`; stopping sends `typing_stop` and changes no state |
| Realtime.TypingStartReplacesTimer | src/lib/realtime.ts:131-150 | starting to type clears the pending auto-stop of the same chat and user and leaves exactly one new one, keeping every other timer |
| Realtime.SubscribeKeepsSound | src/lib/realtime.ts:21-25 | subscribing keeps every stored channel live and distinct |
| Realtime.TypingKeepsSound | src/lib/realtime.ts:128-159 | the typing indicator keeps every pending timer uncleared and distinct |
| Realtime.ApplyKeepsSound | src/lib/realtime.ts:16-209 | every operation keeps the channel and timer maps sound |
| Realtime.RunKeepsSound | src/lib/realtime.ts:16-209 | after any sequence of calls a subscribed key holds a channel that was never removed, and no pending timer has been cleared |
| Realtime.Typing | src/lib/realtime.ts:231-244 | `typing_start` adds the user, `typing_stop` removes it, any other event leaves the set alone |
| Realtime.TypingAllSnoc | src/lib/realtime.ts:231-244 | folding one more event applies exactly that event to the state so far |
| Realtime.TypingFollowsLastEvent | src/lib/realtime.ts:231-244 | after any events a user is shown typing exactly when the last typing event about them was a start, or there was none and they were typing before |
| ChatView.Add | src/components/Chat/ChatInterface.tsx:65-73 | an inserted row is appended unless its id is already shown; the list grows by one exactly when the id is new, and the earlier rows stay in front |
| ChatView.Replace | src/components/Chat/ChatInterface.tsx:74-80 | an update replaces every row with the payload's id in place, keeps every other row, and keeps the list of ids |
| ChatView.Remove | src/components/Chat/ChatInterface.tsx:81-85 | a delete drops exactly the rows with that id; an unknown id changes nothing |
| ChatView.RemoveAppend | src/components/Chat/ChatInterface.tsx:82-84 | deleting distributes over concatenation, so the rows that stay keep their order |
| ChatView.ReconcileKeepsUnique | src/components/Chat/ChatInterface.tsx:63-87 | every realtime event keeps the shown ids distinct |
| ChatView.ReconcileAllKeepsUnique | src/components/Chat/ChatInterface.tsx:63-87 | whatever events arrive, no row is ever shown twice |
| ChatView.ReconcileIdempotent | src/components/Chat/ChatInterface.tsx:63-87 | an event delivered twice has the effect of one delivery |
| ChatView.DeleteUndoesAdd | src/components/Chat/ChatInterface.tsx:65-85 | deleting a row undoes its insertion |
| ChatView.Edited | src/components/Chat/ChatInterface.tsx:258 | the edited row keeps its id and role, takes the new content, and its metadata gains `edited: true` and keeps every other entry |
| ChatView.Edit | src/components/Chat/ChatInterface.tsx:255-261 | only the rows with the edited id change, and each becomes its edited version |
| ChatView.SaveEdit | src/components/Chat/ChatInterface.tsx:235-268 | nothing happens without a message being edited; a database error is rethrown and the list is left alone; otherwise the edited rows take the new content and the ids are kept |
| ChatView.EditIsReplace | src/components/Chat/ChatInterface.tsx:255-261 | in a list without repeated ids, editing a row is replacing it with its edited version |
| ChatView.UpdateSupersedesEdit | src/components/Chat/ChatInterface.tsx:74-80 | the realtime update that follows an edit overrides the local edit completely |
| ChatView.SendGuard | src/components/Chat/ChatInterface.tsx:119 | a send goes ahead exactly when the content is not all blank or there is at least one attachment |
| ChatView.UserMetadata | src/components/Chat/ChatInterface.tsx:128-134 | the user message has metadata exactly for a non-empty attachment list: one entry per attachment, in order, with its name and an empty url |
| ChatView.History | src/components/Chat/ChatInterface.tsx:148-151 | the history sent is the formatted rows shown so far, followed by the new message as a user message |
| ChatView.SendRequest | src/components/Chat/ChatInterface.tsx:158-162 | the request goes to the route of the model, carries that history, streams, and asks for `medium` effort exactly for `mojo++` |
| ChatView.Tokens | src/components/Chat/ChatInterface.tsx:187 | the token estimate is the UTF-16 length divided by four, rounded up |
| ChatView.SavedMetadata | src/components/Chat/ChatInterface.tsx:185-192 | the saved reply records the model and the token estimate; `tool_calls` exactly when there are tool results; `reasoning_effort: medium` exactly for `mojo++` |
| ChatView.RerunMetadata | src/components/Chat/ChatInterface.tsx:324-333 | the rerun reply's metadata is the saved reply's entries plus the rerun flag and its time |
| ChatView.FirstIndex | src/components/Chat/ChatInterface.tsx:275 | `findIndex` finds the first row with the id, and none exactly when the id is absent |
| ChatView.RerunAsWritten | src/components/Chat/ChatInterface.tsx:270-290 | as written, a rerun happens exactly for an assistant reply directly preceded by a user message, at the reply's first position |
| ChatView.RerunRepeatsPrompt | src/components/Chat/ChatInterface.tsx:288-290 | as written, the rerun history ends with the prompting user message twice |
| ChatView.RerunRepeatsPromptExample | src/components/Chat/ChatInterface.tsx:288-290 | for the chat `hi` / `hello`, rerunning the reply sends `hi` twice |
| ChatView.RerunIntended | src/components/Chat/ChatInterface.tsx:270-290 | the corrected rerun applies to the same replies, at the same position |
| ChatView.RerunReplaysSend | src/components/Chat/ChatInterface.tsx:148-151 | the corrected rerun resends exactly the history the reply was first produced from, ending in the prompt once |
| ChatView.Bubbles | src/components/Chat/ChatInterface.tsx:415-425 | one bubble per row, in order, with its id, role and content |
| ChatView.Shown | src/components/Chat/ChatInterface.tsx:394-449 | with no rows only the empty-chat prompt shows, not even the placeholder; otherwise the rows, plus the placeholder bubble when there is one |
| ChatView.InsertBeforeSaveShowsBoth | src/components/Chat/ChatInterface.tsx:179-201 | when the reply's realtime insert arrives before its save returns, the saved reply and the placeholder with the same text are shown together; once the save returns only the saved reply remains |
| ChatView.ChunkStep | src/components/Chat/ChatInterface.tsx:169-178 | a chunk shows the content so far in the placeholder and appends a tool chunk's data to the tool results, leaving the list and the flags alone |
| ChatView.ChunksCollectTools | src/components/Chat/ChatInterface.tsx:169-178 | a run of chunks only extends the tool results, in arrival order, and leaves the list and the flags alone; the placeholder shows the last chunk's content |
| ChatView.SendLifecycle | src/components/Chat/ChatInterface.tsx:118-219 | after a send over any stream the tool results are the tool chunks' data in order and the sending flag is off; a failed or cancelled stream removes the placeholder and the typing flag; a completed one leaves the placeholder up until its save returns |
| Preferences.MergeSection | src/lib/preferences.ts:193-196 | `{...base, ...v}` holds the keys of both, the update's values win, the others stay, and a missing update keeps the section; a text or array update spreads its elements under their indexes |
| Preferences.TextCategorySpreads | src/lib/preferences.ts:193-196 | a category given as a text gains each character under its index, and its other settings keep their values |
| Preferences.Merge | src/lib/preferences.ts:191-198 | each category is merged on its own, and a category the update does not name is unchanged; merging over `null` throws |
| Preferences.MergeIdempotent | src/lib/preferences.ts:191-198 | merging the same update twice is merging it once |
| Preferences.MergeWholeOverrides | src/lib/preferences.ts:191-198 | merging a full preferences object over one with no extra settings gives back exactly that object |
| Preferences.MergeWhole | src/lib/preferences.ts:191-198 | a whole preferences object merged over another wins category by category, keeping the other's extra settings |
| Preferences.Validate | src/lib/preferences.ts:200-214 | the value is merged over the defaults, an unknown model becomes `mojo` and an unknown theme `dark`, nothing else changes, and the result always has every default setting with a known model and theme |
| Preferences.ValidateConforming | src/lib/preferences.ts:200-214 | a value that already conforms validates to itself |
| Preferences.ValidateIdempotent | src/lib/preferences.ts:200-214 | validating a validated value changes nothing |
| Preferences.Notify | src/lib/preferences.ts:216-224 | every listener is called once, in order, with the preferences, even when an earlier listener throws |
| Preferences.AddListener | src/lib/preferences.ts:185-188 | the listener is registered once, alongside the others; the cache is untouched |
| Preferences.RemoveListener | src/lib/preferences.ts:187 | the returned function forgets exactly that listener |
| Preferences.GetCached | src/lib/preferences.ts:125-131 | the cache is returned, first set to the defaults when empty |
| Preferences.Save | src/lib/preferences.ts:107-122 | the update is merged over the cache (or the defaults) and stored; then it is cached and sent to the listeners; if merging or storing throws, the error is rethrown and neither the cache nor the listeners see anything |
| Preferences.ReturnedErrorIgnored | src/lib/preferences.ts:112-114 | an error object returned by the store changes nothing about a save |
| Preferences.With | src/lib/preferences.ts:134-160 | replacing one category leaves the other three unchanged |
| Preferences.MergeOneCategory | src/lib/preferences.ts:191-198 | an update naming one category with an object changes that category only |
| Preferences.SaveOneCategory | src/lib/preferences.ts:134-139 | saving one category over a cache changes only that category, spreading the settings over it |
| Preferences.UpdateCategory | src/lib/preferences.ts:134-160 | `updateChatPreferences` and its siblings change only their category, spreading the given settings over the cached one; a failed store leaves the cache at its read value and notifies nobody |
| Preferences.DefaultsConform | src/lib/preferences.ts:45-74 | the defaults hold every default setting, with a known model and theme |
| Preferences.MergeConformingOver | src/lib/preferences.ts:191-198 | merging a conforming value over anything keeps every entry of that value and stays conforming |
| Preferences.MergeDefaultsOver | src/lib/preferences.ts:163-165 | merging the defaults over anything sets every default setting to its default value |
| Preferences.Reset | src/lib/preferences.ts:163-165 | as written, a reset stores the defaults merged over the cache: every default setting takes its default value |
| Preferences.ResetKeepsUnknownSetting | src/lib/preferences.ts:163-165 | as written, a setting the defaults do not know survives a reset, so the result is not the defaults |
| Preferences.ResetExact | src/lib/preferences.ts:163-165 | the corrected reset stores exactly the defaults and sends them to every listener; a failed store changes nothing |
| Preferences.ResetExactAgrees | src/lib/preferences.ts:163-165 | on a cache of known settings the corrected reset is the written one |
| Preferences.ResetOfKnownSettings | src/lib/preferences.ts:163-165 | when the cache holds only known settings, the written reset gives exactly the defaults |
| Preferences.Load | src/lib/preferences.ts:81-104 | a failed read (other than "no rows") returns the defaults and changes nothing; otherwise the stored value merged over the defaults (or the defaults alone) is cached, sent to the listeners and returned |
| Preferences.LoadedHasDefaults | src/lib/preferences.ts:89-94 | loaded preferences always hold every default setting |
| Preferences.Export | src/lib/preferences.ts:168-171 | the export is the serialisation of the cached preferences, or of the defaults, which are then cached |
| Preferences.Import | src/lib/preferences.ts:174-182 | a parse failure, a `null` value or a failed store surfaces as `Invalid preferences format` and changes nothing; otherwise the validated value, merged over the cache, is cached and sent to the listeners, exactly as saving it would |
| Preferences.ImportCachesValidated | src/lib/preferences.ts:174-182 | text that parses to a non-null value imports successfully whenever the store does not throw; the cache then conforms and holds every setting of the validated value, so an unknown model or theme arrives as `mojo` or `dark`, and every listener receives the new cache |
| Preferences.ExportImportRoundTrip | src/lib/preferences.ts:168-182 | exporting and importing back restores the same preferences, when the serialisation parses back and the cached value conforms |
| Preferences.ImportValid | src/lib/preferences.ts:174-182 | importing text that parses to an already conforming value succeeds exactly when the store returns, and then saves exactly that value |
| FileUpload.Validate | src/lib/fileUpload.ts:20-51 | a file is accepted exactly when it is at most 10 MiB and of an allowed MIME type; size is reported before type |
| FileUpload.SizeBoundary | src/lib/fileUpload.ts:36 | exactly 10 MiB is accepted and one byte more is refused |
| FileUpload.Extension | src/lib/fileUpload.ts:65 | the extension is the dot-free suffix after the last dot, or the whole name when it has no dot |
| FileUpload.LastPiece | src/lib/fileUpload.ts:65 | the last piece of a split is the suffix that follows the last separator |
| FileUpload.ExtensionAfterDot | src/lib/fileUpload.ts:65 | whatever precedes the last dot, the extension is what follows it |
| FileUpload.PathKeepsExtension | src/lib/fileUpload.ts:64-67 | the storage path lies under `chat-files/<chatId>/` and keeps the file's extension |
| FileUpload.Upload | src/lib/fileUpload.ts:53-97 | an invalid file throws its reason and never reaches storage; a valid one is written to its path, and a rejection or a throw from storage comes back under `Failed to upload file: ` |
| FileUpload.UploadedIsValid | src/lib/fileUpload.ts:53-97 | anything uploaded was a valid file, stored under its chat with its own extension |
| FileUpload.UploadAll | src/lib/fileUpload.ts:99-123 | the files are tried in order and the result keeps exactly the successful uploads, in order |
| FileUpload.Attempts | src/lib/fileUpload.ts:106-120 | one attempt per file, each the upload of that file |
| FileUpload.SuccessIndexes | src/lib/fileUpload.ts:104-122 | each upload returned comes from a distinct file, and the files keep their order |
| FileUpload.SuccessIndexesComplete | src/lib/fileUpload.ts:104-122 | no successful upload is dropped |
| FileUpload.AllSucceedIffFullLength | src/lib/fileUpload.ts:104-122 | the result is as long as the input exactly when every file uploaded |
| FileUpload.IconKindOf | src/lib/fileUpload.ts:135-143 | the first test passed decides: each icon goes exactly to the types that fail every earlier test (`image/` prefix, then `pdf`, then `word` or `document`, then `text`, `json`, `csv`) and pass its own; the fallback goes to types that pass none |
| FileUpload.CsvGetsTextIcon | src/lib/fileUpload.ts:139-141 | `text/csv` gets the text icon, because the text test comes before the CSV test |
| McpConfig.Tools | src/lib/mcp-config.ts:11-45 | Context7 is always listed, and last; Exa is listed exactly when its key is set, with the key in its URL; every entry is of type `mcp`, never asks for approval and names its tools |
| McpConfig.CanConnect | src/lib/mcp-config.ts:47-56 | a server can connect exactly when it is Context7, or Exa with its key set |
| McpConfig.ConfiguredIffConnectable | src/lib/mcp-config.ts:11-56 | the servers that can connect are exactly the ones `getMCPTools` configures |
| McpConfig.ErrorMessage | src/lib/mcp-config.ts:58-67 | a fixed message for each known server, and `Unknown MCP server: ` followed by the label otherwise |
| McpConfig.UnknownMessageNamesServer | src/lib/mcp-config.ts:58-67 | the message for a server nobody configured names that server |
| Mcp.Route | src/lib/mcp.ts:249-288 | a tool name is dispatched to a server exactly when `getAvailableTools` lists it |
| Mcp.RouteInjective | src/lib/mcp.ts:249-282 | distinct listed tools go to distinct servers |
| Mcp.Nullish | src/lib/mcp.ts:213 | `a ?? b` keeps `a` unless it is missing or `null` |
| Mcp.RequestOf | src/lib/mcp.ts:246-288 | a request is made exactly for a listed tool |
| Mcp.CountDefaults | src/lib/mcp.ts:157-160 | `tokens` (and, at line 41, `numResults`) is sent as given when truthy and as 10000 (10 for `numResults`) otherwise |
| Mcp.ZeroResultsBecomeTen | src/lib/mcp.ts:41 | an explicit 0 results is sent as 10 |
| Mcp.ThinkingDefaults | src/lib/mcp.ts:209-216 | a falsy thought number, total or revision flag falls back to 1, 5 and `false`; `nextThoughtNeeded` falls back to `true` only when it is missing or `null` |
| Mcp.BaseMetadata | src/lib/mcp.ts:55-68 | every result's metadata names the server it came from, as the other servers do at lines 89-102, 127-140, 170-184 and 225-239 |
| Mcp.Answer | src/lib/mcp.ts:53-62 | as here and at lines 87-96, 125-134, 168-178 and 223-233, a successful answer is not an error and its metadata names its server; the Exa answers count `numResults` and `numContents` as `x?.length || 0` of `results` and `contents` |
| Mcp.LengthOr0 | src/lib/mcp.ts:60 | `x?.length || 0` is an array's or string's length, an object's truthy `length` property as it is, and 0 for a missing value, `null`, a boolean, a number or an object without a truthy `length` (line 94 does the same for contents) |
| Mcp.CountTruthyOrZero | src/lib/mcp.ts:60 | the count sent is 0 or a truthy value, never another falsy one |
| Mcp.CallTool | src/lib/mcp.ts:246-290 | an unlisted tool makes no request and reports `Unknown tool: <name>`; a listed one makes its request, and its result is the server's answer for an answered non-null body and otherwise the error text with the server's prefix and the failure message; nothing is thrown |
| Mcp.CallToolAnswers | src/lib/mcp.ts:53-62 | through `callTool`, an answered `exa_search` is not an error and reports `numResults` as `results?.length || 0`, and an answered `context7_get_docs` without documentation reads `No documentation found` (line 171) |
| Mcp.FailureIsReported | src/lib/mcp.ts:63-69 | as here and at lines 97-103, 135-141, 179-185 and 234-240, a failed exchange is reported as an error result whose text starts with the server's prefix and whose metadata is only the source and the echoed argument |
| Mcp.MissingDocs | src/lib/mcp.ts:171 | documentation that is missing or empty is reported as `No documentation found` |
| Toasts.SliceLast | src/components/UI/ToastProvider.tsx:75 | `slice(-n)` keeps the last `n` elements, all of them when there are fewer, and the whole list for `n = 0` |
| Toasts.Show | src/components/UI/ToastProvider.tsx:62-86 | the new toast, with `info` and 4000 ms for a missing severity and duration, is the last in the queue; the queue grows by one until it reaches the limit and then the oldest is dropped; hiding is scheduled exactly for a positive duration |
| Toasts.Hide | src/components/UI/ToastProvider.tsx:88-90 | exactly the toasts with that id leave, and the others stay in order |
| Toasts.HideAppend | src/components/UI/ToastProvider.tsx:88-90 | hiding a joined queue hides in each part |
| Toasts.ShowThenHide | src/components/UI/ToastProvider.tsx:62-90 | showing a toast under a fresh id on a queue with room, and then hiding it, restores the queue |
| Toasts.RunStaysBounded | src/components/UI/ToastProvider.tsx:72-90 | whatever is shown and hidden, no more than the limit is ever queued |
| Toasts.ZeroLimitKeepsAll | src/components/UI/ToastProvider.tsx:75 | a limit of 0 drops nothing |
| Toasts.ShowWith | src/components/UI/ToastProvider.tsx:92-110 | the four shortcuts fix the severity and pass message, id and duration on unchanged: the last toast is exactly that toast with the duration defaulting to 4000, the queue keeps the latest `maxToasts`, and the auto-hide is for that id after that duration exactly when it is positive |
| Toasts.ShowDefaults | src/components/UI/ToastProvider.tsx:58-66 | with no severity or duration the toast is `info` and is hidden after 4000 ms |
| Toasts.UseToast | src/components/UI/ToastProvider.tsx:39-45 | the context is returned when present, and outside a provider the fixed error is thrown |
| MessageInput.Submit | src/components/Chat/MessageInput.tsx:56-63 | something is sent exactly when the text is not all blank or an attachment is present; then the trimmed text and the attachments go out and the composer is emptied, otherwise it is unchanged |
| MessageInput.SentTextIsTrimmed | src/components/Chat/MessageInput.tsx:58-59 | the text sent is trimmed, and it is empty only when attachments carry the message |
| MessageInput.SubmitOnce | src/components/Chat/MessageInput.tsx:56-63 | a second submit right after one that sent sends nothing |
| MessageInput.KeyPress | src/components/Chat/MessageInput.tsx:65-70 | Enter without Shift submits, and every other key leaves the composer alone |
| MessageInput.SelectFiles | src/components/Chat/MessageInput.tsx:72-81 | the chosen files follow the attachments already present, in order, and the text is untouched |
| MessageInput.RemoveAt | src/components/Chat/MessageInput.tsx:89-91 | the attachment at the index leaves and the rest keep their order; an index out of range removes nothing |
| MessageInput.RemoveAttachment | src/components/Chat/MessageInput.tsx:89-91 | removing an attachment leaves the text alone |
| MessageInput.RemoveUndoesSelect | src/components/Chat/MessageInput.tsx:72-91 | attaching one file and removing it by its position gives the composer back |
| MessageInput.CanSendIffSubmitSends | src/components/Chat/MessageInput.tsx:110 | while the input is enabled, the send button is enabled exactly when submitting would send |
| MessageEditor.Save | src/components/Chat/MessageEditor.tsx:48-65 | an all-blank draft only shows the empty error; any other draft goes to `onSave` trimmed, and the dialog closes exactly when that resolves, a rejection showing its message or the fallback; saving is off afterwards |
| MessageEditor.SavedTextIsClean | src/components/Chat/MessageEditor.tsx:49-58 | what `onSave` receives is trimmed and not empty |
| MessageEditor.Cancel | src/components/Chat/MessageEditor.tsx:67-71 | the draft returns to the initial text, the error clears and the dialog closes |
| MessageEditor.Reopen | src/components/Chat/MessageEditor.tsx:41-46 | opening the dialog resets the draft exactly as cancelling does, without closing |
| MessageEditor.ResetDisablesSave | src/components/Chat/MessageEditor.tsx:147 | after a cancel or a reopen the save button is disabled, since the draft equals the initial text that `hasChanges` (line 73) compares against |
| MessageEditor.BlankDraftIsEnabledButRefused | src/components/Chat/MessageEditor.tsx:147 | a blanked draft of a non-blank message enables the button, and the click only shows the empty error of lines 49-52 |
| MessageEditor.PaddingIsNoChange | src/components/Chat/MessageEditor.tsx:73 | padding the initial text with spaces is not a change |
| Profile.TrimAll | src/components/Profile/ProfileModal.tsx:120 | every piece is trimmed, one for one |
| Profile.ParseInterests | src/components/Profile/ProfileModal.tsx:118-121 | every parsed interest is trimmed, not empty and free of commas |
| Profile.ShowThenParse | src/components/Profile/ProfileModal.tsx:118-121 | a list of such interests, shown joined by `", "` as at line 85 and parsed back, is the same list |
| Profile.ParseShowParse | src/components/Profile/ProfileModal.tsx:118-121 | parsing what line 85 shows of a parse gives that parse again |
| Profile.TextOrNull | src/components/Profile/ProfileModal.tsx:129-135 | `s \|\| null` stores `null` exactly for the empty text |
| Profile.AgeOrNull | src/components/Profile/ProfileModal.tsx:131 | an empty age field and an age of 0 are both stored as `null` |
| Profile.RowOf | src/components/Profile/ProfileModal.tsx:124-137 | the row carries the name and avatar as typed, the parsed interests, and `null` for each empty optional field |
| Profile.Save | src/components/Profile/ProfileModal.tsx:101-152 | the auth metadata is always sent first; the row is written exactly when that succeeded; success needs both writes, any failure shows the one fixed message, and saving is off afterwards |
| Profile.StoredInterestsSurviveSave | src/components/Profile/ProfileModal.tsx:82-130 | interests loaded from a save, shown in the form and saved again are stored unchanged |
| AccountSettings.MessageOr | src/components/Profile/AccountSettings.tsx:74 | `err.message \|\| fallback` (here and at line 159) gives the message unless it is missing or empty |
| AccountSettings.PasswordProblem | src/components/Profile/AccountSettings.tsx:48-56 | a password may be sent exactly when the two new fields match and it has at least 6 UTF-16 units; a mismatch is reported before the length |
| AccountSettings.ChangePassword | src/components/Profile/AccountSettings.tsx:47-78 | a refused pair only shows its error and sends nothing; an accepted password is sent, and then either the three fields clear with the success banner or the error shows with the fields kept; loading is off afterwards |
| AccountSettings.MismatchReportedFirst | src/components/Profile/AccountSettings.tsx:48-56 | a pair that differs and is too short is reported as a mismatch |
| AccountSettings.SixIsEnough | src/components/Profile/AccountSettings.tsx:53 | six characters are sent and five are refused |
| AccountSettings.EnabledSendsNonEmpty | src/components/Profile/AccountSettings.tsx:48-65 | the password sent is never empty |
| AccountSettings.UpdatedDisablesButton | src/components/Profile/AccountSettings.tsx:219 | after a successful update, which clears the fields (lines 69-72), the button is disabled until they are filled again |
| AccountSettings.Plan | src/components/Profile/AccountSettings.tsx:141-151 | the chat ids are selected first and the auth user is deleted last; messages, chats, preferences and the user row are deleted in between, the messages by the selected ids or by none |
| AccountSettings.CallsBeforeThrow | src/components/Profile/AccountSettings.tsx:139-152 | the count of calls made before the first throw: every earlier call completed and the next one threw |
| AccountSettings.DeleteAccount | src/components/Profile/AccountSettings.tsx:130-163 | without the exact phrase only its error shows and nothing is called; otherwise the calls follow the plan up to and including the first one that throws, whose message (or the fallback) is shown; success is reported exactly when all six calls completed; loading is off afterwards |
| AccountSettings.DeleteButtonMatchesHandler | src/components/Profile/AccountSettings.tsx:336 | the delete button is enabled exactly when a click makes calls past the phrase check of lines 131-134 |
| AccountSettings.AuthUserDeletedLast | src/components/Profile/AccountSettings.tsx:141-151 | the auth user is deleted only after the whole plan before it completed without a throw |
| SignUp.Problem | src/app/auth/signup/page.tsx:41-53 | the form may be sent exactly when the passwords match and have at least 6 UTF-16 units; a mismatch is reported first |
| SignUp.Submit | src/app/auth/signup/page.tsx:36-73 | a refused form shows its error and calls nothing; otherwise `signUp` gets the email, password and name; success follows exactly from a reply with a user, an error shows its message or the fallback, and loading is off afterwards in every case |
| SignUp.SameRulesAsPasswordChange | src/app/auth/signup/page.tsx:41-53 | sign-up and the password change refuse exactly the same passwords, and only the mismatch wording differs |
| SignUp.NoUserNoSuccess | src/app/auth/signup/page.tsx:55-67 | a reply without a user and without an error leaves the page neither failed nor succeeded |
| Navigation.Init | src/hooks/useNavigation.ts:9-11 | the sidebar starts open exactly on a desktop screen, with loading on |
| Navigation.Step | src/hooks/useNavigation.ts:14-58 | a toggle flips the sidebar and on desktop writes `sidebar_collapsed` as the new state negated; close shuts it only on mobile; becoming mobile closes it; a desktop load of a truthy row opens it exactly when `sidebar_collapsed` is falsy; a load always ends loading |
| Navigation.PersistThenLoadRestores | src/hooks/useNavigation.ts:17-47 | what a desktop toggle saves is what a later desktop load restores |
| Navigation.ToggleTwice | src/hooks/useNavigation.ts:38-52 | toggling twice gives the sidebar back, and the second write undoes the first |
| Navigation.CloseOnDesktopKeeps | src/hooks/useNavigation.ts:54-58 | the close action changes nothing on desktop |
| Navigation.MobileStaysClosed | src/hooks/useNavigation.ts:14-58 | on a mobile screen a closed sidebar stays closed until the user toggles it or the screen becomes a desktop one |
| Navigation.MobileCloses | src/hooks/useNavigation.ts:32-36 | becoming mobile closes the sidebar, whatever it was before |
| Text.SplitThenJoin | src/lib/streaming.ts:52 | joining the pieces of a split with the separator gives the input back |
| Text.JoinThenSplit | src/components/Profile/ProfileModal.tsx:118-119 | splitting pieces that avoid the separator, once joined as at line 85, gives the pieces back |
| Text.TrimIdempotent | src/components/Chat/MessageEditor.tsx:73 | trimming twice is trimming once, so the text `onSave` gets at line 58 trims to itself |
| Text.TrimEmptyIffAllSpace | src/components/Chat/MessageInput.tsx:58 | a text trims to empty exactly when it is all white space |
| Text.Utf16Length | src/components/Profile/AccountSettings.tsx:53 | `length` counts UTF-16 units: one per character of the Basic Multilingual Plane, at most two per character |
| Text.NatToStringRoundTrip | src/lib/ai.ts:56 | the decimal form of a status code reads back as that code |

## Left out

- Network, database, model-provider and MCP transport calls (`fetch`, Supabase, OpenAI, the AI SDK, `src/lib/supabase.ts`): each is a parameter standing for the reply or error it settles with, because they are I/O.
- `JSON.parse` and `JSON.stringify`: a `JsonCodec` parameter, because the model has no JSON text grammar; the pretty-printed export text and the `JSON.stringify(x, null, 2)` bodies of MCP results are an opaque rendering function for the same reason.
- JSON numbers are integers only, because no floating point is modelled.
- `formatFileSize` (src/lib/fileUpload.ts:145-151, src/components/Chat/MessageInput.tsx:102-108): it uses `Math.log` and `toFixed`, which are floating point.
- `FileUploadService.deleteFile` and `getFileContent`, and the upload-progress callbacks and the `useFileUpload` hook's progress state: they only forward storage and fetch calls.
- The system-prompt prose of the chat routes is an opaque constant; only the user-context text appended to it is modelled.
- `createDebouncedUpdater`, the typing auto-stop and toast `setTimeout`s, the profile and sign-up redirects after 2-3 s, and `AbortController` scheduling: timers are not modelled; a timer firing is an explicit event where its effect matters (a toast hide, a typing stop).
- `createStreamingMessage` and generated ids (`Date.now`, `Math.random`): ids are parameters.
- The `useStreaming` React state and the `useAI` hook wrappers: they only hold what the modelled functions return.
- Realtime channel transport: a subscription is its key and a removal; payload delivery is modelled as events handed to the mapping functions.
- `handleExportData` (src/components/Profile/AccountSettings.tsx:80-128): it only assembles a download of fetched rows.
- AccountSettings.ChangePassword: the current-password field is only checked by the button for being non-empty, and is never verified, as in the source.
- AccountSettings.DeleteAccount: the intermediate deletes in the source return error objects that are never inspected; only a thrown call ends the run, so a returned error is modelled as `Done`.
- Profile.RowOf: stored interests are assumed to be an array of strings.
- Mcp.FailureIsReported: a `null` body makes the source read a property of `null`; the engine's `TypeError` text is stood in for by one constant.
- Mcp.CallTool: a missing argument that the source would send as `undefined` inside the result's content is modelled as no content.
- Navigation.Step: the preference load runs with the `isMobile` value of the render that started it; a screen change between the start and the end of that load is not modelled separately.
- Toasts.Show: the contract states nothing for a negative `maxToasts`, which the source would turn into `slice(n)`; the function itself models it.
- Preferences.Merge: a category given as a text is spread one entry per character of the model's `string`, where JavaScript spreads one entry per UTF-16 unit, so a text holding characters outside the Basic Multilingual Plane gets fewer index keys than in the source; the same holds for Preferences.MergeSection, Preferences.Validate, Preferences.Load and Preferences.Import, which merge through it.
- StreamConsumer: the `onChunk` callback is assumed to return normally and leave the session alone; one that throws is swallowed by the per-line `catch` (src/lib/streaming.ts:66-77) after the content has grown, and one that calls `cancelStream` stops the line loop at line 55, and neither is modelled.
- Rendering components, theming, page layouts, the auth callback redirect and test or debugging scripts: no state logic.

Behaviours of the code worth knowing, each modelled as written:

- `startStream` throws `Stream was cancelled` when a session is cancelled and calls neither `onComplete` nor `onError`, so the partial content reaches no observer (`StreamConsumer.CancelledRunIsSilent`).
- `startStream` splits each read on its own and drops a record cut by a read boundary (`StreamPipeline.CutRecordIsLost`); `BufferedConsumer` models a consumer that carries the partial line over instead.
- Starting a session under a busy identity only aborts the old session, so the old session's `finally` can later remove the new entry (`StreamRegistry.SameIdFinishDropsSuccessor`).
- The placeholder is cleared only after `addMessage` returns, so a realtime insert arriving earlier shows the placeholder and its confirmed message together (`ChatView.InsertBeforeSaveShowsBoth`).
- A stream that stops sending is waited on indefinitely: the code has no no-progress timeout, so none is modelled.

## Findings

| source | as written | input that shows it | evidently intended | confidence | as-written member | corrected member |
|---|---|---|---|---|---|---|
| src/lib/streaming.ts:51-52 | each read is split into lines on its own, with no carry-over | one `data: {"content":"hi"}` record delivered as two reads cut inside the JSON | a record cut across reads is still delivered | not executed | StreamPipeline.CutRecordIsLost | BufferedConsumer.CutRecordIsKept, BufferedConsumer.AnyCutRoundTrip |
| src/lib/streaming.ts:94-96 | the `finally` deletes the stream's id whoever holds it now | start A under `x`, start B under `x` (aborting A), then A's `finally` runs | B stays registered until its own run ends | not executed | StreamRegistry.Finish, StreamRegistry.SameIdFinishDropsSuccessor | StreamRegistry.FinishOwn, StreamRegistry.SameIdFinishOwnKeepsSuccessor, StreamRegistry.RunKeepsConsistent |
| src/components/Chat/ChatInterface.tsx:288-290 | the history sent is every message before the reply, and the prompt is then sent again | rerunning the reply in `[user "q", assistant "a"]` sends `q` twice | the rerun replays the original send: the history before the prompt, then the prompt | not executed | ChatView.RerunAsWritten, ChatView.RerunRepeatsPrompt, ChatView.RerunRepeatsPromptExample | ChatView.RerunIntended, ChatView.RerunReplaysSend |
| src/lib/preferences.ts:163-165 | reset saves the defaults merged over the cache | a cache whose `chat` holds `beta: true`, then reset | reset leaves exactly the defaults | not executed | Preferences.Reset, Preferences.ResetKeepsUnknownSetting | Preferences.ResetExact, Preferences.ResetExactAgrees |

=== FILE: account.dfy ===
/**
 * `AccountSettings`: changing the password, when the update button is
 * enabled, and deleting the account behind a typed confirmation phrase.
 * The Supabase calls are parameters: the reply each call gives, in the
 * order the handler makes them.
 */
module AccountSettings {
  import opened Wrappers
  import opened Text

  /** `err.message || fallback`: a missing or empty message gives the fallback. */
  function MessageOr(message: Option<string>, fallback: string): (r: string)
    ensures message.Some? && message.value != "" ==> r == message.value
    ensures message.None? || message.value == "" ==> r == fallback
  {
    if message.Some? && message.value != "" then message.value else fallback
  }

  // ---------------------------------------------------------------------
  // Password
  // ---------------------------------------------------------------------

  datatype Fields = Fields(current: string, newPassword: string, confirm: string)

  /** The password section: its three fields, the loading flag and the two banners. */
  datatype Panel = Panel(fields: Fields, loading: bool, error: Option<string>, success: Option<string>)

  /** What `updateUser` gave back: no error, or an error with a message (perhaps absent or empty). */
  datatype Update = Updated | UpdateFailed(message: Option<string>)

  const MinLength: nat := 6
  const Mismatch: string := "New passwords do not match"
  const TooShort: string := "Password must be at least 6 characters long"
  const PasswordUpdated: string := "Password updated successfully"
  const UpdateFallback: string := "Failed to update password"

  /** The validation `handlePasswordChange` does before calling out; `None` when the password may be sent. */
  function PasswordProblem(newPassword: string, confirm: string): (r: Option<string>)
    ensures r.None? <==> newPassword == confirm && Utf16Length(newPassword) >= MinLength
    ensures newPassword != confirm ==> r == Some(Mismatch)
    ensures newPassword == confirm && Utf16Length(newPassword) < MinLength ==> r == Some(TooShort)
  {
    if newPassword != confirm then Some(Mismatch)
    else if Utf16Length(newPassword) < MinLength then Some(TooShort)
    else None
  }

  /**
   * `handlePasswordChange`: a rejected pair only shows its error and sends
   * nothing; an accepted one is sent, and the outcome either clears the
   * three fields with the success banner or shows the error. Loading is
   * off afterwards. The second component is the password sent, if any.
   */
  function ChangePassword(p: Panel, reply: Update): (r: (Panel, Option<string>))
    ensures r.1.None? <==> PasswordProblem(p.fields.newPassword, p.fields.confirm).Some?
    ensures r.1.None? ==> r.0 == p.(error := PasswordProblem(p.fields.newPassword, p.fields.confirm))
    ensures r.1.Some? ==> r.1.value == p.fields.newPassword && !r.0.loading
    ensures r.1.Some? && reply.Updated? ==>
      r.0.fields == Fields("", "", "") && r.0.success == Some(PasswordUpdated) && r.0.error.None?
    ensures r.1.Some? && reply.UpdateFailed? ==>
      r.0.fields == p.fields && r.0.success.None? && r.0.error == Some(MessageOr(reply.message, UpdateFallback))
  {
    var problem := PasswordProblem(p.fields.newPassword, p.fields.confirm);
    if problem.Some? then (p.(error := problem), None)
    else
      var sent := Some(p.fields.newPassword);
      match reply
      case Updated => (Panel(Fields("", "", ""), false, None, Some(PasswordUpdated)), sent)
      case UpdateFailed(m) => (Panel(p.fields, false, Some(MessageOr(m, UpdateFallback)), None), sent)
  }

  /** The update button: not while loading, and not with any of the three fields empty. */
  predicate UpdateEnabled(p: Panel) {
    !p.loading && p.fields.current != "" && p.fields.newPassword != "" && p.fields.confirm != ""
  }

  /** A mismatch is reported even when the password is also too short. */
  lemma MismatchReportedFirst()
    ensures PasswordProblem("abc", "abd") == Some(Mismatch)
  {
  }

  /** Six characters is the shortest password sent; five is refused. */
  lemma SixIsEnough()
    ensures PasswordProblem("abcdef", "abcdef").None?
    ensures PasswordProblem("abcde", "abcde") == Some(TooShort)
  {
    assert Utf16Length("abcdef") == 6;
    assert Utf16Length("abcde") == 5;
  }

  /** Whenever the button lets the handler run with a matching pair, a blank new password is never sent. */
  lemma EnabledSendsNonEmpty(p: Panel, reply: Update)
    requires ChangePassword(p, reply).1.Some?
    ensures ChangePassword(p, reply).1.value != ""
  {
  }

  /** After a successful update the form is empty again, so the button is disabled until it is refilled. */
  lemma UpdatedDisablesButton(p: Panel)
    requires PasswordProblem(p.fields.newPassword, p.fields.confirm).None?
    ensures !UpdateEnabled(ChangePassword(p, Updated).0)
  {
  }

  // ---------------------------------------------------------------------
  // Deleting the account
  // ---------------------------------------------------------------------

  const Phrase: string := "DELETE MY ACCOUNT"
  const ConfirmError: string := "Please type \"DELETE MY ACCOUNT\" to confirm"
  const AccountDeleted: string := "Account deleted successfully"
  const DeleteFallback: string := "Failed to delete account"

  /** The calls `handleDeleteAccount` makes, in the order it makes them. */
  datatype Step =
    | SelectChatIds
    | DeleteMessages(chatIds: seq<string>)
    | DeleteChats
    | DeletePreferences
    | DeleteUserRow
    | DeleteAuthUser

  /** The reply to one call: done, or thrown (for the auth user: an error returned and rethrown). */
  datatype Reply = Done | Threw(message: Option<string>)

  /** The full plan; the messages go by the selected chat ids, `[]` when none came back. */
  function Plan(selected: Option<seq<string>>): (r: seq<Step>)
    ensures |r| == 6 && r[0] == SelectChatIds && r[5] == DeleteAuthUser
    ensures r[1] == DeleteMessages(selected.GetOr([]))
    ensures r[2] == DeleteChats && r[3] == DeletePreferences && r[4] == DeleteUserRow
  {
    [SelectChatIds, DeleteMessages(selected.GetOr([])), DeleteChats, DeletePreferences, DeleteUserRow, DeleteAuthUser]
  }

  /** The reply to call `k`; calls without a listed reply are done. */
  function ReplyAt(replies: seq<Reply>, k: nat): Reply {
    if k < |replies| then replies[k] else Done
  }

  /** How many calls are made before the first one that throws, among the first `n`. */
  function CallsBeforeThrow(replies: seq<Reply>, n: nat): (c: nat)
    ensures c <= n
    ensures forall k :: 0 <= k < c ==> ReplyAt(replies, k).Done?
    ensures c < n ==> ReplyAt(replies, c).Threw?
    decreases n
  {
    if n == 0 then 0
    else
      var c := CallsBeforeThrow(replies, n - 1);
      if c < n - 1 then c
      else if ReplyAt(replies, n - 1).Threw? then n - 1
      else n
  }

  /**
   * What a deletion did: the calls made, the error it showed, the success
   * banner it set (`None` when it set none) and the loading flag.
   */
  datatype Deletion = Deletion(steps: seq<Step>, error: Option<string>, success: Option<string>, loading: bool)

  /**
   * `handleDeleteAccount`: without the exact phrase only the error shows
   * and nothing is called. Otherwise the calls run in plan order; the
   * first that throws ends the run with its message (or the fallback) and
   * the calls after it are not made. Success is reported only when the
   * auth user was deleted too.
   */
  function DeleteAccount(confirmText: string, loading: bool, selected: Option<seq<string>>,
                         replies: seq<Reply>): (r: Deletion)
    ensures confirmText != Phrase ==> r == Deletion([], Some(ConfirmError), None, loading)
    ensures confirmText == Phrase ==> !r.loading && 0 < |r.steps| <= 6 && r.steps == Plan(selected)[..|r.steps|]
    ensures confirmText == Phrase ==> forall k :: 0 <= k < |r.steps| - 1 ==> ReplyAt(replies, k).Done?
    ensures r.success.Some? <==> confirmText == Phrase && forall k :: 0 <= k < 6 ==> ReplyAt(replies, k).Done?
    ensures r.success.Some? ==> r.success.value == AccountDeleted && r.error.None? && |r.steps| == 6
    ensures confirmText == Phrase && r.success.None? ==>
      var last := |r.steps| - 1;
      ReplyAt(replies, last).Threw? && r.error == Some(MessageOr(ReplyAt(replies, last).message, DeleteFallback))
  {
    if confirmText != Phrase then Deletion([], Some(ConfirmError), None, loading)
    else
      var c := CallsBeforeThrow(replies, 6);
      if c == 6 then Deletion(Plan(selected), None, Some(AccountDeleted), false)
      else
        Deletion(Plan(selected)[..c + 1], Some(MessageOr(ReplyAt(replies, c).message, DeleteFallback)), None, false)
  }

  /** The delete button: not while loading, and only once the exact phrase is typed. */
  predicate DeleteEnabled(loading: bool, confirmText: string) {
    !loading && confirmText == Phrase
  }

  /** The button and the handler agree: an enabled button is one whose click makes calls. */
  lemma DeleteButtonMatchesHandler(confirmText: string, selected: Option<seq<string>>, replies: seq<Reply>)
    ensures DeleteEnabled(false, confirmText) <==> |DeleteAccount(confirmText, false, selected, replies).steps| > 0
  {
  }

  /**
   * The auth user is deleted last, and only once the messages, chats,
   * preferences and the user row have all been deleted without a throw.
   */
  lemma AuthUserDeletedLast(confirmText: string, loading: bool, selected: Option<seq<string>>, replies: seq<Reply>)
    requires DeleteAuthUser in DeleteAccount(confirmText, loading, selected, replies).steps
    ensures DeleteAccount(confirmText, loading, selected, replies).steps == Plan(selected)
    ensures forall k :: 0 <= k < 5 ==> ReplyAt(replies, k).Done?
  {
  }
}

=== FILE: ai.dfy ===
/**
 * The client-side `AIService`: which route a chat request goes to and
 * with what body, the text of the error a failed response throws,
 * `handleError`, `formatMessages`, and the text-only stream parser
 * `parseStream`, which reads the same record stream as
 * `StreamingManager.startStream` but yields only text.
 *
 * `fetch` is foreign: a request is the endpoint and JSON body it would
 * send, and a response enters as a parameter.
 */
module AIService {
  import opened Wrappers
  import opened Text
  import opened JsonValue
  import opened StreamConsumer

  const MojoEndpoint: string := "/api/chat/mojo"
  const MojoPlusEndpoint: string := "/api/chat/mojo-plus"
  const FallbackErrorMessage: string := "An unexpected error occurred. Please try again."

  datatype Role = User | Assistant | System

  function RoleName(r: Role): string {
    match r
    case User => "user"
    case Assistant => "assistant"
    case System => "system"
  }

  datatype ChatMessage = ChatMessage(role: Role, content: string)

  datatype Effort = Low | Medium | High

  function EffortName(e: Effort): string {
    match e
    case Low => "low"
    case Medium => "medium"
    case High => "high"
  }

  /** The options object of a request; a missing key is `None`. */
  datatype RequestOptions = RequestOptions(stream: Option<bool>, reasoningEffort: Option<Effort>, userId: Option<string>)

  const NoOptions: RequestOptions := RequestOptions(None, None, None)

  /** `{...base, ...over}`: each key `over` carries wins. */
  function Spread(base: RequestOptions, over: RequestOptions): (r: RequestOptions)
    ensures over.stream.Some? ==> r.stream == over.stream
    ensures over.stream.None? ==> r.stream == base.stream
    ensures over.reasoningEffort.Some? ==> r.reasoningEffort == over.reasoningEffort
    ensures over.reasoningEffort.None? ==> r.reasoningEffort == base.reasoningEffort
    ensures over.userId.Some? ==> r.userId == over.userId
    ensures over.userId.None? ==> r.userId == base.userId
  {
    RequestOptions(
      if over.stream.Some? then over.stream else base.stream,
      if over.reasoningEffort.Some? then over.reasoningEffort else base.reasoningEffort,
      if over.userId.Some? then over.userId else base.userId)
  }

  function MessageJson(m: ChatMessage): Json {
    JObj(map["role" := JStr(RoleName(m.role)), "content" := JStr(m.content)])
  }

  function MessagesJson(ms: seq<ChatMessage>): (r: seq<Json>)
    ensures |r| == |ms|
    ensures forall i :: 0 <= i < |ms| ==> r[i] == MessageJson(ms[i])
    decreases |ms|
  {
    if |ms| == 0 then [] else [MessageJson(ms[0])] + MessagesJson(ms[1..])
  }

  /** The request body `{messages, ...options}`. */
  function RequestJson(ms: seq<ChatMessage>, o: RequestOptions): Json {
    var withStream := WithOptional(map["messages" := JArr(MessagesJson(ms))], "stream",
      if o.stream.Some? then Some(JBool(o.stream.value)) else None);
    var withEffort := WithOptional(withStream, "reasoning_effort",
      if o.reasoningEffort.Some? then Some(JStr(EffortName(o.reasoningEffort.value))) else None);
    JObj(WithOptional(withEffort, "userId", if o.userId.Some? then Some(JStr(o.userId.value)) else None))
  }

  /** A `POST` the service would send. */
  datatype Request = Request(endpoint: string, body: Json)

  /** `chatWithMojo`: the options are sent as given. */
  function ChatWithMojo(ms: seq<ChatMessage>, o: RequestOptions): Request {
    Request(MojoEndpoint, RequestJson(ms, o))
  }

  /** `chatWithMojoPlus`: `reasoning_effort` defaults to `medium`. */
  function ChatWithMojoPlus(ms: seq<ChatMessage>, o: RequestOptions): Request {
    Request(MojoPlusEndpoint, RequestJson(ms, Spread(RequestOptions(None, Some(Medium), None), o)))
  }

  /**
   * `chat`: `mojo++` goes to the mojo-plus route with `reasoning_effort`
   * defaulted to `medium`; every other model goes to the mojo route with
   * the options untouched (including a `reasoning_effort`, which that
   * route ignores).
   */
  function Chat(model: string, ms: seq<ChatMessage>, o: RequestOptions): (req: Request)
    ensures req.endpoint == MojoPlusEndpoint <==> model == "mojo++"
    ensures req.endpoint == MojoEndpoint <==> model != "mojo++"
    ensures Field(req.body, "messages") == Some(JArr(MessagesJson(ms)))
    ensures model == "mojo++" ==>
      Field(req.body, "reasoning_effort") == Some(JStr(EffortName(o.reasoningEffort.GetOr(Medium))))
    ensures model != "mojo++" ==>
      (Field(req.body, "reasoning_effort").Some? <==> o.reasoningEffort.Some?)
    ensures Field(req.body, "stream").Some? <==> o.stream.Some?
    ensures Field(req.body, "userId").Some? <==> o.userId.Some?
    ensures o.stream.Some? ==> Field(req.body, "stream") == Some(JBool(o.stream.value))
  {
    if model == "mojo++" then ChatWithMojoPlus(ms, o) else ChatWithMojo(ms, o)
  }

  /** The request body as a JSON value gives back its messages and options. */
  lemma RequestJsonFields(ms: seq<ChatMessage>, o: RequestOptions)
    ensures var j := RequestJson(ms, o);
      && j.JObj? && j.fields.Keys <= {"messages", "stream", "reasoning_effort", "userId"}
      && Field(j, "reasoning_effort") == (if o.reasoningEffort.Some? then Some(JStr(EffortName(o.reasoningEffort.value))) else None)
      && Field(j, "userId") == (if o.userId.Some? then Some(JStr(o.userId.value)) else None)
  {
  }

  /** What a successful call returns: the body stream when `stream` is truthy, otherwise the parsed JSON. */
  datatype Reply = StreamReply | JsonReply

  function ReplyKind(o: RequestOptions): Reply {
    if o.stream == Some(true) then StreamReply else JsonReply
  }

  /**
   * A response as `makeRequest` inspects it; `errorJson` is what
   * `response.json()` settles with (`None` when it rejects).
   */
  datatype HttpResponse = HttpResponse(ok: bool, status: int, statusText: string, errorJson: Option<Json>)

  /** What `makeRequest` throws. */
  datatype Thrown =
    | ErrorWith(message: string)
      // A JSON body of `null`: reading `.error` from it throws a `TypeError`.
    | NullBodyTypeError

  /**
   * The failure of a non-OK response: the body's truthy `error`
   * rendered as text, otherwise `HTTP <status>: <statusText>`; a body
   * that does not parse counts as `{}`.
   */
  function ResponseFailure(resp: HttpResponse): (r: Option<Thrown>)
    ensures r.None? <==> resp.ok
    ensures r == Some(NullBodyTypeError) <==> !resp.ok && resp.errorJson == Some(JNull)
    ensures !resp.ok && resp.errorJson != Some(JNull) ==>
      var err := if resp.errorJson.Some? then Field(resp.errorJson.value, "error") else None;
      && (Truthy(err) ==> r == Some(ErrorWith(ToText(err.value))))
      && (!Truthy(err) ==> r == Some(ErrorWith("HTTP " + IntToString(resp.status) + ": " + resp.statusText)))
  {
    if resp.ok then None
    else
      var data := resp.errorJson.GetOr(JObj(map[]));
      if data.JNull? then Some(NullBodyTypeError)
      else
        var err := Field(data, "error");
        if Truthy(err) then Some(ErrorWith(ToText(err.value)))
        else Some(ErrorWith("HTTP " + IntToString(resp.status) + ": " + resp.statusText))
  }

  /** A thrown `Error` object, seen as a value with a `message` property. */
  function ErrorObject(message: string): Json {
    JObj(map["message" := JStr(message)])
  }

  /**
   * `handleError(error)`: a truthy `message` property (as text), else the
   * value itself when it is a string, else the fixed fallback. Reading
   * `.message` of `null` throws, which is `None` here.
   */
  function HandleError(e: Json): (r: Option<string>)
    ensures r.None? <==> e == JNull
    ensures Truthy(Field(e, "message")) ==> r == Some(ToText(Field(e, "message").value))
    ensures e.JStr? ==> r == Some(e.s)
    ensures r == Some(FallbackErrorMessage) <==>
      e != JNull && (if Truthy(Field(e, "message")) then ToText(Field(e, "message").value) == FallbackErrorMessage
                     else if e.JStr? then e.s == FallbackErrorMessage else true)
  {
    if e.JNull? then None
    else
      var m := Field(e, "message");
      if Truthy(m) then Some(ToText(m.value))
      else if e.JStr? then Some(e.s)
      else Some(FallbackErrorMessage)
  }

  /**
   * `useAI` rethrows `new Error(handleError(error))`. An `Error` whose
   * message is not empty keeps its message; one with an empty message
   * becomes the fallback text.
   */
  lemma HandleErrorObject(message: string)
    ensures HandleError(ErrorObject(message)) == Some(if message == "" then FallbackErrorMessage else message)
  {
  }

  /** The `HTTP <status>: <statusText>` text is never empty, so it passes through `useAI` unchanged. */
  lemma StatusFailureSurvivesRethrow(resp: HttpResponse)
    requires !resp.ok && resp.errorJson == None
    ensures ResponseFailure(resp).Some? && ResponseFailure(resp).value.ErrorWith?
    ensures var m := ResponseFailure(resp).value.message;
      m != "" && HandleError(ErrorObject(m)) == Some(m)
  {
    HandleErrorObject(ResponseFailure(resp).value.message);
  }

  // ---------------------------------------------------------------------
  // formatMessages
  // ---------------------------------------------------------------------

  /** A message as the caller holds it: any role string. */
  datatype RawMessage = RawMessage(role: string, content: string)

  predicate IsConversational(m: RawMessage) {
    m.role == "user" || m.role == "assistant"
  }

  /** `formatMessages`: keep user and assistant messages, in order, content unchanged. */
  function FormatMessages(ms: seq<RawMessage>): (r: seq<ChatMessage>)
    ensures |r| <= |ms|
    ensures forall i :: 0 <= i < |r| ==> r[i].role == User || r[i].role == Assistant
    ensures (forall i :: 0 <= i < |ms| ==> IsConversational(ms[i])) ==> |r| == |ms|
    decreases |ms|
  {
    if |ms| == 0 then []
    else
      var rest := FormatMessages(ms[1..]);
      if ms[0].role == "user" then [ChatMessage(User, ms[0].content)] + rest
      else if ms[0].role == "assistant" then [ChatMessage(Assistant, ms[0].content)] + rest
      else rest
  }

  /** One message is kept, with its role and content, exactly when it is a user or assistant message. */
  lemma FormatOne(m: RawMessage)
    ensures IsConversational(m) ==>
      |FormatMessages([m])| == 1 && RoleName(FormatMessages([m])[0].role) == m.role && FormatMessages([m])[0].content == m.content
    ensures !IsConversational(m) ==> FormatMessages([m]) == []
  {
    assert [m][1..] == [];
  }

  /** Formatting distributes over concatenation, so with `FormatOne` it is fully determined. */
  lemma {:induction false} FormatAppend(xs: seq<RawMessage>, ys: seq<RawMessage>)
    ensures FormatMessages(xs + ys) == FormatMessages(xs) + FormatMessages(ys)
    decreases |xs|
  {
    if |xs| == 0 {
      assert xs + ys == ys;
    } else {
      assert (xs + ys)[0] == xs[0];
      assert (xs + ys)[1..] == xs[1..] + ys;
      FormatAppend(xs[1..], ys);
    }
  }

  function AsRaw(ms: seq<ChatMessage>): (r: seq<RawMessage>)
    ensures |r| == |ms|
    ensures forall i :: 0 <= i < |ms| ==> r[i] == RawMessage(RoleName(ms[i].role), ms[i].content)
    decreases |ms|
  {
    if |ms| == 0 then [] else [RawMessage(RoleName(ms[0].role), ms[0].content)] + AsRaw(ms[1..])
  }

  /** Formatting a formatted list again changes nothing. */
  lemma {:induction false} FormatIdempotent(ms: seq<RawMessage>)
    ensures FormatMessages(AsRaw(FormatMessages(ms))) == FormatMessages(ms)
    decreases |ms|
  {
    if |ms| > 0 {
      FormatIdempotent(ms[1..]);
      var rest := FormatMessages(ms[1..]);
      if IsConversational(ms[0]) {
        var f := FormatMessages(ms);
        assert f[1..] == rest;
        assert AsRaw(f)[1..] == AsRaw(rest);
        assert AsRaw(f)[0] == RawMessage(ms[0].role, ms[0].content);
      }
    }
  }

  // ---------------------------------------------------------------------
  // parseStream
  // ---------------------------------------------------------------------

  /** What `parseStream` does with one line. */
  datatype LineParse = Yield(value: Json) | Skip | Return

  /**
   * One line: a `data: [DONE]` line returns from the generator; a
   * `data: ` line whose payload parses to an object with a truthy
   * `content` values that content; every other line is skipped (tool
   * records included).
   */
  function ParseLine(codec: JsonCodec, line: string): (r: LineParse)
    ensures r.Return? <==> StartsWith(line, DataPrefix) && line[|DataPrefix|..] == DoneSentinel
    ensures r.Yield? ==> Truthy(Some(r.value))
  {
    if !StartsWith(line, DataPrefix) then Skip
    else
      var data := line[|DataPrefix|..];
      if data == DoneSentinel then Return
      else
        match codec.parse(data)
        case None => Skip
        case Some(parsed) =>
          var content := Field(parsed, "content");
          if Truthy(content) then Yield(content.value) else Skip
  }

  type LineParser = string -> LineParse

  function ParserOf(codec: JsonCodec): LineParser {
    line => ParseLine(codec, line)
  }

  datatype LinesParse = LinesParse(values: seq<Json>, stopped: bool)

  /** The `for (const line of lines)` loop of one read. */
  function ParseLines(pl: LineParser, lines: seq<string>): LinesParse
    decreases |lines|
  {
    if |lines| == 0 then LinesParse([], false)
    else
      match pl(lines[0])
      case Return => LinesParse([], true)
      case Skip => ParseLines(pl, lines[1..])
      case Yield(v) =>
        var rest := ParseLines(pl, lines[1..]);
        rest.(values := [v] + rest.values)
  }

  /** The generator's run: the values yielded and, when a read rejects, its error. */
  datatype ParseRun = ParseRun(values: seq<Json>, failure: Option<string>)

  /** The outer loop over the reads; a finished reader ends the generator normally. */
  function ParseReads(pl: LineParser, results: seq<ReadResult>): ParseRun
    decreases |results|
  {
    if |results| == 0 then ParseRun([], None)
    else
      match results[0]
      case Closed => ParseRun([], None)
      case ReadError(m) => ParseRun([], Some(m))
      case Data(text) =>
        var lp := ParseLines(pl, Split(text, '\n'));
        if lp.stopped then ParseRun(lp.values, None)
        else
          var r := ParseReads(pl, results[1..]);
          ParseRun(lp.values + r.values, r.failure)
  }

  function ParseStream(codec: JsonCodec, results: seq<ReadResult>): ParseRun {
    ParseReads(ParserOf(codec), results)
  }

  /** The text the yielded values add up to, as `+=` renders them. */
  function Texts(vs: seq<Json>): string
    decreases |vs|
  {
    if |vs| == 0 then "" else ToText(vs[0]) + Texts(vs[1..])
  }

  lemma {:induction false} TextsAppend(xs: seq<Json>, ys: seq<Json>)
    ensures Texts(xs + ys) == Texts(xs) + Texts(ys)
    decreases |xs|
  {
    if |xs| == 0 {
      assert xs + ys == ys;
    } else {
      assert (xs + ys)[0] == xs[0];
      assert (xs + ys)[1..] == xs[1..] + ys;
      TextsAppend(xs[1..], ys);
      AppendAssociative(ToText(xs[0]), Texts(xs[1..]), Texts(ys));
    }
  }

  /**
   * A text parser and a stream consumer read lines alike: they stop on the
   * same lines, and the parser values exactly on the lines the consumer
   * appends text for, a value rendering as that text.
   */
  ghost predicate Coherent(pl: LineParser, cl: Classifier) {
    forall line :: && (pl(line).Return? <==> cl(line).DoneMarker?)
                   && (pl(line).Yield? <==> cl(line).TextChunk?)
                   && (pl(line).Yield? ==> ToText(pl(line).value) == cl(line).text)
  }

  /** `parseStream` and `startStream` interpret every line the same way. */
  lemma ParsersCoherent(codec: JsonCodec)
    ensures Coherent(ParserOf(codec), Meaning(codec))
  {
    forall line
      ensures var p := ParserOf(codec)(line); var e := Meaning(codec)(line);
        && (p.Return? <==> e.DoneMarker?)
        && (p.Yield? <==> e.TextChunk?)
        && (p.Yield? ==> ToText(p.value) == e.text)
    {
      assert ParserOf(codec)(line) == ParseLine(codec, line);
      assert Meaning(codec)(line) == Classify(codec, line);
    }
  }

  /** Over one read's lines: both stop together, and the consumer's content grows by the yielded text. */
  lemma {:induction false} ParseLinesAgree(pl: LineParser, cl: Classifier, lines: seq<string>, full: string)
    requires Coherent(pl, cl)
    ensures var lp := ParseLines(pl, lines);
      var p := ScanLines(Effects(cl, lines), full);
      p.finished == lp.stopped && p.full == full + Texts(lp.values)
    decreases |lines|
  {
    var es := Effects(cl, lines);
    if |lines| == 0 {
      assert full + "" == full;
    } else {
      assert es[0] == cl(lines[0]);
      assert es[1..] == Effects(cl, lines[1..]);
      var e := cl(lines[0]);
      if e.DoneMarker? {
        assert full + "" == full;
      } else {
        var next := full + TextOf(e);
        ParseLinesAgree(pl, cl, lines[1..], next);
        var rest := ParseLines(pl, lines[1..]);
        if e.TextChunk? {
          var v := pl(lines[0]).value;
          assert ParseLines(pl, lines).values == [v] + rest.values;
          assert Texts([v] + rest.values) == ToText(v) + Texts(rest.values);
          AppendAssociative(full, ToText(v), Texts(rest.values));
        } else {
          assert pl(lines[0]).Skip?;
          assert next == full;
        }
      }
    }
  }

  /** The reads as `startStream` sees them when nobody cancels. */
  function Deliveries(results: seq<ReadResult>): (ds: seq<Delivery>)
    ensures |ds| == |results|
    ensures forall i :: 0 <= i < |results| ==> ds[i] == Delivery(false, results[i])
    decreases |results|
  {
    if |results| == 0 then [] else [Delivery(false, results[0])] + Deliveries(results[1..])
  }

  /**
   * Over the same results, the parser fails exactly when the consumer
   * rejects, with the same error, and otherwise the consumer resolves with
   * the text of what the parser yielded.
   */
  lemma {:induction false} ParseReadsAgree(pl: LineParser, cl: Classifier, results: seq<ReadResult>, full: string)
    requires Coherent(pl, cl)
    ensures var pr := ParseReads(pl, results);
      var r := ConsumeReads(cl, Deliveries(results), full);
      && (pr.failure.None? ==> r.outcome == Resolved(full + Texts(pr.values)))
      && (pr.failure.Some? ==> r.outcome == Rejected(pr.failure.value))
    decreases |results|
  {
    var ds := Deliveries(results);
    if |results| == 0 {
      assert full + "" == full;
    } else {
      assert ds == [Delivery(false, results[0])] + Deliveries(results[1..]);
      match results[0]
      case Closed =>
        assert full + "" == full;
      case ReadError(m) =>
      case Data(text) =>
        var lines := Split(text, '\n');
        ParseLinesAgree(pl, cl, lines, full);
        DataRead(cl, text, Deliveries(results[1..]), full);
        var lp := ParseLines(pl, lines);
        if !lp.stopped {
          var next := full + Texts(lp.values);
          ParseReadsAgree(pl, cl, results[1..], next);
          var r := ParseReads(pl, results[1..]);
          TextsAppend(lp.values, r.values);
          AppendAssociative(full, Texts(lp.values), Texts(r.values));
        }
    }
  }

  /**
   * `parseStream` and `startStream` agree on an uncancelled stream: the
   * generator throws exactly when the consumer's promise rejects, with the
   * same error, and otherwise the consumer's content is the yielded
   * contents' text, in order.
   */
  lemma ParseStreamAgreesWithConsumer(codec: JsonCodec, results: seq<ReadResult>)
    ensures var pr := ParseStream(codec, results);
      var run := Consume(Meaning(codec), Deliveries(results));
      && (pr.failure.None? ==> run.outcome == Resolved(Texts(pr.values)))
      && (pr.failure.Some? ==> run.outcome == Rejected(pr.failure.value))
  {
    ParsersCoherent(codec);
    ParseReadsAgree(ParserOf(codec), Meaning(codec), results, "");
    assert "" + Texts(ParseStream(codec, results).values) == Texts(ParseStream(codec, results).values);
  }
}

=== FILE: buffered.dfy ===
/**
 * A stream consumer that buffers partial lines across reads: a line is
 * decoded only once its terminating newline has arrived, so the text of a read after
 * its last newline is carried over and completed by the next read. An
 * unfinished line left when the stream closes is discarded, as the
 * rules for interpreting an event stream in the WHATWG HTML Living
 * Standard prescribe. Everything else (cancellation, failures, `[DONE]`, the
 * callbacks) is as in `StreamConsumer`.
 *
 * The run then depends only on the concatenated text of the reads and on
 * how reading ended, never on where the reads were cut.
 */
module BufferedConsumer {
  import opened Wrappers
  import opened Text
  import opened JsonValue
  import opened StreamConsumer
  import opened StreamProducer
  import opened StreamPipeline

  /** The lines of `t` a newline has already ended. */
  function CompleteLines(t: string): seq<string> {
    var pieces := Split(t, '\n');
    pieces[..|pieces| - 1]
  }

  /** The text after the last newline of `t`, still waiting for its end. */
  function Pending(t: string): (rest: string)
    ensures '\n' !in rest
  {
    var pieces := Split(t, '\n');
    SplitPiecesAvoidSeparator(t, '\n');
    pieces[|pieces| - 1]
  }

  /** What one delivery does: settle the promise, or pass the content and the unfinished line on. */
  datatype BufferedStep =
    | Finish(calls: seq<Callback>, outcome: Outcome)
    | Carry(calls: seq<Callback>, full: string, pending: string)

  function BufferedReadStep(cl: Classifier, d: Delivery, pending: string, full: string): BufferedStep {
    if d.cancelledBefore then
      Finish([], if d.result.ReadError? then Rejected(d.result.message) else Rejected(CancelledMessage))
    else
      match d.result
      case Closed => Finish([OnComplete(full)], Resolved(full))
      case ReadError(m) => Finish([OnError(m)], Rejected(m))
      case Data(text) =>
        var t := pending + text;
        var p := ScanLines(Effects(cl, CompleteLines(t)), full);
        if p.finished then Finish(p.calls + [OnComplete(p.full)], Resolved(p.full))
        else Carry(p.calls, p.full, Pending(t))
  }

  function BufferedReads(cl: Classifier, ds: seq<Delivery>, pending: string, full: string): Run
    decreases |ds|
  {
    if |ds| == 0 then Run([OnComplete(full)], Resolved(full))
    else
      match BufferedReadStep(cl, ds[0], pending, full)
      case Finish(calls, outcome) => Run(calls, outcome)
      case Carry(calls, next, rest) =>
        var r := BufferedReads(cl, ds[1..], rest, next);
        Run(calls + r.calls, r.outcome)
  }

  /** `startStream` with a carry-over buffer. */
  function BufferedConsume(cl: Classifier, ds: seq<Delivery>): Run {
    var r := BufferedReads(cl, ds, "", "");
    Run([OnStart] + r.calls, r.outcome)
  }

  /** The text of the reads the consumer processes, joined. */
  function Joined(ds: seq<Delivery>): string
    decreases |ds|
  {
    if |ds| == 0 || ds[0].cancelledBefore || !ds[0].result.Data? then ""
    else ds[0].result.text + Joined(ds[1..])
  }

  /** The complete lines of a text that goes on: those of its start, then those of the rest. */
  lemma CompleteLinesConcat(a: string, b: string)
    ensures CompleteLines(a + b) == CompleteLines(a) + CompleteLines(Pending(a) + b)
  {
    SplitConcat(a, b, '\n');
    var pa := Split(a, '\n');
    var rest := Split(Pending(a) + b, '\n');
    var whole := pa[..|pa| - 1] + rest;
    assert whole[..|whole| - 1] == pa[..|pa| - 1] + rest[..|rest| - 1];
  }

  /** A text without a newline has no complete line. */
  lemma NoCompleteLine(t: string)
    requires '\n' !in t
    ensures CompleteLines(t) == []
  {
    SplitWithoutSeparator(t, '\n');
  }

  /** A read that ends the run before any data: the reference over no lines. */
  lemma StopsWithoutData(cl: Classifier, ds: seq<Delivery>, pending: string, full: string)
    requires '\n' !in pending
    requires |ds| == 0 || ds[0].cancelledBefore || !ds[0].result.Data?
    ensures BufferedReads(cl, ds, pending, full) == ReferenceOver(full, Effects(cl, CompleteLines(pending + Joined(ds))), EndingOf(ds))
  {
    assert pending + "" == pending;
    NoCompleteLine(pending);
    assert !HasDone([]);
    assert full + "" == full;
  }

  /**
   * The buffered read loop is the reference run over the complete lines
   * of everything read, carry included.
   */
  lemma {:induction false} BufferedReadsAgree(cl: Classifier, ds: seq<Delivery>, pending: string, full: string)
    requires '\n' !in pending
    ensures BufferedReads(cl, ds, pending, full) == ReferenceOver(full, Effects(cl, CompleteLines(pending + Joined(ds))), EndingOf(ds))
    decreases |ds|
  {
    if |ds| == 0 || ds[0].cancelledBefore || !ds[0].result.Data? {
      StopsWithoutData(cl, ds, pending, full);
    } else {
      var t := pending + ds[0].result.text;
      var later := Joined(ds[1..]);
      AppendAssociative(pending, ds[0].result.text, later);
      CompleteLinesConcat(t, later);
      EffectsAppend(cl, CompleteLines(t), CompleteLines(Pending(t) + later));
      var xs := Effects(cl, CompleteLines(t));
      var ys := Effects(cl, CompleteLines(Pending(t) + later));
      assert Effects(cl, CompleteLines(pending + Joined(ds))) == xs + ys;
      assert EndingOf(ds) == EndingOf(ds[1..]);
      ScanLinesAgrees(xs, full);
      if HasDone(xs) {
        OverFinished(full, xs, ys, EndingOf(ds), EndingOf(ds));
      } else {
        UntilDoneAppend(xs, []);
        assert xs + [] == xs;
        var next := full + TextUpTo(xs);
        BufferedReadsAgree(cl, ds[1..], Pending(t), next);
        OverContinues(full, xs, ys, EndingOf(ds));
      }
    }
  }

  /** The buffered consumer's run is the reference run over the complete lines of the joined reads. */
  lemma BufferedConsumeSpec(cl: Classifier, ds: seq<Delivery>)
    ensures var r := ReferenceOver("", Effects(cl, CompleteLines(Joined(ds))), EndingOf(ds));
      BufferedConsume(cl, ds) == Run([OnStart] + r.calls, r.outcome)
  {
    BufferedReadsAgree(cl, ds, "", "");
    assert "" + Joined(ds) == Joined(ds);
  }

  /**
   * Where the reads are cut does not matter: two delivery sequences with
   * the same joined text that end the same way give the same run.
   */
  lemma CutsDoNotMatter(cl: Classifier, ds1: seq<Delivery>, ds2: seq<Delivery>)
    requires Joined(ds1) == Joined(ds2) && EndingOf(ds1) == EndingOf(ds2)
    ensures BufferedConsume(cl, ds1) == BufferedConsume(cl, ds2)
  {
    BufferedConsumeSpec(cl, ds1);
    BufferedConsumeSpec(cl, ds2);
  }

  /**
   * A route's body, cut into reads anywhere, read to the end: the
   * buffered consumer reports every record before the first `[DONE]` and
   * resolves with their text.
   */
  lemma AnyCutRoundTrip(codec: JsonCodec, rs: seq<Record>, ds: seq<Delivery>)
    requires CodecFits(codec, rs)
    requires Joined(ds) == Body(codec, rs) && EndingOf(ds) == EndClosed
    ensures var run := BufferedConsume(Meaning(codec), ds);
      && run.outcome == Resolved(RecordsText(Before(rs)))
      && Payloads(run.calls) == RecordJsons(Before(rs))
  {
    var cl := Meaning(codec);
    BufferedConsumeSpec(cl, ds);
    SplitBody(codec, rs);
    assert CompleteLines(Body(codec, rs)) == FrameLines(codec, rs);
    EffectsOfFrames(codec, rs);
    var es := RecordEffects(rs);
    ScanRecords(rs, [], "");
    assert es + [] == es;
    ScanLinesAgrees(es, "");
    var p := ScanLines(es, "");
    var r := ReferenceOver("", es, EndClosed);
    assert r == Run(p.calls + [OnComplete(p.full)], Resolved(p.full));
    assert "" + RecordsText(rs) == RecordsText(rs);
    if !DoneIn(rs) {
      BeforeWithoutDone(rs);
      assert ScanLines([], RecordsText(rs)) == Progress([], RecordsText(rs), false);
      assert Payloads([]) == [];
      assert RecordJsons(rs) + [] == RecordJsons(rs);
    }
    assert "" + RecordsText(Before(rs)) == RecordsText(Before(rs));
    PayloadsAppend([OnStart], p.calls + [OnComplete(p.full)]);
    PayloadsAppend(p.calls, [OnComplete(p.full)]);
  }

  /** The record `CutRecordIsLost` loses is kept by the buffered consumer, wherever the cut falls. */
  lemma CutRecordIsKept(codec: JsonCodec, c: Json, cut: nat)
    requires Truthy(Some(c)) && Faithful(codec, RecordJson(ContentRecord(c)))
    requires cut <= |Body(codec, [ContentRecord(c)])|
    ensures var body := Body(codec, [ContentRecord(c)]);
      BufferedConsume(Meaning(codec), [Delivery(false, Data(body[..cut])), Delivery(false, Data(body[cut..]))]).outcome
        == Resolved(ToText(c))
  {
    var rs := [ContentRecord(c)];
    var body := Body(codec, rs);
    var ds := [Delivery(false, Data(body[..cut])), Delivery(false, Data(body[cut..]))];
    assert ds[1..][1..] == [];
    assert Joined(ds[1..][1..]) == "" && EndingOf(ds[1..][1..]) == EndClosed;
    assert Joined(ds[1..]) == body[cut..] + "";
    assert EndingOf(ds[1..]) == EndClosed;
    assert Joined(ds) == body[..cut] + (body[cut..] + "");
    assert body[..cut] + (body[cut..] + "") == body;
    assert EndingOf(ds) == EndClosed;
    assert CodecFits(codec, rs);
    AnyCutRoundTrip(codec, rs, ds);
    assert rs[1..] == [];
    assert Before(rs) == rs;
    assert RecordsText(rs) == ToText(c) + "";
  }
}

=== FILE: chat_view.dfy ===
/**
 * The deterministic part of `ChatInterface`: the message list it keeps in
 * step with realtime events, the guard and request of a send, the
 * metadata of the saved reply, the rerun lookup, the local edit, and the
 * lifecycle of the streaming placeholder bubble. Database calls and the
 * AI request are outside the model: their results are parameters or
 * events.
 */
module ChatView {
  import opened Wrappers
  import opened Text
  import opened JsonValue
  import opened Realtime
  import C = StreamConsumer
  import AI = AIService
  import SM = StreamingMessage

  // ---------------------------------------------------------------------
  // The message list
  // ---------------------------------------------------------------------

  function Ids(ms: seq<Row>): (r: seq<string>)
    ensures |r| == |ms|
    ensures forall i :: 0 <= i < |ms| ==> r[i] == ms[i].id
    decreases |ms|
  {
    if |ms| == 0 then [] else [ms[0].id] + Ids(ms[1..])
  }

  predicate HasId(ms: seq<Row>, id: string) {
    id in Ids(ms)
  }

  /** No two rows of the list share an id. */
  predicate UniqueIds(ms: seq<Row>) {
    forall i, j :: 0 <= i < j < |ms| ==> ms[i].id != ms[j].id
  }

  /** `message_added`: append the row unless a row with its id is already shown. */
  function Add(ms: seq<Row>, m: Row): (r: seq<Row>)
    ensures HasId(r, m.id)
    ensures ms <= r && |r| <= |ms| + 1
    ensures forall id :: HasId(r, id) <==> HasId(ms, id) || id == m.id
    ensures |r| == |ms| + 1 <==> !HasId(ms, m.id)
  {
    IdsSnoc(ms, m);
    if HasId(ms, m.id) then ms else ms + [m]
  }

  lemma IdsSnoc(ms: seq<Row>, m: Row)
    ensures Ids(ms + [m]) == Ids(ms) + [m.id]
  {
    assert |Ids(ms + [m])| == |Ids(ms) + [m.id]|;
    forall i | 0 <= i < |ms| + 1
      ensures Ids(ms + [m])[i] == (Ids(ms) + [m.id])[i]
    {
      if i < |ms| {
        assert (ms + [m])[i] == ms[i];
      }
    }
  }

  /** `message_updated`: every row with the payload's id is replaced by the payload, in place. */
  function Replace(ms: seq<Row>, m: Row): (r: seq<Row>)
    ensures Ids(r) == Ids(ms)
    ensures forall i :: 0 <= i < |ms| && ms[i].id != m.id ==> r[i] == ms[i]
    ensures forall i :: 0 <= i < |ms| && ms[i].id == m.id ==> r[i] == m
    ensures !HasId(ms, m.id) ==> r == ms
    decreases |ms|
  {
    if |ms| == 0 then []
    else [if ms[0].id == m.id then m else ms[0]] + Replace(ms[1..], m)
  }

  /** `message_deleted`: drop every row with the id, keeping the others in order. */
  function Remove(ms: seq<Row>, id: string): (r: seq<Row>)
    ensures !HasId(r, id)
    ensures forall x :: x in r <==> x in ms && x.id != id
    ensures |r| <= |ms|
    ensures !HasId(ms, id) ==> r == ms
    decreases |ms|
  {
    if |ms| == 0 then []
    else if ms[0].id == id then Remove(ms[1..], id)
    else [ms[0]] + Remove(ms[1..], id)
  }

  /** The reducer of `handleRealtimeEvent`; chat and typing events leave the list alone. */
  function Reconcile(ms: seq<Row>, e: Event): seq<Row> {
    match e
    case MessageAdded(m) => Add(ms, m)
    case MessageUpdated(m) => Replace(ms, m)
    case MessageDeleted(id) => Remove(ms, id)
    case _ => ms
  }

  function ReconcileAll(ms: seq<Row>, es: seq<Event>): seq<Row>
    decreases |es|
  {
    if |es| == 0 then ms else ReconcileAll(Reconcile(ms, es[0]), es[1..])
  }

  /** Deleting distributes over concatenation, so the rows that stay keep their order. */
  lemma {:induction false} RemoveAppend(xs: seq<Row>, ys: seq<Row>, id: string)
    ensures Remove(xs + ys, id) == Remove(xs, id) + Remove(ys, id)
    decreases |xs|
  {
    if |xs| == 0 {
      assert xs + ys == ys;
    } else {
      assert (xs + ys)[0] == xs[0];
      assert (xs + ys)[1..] == xs[1..] + ys;
      RemoveAppend(xs[1..], ys, id);
    }
  }

  lemma {:induction false} RemoveKeepsUnique(ms: seq<Row>, id: string)
    requires UniqueIds(ms)
    ensures UniqueIds(Remove(ms, id))
    decreases |ms|
  {
    if |ms| > 0 {
      RemoveKeepsUnique(ms[1..], id);
      if ms[0].id != id {
        var rest := Remove(ms[1..], id);
        forall j | 0 <= j < |rest|
          ensures rest[j].id != ms[0].id
        {
          assert rest[j] in ms[1..];
        }
      }
    }
  }

  /** Every realtime event keeps the shown ids distinct. */
  lemma ReconcileKeepsUnique(ms: seq<Row>, e: Event)
    requires UniqueIds(ms)
    ensures UniqueIds(Reconcile(ms, e))
  {
    match e
    case MessageAdded(m) => AddKeepsUnique(ms, m);
    case MessageUpdated(m) => ReplaceKeepsUnique(ms, m);
    case MessageDeleted(id) => RemoveKeepsUnique(ms, id);
    case _ =>
  }

  lemma AddKeepsUnique(ms: seq<Row>, m: Row)
    requires UniqueIds(ms)
    ensures UniqueIds(Add(ms, m))
  {
    if !HasId(ms, m.id) {
      var r := ms + [m];
      assert Add(ms, m) == r;
      forall i | 0 <= i < |ms|
        ensures r[i].id != m.id
      {
        assert Ids(ms)[i] == ms[i].id;
      }
    }
  }

  lemma ReplaceKeepsUnique(ms: seq<Row>, m: Row)
    requires UniqueIds(ms)
    ensures UniqueIds(Replace(ms, m))
  {
    var r := Replace(ms, m);
    assert forall i :: 0 <= i < |r| ==> r[i].id == Ids(r)[i] == Ids(ms)[i];
  }

  /** Whatever events arrive, no row is ever shown twice. */
  lemma {:induction false} ReconcileAllKeepsUnique(ms: seq<Row>, es: seq<Event>)
    requires UniqueIds(ms)
    ensures UniqueIds(ReconcileAll(ms, es))
    decreases |es|
  {
    if |es| > 0 {
      ReconcileKeepsUnique(ms, es[0]);
      ReconcileAllKeepsUnique(Reconcile(ms, es[0]), es[1..]);
    }
  }

  /** A realtime event delivered twice has the effect of one delivery. */
  lemma ReconcileIdempotent(ms: seq<Row>, e: Event)
    ensures Reconcile(Reconcile(ms, e), e) == Reconcile(ms, e)
  {
    match e
    case MessageAdded(m) =>
    case MessageUpdated(m) =>
      var once := Replace(ms, m);
      var twice := Replace(once, m);
      assert forall i :: 0 <= i < |once| ==> once[i].id == Ids(once)[i] == Ids(ms)[i];
      assert |twice| == |once|;
      assert forall i :: 0 <= i < |twice| ==> twice[i] == once[i];
    case MessageDeleted(id) =>
    case _ =>
  }

  /** Deleting a row undoes its insertion when it was new. */
  lemma DeleteUndoesAdd(ms: seq<Row>, m: Row)
    ensures Remove(Add(ms, m), m.id) == Remove(ms, m.id)
  {
    if !HasId(ms, m.id) {
      RemoveAppend(ms, [m], m.id);
      assert [m][1..] == [];
    }
  }

  // ---------------------------------------------------------------------
  // The local edit
  // ---------------------------------------------------------------------

  /** The row after a saved edit: new content, and the metadata marked as edited. */
  function Edited(m: Row, newContent: string): (r: Row)
    ensures r.id == m.id && r.role == m.role && r.content == newContent
    ensures r.metadata.Some? && r.metadata.value.Keys == Entries(m.metadata).Keys + {"edited"}
    ensures r.metadata.value["edited"] == JBool(true)
    ensures forall k :: k in Entries(m.metadata) && k != "edited" ==> r.metadata.value[k] == Entries(m.metadata)[k]
  {
    m.(content := newContent, metadata := Some(Entries(m.metadata)["edited" := JBool(true)]))
  }

  /** `{...metadata}` of a possibly missing object. */
  function Entries(m: Option<Metadata>): Metadata {
    m.GetOr(map[])
  }

  /** The local update after a successful edit: only the rows with the edited id change. */
  function Edit(ms: seq<Row>, id: string, newContent: string): (r: seq<Row>)
    ensures Ids(r) == Ids(ms)
    ensures forall i :: 0 <= i < |ms| && ms[i].id != id ==> r[i] == ms[i]
    ensures forall i :: 0 <= i < |ms| && ms[i].id == id ==> r[i] == Edited(ms[i], newContent)
    decreases |ms|
  {
    if |ms| == 0 then []
    else [if ms[0].id == id then Edited(ms[0], newContent) else ms[0]] + Edit(ms[1..], id, newContent)
  }

  /**
   * `handleSaveEditedMessage`: nothing happens without a message being
   * edited; a database error is rethrown and the list is left alone;
   * otherwise the list is edited locally.
   */
  function SaveEdit(ms: seq<Row>, editing: Option<Row>, newContent: string, dbError: Option<Json>): (r: Result<seq<Row>, Json>)
    ensures r.Failure? <==> editing.Some? && Truthy(dbError)
    ensures r.Failure? ==> r.error == dbError.value
    ensures r.Success? ==> Ids(r.value) == Ids(ms)
    ensures r.Success? && editing.Some? ==>
      forall i :: 0 <= i < |ms| && ms[i].id == editing.value.id ==> r.value[i].content == newContent
    ensures editing.None? ==> r == Success(ms)
  {
    if editing.None? then Success(ms)
    else if Truthy(dbError) then Failure(dbError.value)
    else Success(Edit(ms, editing.value.id, newContent))
  }

  /** In a list without repeated ids, editing a row is replacing it by its edited version. */
  lemma EditIsReplace(ms: seq<Row>, i: nat, newContent: string)
    requires UniqueIds(ms) && i < |ms|
    ensures Edit(ms, ms[i].id, newContent) == Replace(ms, Edited(ms[i], newContent))
  {
    var a := Edit(ms, ms[i].id, newContent);
    var b := Replace(ms, Edited(ms[i], newContent));
    assert |a| == |b|;
    forall j | 0 <= j < |a|
      ensures a[j] == b[j]
    {
      if ms[j].id == ms[i].id {
        assert j == i;
      }
    }
  }

  /** The realtime update that follows an edit overrides the local edit completely. */
  lemma UpdateSupersedesEdit(ms: seq<Row>, m: Row, newContent: string)
    ensures Replace(Edit(ms, m.id, newContent), m) == Replace(ms, m)
  {
    var a := Replace(Edit(ms, m.id, newContent), m);
    var b := Replace(ms, m);
    assert |a| == |b|;
    var e := Edit(ms, m.id, newContent);
    assert forall j :: 0 <= j < |e| ==> e[j].id == Ids(e)[j] == Ids(ms)[j];
    assert forall j :: 0 <= j < |a| ==> a[j] == b[j];
  }

  // ---------------------------------------------------------------------
  // Sending
  // ---------------------------------------------------------------------

  /** A file the user attached. */
  datatype Attachment = Attachment(name: string, mimeType: string, size: nat)

  /** The guard of `handleSendMessage`: a send needs non-blank content or an attachment. */
  function SendGuard(content: string, attachments: Option<seq<Attachment>>): (proceed: bool)
    ensures proceed <==> !AllSpace(content) || (attachments.Some? && |attachments.value| > 0)
  {
    TrimEmptyIffAllSpace(content);
    Trim(content) != "" || (attachments.Some? && |attachments.value| > 0)
  }

  function AttachmentJson(a: Attachment): Json {
    JObj(map["name" := JStr(a.name), "type" := JStr(a.mimeType), "url" := JStr("")])
  }

  function AttachmentsJson(xs: seq<Attachment>): (r: seq<Json>)
    ensures |r| == |xs|
    ensures forall i :: 0 <= i < |xs| ==> r[i] == AttachmentJson(xs[i])
    decreases |xs|
  {
    if |xs| == 0 then [] else [AttachmentJson(xs[0])] + AttachmentsJson(xs[1..])
  }

  /**
   * The metadata of the saved user message: for a non-empty attachment
   * list, one `{name, type, url: ''}` entry per attachment, in order
   * (uploading is not implemented, so every url is empty); otherwise none.
   */
  function UserMetadata(attachments: Option<seq<Attachment>>): (r: Option<Metadata>)
    ensures r.None? <==> attachments.None? || |attachments.value| == 0
    ensures r.Some? ==> r.value.Keys == {"attachments"} && r.value["attachments"].JArr?
    ensures r.Some? ==> var items := r.value["attachments"].items;
      && |items| == |attachments.value|
      && forall i :: 0 <= i < |items| ==>
           Field(items[i], "name") == Some(JStr(attachments.value[i].name))
           && Field(items[i], "url") == Some(JStr(""))
  {
    if attachments.Some? && |attachments.value| > 0 then
      Some(map["attachments" := JArr(AttachmentsJson(attachments.value))])
    else None
  }

  function RawOf(ms: seq<Row>): (r: seq<AI.RawMessage>)
    ensures |r| == |ms|
    ensures forall i :: 0 <= i < |ms| ==> r[i] == AI.RawMessage(ms[i].role, ms[i].content)
    decreases |ms|
  {
    if |ms| == 0 then [] else [AI.RawMessage(ms[0].role, ms[0].content)] + RawOf(ms[1..])
  }

  lemma {:induction false} RawOfAppend(xs: seq<Row>, ys: seq<Row>)
    ensures RawOf(xs + ys) == RawOf(xs) + RawOf(ys)
  {
    assert |RawOf(xs + ys)| == |RawOf(xs) + RawOf(ys)|;
    forall i | 0 <= i < |xs + ys|
      ensures RawOf(xs + ys)[i] == (RawOf(xs) + RawOf(ys))[i]
    {
      if i < |xs| {
        assert (xs + ys)[i] == xs[i];
      } else {
        assert (xs + ys)[i] == ys[i - |xs|];
      }
    }
  }

  /**
   * The history sent with a new message: the formatted rows shown so far,
   * followed by the new message as a user message.
   */
  function History(ms: seq<Row>, content: string): (h: seq<AI.ChatMessage>)
    ensures |h| >= 1 && h[|h| - 1] == AI.ChatMessage(AI.User, content)
    ensures h[..|h| - 1] == AI.FormatMessages(RawOf(ms))
  {
    var raw := RawOf(ms) + [AI.RawMessage("user", content)];
    AI.FormatAppend(RawOf(ms), [AI.RawMessage("user", content)]);
    AI.FormatOne(AI.RawMessage("user", content));
    AI.FormatMessages(raw)
  }

  const PlusModel: string := "mojo++"

  /** The options of a send or a rerun: streaming, `medium` effort for `mojo++` only, and the user id. */
  function SendOptions(model: string, userId: Option<string>): AI.RequestOptions {
    AI.RequestOptions(Some(true), if model == PlusModel then Some(AI.Medium) else None, userId)
  }

  /**
   * The request of a send: the route chosen by the model, the history
   * ending in the new message, streaming on, and a `medium` reasoning
   * effort exactly for `mojo++`.
   */
  function SendRequest(model: string, ms: seq<Row>, content: string, userId: Option<string>): (req: AI.Request)
    ensures req.endpoint == AI.MojoPlusEndpoint <==> model == PlusModel
    ensures Field(req.body, "messages") == Some(JArr(AI.MessagesJson(History(ms, content))))
    ensures Field(req.body, "stream") == Some(JBool(true))
    ensures Field(req.body, "reasoning_effort") == (if model == PlusModel then Some(JStr("medium")) else None)
  {
    AI.Chat(model, History(ms, content), SendOptions(model, userId))
  }

  // ---------------------------------------------------------------------
  // The saved reply
  // ---------------------------------------------------------------------

  /** The rough token count stored with a reply: a quarter of its UTF-16 length, rounded up. */
  function Tokens(content: string): (n: nat)
    ensures 4 * n >= Utf16Length(content) && 4 * n < Utf16Length(content) + 4
  {
    CeilDiv(Utf16Length(content), 4)
  }

  /**
   * The metadata of the saved assistant reply: the model and the token
   * estimate always, the tool results only when there are some, and a
   * `medium` reasoning effort only for `mojo++`.
   */
  function SavedMetadata(model: string, content: string, toolResults: seq<Json>): (md: Metadata)
    ensures md.Keys <= {"model", "tokens", "tool_calls", "reasoning_effort"}
    ensures "model" in md && md["model"] == JStr(model)
    ensures "tokens" in md && md["tokens"] == JNum(Tokens(content))
    ensures "tool_calls" in md <==> |toolResults| > 0
    ensures "tool_calls" in md ==> md["tool_calls"] == JArr(toolResults)
    ensures "reasoning_effort" in md <==> model == PlusModel
    ensures "reasoning_effort" in md ==> md["reasoning_effort"] == JStr("medium")
  {
    var base := map["model" := JStr(model), "tokens" := JNum(Tokens(content))];
    var withTools := if |toolResults| > 0 then base["tool_calls" := JArr(toolResults)] else base;
    if model == PlusModel then withTools["reasoning_effort" := JStr("medium")] else withTools
  }

  /**
   * The metadata written over a rerun reply: the same entries as a saved
   * reply, plus the rerun flag and its time. It replaces the row's
   * metadata rather than merging into it.
   */
  function RerunMetadata(model: string, content: string, toolResults: seq<Json>, rerunAt: string): (md: Metadata)
    ensures md.Keys == SavedMetadata(model, content, toolResults).Keys + {"rerun", "rerunAt"}
    ensures forall k :: k in SavedMetadata(model, content, toolResults) ==> md[k] == SavedMetadata(model, content, toolResults)[k]
    ensures md["rerun"] == JBool(true) && md["rerunAt"] == JStr(rerunAt)
  {
    SavedMetadata(model, content, toolResults)["rerun" := JBool(true)]["rerunAt" := JStr(rerunAt)]
  }

  // ---------------------------------------------------------------------
  // Rerun
  // ---------------------------------------------------------------------

  /** `findIndex` by id. */
  function FirstIndex(ms: seq<Row>, id: string): (r: Option<nat>)
    ensures r.None? <==> !HasId(ms, id)
    ensures r.Some? ==> r.value < |ms| && ms[r.value].id == id && forall j :: 0 <= j < r.value ==> ms[j].id != id
    decreases |ms|
  {
    if |ms| == 0 then None
    else if ms[0].id == id then Some(0)
    else
      var r := FirstIndex(ms[1..], id);
      if r.None? then None else Some(r.value + 1)
  }

  /** The rerun of an assistant reply and the history sent for it. */
  datatype RerunPlan = NoRerun | Rerun(index: nat, history: seq<AI.ChatMessage>)

  /** Whether the row with `id` is an assistant reply directly preceded by a user message. */
  predicate Rerunnable(ms: seq<Row>, id: string) {
    var i := FirstIndex(ms, id);
    i.Some? && ms[i.value].role == "assistant" && i.value > 0 && ms[i.value - 1].role == "user"
  }

  /**
   * `handleRerunMessage` as written: the history is the rows before the
   * reply followed by the prompting user message again, so that message
   * is sent twice.
   */
  function RerunAsWritten(ms: seq<Row>, id: string): (r: RerunPlan)
    ensures r.Rerun? <==> Rerunnable(ms, id)
    ensures r.Rerun? ==> Some(r.index) == FirstIndex(ms, id)
  {
    var i := FirstIndex(ms, id);
    if i.None? || ms[i.value].role != "assistant" || i.value == 0 || ms[i.value - 1].role != "user" then NoRerun
    else Rerun(i.value, AI.FormatMessages(RawOf(ms[..i.value] + [ms[i.value - 1]])))
  }

  /** The rerun as intended: the history is exactly the rows before the reply. */
  function RerunIntended(ms: seq<Row>, id: string): (r: RerunPlan)
    ensures r.Rerun? <==> Rerunnable(ms, id)
    ensures r.Rerun? ==> Some(r.index) == FirstIndex(ms, id)
  {
    var i := FirstIndex(ms, id);
    if i.None? || ms[i.value].role != "assistant" || i.value == 0 || ms[i.value - 1].role != "user" then NoRerun
    else Rerun(i.value, AI.FormatMessages(RawOf(ms[..i.value])))
  }

  lemma RawOfSnoc(ms: seq<Row>, m: Row)
    ensures RawOf(ms + [m]) == RawOf(ms) + [AI.RawMessage(m.role, m.content)]
  {
    RawOfAppend(ms, [m]);
  }

  /** Formatting rows that end in a user message is the history of sending that message after the rest. */
  lemma FormatEndingInUser(before: seq<Row>, p: Row)
    requires p.role == "user"
    ensures AI.FormatMessages(RawOf(before + [p])) == History(before, p.content)
  {
    RawOfSnoc(before, p);
  }

  /**
   * As written, the history of a rerun ends with the prompting user
   * message twice: it is the history of a send of that message made when
   * the message itself was already shown.
   */
  lemma RerunRepeatsPrompt(ms: seq<Row>, id: string)
    requires Rerunnable(ms, id)
    ensures RerunAsWritten(ms, id).Rerun?
    ensures var i := FirstIndex(ms, id).value;
      var h := RerunAsWritten(ms, id).history;
      && h == History(ms[..i], ms[i - 1].content)
      && |h| >= 2
      && h[|h| - 1] == AI.ChatMessage(AI.User, ms[i - 1].content)
      && h[|h| - 2] == AI.ChatMessage(AI.User, ms[i - 1].content)
  {
    var i := FirstIndex(ms, id).value;
    assert 0 < i < |ms| && ms[i - 1].role == "user";
    AsWrittenShape(ms, id);
    assert RerunAsWritten(ms, id).Rerun?;
    var h := RerunAsWritten(ms, id).history;
    assert h == AI.FormatMessages(RawOf(ms[..i] + [ms[i - 1]]));
    PromptTwiceAt(ms, i, h);
  }

  lemma PromptTwiceAt(ms: seq<Row>, i: nat, h: seq<AI.ChatMessage>)
    requires 0 < i <= |ms| && ms[i - 1].role == "user"
    requires h == AI.FormatMessages(RawOf(ms[..i] + [ms[i - 1]]))
    ensures
      && h == History(ms[..i], ms[i - 1].content)
      && |h| >= 2
      && h[|h| - 1] == AI.ChatMessage(AI.User, ms[i - 1].content)
      && h[|h| - 2] == AI.ChatMessage(AI.User, ms[i - 1].content)
  {
    assert ms[..i] == ms[..i - 1] + [ms[i - 1]];
    PromptTwice(ms[..i - 1], ms[i - 1]);
  }

  lemma AsWrittenShape(ms: seq<Row>, id: string)
    requires Rerunnable(ms, id)
    ensures var i := FirstIndex(ms, id).value;
      RerunAsWritten(ms, id) == Rerun(i, AI.FormatMessages(RawOf(ms[..i] + [ms[i - 1]])))
  {
  }

  lemma IntendedShape(ms: seq<Row>, id: string)
    requires Rerunnable(ms, id)
    ensures var i := FirstIndex(ms, id).value;
      RerunIntended(ms, id) == Rerun(i, AI.FormatMessages(RawOf(ms[..i])))
  {
  }

  /** The history formatted from rows ending in a user message followed by that message again. */
  lemma PromptTwice(before: seq<Row>, p: Row)
    requires p.role == "user"
    ensures var h := AI.FormatMessages(RawOf(before + [p] + [p]));
      && h == History(before + [p], p.content)
      && |h| >= 2
      && h[|h| - 1] == AI.ChatMessage(AI.User, p.content)
      && h[|h| - 2] == AI.ChatMessage(AI.User, p.content)
  {
    FormatEndingInUser(before + [p], p);
    FormatEndingInUser(before, p);
    var h := History(before + [p], p.content);
    var h2 := History(before, p.content);
    assert h[..|h| - 1] == h2;
    assert h[|h| - 2] == h[..|h| - 1][|h| - 2];
  }

  /** A two-message chat shows the repetition: rerunning the reply sends `hi` twice. */
  lemma RerunRepeatsPromptExample()
    ensures var ms := [Row("u", "user", "hi", None), Row("a", "assistant", "hello", None)];
      RerunAsWritten(ms, "a") == Rerun(1, [AI.ChatMessage(AI.User, "hi"), AI.ChatMessage(AI.User, "hi")])
  {
    var ms := [Row("u", "user", "hi", None), Row("a", "assistant", "hello", None)];
    assert FirstIndex(ms, "a") == Some(1);
    assert ms[..1] + [ms[0]] == [ms[0], ms[0]];
    assert RawOf([ms[0], ms[0]]) == [AI.RawMessage("user", "hi"), AI.RawMessage("user", "hi")];
    AI.FormatAppend([AI.RawMessage("user", "hi")], [AI.RawMessage("user", "hi")]);
    AI.FormatOne(AI.RawMessage("user", "hi"));
    assert [AI.RawMessage("user", "hi"), AI.RawMessage("user", "hi")]
        == [AI.RawMessage("user", "hi")] + [AI.RawMessage("user", "hi")];
  }

  /**
   * As intended, a rerun resends exactly the history the reply was first
   * produced from: that of sending the prompting message after the rows
   * before it.
   */
  lemma RerunReplaysSend(ms: seq<Row>, id: string)
    requires Rerunnable(ms, id)
    ensures RerunIntended(ms, id).Rerun?
    ensures var i := FirstIndex(ms, id).value;
      var h := RerunIntended(ms, id).history;
      && h == History(ms[..i - 1], ms[i - 1].content)
      && h[|h| - 1] == AI.ChatMessage(AI.User, ms[i - 1].content)
  {
    IntendedShape(ms, id);
    var i := FirstIndex(ms, id).value;
    PromptAt(ms, i);
  }

  lemma PromptAt(ms: seq<Row>, i: nat)
    requires 0 < i <= |ms| && ms[i - 1].role == "user"
    ensures var h := AI.FormatMessages(RawOf(ms[..i]));
      && h == History(ms[..i - 1], ms[i - 1].content)
      && h[|h| - 1] == AI.ChatMessage(AI.User, ms[i - 1].content)
  {
    assert ms[..i] == ms[..i - 1] + [ms[i - 1]];
    PromptOnce(ms[..i - 1], ms[i - 1]);
  }

  /** The history formatted from rows ending in a user message ends with that message once. */
  lemma PromptOnce(before: seq<Row>, p: Row)
    requires p.role == "user"
    ensures var h := AI.FormatMessages(RawOf(before + [p]));
      && h == History(before, p.content)
      && h[|h| - 1] == AI.ChatMessage(AI.User, p.content)
  {
    FormatEndingInUser(before, p);
  }

  // ---------------------------------------------------------------------
  // The streaming placeholder
  // ---------------------------------------------------------------------

  /** What the view shows besides the list: the placeholder bubble and the typing flags. */
  datatype View = View(
    rows: seq<Row>,
    placeholder: Option<SM.Message>,
    toolResults: seq<Json>,
    typing: bool,
    sending: bool)

  /** The events of one send, as the component sees them, interleaved with realtime events. */
  datatype UiEvent =
    | Began
    | PlaceholderShown(placeholderId: string, model: string)
    | Chunk(base: SM.Message, chunk: Json, full: string)
    | SaveReturned
    | Failed
    | Settled
    | Arrived(e: Event)

  /** The chunk types that carry a tool result. */
  predicate IsToolChunk(chunk: Json) {
    C.IsToolType(Field(chunk, "type"))
  }

  /** The placeholder a send starts from: empty content, metadata naming the model. */
  function NewPlaceholder(placeholderId: string, model: string): SM.Message {
    SM.Message(placeholderId, "", false, Some(map["model" := JStr(model)]))
  }

  function Step(v: View, u: UiEvent): View {
    match u
    case Began => v.(sending := true, typing := true)
    case PlaceholderShown(pid, model) => v.(placeholder := Some(NewPlaceholder(pid, model)), toolResults := [])
    case Chunk(base, chunk, full) =>
      var results := if IsToolChunk(chunk) then v.toolResults + [Field(chunk, "data").GetOr(JNull)] else v.toolResults;
      v.(toolResults := results,
         placeholder := Some(SM.Update(base, full, Some(map["tool_calls" := JArr(results)]), None)))
    case SaveReturned => v.(placeholder := None, typing := false)
    case Failed => v.(placeholder := None, typing := false)
    case Settled => v.(sending := false)
    case Arrived(e) => v.(rows := Reconcile(v.rows, e))
  }

  function Steps(v: View, us: seq<UiEvent>): View
    decreases |us|
  {
    if |us| == 0 then v else Steps(Step(v, us[0]), us[1..])
  }

  /** A bubble on screen. */
  datatype Bubble = Bubble(id: string, role: string, content: string)

  function Bubbles(ms: seq<Row>): (r: seq<Bubble>)
    ensures |r| == |ms|
    ensures forall i :: 0 <= i < |ms| ==> r[i] == Bubble(ms[i].id, ms[i].role, ms[i].content)
    decreases |ms|
  {
    if |ms| == 0 then [] else [Bubble(ms[0].id, ms[0].role, ms[0].content)] + Bubbles(ms[1..])
  }

  /**
   * The bubbles on screen: with no rows only the empty-chat prompt (no
   * bubble at all, not even the placeholder); otherwise the rows, then the
   * placeholder as an assistant bubble when there is one.
   */
  function Shown(v: View): (r: seq<Bubble>)
    ensures |v.rows| == 0 ==> r == []
    ensures |v.rows| > 0 ==> |r| == |v.rows| + (if v.placeholder.Some? then 1 else 0)
  {
    if |v.rows| == 0 then []
    else Bubbles(v.rows) + (if v.placeholder.Some? then [Bubble(v.placeholder.value.id, "assistant", v.placeholder.value.content)] else [])
  }

  /** The typing indicator shows while typing and no placeholder is up. */
  predicate ShowsTypingIndicator(v: View) {
    |v.rows| > 0 && v.typing && v.placeholder.None?
  }

  /**
   * The save of a reply and its realtime insert race. When the insert
   * arrives first, the confirmed reply and the placeholder carrying the
   * same text are on screen together until the save returns; then only
   * the confirmed reply remains.
   */
  lemma InsertBeforeSaveShowsBoth(v: View, saved: Row)
    requires v.placeholder.Some? && v.placeholder.value.content == saved.content
    requires !HasId(v.rows, saved.id) && saved.role == "assistant"
    ensures var both := Step(v, Arrived(MessageAdded(saved)));
      var s := Shown(both);
      && |s| == |v.rows| + 2
      && s[|s| - 2] == Bubble(saved.id, "assistant", saved.content)
      && s[|s| - 1] == Bubble(v.placeholder.value.id, "assistant", saved.content)
    ensures var after := Steps(v, [Arrived(MessageAdded(saved)), SaveReturned]);
      Shown(after) == Bubbles(v.rows + [saved]) && after.placeholder.None?
  {
    InsertShowsBoth(v, saved);
    SaveAfterInsertClears(v, saved);
  }

  lemma InsertShowsBoth(v: View, saved: Row)
    requires v.placeholder.Some? && v.placeholder.value.content == saved.content
    requires !HasId(v.rows, saved.id) && saved.role == "assistant"
    ensures var both := Step(v, Arrived(MessageAdded(saved)));
      var s := Shown(both);
      && |s| == |v.rows| + 2
      && s[|s| - 2] == Bubble(saved.id, "assistant", saved.content)
      && s[|s| - 1] == Bubble(v.placeholder.value.id, "assistant", saved.content)
  {
    var both := Step(v, Arrived(MessageAdded(saved)));
    assert both.rows == v.rows + [saved];
  }

  lemma SaveAfterInsertClears(v: View, saved: Row)
    requires v.placeholder.Some? && v.placeholder.value.content == saved.content
    requires !HasId(v.rows, saved.id) && saved.role == "assistant"
    ensures var after := Steps(v, [Arrived(MessageAdded(saved)), SaveReturned]);
      Shown(after) == Bubbles(v.rows + [saved]) && after.placeholder.None?
  {
    var both := Step(v, Arrived(MessageAdded(saved)));
    assert both.rows == v.rows + [saved];
    var after := Steps(v, [Arrived(MessageAdded(saved)), SaveReturned]);
    assert [Arrived(MessageAdded(saved)), SaveReturned] == [Arrived(MessageAdded(saved))] + [SaveReturned];
    StepsAppend(v, [Arrived(MessageAdded(saved))], [SaveReturned]);
    StepsOne(v, Arrived(MessageAdded(saved)));
    StepsOne(both, SaveReturned);
    assert after == Step(both, SaveReturned);
    assert Bubbles(both.rows) + [] == Bubbles(both.rows);
  }

  /** The UI events a stream's callbacks produce: `onChunk` calls become chunks, `onError` a failure. */
  function CallbackEvents(base: SM.Message, calls: seq<C.Callback>): seq<UiEvent>
    decreases |calls|
  {
    if |calls| == 0 then []
    else
      var e := match calls[0]
        case OnChunk(chunk, full) => [Chunk(base, chunk, full)]
        case OnError(_) => [Failed]
        case _ => [];
      e + CallbackEvents(base, calls[1..])
  }

  /** The tool results in the order the chunks carrying them arrive. */
  function ToolData(calls: seq<C.Callback>): seq<Json>
    decreases |calls|
  {
    if |calls| == 0 then []
    else
      var d := if calls[0].OnChunk? && IsToolChunk(calls[0].chunk) then [Field(calls[0].chunk, "data").GetOr(JNull)] else [];
      d + ToolData(calls[1..])
  }

  lemma {:induction false} StepsAppend(v: View, xs: seq<UiEvent>, ys: seq<UiEvent>)
    ensures Steps(v, xs + ys) == Steps(Steps(v, xs), ys)
    decreases |xs|
  {
    if |xs| == 0 {
      assert xs + ys == ys;
    } else {
      assert (xs + ys)[0] == xs[0];
      assert (xs + ys)[1..] == xs[1..] + ys;
      StepsAppend(Step(v, xs[0]), xs[1..], ys);
    }
  }

  lemma StepsOne(v: View, u: UiEvent)
    ensures Steps(v, [u]) == Step(v, u)
  {
    assert [u][1..] == [];
  }

  /** What one chunk does to the view. */
  lemma ChunkStep(v: View, base: SM.Message, chunk: Json, full: string)
    ensures var w := Step(v, Chunk(base, chunk, full));
      && w.toolResults == v.toolResults + (if IsToolChunk(chunk) then [Field(chunk, "data").GetOr(JNull)] else [])
      && w.rows == v.rows && w.typing == v.typing && w.sending == v.sending
      && w.placeholder.Some? && w.placeholder.value.content == full && w.placeholder.value.id == base.id
  {
  }

  /** A run starting with a chunk: the view after that chunk, from which the rest of the run continues. */
  lemma ChunkEventsCons(v: View, base: SM.Message, calls: seq<C.Callback>) returns (v1: View, data: seq<Json>)
    requires |calls| > 0 && calls[0].OnChunk?
    ensures Steps(v, CallbackEvents(base, calls)) == Steps(v1, CallbackEvents(base, calls[1..]))
    ensures data == (if IsToolChunk(calls[0].chunk) then [Field(calls[0].chunk, "data").GetOr(JNull)] else [])
    ensures ToolData(calls) == data + ToolData(calls[1..])
    ensures v1.toolResults == v.toolResults + data
    ensures v1.rows == v.rows && v1.typing == v.typing && v1.sending == v.sending
    ensures v1.placeholder.Some? && v1.placeholder.value.content == calls[0].full && v1.placeholder.value.id == base.id
  {
    var u := Chunk(base, calls[0].chunk, calls[0].full);
    var us := CallbackEvents(base, calls[1..]);
    assert CallbackEvents(base, calls) == [u] + us;
    assert ([u] + us)[1..] == us;
    ChunkStep(v, base, calls[0].chunk, calls[0].full);
    v1 := Step(v, u);
    data := if IsToolChunk(calls[0].chunk) then [Field(calls[0].chunk, "data").GetOr(JNull)] else [];
  }

  /** Chunks leave the typing and sending flags alone. */
  lemma {:induction false} ChunksKeepFlags(v: View, base: SM.Message, calls: seq<C.Callback>)
    requires forall i :: 0 <= i < |calls| ==> calls[i].OnChunk?
    ensures var w := Steps(v, CallbackEvents(base, calls));
      w.typing == v.typing && w.sending == v.sending
    decreases |calls|
  {
    if |calls| > 0 {
      var v1, _ := ChunkEventsCons(v, base, calls);
      ChunksKeepFlags(v1, base, calls[1..]);
    }
  }

  /** Chunks leave the list of rows alone. */
  lemma {:induction false} ChunksKeepRows(v: View, base: SM.Message, calls: seq<C.Callback>)
    requires forall i :: 0 <= i < |calls| ==> calls[i].OnChunk?
    ensures Steps(v, CallbackEvents(base, calls)).rows == v.rows
    decreases |calls|
  {
    if |calls| > 0 {
      var v1, _ := ChunkEventsCons(v, base, calls);
      ChunksKeepRows(v1, base, calls[1..]);
    }
  }

  /** Chunks extend the tool results with their data, in arrival order. */
  lemma {:induction false} ChunksExtendTools(v: View, base: SM.Message, calls: seq<C.Callback>)
    requires forall i :: 0 <= i < |calls| ==> calls[i].OnChunk?
    ensures Steps(v, CallbackEvents(base, calls)).toolResults == v.toolResults + ToolData(calls)
    decreases |calls|
  {
    if |calls| > 0 {
      var v1, data := ChunkEventsCons(v, base, calls);
      ChunksExtendTools(v1, base, calls[1..]);
      SeqAssociative(v.toolResults, data, ToolData(calls[1..]));
    }
  }

  /** After at least one chunk the placeholder is up and shows the content so far. */
  lemma {:induction false} ChunksShowLast(v: View, base: SM.Message, calls: seq<C.Callback>)
    requires |calls| > 0
    requires forall i :: 0 <= i < |calls| ==> calls[i].OnChunk?
    ensures var w := Steps(v, CallbackEvents(base, calls));
      w.placeholder.Some? && w.placeholder.value.content == calls[|calls| - 1].full && w.placeholder.value.id == base.id
    decreases |calls|
  {
    var v1, _ := ChunkEventsCons(v, base, calls);
    if |calls| > 1 {
      ChunksShowLast(v1, base, calls[1..]);
      assert calls[1..][|calls[1..]| - 1] == calls[|calls| - 1];
    } else {
      assert CallbackEvents(base, calls[1..]) == [];
    }
  }

  /**
   * Chunks only ever extend the tool results, in arrival order, and leave
   * the list and the flags alone; every chunk shows the content so far.
   */
  lemma ChunksCollectTools(v: View, base: SM.Message, calls: seq<C.Callback>)
    requires forall i :: 0 <= i < |calls| ==> calls[i].OnChunk?
    ensures var w := Steps(v, CallbackEvents(base, calls));
      && w.toolResults == v.toolResults + ToolData(calls)
      && w.rows == v.rows && w.typing == v.typing && w.sending == v.sending
      && (|calls| > 0 ==> w.placeholder.Some? && w.placeholder.value.content == calls[|calls| - 1].full
                          && w.placeholder.value.id == base.id)
      && (|calls| == 0 ==> w == v)
  {
    ChunksKeepFlags(v, base, calls);
    ChunksKeepRows(v, base, calls);
    ChunksExtendTools(v, base, calls);
    if |calls| > 0 {
      ChunksShowLast(v, base, calls);
    }
  }

  /**
   * One send from the moment the placeholder is shown, with no realtime
   * event in between: the stream's callbacks, the rejection handler when
   * the stream rejects, and the `finally`.
   */
  function SendEvents(pid: string, model: string, run: C.Run): seq<UiEvent> {
    var base := NewPlaceholder(pid, model);
    [PlaceholderShown(pid, model)] + CallbackEvents(base, run.calls)
      + (if run.outcome.Rejected? then [Failed] else []) + [Settled]
  }

  /** Unfolding `CallbackEvents` at the first call: the events of that call, then the rest. */
  lemma CallbackEventsCons(base: SM.Message, calls: seq<C.Callback>) returns (e: seq<UiEvent>)
    requires |calls| > 0
    ensures CallbackEvents(base, calls) == e + CallbackEvents(base, calls[1..])
    ensures e == CallbackEvents(base, [calls[0]])
  {
    e := match calls[0]
      case OnChunk(chunk, full) => [Chunk(base, chunk, full)]
      case OnError(_) => [Failed]
      case _ => [];
    assert [calls[0]][1..] == [];
  }

  /** Unfolding `ToolData` at the first call. */
  lemma ToolDataCons(calls: seq<C.Callback>) returns (d: seq<Json>)
    requires |calls| > 0
    ensures ToolData(calls) == d + ToolData(calls[1..])
    ensures d == ToolData([calls[0]])
  {
    d := if calls[0].OnChunk? && IsToolChunk(calls[0].chunk) then [Field(calls[0].chunk, "data").GetOr(JNull)] else [];
    assert [calls[0]][1..] == [];
  }

  lemma {:induction false} CallbackEventsAppend(base: SM.Message, xs: seq<C.Callback>, ys: seq<C.Callback>)
    ensures CallbackEvents(base, xs + ys) == CallbackEvents(base, xs) + CallbackEvents(base, ys)
    decreases |xs|
  {
    if |xs| == 0 {
      assert xs + ys == ys;
    } else {
      assert (xs + ys)[0] == xs[0];
      assert (xs + ys)[1..] == xs[1..] + ys;
      CallbackEventsAppend(base, xs[1..], ys);
      var e := CallbackEventsCons(base, xs);
      var e' := CallbackEventsCons(base, xs + ys);
      SeqAssociative(e, CallbackEvents(base, xs[1..]), CallbackEvents(base, ys));
    }
  }

  lemma {:induction false} ToolDataAppend(xs: seq<C.Callback>, ys: seq<C.Callback>)
    ensures ToolData(xs + ys) == ToolData(xs) + ToolData(ys)
    decreases |xs|
  {
    if |xs| == 0 {
      assert xs + ys == ys;
    } else {
      assert (xs + ys)[0] == xs[0];
      assert (xs + ys)[1..] == xs[1..] + ys;
      ToolDataAppend(xs[1..], ys);
      var d := ToolDataCons(xs);
      var d' := ToolDataCons(xs + ys);
      SeqAssociative(d, ToolData(xs[1..]), ToolData(ys));
    }
  }

  /** The closing callback of a run: `onComplete`, `onError`, or none. */
  predicate IsClosing(closing: seq<C.Callback>) {
    closing == [] || (|closing| == 1 && (closing[0].OnComplete? || closing[0].OnError?))
  }

  lemma ClosingEvents(base: SM.Message, closing: seq<C.Callback>)
    requires IsClosing(closing)
    ensures CallbackEvents(base, closing) == (if |closing| == 1 && closing[0].OnError? then [Failed] else [])
    ensures ToolData(closing) == []
  {
    if |closing| == 1 {
      assert closing[1..] == [];
    }
  }

  /** The events and tool data of a run's calls: `onStart` contributes nothing. */
  lemma RunCallsEvents(base: SM.Message, chunks: seq<C.Callback>, closing: seq<C.Callback>)
    ensures CallbackEvents(base, [C.OnStart] + chunks + closing) == CallbackEvents(base, chunks) + CallbackEvents(base, closing)
    ensures ToolData([C.OnStart] + chunks + closing) == ToolData(chunks) + ToolData(closing)
  {
    assert [C.OnStart] + chunks + closing == [C.OnStart] + (chunks + closing);
    CallbackEventsAppend(base, [C.OnStart], chunks + closing);
    CallbackEventsAppend(base, chunks, closing);
    ToolDataAppend([C.OnStart], chunks + closing);
    ToolDataAppend(chunks, closing);
  }

  /** The placeholder appears with no tool results; nothing else changes. */
  lemma PlaceholderFirst(v: View, pid: string, model: string, rest: seq<UiEvent>) returns (v0: View)
    ensures Steps(v, [PlaceholderShown(pid, model)] + rest) == Steps(v0, rest)
    ensures v0.placeholder.Some? && v0.toolResults == []
    ensures v0.rows == v.rows && v0.typing == v.typing && v0.sending == v.sending
  {
    v0 := Step(v, PlaceholderShown(pid, model));
    StepsAppend(v, [PlaceholderShown(pid, model)], rest);
    StepsOne(v, PlaceholderShown(pid, model));
  }

  /** The chunks of a run, followed by the rest of the events. */
  lemma ChunksFirst(v0: View, base: SM.Message, chunks: seq<C.Callback>, rest: seq<UiEvent>) returns (v1: View)
    requires forall i :: 0 <= i < |chunks| ==> chunks[i].OnChunk?
    requires v0.placeholder.Some?
    ensures Steps(v0, CallbackEvents(base, chunks) + rest) == Steps(v1, rest)
    ensures v1.toolResults == v0.toolResults + ToolData(chunks)
    ensures v1.rows == v0.rows && v1.typing == v0.typing && v1.sending == v0.sending && v1.placeholder.Some?
  {
    v1 := Steps(v0, CallbackEvents(base, chunks));
    StepsAppend(v0, CallbackEvents(base, chunks), rest);
    ChunksCollectTools(v0, base, chunks);
  }

  /** The closing callback of a run, followed by the rest of the events: only `onError` changes the view. */
  lemma ClosingFirst(v1: View, base: SM.Message, closing: seq<C.Callback>, rest: seq<UiEvent>) returns (v2: View)
    requires IsClosing(closing)
    ensures Steps(v1, CallbackEvents(base, closing) + rest) == Steps(v2, rest)
    ensures v2.rows == v1.rows && v2.toolResults == v1.toolResults && v2.sending == v1.sending
    ensures |closing| == 1 && closing[0].OnError? ==> v2.placeholder.None? && !v2.typing
    ensures !(|closing| == 1 && closing[0].OnError?) ==> v2 == v1
  {
    ClosingEvents(base, closing);
    v2 := Steps(v1, CallbackEvents(base, closing));
    StepsAppend(v1, CallbackEvents(base, closing), rest);
    if |closing| == 1 && closing[0].OnError? {
      StepsOne(v1, Failed);
    }
  }

  /** The rejection handler, when the stream rejected, and the `finally`. */
  lemma SendEnding(v2: View, rejected: bool)
    ensures var w := Steps(v2, (if rejected then [Failed] else []) + [Settled]);
      && w.rows == v2.rows && w.toolResults == v2.toolResults && !w.sending
      && (rejected ==> w.placeholder.None? && !w.typing)
      && (!rejected ==> w.placeholder == v2.placeholder && w.typing == v2.typing)
  {
    if rejected {
      StepsAppend(v2, [Failed], [Settled]);
      StepsOne(v2, Failed);
      StepsOne(Step(v2, Failed), Settled);
    } else {
      assert ([] + [Settled]) == [Settled];
      StepsOne(v2, Settled);
    }
  }

  /** The send events over a run of the given shape. */
  lemma SendOver(v: View, pid: string, model: string, chunks: seq<C.Callback>, closing: seq<C.Callback>, rejected: bool)
    requires forall i :: 0 <= i < |chunks| ==> chunks[i].OnChunk?
    requires IsClosing(closing)
    requires v.sending && v.typing
    ensures var base := NewPlaceholder(pid, model);
      var w := Steps(v, [PlaceholderShown(pid, model)] + CallbackEvents(base, chunks) + CallbackEvents(base, closing)
                        + ((if rejected then [Failed] else []) + [Settled]));
      && w.toolResults == ToolData(chunks)
      && w.rows == v.rows && !w.sending
      && (rejected ==> w.placeholder.None? && !w.typing)
      && (!rejected && (closing == [] || closing[0].OnComplete?) ==> w.placeholder.Some? && w.typing)
  {
    var base := NewPlaceholder(pid, model);
    var first := [PlaceholderShown(pid, model)];
    var ce := CallbackEvents(base, chunks);
    var close := CallbackEvents(base, closing);
    var tail := (if rejected then [Failed] else []) + [Settled];
    SeqAssociative(first + ce, close, tail);
    SeqAssociative(first, ce, close + tail);
    var v0 := PlaceholderFirst(v, pid, model, ce + (close + tail));
    var v1 := ChunksFirst(v0, base, chunks, close + tail);
    var v2 := ClosingFirst(v1, base, closing, tail);
    SendEnding(v2, rejected);
  }

  /**
   * After a send over any stream: the tool results are the tool chunks'
   * data in arrival order; the `finally` has cleared the sending flag; a
   * stream that failed or was cancelled has removed the placeholder,
   * while one that completed leaves it up until its save returns.
   */
  lemma SendLifecycle(cl: C.Classifier, ds: seq<C.Delivery>, v: View, pid: string, model: string)
    requires v.sending && v.typing
    ensures var run := C.Consume(cl, ds);
      var w := Steps(v, SendEvents(pid, model, run));
      && w.toolResults == ToolData(run.calls)
      && w.rows == v.rows && !w.sending
      && (run.outcome.Rejected? ==> w.placeholder.None? && !w.typing)
      && (run.outcome.Resolved? ==>
            w.placeholder.Some? && w.typing && Step(w, SaveReturned).placeholder.None?)
  {
    var run := C.Consume(cl, ds);
    C.RunShape(cl, ds);
    var es := C.Effects(cl, C.Scanned(ds));
    var kept := C.UntilDone(es);
    var chunks := C.ChunkCalls("", kept);
    var closing := C.Closing(C.HasDone(es), C.EndingOf(ds), C.TextUpTo(kept));
    assert run.outcome.Resolved? ==> closing == [C.OnComplete(C.TextUpTo(kept))];
    SendOverRun(v, pid, model, run, chunks, closing);
  }

  lemma SendOverRun(v: View, pid: string, model: string, run: C.Run, chunks: seq<C.Callback>, closing: seq<C.Callback>)
    requires run.calls == [C.OnStart] + chunks + closing
    requires forall i :: 0 <= i < |chunks| ==> chunks[i].OnChunk?
    requires IsClosing(closing)
    requires run.outcome.Resolved? ==> closing != [] && closing[0].OnComplete?
    requires v.sending && v.typing
    ensures var w := Steps(v, SendEvents(pid, model, run));
      && w.toolResults == ToolData(run.calls)
      && w.rows == v.rows && !w.sending
      && (run.outcome.Rejected? ==> w.placeholder.None? && !w.typing)
      && (run.outcome.Resolved? ==>
            w.placeholder.Some? && w.typing && Step(w, SaveReturned).placeholder.None?)
  {
    var base := NewPlaceholder(pid, model);
    RunCallsEvents(base, chunks, closing);
    ClosingEvents(base, closing);
    SendOver(v, pid, model, chunks, closing, run.outcome.Rejected?);
    var first := [PlaceholderShown(pid, model)];
    var tail := (if run.outcome.Rejected? then [Failed] else []) + [Settled];
    SeqAssociative(first, CallbackEvents(base, chunks), CallbackEvents(base, closing));
    SeqAssociative(first + CallbackEvents(base, run.calls), if run.outcome.Rejected? then [Failed] else [], [Settled]);
    assert SendEvents(pid, model, run)
        == first + CallbackEvents(base, chunks) + CallbackEvents(base, closing) + tail;
  }
}

=== FILE: consumer.dfy ===
/**
 * The client side of the chat stream: `StreamingManager.startStream`
 * reading a server-sent-event body read by read, splitting each read on
 * newlines, and turning `data: ` lines into `onChunk` / `onComplete` /
 * `onError` callbacks and a final resolved or rejected promise.
 *
 * The stream is given as the sequence of deliveries the reader observes;
 * running out of deliveries is the reader reporting `done`. Cancelling
 * the stream can only take effect while the consumer awaits a read (the
 * code between awaits runs to completion), so a delivery records whether
 * `cancelStream` ran while it was awaited.
 */
module StreamConsumer {
  import opened Wrappers
  import opened Text
  import opened JsonValue

  const DataPrefix: string := "data: "
  const DoneSentinel: string := "[DONE]"
  const CancelledMessage: string := "Stream was cancelled"

  /** The `type` values a parsed record must carry to be reported as a tool event. */
  predicate IsToolType(t: Option<Json>) {
    IsString(t, "image_generation") || IsString(t, "code_interpreter") || IsString(t, "mcp_call")
  }

  /** What one line of a read means to the consumer. */
  datatype LineEffect =
    | Ignored
    | DoneMarker
    | TextChunk(chunk: Json, text: string)
    | ToolChunk(chunk: Json)

  /**
   * The meaning of one line: lines without the `data: ` prefix and
   * payloads that do not parse are ignored; `[DONE]` ends the stream; a
   * truthy `content` is appended as text; otherwise a tool `type` is
   * reported without changing the text.
   */
  function Classify(codec: JsonCodec, line: string): LineEffect {
    if !StartsWith(line, DataPrefix) then Ignored
    else
      var data := line[|DataPrefix|..];
      if data == DoneSentinel then DoneMarker
      else
        match codec.parse(data)
        case None => Ignored
        case Some(parsed) =>
          var content := Field(parsed, "content");
          if Truthy(content) then TextChunk(parsed, ToText(content.value))
          else if IsToolType(Field(parsed, "type")) then ToolChunk(parsed)
          else Ignored
  }

  /** The text a line appends to the accumulated content. */
  function TextOf(e: LineEffect): string {
    if e.TextChunk? then e.text else ""
  }

  datatype Callback =
    | OnStart
    | OnChunk(chunk: Json, full: string)
    | OnComplete(content: string)
    | OnError(message: string)

  /** How the promise returned by `startStream` settles. */
  datatype Outcome = Resolved(content: string) | Rejected(message: string)

  /** The callbacks made, in order, and the settled promise. */
  datatype Run = Run(calls: seq<Callback>, outcome: Outcome)

  /** The value a `reader.read()` settles with. */
  datatype ReadResult = Data(text: string) | Closed | ReadError(message: string)

  /** One read, and whether the stream was cancelled while it was awaited. */
  datatype Delivery = Delivery(cancelledBefore: bool, result: ReadResult)

  /** The callback a line triggers once the accumulated content is `full`. */
  function CallFor(e: LineEffect, full: string): seq<Callback> {
    match e
    case TextChunk(c, _) => [OnChunk(c, full)]
    case ToolChunk(c) => [OnChunk(c, full)]
    case _ => []
  }

  /** How a consumer reads a line; `Meaning(codec)` for the real one. */
  type Classifier = string -> LineEffect

  function Meaning(codec: JsonCodec): Classifier {
    line => Classify(codec, line)
  }

  /** The meaning of each line, in order. */
  function Effects(cl: Classifier, lines: seq<string>): (es: seq<LineEffect>)
    ensures |es| == |lines|
    decreases |lines|
  {
    if |lines| == 0 then [] else [cl(lines[0])] + Effects(cl, lines[1..])
  }

  /** Callbacks made while scanning the lines of one read, and whether `[DONE]` was met. */
  datatype Progress = Progress(calls: seq<Callback>, full: string, finished: bool)

  /** The inner `for (const line of lines)` loop over the lines' effects, starting from content `full`. */
  function ScanLines(es: seq<LineEffect>, full: string): Progress
    decreases |es|
  {
    if |es| == 0 then Progress([], full, false)
    else if es[0].DoneMarker? then Progress([], full, true)
    else
      var next := full + TextOf(es[0]);
      var p := ScanLines(es[1..], next);
      p.(calls := CallFor(es[0], next) + p.calls)
  }

  /** What one delivery does: settle the promise, or pass the content on to the next read. */
  datatype Step = Stop(calls: seq<Callback>, outcome: Outcome) | Continue(calls: seq<Callback>, full: string)

  /** One iteration of the outer `while` loop, with content `full` accumulated so far. */
  function ReadStep(cl: Classifier, d: Delivery, full: string): Step {
    if d.cancelledBefore then
      Stop([], if d.result.ReadError? then Rejected(d.result.message) else Rejected(CancelledMessage))
    else
      match d.result
      case Closed => Stop([OnComplete(full)], Resolved(full))
      case ReadError(m) => Stop([OnError(m)], Rejected(m))
      case Data(text) =>
        var p := ScanLines(Effects(cl, Split(text, '\n')), full);
        if p.finished then Stop(p.calls + [OnComplete(p.full)], Resolved(p.full))
        else Continue(p.calls, p.full)
  }

  /** The outer read loop after `onStart`, with content `full` accumulated so far. */
  function ConsumeReads(cl: Classifier, ds: seq<Delivery>, full: string): Run
    decreases |ds|
  {
    if |ds| == 0 then Run([OnComplete(full)], Resolved(full))
    else
      match ReadStep(cl, ds[0], full)
      case Stop(calls, outcome) => Run(calls, outcome)
      case Continue(calls, next) =>
        var r := ConsumeReads(cl, ds[1..], next);
        Run(calls + r.calls, r.outcome)
  }

  /** `startStream` as a function of what the reader delivers. */
  function Consume(cl: Classifier, ds: seq<Delivery>): Run {
    var r := ConsumeReads(cl, ds, "");
    Run([OnStart] + r.calls, r.outcome)
  }

  // ---------------------------------------------------------------------
  // A reference description of the same run, stated over the flat list of
  // lines the consumer inspects rather than read by read.
  // ---------------------------------------------------------------------

  /** All lines of the reads the consumer processes, before it stops reading. */
  function Scanned(ds: seq<Delivery>): seq<string>
    decreases |ds|
  {
    if |ds| == 0 || ds[0].cancelledBefore || !ds[0].result.Data? then []
    else Split(ds[0].result.text, '\n') + Scanned(ds[1..])
  }

  /** How reading stops when no `[DONE]` line is met. */
  datatype Ending = EndClosed | EndFailed(message: string) | EndCancelled(message: string)

  function EndingOf(ds: seq<Delivery>): Ending
    decreases |ds|
  {
    if |ds| == 0 then EndClosed
    else if ds[0].cancelledBefore then
      EndCancelled(if ds[0].result.ReadError? then ds[0].result.message else CancelledMessage)
    else
      match ds[0].result
      case Data(_) => EndingOf(ds[1..])
      case Closed => EndClosed
      case ReadError(m) => EndFailed(m)
  }

  /** The lines before the first `[DONE]` marker (all of them when there is none). */
  function UntilDone(es: seq<LineEffect>): (r: seq<LineEffect>)
    ensures |r| <= |es|
    decreases |es|
  {
    if |es| == 0 || es[0].DoneMarker? then [] else [es[0]] + UntilDone(es[1..])
  }

  /** The lines contain a `[DONE]` marker: scanning them stops early. */
  predicate HasDone(es: seq<LineEffect>) {
    |UntilDone(es)| < |es|
  }

  /** The text `es` append to the content: each line's contribution, in order. */
  function TextUpTo(es: seq<LineEffect>): string
    decreases |es|
  {
    if |es| == 0 then "" else TextUpTo(es[..|es| - 1]) + TextOf(es[|es| - 1])
  }

  /**
   * The `onChunk` calls for `es`: one per text or tool line, each carrying
   * `base` followed by the text of every line up to and including its own.
   */
  function ChunkCalls(base: string, es: seq<LineEffect>): seq<Callback>
    decreases |es|
  {
    if |es| == 0 then []
    else ChunkCalls(base, es[..|es| - 1]) + CallFor(es[|es| - 1], base + TextUpTo(es))
  }

  /** The callback that closes a run: `onComplete` unless reading failed or was cancelled first. */
  function Closing(done: bool, ending: Ending, content: string): seq<Callback> {
    if done || ending.EndClosed? then [OnComplete(content)]
    else if ending.EndFailed? then [OnError(ending.message)]
    else []
  }

  /** How the promise settles. */
  function Settle(done: bool, ending: Ending, content: string): Outcome {
    if done || ending.EndClosed? then Resolved(content) else Rejected(ending.message)
  }

  /** The run over the inspected lines `es`, after content `base`, when reading stops by `ending`. */
  function ReferenceOver(base: string, es: seq<LineEffect>, ending: Ending): Run {
    var kept := UntilDone(es);
    var content := base + TextUpTo(kept);
    Run(ChunkCalls(base, kept) + Closing(HasDone(es), ending, content),
        Settle(HasDone(es), ending, content))
  }

  /** The run, described over the flat list of inspected lines, after content `base`. */
  function ReferenceFrom(cl: Classifier, ds: seq<Delivery>, base: string): Run {
    ReferenceOver(base, Effects(cl, Scanned(ds)), EndingOf(ds))
  }

  function Reference(cl: Classifier, ds: seq<Delivery>): Run {
    var r := ReferenceFrom(cl, ds, "");
    Run([OnStart] + r.calls, r.outcome)
  }

  // ---------------------------------------------------------------------
  // Lemmas connecting the read-by-read consumer with the reference.
  // ---------------------------------------------------------------------

  /** The effects of two consecutive runs of lines concatenate. */
  lemma {:induction false} EffectsAppend(cl: Classifier, xs: seq<string>, ys: seq<string>)
    ensures Effects(cl, xs + ys) == Effects(cl, xs) + Effects(cl, ys)
    decreases |xs|
  {
    if |xs| == 0 {
      assert xs + ys == ys;
    } else {
      assert (xs + ys)[0] == xs[0];
      assert (xs + ys)[1..] == xs[1..] + ys;
      EffectsAppend(cl, xs[1..], ys);
    }
  }

  /** Unfolding `ChunkCalls` and `TextUpTo` at the last line. */
  lemma Snoc(base: string, init: seq<LineEffect>, e: LineEffect)
    ensures TextUpTo(init + [e]) == TextUpTo(init) + TextOf(e)
    ensures ChunkCalls(base, init + [e]) == ChunkCalls(base, init) + CallFor(e, base + TextUpTo(init + [e]))
  {
    var whole := init + [e];
    assert whole[..|whole| - 1] == init;
  }

  /** The text of two consecutive runs of lines is the first's followed by the second's. */
  lemma {:induction false} TextUpToAppend(xs: seq<LineEffect>, ys: seq<LineEffect>)
    ensures TextUpTo(xs + ys) == TextUpTo(xs) + TextUpTo(ys)
    decreases |ys|
  {
    if |ys| == 0 {
      assert xs + ys == xs;
    } else {
      var ys', e := ys[..|ys| - 1], ys[|ys| - 1];
      assert ys == ys' + [e];
      SeqAssociative(xs, ys', [e]);
      TextSnoc(xs + ys', e);
      TextSnoc(ys', e);
      TextUpToAppend(xs, ys');
      AppendAssociative(TextUpTo(xs), TextUpTo(ys'), TextOf(e));
    }
  }

  /** Unfolding `TextUpTo` at the last line. */
  lemma TextSnoc(init: seq<LineEffect>, e: LineEffect)
    ensures TextUpTo(init + [e]) == TextUpTo(init) + TextOf(e)
  {
    var whole := init + [e];
    assert whole[..|whole| - 1] == init;
  }

  /** The chunk calls of two consecutive runs of lines concatenate. */
  lemma {:induction false} ChunkCallsAppend(base: string, xs: seq<LineEffect>, ys: seq<LineEffect>)
    ensures ChunkCalls(base, xs + ys) == ChunkCalls(base, xs) + ChunkCalls(base + TextUpTo(xs), ys)
    decreases |ys|
  {
    if |ys| == 0 {
      assert xs + ys == xs;
    } else {
      var ys', e := ys[..|ys| - 1], ys[|ys| - 1];
      assert ys == ys' + [e];
      assert xs + ys == (xs + ys') + [e];
      var base' := base + TextUpTo(xs);
      Snoc(base, xs + ys', e);
      Snoc(base', ys', e);
      ChunkCallsAppend(base, xs, ys');
      TextUpToAppend(xs, ys);
      AppendAssociative(base, TextUpTo(xs), TextUpTo(ys));
      SeqAssociative(ChunkCalls(base, xs), ChunkCalls(base', ys'), CallFor(e, base' + TextUpTo(ys)));
      calc {
        ChunkCalls(base, xs + ys);
        ChunkCalls(base, xs + ys') + CallFor(e, base + TextUpTo(xs + ys));
        (ChunkCalls(base, xs) + ChunkCalls(base', ys')) + CallFor(e, base' + TextUpTo(ys));
        ChunkCalls(base, xs) + (ChunkCalls(base', ys') + CallFor(e, base' + TextUpTo(ys)));
        ChunkCalls(base, xs) + ChunkCalls(base', ys);
      }
    }
  }

  /**
   * `UntilDone` keeps the longest prefix free of `[DONE]`, and `HasDone`
   * holds exactly when some line is `[DONE]`.
   */
  lemma {:induction false} UntilDoneSpec(es: seq<LineEffect>)
    ensures UntilDone(es) <= es
    ensures forall i :: 0 <= i < |UntilDone(es)| ==> !es[i].DoneMarker?
    ensures HasDone(es) ==> es[|UntilDone(es)|].DoneMarker?
    ensures HasDone(es) <==> exists i :: 0 <= i < |es| && es[i].DoneMarker?
    decreases |es|
  {
    if |es| > 0 && !es[0].DoneMarker? {
      UntilDoneSpec(es[1..]);
      assert forall i :: 1 <= i < |es| ==> es[i] == es[1..][i - 1];
      if HasDone(es) {
        assert es[1..][|UntilDone(es[1..])|].DoneMarker?;
      } else {
        assert forall i :: 0 <= i < |es| - 1 ==> !es[1..][i].DoneMarker?;
      }
    }
  }

  /** Cutting the lines at a point: the first `[DONE]` is in the first part or the second. */
  lemma {:induction false} UntilDoneAppend(xs: seq<LineEffect>, ys: seq<LineEffect>)
    ensures HasDone(xs) ==> UntilDone(xs + ys) == UntilDone(xs)
    ensures !HasDone(xs) ==> UntilDone(xs + ys) == xs + UntilDone(ys)
    ensures HasDone(xs + ys) <==> HasDone(xs) || HasDone(ys)
    decreases |xs|
  {
    if |xs| == 0 {
      assert xs + ys == ys;
    } else {
      assert (xs + ys)[0] == xs[0];
      assert (xs + ys)[1..] == xs[1..] + ys;
      if !xs[0].DoneMarker? {
        UntilDoneAppend(xs[1..], ys);
        assert [xs[0]] + xs[1..] == xs;
        SeqAssociative([xs[0]], xs[1..], UntilDone(ys));
      }
    }
  }

  /** `UntilDone` past a first line that is not `[DONE]`. */
  lemma UntilDoneCons(es: seq<LineEffect>)
    requires |es| > 0 && !es[0].DoneMarker?
    ensures UntilDone(es) == [es[0]] + UntilDone(es[1..])
    ensures HasDone(es) == HasDone(es[1..])
  {
    assert es == [es[0]] + es[1..];
    assert !HasDone([es[0]]);
    UntilDoneAppend([es[0]], es[1..]);
  }

  /** The chunk calls and text of a run of lines, unfolded at its first line. */
  lemma ChunkCallsCons(base: string, e: LineEffect, rest: seq<LineEffect>)
    ensures ChunkCalls(base, [e] + rest) == CallFor(e, base + TextOf(e)) + ChunkCalls(base + TextOf(e), rest)
    ensures TextUpTo([e] + rest) == TextOf(e) + TextUpTo(rest)
  {
    var t := TextOf(e);
    Snoc(base, [], e);
    assert [] + [e] == [e];
    assert TextUpTo([e]) == "" + t;
    assert "" + t == t;
    var c := CallFor(e, base + t);
    assert ChunkCalls(base, [e]) == [] + c;
    assert [] + c == c;
    ChunkCallsAppend(base, [e], rest);
    TextUpToAppend([e], rest);
  }

  /** The inner loop over one read agrees with the reference over its lines. */
  lemma {:induction false} ScanLinesAgrees(es: seq<LineEffect>, base: string)
    ensures ScanLines(es, base)
         == Progress(ChunkCalls(base, UntilDone(es)), base + TextUpTo(UntilDone(es)), HasDone(es))
    decreases |es|
  {
    if |es| > 0 && !es[0].DoneMarker? {
      var e, rest := es[0], es[1..];
      var ur := UntilDone(rest);
      UntilDoneCons(es);
      ScanLinesAgrees(rest, base + TextOf(e));
      ChunkCallsCons(base, e, ur);
      AppendAssociative(base, TextOf(e), TextUpTo(ur));
    }
  }

  /** The lines of the first read, followed by those of the later reads. */
  lemma ScannedData(cl: Classifier, ds: seq<Delivery>)
    requires |ds| > 0 && !ds[0].cancelledBefore && ds[0].result.Data?
    ensures Effects(cl, Scanned(ds)) == Effects(cl, Split(ds[0].result.text, '\n')) + Effects(cl, Scanned(ds[1..]))
    ensures EndingOf(ds) == EndingOf(ds[1..])
  {
    EffectsAppend(cl, Split(ds[0].result.text, '\n'), Scanned(ds[1..]));
  }

  /** Lines after a `[DONE]` do not matter. */
  lemma OverFinished(base: string, xs: seq<LineEffect>, ys: seq<LineEffect>, e1: Ending, e2: Ending)
    requires HasDone(xs)
    ensures ReferenceOver(base, xs + ys, e1) == ReferenceOver(base, xs, e2)
  {
    UntilDoneAppend(xs, ys);
  }

  /** The pieces of the reference over `xs + ys` when `xs` has no `[DONE]`. */
  lemma ContinuedPieces(base: string, xs: seq<LineEffect>, ys: seq<LineEffect>)
    requires !HasDone(xs)
    ensures UntilDone(xs + ys) == xs + UntilDone(ys)
    ensures HasDone(xs + ys) == HasDone(ys)
    ensures ChunkCalls(base, UntilDone(xs + ys))
         == ChunkCalls(base, xs) + ChunkCalls(base + TextUpTo(xs), UntilDone(ys))
    ensures base + TextUpTo(UntilDone(xs + ys)) == (base + TextUpTo(xs)) + TextUpTo(UntilDone(ys))
  {
    var uy := UntilDone(ys);
    UntilDoneAppend(xs, ys);
    ChunkCallsAppend(base, xs, uy);
    TextUpToAppend(xs, uy);
    AppendAssociative(base, TextUpTo(xs), TextUpTo(uy));
  }

  /** A run of lines without `[DONE]` followed by the rest of the run. */
  lemma OverContinues(base: string, xs: seq<LineEffect>, ys: seq<LineEffect>, ending: Ending)
    requires !HasDone(xs)
    ensures var r := ReferenceOver(base + TextUpTo(xs), ys, ending);
      ReferenceOver(base, xs + ys, ending) == Run(ChunkCalls(base, xs) + r.calls, r.outcome)
  {
    var next := base + TextUpTo(xs);
    var uy := UntilDone(ys);
    ContinuedPieces(base, xs, ys);
    var a := ChunkCalls(base, xs);
    var b := ChunkCalls(next, uy);
    var c := Closing(HasDone(ys), ending, next + TextUpTo(uy));
    SeqAssociative(a, b, c);
  }

  /** A data read containing `[DONE]` ends the run. */
  lemma DataReadFinishes(cl: Classifier, ds: seq<Delivery>, base: string)
    requires |ds| > 0 && !ds[0].cancelledBefore && ds[0].result.Data?
    requires HasDone(Effects(cl, Split(ds[0].result.text, '\n')))
    ensures ConsumeReads(cl, ds, base) == ReferenceFrom(cl, ds, base)
  {
    var xs := Effects(cl, Split(ds[0].result.text, '\n'));
    var ys := Effects(cl, Scanned(ds[1..]));
    ScannedData(cl, ds);
    ScanLinesAgrees(xs, base);
    OverFinished(base, xs, ys, EndingOf(ds), EndingOf(ds));
  }

  /** A data read without `[DONE]` passes its content on to the rest of the run. */
  lemma DataReadContinues(cl: Classifier, ds: seq<Delivery>, base: string)
    requires |ds| > 0 && !ds[0].cancelledBefore && ds[0].result.Data?
    requires !HasDone(Effects(cl, Split(ds[0].result.text, '\n')))
    requires var next := base + TextUpTo(Effects(cl, Split(ds[0].result.text, '\n')));
      ConsumeReads(cl, ds[1..], next) == ReferenceFrom(cl, ds[1..], next)
    ensures ConsumeReads(cl, ds, base) == ReferenceFrom(cl, ds, base)
  {
    var xs := Effects(cl, Split(ds[0].result.text, '\n'));
    var ys := Effects(cl, Scanned(ds[1..]));
    ScannedData(cl, ds);
    ScanLinesAgrees(xs, base);
    UntilDoneAppend(xs, []);
    assert xs + [] == xs;
    assert ScanLines(xs, base) == Progress(ChunkCalls(base, xs), base + TextUpTo(xs), false);
    OverContinues(base, xs, ys, EndingOf(ds));
  }

  /** The read loop on a data read that was not cancelled: its lines, then the later reads unless `[DONE]` was met. */
  lemma DataRead(cl: Classifier, text: string, rest: seq<Delivery>, full: string)
    ensures var p := ScanLines(Effects(cl, Split(text, '\n')), full);
      var r := ConsumeReads(cl, [Delivery(false, Data(text))] + rest, full);
      var later := ConsumeReads(cl, rest, p.full);
      && (p.finished ==> r == Run(p.calls + [OnComplete(p.full)], Resolved(p.full)))
      && (!p.finished ==> r == Run(p.calls + later.calls, later.outcome))
  {
    var ds := [Delivery(false, Data(text))] + rest;
    assert ds[0] == Delivery(false, Data(text));
    assert ds[1..] == rest;
  }

  /** The read loop agrees with the reference, from any accumulated content. */
  lemma {:induction false} ConsumeReadsAgrees(cl: Classifier, ds: seq<Delivery>, base: string)
    ensures ConsumeReads(cl, ds, base) == ReferenceFrom(cl, ds, base)
    decreases |ds|
  {
    if |ds| > 0 && !ds[0].cancelledBefore && ds[0].result.Data? {
      var xs := Effects(cl, Split(ds[0].result.text, '\n'));
      if HasDone(xs) {
        DataReadFinishes(cl, ds, base);
      } else {
        ConsumeReadsAgrees(cl, ds[1..], base + TextUpTo(xs));
        DataReadContinues(cl, ds, base);
      }
    } else {
      assert Scanned(ds) == [];
      assert !HasDone([]);
      assert base + "" == base;
    }
  }

  /** The consumer's run is the one the reference describes. */
  lemma ConsumeAgreesWithReference(cl: Classifier, ds: seq<Delivery>)
    ensures Consume(cl, ds) == Reference(cl, ds)
  {
    ConsumeReadsAgrees(cl, ds, "");
  }

  // ---------------------------------------------------------------------
  // The properties of a run.
  // ---------------------------------------------------------------------

  /** Every call `ChunkCalls` produces is an `onChunk` carrying a prefix of the final text, and they grow. */
  lemma {:induction false} ChunkCallsCumulative(base: string, es: seq<LineEffect>)
    ensures var calls := ChunkCalls(base, es);
      && (forall i :: 0 <= i < |calls| ==> calls[i].OnChunk?)
      && (forall i :: 0 <= i < |calls| ==> base <= calls[i].full <= base + TextUpTo(es))
      && (forall i, j :: 0 <= i < j < |calls| ==> calls[i].full <= calls[j].full)
    decreases |es|
  {
    if |es| > 0 {
      var init := es[..|es| - 1];
      ChunkCallsCumulative(base, init);
      assert es == init + [es[|es| - 1]];
      Snoc(base, init, es[|es| - 1]);
    }
  }

  /** A run is `onStart`, then growing `onChunk` calls, then at most one closing callback. */
  lemma RunShape(cl: Classifier, ds: seq<Delivery>)
    ensures var es := Effects(cl, Scanned(ds));
      var kept := UntilDone(es);
      var r := Consume(cl, ds);
      var chunks := ChunkCalls("", kept);
      var closing := Closing(HasDone(es), EndingOf(ds), TextUpTo(kept));
      && r.calls == [OnStart] + chunks + closing
      && r.outcome == Settle(HasDone(es), EndingOf(ds), TextUpTo(kept))
      && (forall i :: 1 <= i <= |chunks| ==> r.calls[i] == chunks[i - 1])
      && (forall i :: 1 + |chunks| <= i < |r.calls| ==> r.calls[i] == closing[i - 1 - |chunks|])
      && (forall i :: 0 <= i < |chunks| ==> chunks[i].OnChunk? && chunks[i].full <= TextUpTo(kept))
      && (forall i, j :: 0 <= i < j < |chunks| ==> chunks[i].full <= chunks[j].full)
  {
    ReferenceShape(cl, ds);
    var es := Effects(cl, Scanned(ds));
    var kept := UntilDone(es);
    ChunkCallsCumulative("", kept);
    assert "" + TextUpTo(kept) == TextUpTo(kept);
    var closing := Closing(HasDone(es), EndingOf(ds), TextUpTo(kept));
    IndexAfterFirst(OnStart, ChunkCalls("", kept), closing, Consume(cl, ds).calls);
  }

  /** The run, as the reference definition lays it out from an empty start. */
  lemma ReferenceShape(cl: Classifier, ds: seq<Delivery>)
    ensures var es := Effects(cl, Scanned(ds));
      var kept := UntilDone(es);
      && Consume(cl, ds).calls == [OnStart] + ChunkCalls("", kept) + Closing(HasDone(es), EndingOf(ds), TextUpTo(kept))
      && Consume(cl, ds).outcome == Settle(HasDone(es), EndingOf(ds), TextUpTo(kept))
  {
    ConsumeAgreesWithReference(cl, ds);
    var es := Effects(cl, Scanned(ds));
    var kept := UntilDone(es);
    assert "" + TextUpTo(kept) == TextUpTo(kept);
    SeqAssociative([OnStart], ChunkCalls("", kept), Closing(HasDone(es), EndingOf(ds), TextUpTo(kept)));
  }

  /** Where the parts of `[x] + a + b` sit. */
  lemma IndexAfterFirst<T>(x: T, a: seq<T>, b: seq<T>, all: seq<T>)
    requires all == [x] + a + b
    ensures forall i :: 1 <= i <= |a| ==> all[i] == a[i - 1]
    ensures forall i :: 1 + |a| <= i < |all| ==> all[i] == b[i - 1 - |a|]
  {
  }

  /** The content the promise resolves with is the text of the lines before `[DONE]`. */
  lemma ResolvedContent(cl: Classifier, ds: seq<Delivery>)
    ensures Consume(cl, ds).outcome.Resolved?
        <==> HasDone(Effects(cl, Scanned(ds))) || EndingOf(ds).EndClosed?
    ensures Consume(cl, ds).outcome.Resolved? ==>
      Consume(cl, ds).outcome.content == TextUpTo(UntilDone(Effects(cl, Scanned(ds))))
  {
    ConsumeAgreesWithReference(cl, ds);
  }

  /**
   * `onStart` comes first; every `onChunk` carries a growing prefix of the
   * final text; a resolved run calls `onComplete` exactly once, last, with
   * the resolved content, and never `onError`.
   */
  lemma CallbackDiscipline(cl: Classifier, ds: seq<Delivery>)
    ensures var r := Consume(cl, ds);
      && |r.calls| >= 1 && r.calls[0] == OnStart
      && (forall i, j :: 0 < i < j < |r.calls| && r.calls[j].OnChunk? ==> r.calls[i].OnChunk? && r.calls[i].full <= r.calls[j].full)
      && (r.outcome.Resolved? ==>
            && r.calls[|r.calls| - 1] == OnComplete(r.outcome.content)
            && (forall i :: 0 <= i < |r.calls| - 1 ==> !r.calls[i].OnComplete? && !r.calls[i].OnError?)
            && (forall i :: 0 <= i < |r.calls| && r.calls[i].OnChunk? ==> r.calls[i].full <= r.outcome.content))
  {
    RunShape(cl, ds);
    var es := Effects(cl, Scanned(ds));
    var kept := UntilDone(es);
    var r := Consume(cl, ds);
    OrderedCalls(r, ChunkCalls("", kept), HasDone(es), EndingOf(ds), TextUpTo(kept));
  }

  /**
   * A run shaped as `RunShape` states, whatever its chunk calls: start
   * first, the chunks in growing order, and on success a single closing
   * completion with the full text.
   */
  lemma OrderedCalls(r: Run, chunks: seq<Callback>, done: bool, ending: Ending, full: string)
    requires r.calls == [OnStart] + chunks + Closing(done, ending, full)
    requires r.outcome == Settle(done, ending, full)
    requires forall i :: 0 <= i < |chunks| ==> chunks[i].OnChunk? && chunks[i].full <= full
    requires forall i, j :: 0 <= i < j < |chunks| ==> chunks[i].full <= chunks[j].full
    ensures && |r.calls| >= 1 && r.calls[0] == OnStart
      && (forall i, j :: 0 < i < j < |r.calls| && r.calls[j].OnChunk? ==> r.calls[i].OnChunk? && r.calls[i].full <= r.calls[j].full)
      && (r.outcome.Resolved? ==>
            && r.calls[|r.calls| - 1] == OnComplete(r.outcome.content)
            && (forall i :: 0 <= i < |r.calls| - 1 ==> !r.calls[i].OnComplete? && !r.calls[i].OnError?)
            && (forall i :: 0 <= i < |r.calls| && r.calls[i].OnChunk? ==> r.calls[i].full <= r.outcome.content))
  {
    var closing := Closing(done, ending, full);
    IndexAfterFirst(OnStart, chunks, closing, r.calls);
    assert |r.calls| == 1 + |chunks| + |closing|;
    assert forall k :: 0 <= k < |closing| ==> !closing[k].OnChunk?;
    forall i, j | 0 < i < j < |r.calls| && r.calls[j].OnChunk?
      ensures r.calls[i].OnChunk? && r.calls[i].full <= r.calls[j].full
    {
      assert j <= |chunks|;
      assert r.calls[i] == chunks[i - 1] && r.calls[j] == chunks[j - 1];
    }
    if r.outcome.Resolved? {
      assert closing == [OnComplete(full)];
      forall i | 0 <= i < |r.calls| - 1
        ensures !r.calls[i].OnComplete? && !r.calls[i].OnError?
      {
        if i > 0 {
          assert r.calls[i] == chunks[i - 1];
        }
      }
      forall i | 0 <= i < |r.calls| && r.calls[i].OnChunk?
        ensures r.calls[i].full <= r.outcome.content
      {
        assert 0 < i <= |chunks|;
        assert r.calls[i] == chunks[i - 1];
      }
    }
  }

  /**
   * A stream cancelled before `[DONE]` rejects with the cancellation (or
   * with the failure of the read that was pending) and calls neither
   * `onComplete` nor `onError`.
   */
  lemma CancelledRunIsSilent(cl: Classifier, ds: seq<Delivery>)
    requires EndingOf(ds).EndCancelled? && !HasDone(Effects(cl, Scanned(ds)))
    ensures Consume(cl, ds).outcome == Rejected(EndingOf(ds).message)
    ensures forall c :: c in Consume(cl, ds).calls ==> c == OnStart || c.OnChunk?
  {
    RunShape(cl, ds);
    var r := Consume(cl, ds);
    forall c | c in r.calls
      ensures c == OnStart || c.OnChunk?
    {
      var i :| 0 <= i < |r.calls| && r.calls[i] == c;
    }
  }

  /** A read that fails before `[DONE]` is reported once to `onError`, last, and rejects the promise. */
  lemma FailedRunReportsOnce(cl: Classifier, ds: seq<Delivery>)
    requires EndingOf(ds).EndFailed? && !HasDone(Effects(cl, Scanned(ds)))
    ensures var r := Consume(cl, ds);
      && r.outcome == Rejected(EndingOf(ds).message)
      && r.calls[|r.calls| - 1] == OnError(EndingOf(ds).message)
      && forall i :: 0 <= i < |r.calls| - 1 ==> !r.calls[i].OnError? && !r.calls[i].OnComplete?
  {
    RunShape(cl, ds);
  }

  /** One line that does not end the stream: its call, then the scan of the rest from the grown text. */
  lemma ScanLinesStep(e: LineEffect, rest: seq<LineEffect>, full: string)
    requires !e.DoneMarker?
    ensures var next := full + TextOf(e);
      var p := ScanLines(rest, next);
      ScanLines([e] + rest, full) == p.(calls := CallFor(e, next) + p.calls)
  {
    assert ([e] + rest)[0] == e;
    assert ([e] + rest)[1..] == rest;
  }

  /** Removing a line the consumer ignores changes nothing about the scan. */
  lemma {:induction false} IgnoredLineIsSkipped(es: seq<LineEffect>, i: nat, full: string)
    requires i < |es| && es[i].Ignored?
    ensures ScanLines(es[..i] + es[i + 1..], full) == ScanLines(es, full)
    decreases i
  {
    if i == 0 {
      assert es[..0] + es[1..] == es[1..];
      assert full + TextOf(es[0]) == full;
      assert CallFor(es[0], full) == [];
    } else {
      var shorter := es[..i] + es[i + 1..];
      assert shorter[0] == es[0];
      assert shorter[1..] == es[1..][..i - 1] + es[1..][i..];
      if !es[0].DoneMarker? {
        IgnoredLineIsSkipped(es[1..], i - 1, full + TextOf(es[0]));
      }
    }
  }

  /** Malformed lines are ignored: a `data: ` line whose payload fails to parse. */
  lemma UnparsableLineIgnored(codec: JsonCodec, payload: string)
    requires codec.parse(payload).None? && payload != DoneSentinel
    ensures Classify(codec, DataPrefix + payload).Ignored?
  {
    var line := DataPrefix + payload;
    assert line[..|DataPrefix|] == DataPrefix;
    assert line[|DataPrefix|..] == payload;
  }

  /** The inner loop over the lines of one read. */
  method ScanRead(cl: Classifier, lines: seq<string>, start: string)
    returns (emitted: seq<Callback>, full: string, finished: bool)
    ensures Progress(emitted, full, finished) == ScanLines(Effects(cl, lines), start)
  {
    emitted, full := [], start;
    var j := 0;
    while j < |lines|
      invariant j <= |lines|
      invariant var p := ScanLines(Effects(cl, lines[j..]), full);
        ScanLines(Effects(cl, lines), start) == Progress(emitted + p.calls, p.full, p.finished)
      decreases |lines| - j
    {
      var e := cl(lines[j]);
      assert lines[j..][1..] == lines[j + 1..];
      if e.DoneMarker? {
        return emitted, full, true;
      }
      var rest := ScanLines(Effects(cl, lines[j + 1..]), full + TextOf(e));
      SeqAssociative(emitted, CallFor(e, full + TextOf(e)), rest.calls);
      full := full + TextOf(e);
      emitted := emitted + CallFor(e, full);
      j := j + 1;
    }
    finished := false;
  }

  /**
   * The imperative `startStream` loop: reads one delivery at a time,
   * splits it into lines and folds them into the callbacks made and the
   * content accumulated, stopping at `[DONE]`, a failed read or a
   * cancellation.
   */
  method StartStream(cl: Classifier, ds: seq<Delivery>) returns (calls: seq<Callback>, outcome: Outcome)
    ensures Run(calls, outcome) == Reference(cl, ds)
  {
    calls, outcome := ReadLoop(cl, ds);
    ConsumeAgreesWithReference(cl, ds);
  }

  /** One iteration of the read loop: a delivery's lines, or how it ends the run. */
  method DoReadStep(cl: Classifier, d: Delivery, full: string) returns (step: Step)
    ensures step == ReadStep(cl, d, full)
  {
    if d.cancelledBefore {
      return Stop([], if d.result.ReadError? then Rejected(d.result.message) else Rejected(CancelledMessage));
    }
    match d.result {
      case Closed =>
        step := Stop([OnComplete(full)], Resolved(full));
      case ReadError(m) =>
        step := Stop([OnError(m)], Rejected(m));
      case Data(text) =>
        var emitted, next, finished := ScanRead(cl, Split(text, '\n'), full);
        step := if finished then Stop(emitted + [OnComplete(next)], Resolved(next)) else Continue(emitted, next);
    }
  }

  /** The read loop of `startStream`, folding deliveries as `ConsumeReads` does. */
  method ReadLoop(cl: Classifier, ds: seq<Delivery>) returns (calls: seq<Callback>, outcome: Outcome)
    ensures Run(calls, outcome) == Consume(cl, ds)
  {
    var made: seq<Callback> := [];
    var full := "";
    var k := 0;
    while k < |ds|
      invariant k <= |ds|
      invariant ConsumeReads(cl, ds, "")
             == Run(made + ConsumeReads(cl, ds[k..], full).calls, ConsumeReads(cl, ds[k..], full).outcome)
      decreases |ds| - k
    {
      var step := DoReadStep(cl, ds[k], full);
      assert ds[k..][0] == ds[k];
      if step.Stop? {
        calls, outcome := [OnStart] + (made + step.calls), step.outcome;
        return;
      }
      assert ds[k..][1..] == ds[k + 1..];
      made, full := made + step.calls, step.full;
      k := k + 1;
    }
    assert ds[k..] == [];
    assert ConsumeReads(cl, ds[k..], full) == Run([OnComplete(full)], Resolved(full));
    assert ConsumeReads(cl, ds, "") == Run(made + [OnComplete(full)], Resolved(full));
    calls, outcome := [OnStart] + (made + [OnComplete(full)]), Resolved(full);
  }
}

=== FILE: file_upload.dfy ===
/**
 * `FileUploadService`: the size and type check, the storage path and
 * extension of an upload, uploading several files, and the icon and
 * image tests on a MIME type. The storage calls are outside the model:
 * what they answer is a parameter, and so is the time-and-random part of
 * the generated file name.
 */
module FileUpload {
  import opened Wrappers
  import opened Text

  datatype File = File(name: string, size: nat, mimeType: string)

  /** 10 MiB. */
  const MaxFileSize: nat := 10 * 1024 * 1024

  const AllowedTypes: seq<string> := [
    "image/jpeg", "image/png", "image/gif", "image/webp",
    "text/plain", "text/markdown",
    "application/pdf", "application/msword",
    "application/vnd.openxmlformats-officedocument.wordprocessingml.document",
    "application/json", "text/csv"]

  const SizeError: string := "File size must be less than 10MB"
  const TypeError: string := "File type not supported"

  /**
   * `validateFile`: `None` for an acceptable file, otherwise the reason.
   * The size is checked first, so a file that is both too large and of
   * the wrong type is reported as too large.
   */
  function Validate(f: File): (r: Option<string>)
    ensures r.None? <==> f.size <= MaxFileSize && f.mimeType in AllowedTypes
    ensures f.size > MaxFileSize ==> r == Some(SizeError)
    ensures f.size <= MaxFileSize && f.mimeType !in AllowedTypes ==> r == Some(TypeError)
  {
    if f.size > MaxFileSize then Some(SizeError)
    else if f.mimeType !in AllowedTypes then Some(TypeError)
    else None
  }

  /** A file of exactly 10 MiB and an allowed type is accepted; one byte more is not. */
  lemma SizeBoundary(name: string)
    ensures Validate(File(name, MaxFileSize, "application/pdf")).None?
    ensures Validate(File(name, MaxFileSize + 1, "application/pdf")) == Some(SizeError)
  {
    assert AllowedTypes[6] == "application/pdf";
  }

  // ---------------------------------------------------------------------
  // Extension and path
  // ---------------------------------------------------------------------

  /** `name.split('.').pop()`: the text after the last dot, or the whole name when there is none. */
  function Extension(name: string): (r: string)
    ensures '.' !in r
    ensures |r| <= |name| && r == name[|name| - |r|..]
    ensures |r| < |name| ==> name[|name| - |r| - 1] == '.'
    ensures '.' !in name ==> r == name
  {
    var parts := Split(name, '.');
    SplitPiecesAvoidSeparator(name, '.');
    LastPiece(name, '.');
    if '.' in name then parts[|parts| - 1]
    else
      SplitWithoutSeparator(name, '.');
      parts[|parts| - 1]
  }

  /** The last piece of a split is the suffix after the last separator. */
  lemma {:induction false} LastPiece(s: string, sep: char)
    ensures var ps := Split(s, sep); var r := ps[|ps| - 1];
      && |r| <= |s| && r == s[|s| - |r|..]
      && (|r| < |s| ==> s[|s| - |r| - 1] == sep)
      && (|ps| > 1 ==> |r| < |s|)
    decreases |s|
  {
    if |s| > 0 {
      LastPiece(s[1..], sep);
      var rest := Split(s[1..], sep);
      var r' := rest[|rest| - 1];
      SuffixOfTail(s, r', sep);
      if s[0] == sep {
        SplitAtSeparator(s, sep);
      } else if |rest| == 1 {
        SplitAtOther(s, sep);
        SplitThenJoin(s[1..], sep);
        assert r' == s[1..];
        assert s == [s[0]] + s[1..];
      } else {
        SplitAtOther(s, sep);
      }
    }
  }

  /** A suffix of `s[1..]` is a suffix of `s`, and the character before it stays where it was. */
  lemma SuffixOfTail(s: string, r: string, sep: char)
    requires |s| > 0 && |r| <= |s| - 1 && r == s[1..][|s| - 1 - |r|..]
    ensures r == s[|s| - |r|..]
    ensures |r| < |s| - 1 ==> s[1..][|s| - 1 - |r| - 1] == s[|s| - |r| - 1]
    ensures |r| == |s| - 1 ==> s[|s| - |r| - 1] == s[0]
  {
  }

  /** Whatever comes before the last dot, the extension is what follows it. */
  lemma ExtensionAfterDot(p: string, e: string)
    requires '.' !in e
    ensures Extension(p + "." + e) == e
  {
    SplitAround(p, e, '.');
    SplitWithoutSeparator(e, '.');
  }

  /** The storage path `chat-files/<chatId>/<generated>.<ext>`. */
  function StoragePath(chatId: string, generated: string, name: string): string {
    "chat-files/" + chatId + "/" + generated + "." + Extension(name)
  }

  /** The path keeps the file's extension, whatever the generated part holds. */
  lemma PathKeepsExtension(chatId: string, generated: string, name: string)
    ensures Extension(StoragePath(chatId, generated, name)) == Extension(name)
    ensures StartsWith(StoragePath(chatId, generated, name), "chat-files/" + chatId + "/")
  {
    var prefix := "chat-files/" + chatId + "/";
    var path := StoragePath(chatId, generated, name);
    assert path == (prefix + generated) + "." + Extension(name);
    ExtensionAfterDot(prefix + generated, Extension(name));
    assert path[..|prefix|] == prefix;
  }

  // ---------------------------------------------------------------------
  // Uploading
  // ---------------------------------------------------------------------

  /**
   * What the storage answered: the public URL, an error object it
   * returned, or a throw (with the message of an `Error`, or none for any
   * other thrown value).
   */
  datatype Storage = Stored(publicUrl: string) | Rejected(message: string) | Threw(error: Option<string>)

  datatype Uploaded = Uploaded(url: string, path: string, name: string, size: nat, mimeType: string)

  /** The result of one upload and the path written to storage, if storage was reached. */
  datatype Attempt = Attempt(result: Result<Uploaded, string>, written: Option<string>)

  const WrapPrefix: string := "Failed to upload file: "

  /**
   * `uploadFile`: a file that fails validation throws its reason and never
   * reaches storage; otherwise it is written under its storage path, and
   * storage failures come back wrapped in `Failed to upload file: `.
   */
  function Upload(f: File, chatId: string, generated: string, storage: Storage): (a: Attempt)
    ensures a.written.None? <==> Validate(f).Some?
    ensures Validate(f).Some? ==> a.result == Failure(Validate(f).value)
    ensures Validate(f).None? ==> a.written == Some(StoragePath(chatId, generated, f.name))
    ensures a.result.Success? <==> Validate(f).None? && storage.Stored?
    ensures a.result.Success? ==>
      a.result.value == Uploaded(storage.publicUrl, a.written.value, f.name, f.size, f.mimeType)
    ensures Validate(f).None? && storage.Rejected? ==>
      a.result == Failure(WrapPrefix + "Upload failed: " + storage.message)
    ensures Validate(f).None? && storage.Threw? ==>
      a.result == Failure(WrapPrefix + storage.error.GetOr("Unknown error"))
  {
    match Validate(f)
    case Some(e) => Attempt(Failure(e), None)
    case None =>
      var path := StoragePath(chatId, generated, f.name);
      var result := match storage
        case Stored(url) => Success(Uploaded(url, path, f.name, f.size, f.mimeType))
        case Rejected(m) => Failure(WrapPrefix + "Upload failed: " + m)
        case Threw(m) => Failure(WrapPrefix + m.GetOr("Unknown error"));
      Attempt(result, Some(path))
  }

  /** An upload that succeeded was of a valid file, stored under its chat with its extension. */
  lemma UploadedIsValid(f: File, chatId: string, generated: string, storage: Storage)
    requires Upload(f, chatId, generated, storage).result.Success?
    ensures var u := Upload(f, chatId, generated, storage).result.value;
      && u.size <= MaxFileSize && u.mimeType in AllowedTypes
      && Extension(u.path) == Extension(f.name)
      && StartsWith(u.path, "chat-files/" + chatId + "/")
  {
    PathKeepsExtension(chatId, generated, f.name);
  }

  /** `uploadMultipleFiles`: every file is tried in order; the failed ones are left out. */
  function UploadAll(files: seq<File>, chatId: string, generated: seq<string>, storage: seq<Storage>): (r: seq<Uploaded>)
    requires |generated| == |files| && |storage| == |files|
    ensures r == Successes(Attempts(files, chatId, generated, storage))
    decreases |files|
  {
    if |files| == 0 then []
    else
      var first := Upload(files[0], chatId, generated[0], storage[0]).result;
      var rest := UploadAll(files[1..], chatId, generated[1..], storage[1..]);
      assert Attempts(files, chatId, generated, storage)[1..] == Attempts(files[1..], chatId, generated[1..], storage[1..]);
      if first.Success? then [first.value] + rest else rest
  }

  /** The result of trying each file. */
  function Attempts(files: seq<File>, chatId: string, generated: seq<string>, storage: seq<Storage>): (r: seq<Result<Uploaded, string>>)
    requires |generated| == |files| && |storage| == |files|
    ensures |r| == |files|
    ensures forall i :: 0 <= i < |files| ==> r[i] == Upload(files[i], chatId, generated[i], storage[i]).result
  {
    seq(|files|, i requires 0 <= i < |files| => Upload(files[i], chatId, generated[i], storage[i]).result)
  }

  /** The successful values, in order. */
  function Successes<T, E>(rs: seq<Result<T, E>>): (r: seq<T>)
    ensures |r| <= |rs|
    decreases |rs|
  {
    if |rs| == 0 then []
    else if rs[0].Success? then [rs[0].value] + Successes(rs[1..])
    else Successes(rs[1..])
  }

  /** The positions the successes came from: increasing, and each one a success with that value. */
  function SuccessIndexes<T, E>(rs: seq<Result<T, E>>): (idx: seq<nat>)
    ensures |idx| == |Successes(rs)|
    ensures forall k :: 0 <= k < |idx| ==> idx[k] < |rs| && rs[idx[k]] == Success(Successes(rs)[k])
    ensures forall k, l :: 0 <= k < l < |idx| ==> idx[k] < idx[l]
    decreases |rs|
  {
    if |rs| == 0 then []
    else
      var rest := SuccessIndexes(rs[1..]);
      var shifted := Shift(rest);
      if rs[0].Success? then [0] + shifted else shifted
  }

  /** Every index moved one place on. */
  function Shift(xs: seq<nat>): (r: seq<nat>)
    ensures |r| == |xs|
    ensures forall k :: 0 <= k < |r| ==> r[k] == xs[k] + 1
  {
    seq(|xs|, k requires 0 <= k < |xs| => xs[k] + 1)
  }

  /** No success is left out of the positions. */
  lemma {:induction false} SuccessIndexesComplete<T, E>(rs: seq<Result<T, E>>, i: nat)
    requires i < |rs| && rs[i].Success?
    ensures i in SuccessIndexes(rs)
    decreases |rs|
  {
    var rest := SuccessIndexes(rs[1..]);
    var shifted := Shift(rest);
    if i == 0 {
      assert SuccessIndexes(rs) == [0] + shifted;
    } else {
      assert rs[1..][i - 1] == rs[i];
      SuccessIndexesComplete(rs[1..], i - 1);
      var k :| 0 <= k < |rest| && rest[k] == i - 1;
      assert shifted[k] == i;
      if rs[0].Success? {
        assert SuccessIndexes(rs) == [0] + shifted;
        assert SuccessIndexes(rs)[k + 1] == i;
      } else {
        assert SuccessIndexes(rs) == shifted;
      }
    }
  }

  /** All files upload exactly when the result is as long as the input. */
  lemma {:induction false} AllSucceedIffFullLength<T, E>(rs: seq<Result<T, E>>)
    ensures |Successes(rs)| == |rs| <==> forall i :: 0 <= i < |rs| ==> rs[i].Success?
    decreases |rs|
  {
    if |rs| > 0 {
      AllSucceedIffFullLength(rs[1..]);
      if forall i :: 0 <= i < |rs| ==> rs[i].Success? {
        assert forall i :: 0 <= i < |rs[1..]| ==> rs[1..][i].Success? by {
          forall i | 0 <= i < |rs[1..]| ensures rs[1..][i].Success? { assert rs[1..][i] == rs[i + 1]; }
        }
      } else if rs[0].Success? {
        var i :| 0 <= i < |rs| && !rs[i].Success?;
        assert rs[1..][i - 1] == rs[i];
      }
    }
  }

  // ---------------------------------------------------------------------
  // Icons
  // ---------------------------------------------------------------------

  /** The icon groups `getFileIcon` distinguishes, in the order it tests them. */
  datatype IconKind = ImageIcon | PdfIcon | WordIcon | TextIcon | JsonIcon | CsvIcon | OtherIcon

  /** `getFileIcon`: the first test the MIME type passes decides. */
  function IconKindOf(fileType: string): (k: IconKind)
    ensures k == ImageIcon <==> IsImageFile(fileType)
    ensures k == PdfIcon <==> !StartsWith(fileType, "image/") && Contains(fileType, "pdf")
    ensures k == WordIcon <==>
      && !StartsWith(fileType, "image/") && !Contains(fileType, "pdf")
      && (Contains(fileType, "word") || Contains(fileType, "document"))
    ensures k == TextIcon <==>
      && !StartsWith(fileType, "image/") && !Contains(fileType, "pdf") && !Contains(fileType, "word")
      && !Contains(fileType, "document") && Contains(fileType, "text")
    ensures k == JsonIcon <==>
      && !StartsWith(fileType, "image/") && !Contains(fileType, "pdf") && !Contains(fileType, "word")
      && !Contains(fileType, "document") && !Contains(fileType, "text") && Contains(fileType, "json")
    ensures k == CsvIcon <==>
      && !StartsWith(fileType, "image/") && !Contains(fileType, "pdf") && !Contains(fileType, "word")
      && !Contains(fileType, "document") && !Contains(fileType, "text") && !Contains(fileType, "json")
      && Contains(fileType, "csv")
    ensures k == OtherIcon <==>
      && !StartsWith(fileType, "image/") && !Contains(fileType, "pdf") && !Contains(fileType, "word")
      && !Contains(fileType, "document") && !Contains(fileType, "text") && !Contains(fileType, "json")
      && !Contains(fileType, "csv")
  {
    if StartsWith(fileType, "image/") then ImageIcon
    else if Contains(fileType, "pdf") then PdfIcon
    else if Contains(fileType, "word") || Contains(fileType, "document") then WordIcon
    else if Contains(fileType, "text") then TextIcon
    else if Contains(fileType, "json") then JsonIcon
    else if Contains(fileType, "csv") then CsvIcon
    else OtherIcon
  }

  /** The icon shown; PDFs and text files share one. */
  function Icon(k: IconKind): string {
    match k
    case ImageIcon => "\U{1F5BC}\U{FE0F}"
    case PdfIcon => "\U{1F4C4}"
    case WordIcon => "\U{1F4DD}"
    case TextIcon => "\U{1F4C4}"
    case JsonIcon => "\U{1F4CB}"
    case CsvIcon => "\U{1F4CA}"
    case OtherIcon => "\U{1F4CE}"
  }

  /** `isImageFile` */
  predicate IsImageFile(fileType: string) {
    StartsWith(fileType, "image/")
  }

  /** `text/csv` is caught by the text test before the CSV test is reached. */
  lemma CsvGetsTextIcon()
    ensures IconKindOf("text/csv") == TextIcon
  {
    CsvTypeChecks("text/csv");
    TextIconWhen("text/csv");
  }

  /** How `text/csv` fares in each check `getFileIcon` makes before the text check. */
  lemma CsvTypeChecks(t: string)
    requires t == "text/csv"
    ensures !StartsWith(t, "image/") && !Contains(t, "pdf")
    ensures !Contains(t, "word") && !Contains(t, "document") && Contains(t, "text")
  {
    assert t[0] != "image/"[0];
    CsvTypeLacks('p');
    CsvTypeLacks('w');
    CsvTypeLacks('d');
    FirstCharAbsent(t, "pdf");
    FirstCharAbsent(t, "word");
    FirstCharAbsent(t, "document");
    assert t[..4] == "text";
  }

  /** The characters `text/csv` is made of. */
  lemma CsvTypeLacks(c: char)
    requires c !in {'t', 'e', 'x', '/', 'c', 's', 'v'}
    ensures c !in "text/csv"
  {
  }

  /** The checks that pick the text icon, in the order `getFileIcon` makes them. */
  lemma TextIconWhen(t: string)
    requires !StartsWith(t, "image/") && !Contains(t, "pdf")
    requires !Contains(t, "word") && !Contains(t, "document") && Contains(t, "text")
    ensures IconKindOf(t) == TextIcon
  {
  }
}

=== FILE: handlers.dfy ===
/**
 * The decisions the five chat entry points make around the model call:
 * the `mojo`, `mojo-plus` and `mojo-ai-sdk` Next.js routes and the
 * `chat-mojo` and `chat-mojo-plus` Netlify functions. Covered here are
 * method gating, the API-key and body checks, the mapping of thrown
 * errors to HTTP statuses, the conversation text, the model input list,
 * the user-context sections appended to the system prompt, the shaping
 * of a non-streamed reply and the AI SDK tools' results.
 *
 * The model call, the profile lookup and `fetch` are foreign: their
 * results enter as parameters. The system prompt prose is an opaque
 * `base` string.
 */
module ChatHandlers {
  import opened Wrappers
  import opened Text
  import opened JsonValue

  datatype Handler = MojoRoute | MojoPlusRoute | AiSdkRoute | MojoFunction | MojoPlusFunction

  /** The Netlify functions answer every HTTP method themselves. */
  predicate IsFunction(h: Handler) {
    h == MojoFunction || h == MojoPlusFunction
  }

  /** The handlers that refuse to start without `OPENAI_API_KEY`. */
  predicate ChecksApiKey(h: Handler) {
    h == MojoRoute || h == AiSdkRoute || h == MojoFunction
  }

  /** The handlers with a `model_not_found` case. */
  predicate KnowsModelNotFound(h: Handler) {
    h == MojoPlusRoute || h == MojoPlusFunction
  }

  /** The handlers with a case for messages mentioning MCP. */
  predicate KnowsMcpErrors(h: Handler) {
    h == AiSdkRoute || h == MojoFunction || h == MojoPlusFunction
  }

  /** A thrown error as the handlers inspect it: its `code` and `message`. */
  datatype ApiError = ApiError(code: Option<Json>, message: Option<string>)

  /**
   * Destructuring a request body of `null` throws a `TypeError`; its
   * message (the V8 wording) mentions neither quota nor MCP.
   */
  const NullBodyError: ApiError :=
    ApiError(None, Some("Cannot destructure property 'messages' of 'body' as it is null."))

  /** What a handler answers. */
  datatype Reply =
    | Preflight                                                  // 200 with an empty body
    | ErrorReply(status: int, error: string, details: Option<string>)
    | Completed(completion: Completion)                          // 200 with the JSON reply
    | Streamed                                                   // 200 with the event stream

  /**
   * The JSON reply to a non-streamed request, less what the foreign model
   * result supplies verbatim: `usage`, `metadata.tokens` (its total token
   * count) and the mojo-plus handlers' `metadata.reasoning_summary` (its
   * reasoning summary, or `null`).
   */
  datatype Completion = Completion(
    model: string,
    content: string,
    toolCalls: Option<seq<Json>>,
    metadataModel: string,
    reasoningEffort: Option<string>,
    toolsUsed: seq<Json>)

  // ---------------------------------------------------------------------
  // Admission: method, API key, body.
  // ---------------------------------------------------------------------

  /** How the checks before the model call end. */
  datatype Admission =
    | Admitted(messages: seq<Json>, stream: bool, userId: Option<Json>)
    | Answered(reply: Reply)
    | Threw(error: ApiError)

  const MethodNotAllowed: Reply := ErrorReply(405, "Method not allowed", None)
  const KeyMissing: Reply := ErrorReply(500, "OpenAI API key not configured", None)
  const MessagesRequired: Reply := ErrorReply(400, "Messages array is required", None)

  /** `!messages || !Array.isArray(messages)` fails. */
  predicate HasMessageArray(body: Json) {
    var ms := Field(body, "messages");
    ms.Some? && ms.value.JArr?
  }

  /**
   * The checks in the order each handler makes them. `body` is the parsed
   * request body, or the error parsing it threw (which the handler's
   * `catch` receives).
   */
  function Admit(h: Handler, httpMethod: string, hasApiKey: bool, body: Result<Json, ApiError>): (a: Admission)
    ensures IsFunction(h) && httpMethod == "OPTIONS" ==> a == Answered(Preflight)
    ensures a == Answered(MethodNotAllowed) <==> IsFunction(h) && httpMethod != "OPTIONS" && httpMethod != "POST"
    ensures a == Answered(KeyMissing) <==>
      (!IsFunction(h) || httpMethod == "POST") && ChecksApiKey(h) && !hasApiKey
    ensures a == Answered(MessagesRequired) <==>
      (!IsFunction(h) || httpMethod == "POST") && (!ChecksApiKey(h) || hasApiKey)
      && body.Success? && body.value != JNull && !HasMessageArray(body.value)
    ensures a.Threw? <==>
      (!IsFunction(h) || httpMethod == "POST") && (!ChecksApiKey(h) || hasApiKey)
      && (body.Failure? || body.value == JNull)
    ensures a.Admitted? ==>
      && body.Success? && a.messages == Field(body.value, "messages").value.items
      && a.stream == Truthy(Field(body.value, "stream")) && a.userId == Field(body.value, "userId")
  {
    if IsFunction(h) && httpMethod == "OPTIONS" then Answered(Preflight)
    else if IsFunction(h) && httpMethod != "POST" then Answered(MethodNotAllowed)
    else if ChecksApiKey(h) && !hasApiKey then Answered(KeyMissing)
    else
      match body
      case Failure(e) => Threw(e)
      case Success(b) =>
        if b == JNull then Threw(NullBodyError)
        else if !HasMessageArray(b) then Answered(MessagesRequired)
        else Admitted(Field(b, "messages").value.items, Truthy(Field(b, "stream")), Field(b, "userId"))
  }

  /** Without a key, the handlers that check for one answer before reading the body. */
  lemma KeyCheckPrecedesBody(h: Handler, b1: Result<Json, ApiError>, b2: Result<Json, ApiError>)
    requires ChecksApiKey(h)
    ensures Admit(h, "POST", false, b1) == Admit(h, "POST", false, b2) == Answered(KeyMissing)
  {
  }

  /** The mojo-plus handlers never look at the key. */
  lemma MojoPlusIgnoresKey(h: Handler, httpMethod: string, body: Result<Json, ApiError>)
    requires h == MojoPlusRoute || h == MojoPlusFunction
    ensures Admit(h, httpMethod, false, body) == Admit(h, httpMethod, true, body)
  {
  }

  // ---------------------------------------------------------------------
  // Error mapping.
  // ---------------------------------------------------------------------

  const QuotaMessage: string := "API quota exceeded. Please try again later."
  const RateLimitMessage: string := "Rate limit exceeded. Please wait a moment and try again."
  const ModelMissingMessage: string := "O3 model not available. Please try again later."
  const McpFailedMessage: string := "MCP server connection failed. Some tools may be unavailable."
  const InternalMessage: string := "Internal server error"

  predicate HasCode(e: ApiError, code: string) {
    IsString(e.code, code)
  }

  /** `error.message?.includes('mcp') || error.message?.includes('MCP')` */
  predicate MentionsMcp(e: ApiError) {
    e.message.Some? && (Contains(e.message.value, "mcp") || Contains(e.message.value, "MCP"))
  }

  /**
   * The reply a handler's `catch` gives, first match winning: quota, rate
   * limit, then (where the handler has them) a missing model and MCP
   * failures, then a generic 500. The functions always attach the error's
   * message as `details`; the AI SDK route only to its MCP reply.
   */
  function MapError(h: Handler, e: ApiError): (r: Reply)
    ensures r.ErrorReply?
    ensures r.status == 429 <==> HasCode(e, "insufficient_quota") || HasCode(e, "rate_limit_exceeded")
    ensures HasCode(e, "insufficient_quota") ==> r.error == QuotaMessage
    ensures r.status == 503 <==>
      !HasCode(e, "insufficient_quota") && !HasCode(e, "rate_limit_exceeded")
      && ((KnowsModelNotFound(h) && HasCode(e, "model_not_found")) || (KnowsMcpErrors(h) && MentionsMcp(e)))
    ensures r.status == 429 || r.status == 503 || r.status == 500
    ensures r.status == 500 ==> r.error == InternalMessage
    ensures r.details.Some? ==> r.details == e.message
    ensures IsFunction(h) ==> r.details == e.message
    ensures !IsFunction(h) && h != AiSdkRoute ==> r.details.None?
  {
    var details := if IsFunction(h) then e.message else None;
    if HasCode(e, "insufficient_quota") then ErrorReply(429, QuotaMessage, details)
    else if HasCode(e, "rate_limit_exceeded") then ErrorReply(429, RateLimitMessage, details)
    else if KnowsModelNotFound(h) && HasCode(e, "model_not_found") then ErrorReply(503, ModelMissingMessage, details)
    else if KnowsMcpErrors(h) && MentionsMcp(e) then
      ErrorReply(503, McpFailedMessage, if h == AiSdkRoute then e.message else details)
    else ErrorReply(500, InternalMessage, details)
  }

  /**
   * The mojo-plus route differs from the mojo route only on
   * `model_not_found`: there it answers 503 where the mojo route answers
   * 500.
   */
  lemma PlusRouteAddsModelNotFound(e: ApiError)
    ensures MapError(MojoPlusRoute, e) != MapError(MojoRoute, e) <==>
      !HasCode(e, "insufficient_quota") && !HasCode(e, "rate_limit_exceeded") && HasCode(e, "model_not_found")
  {
  }

  /** A handler's whole answer when the checks fail or throw. */
  function Preliminary(h: Handler, a: Admission): (r: Option<Reply>)
    ensures a.Admitted? <==> r.None?
    ensures a.Threw? ==> r == Some(MapError(h, a.error))
  {
    match a
    case Admitted(_, _, _) => None
    case Answered(reply) => Some(reply)
    case Threw(e) => Some(MapError(h, e))
  }

  // ---------------------------------------------------------------------
  // The conversation as the model receives it.
  // ---------------------------------------------------------------------

  /** `${msg.role === 'user' ? 'User' : 'Assistant'}: ${msg.content}` */
  function ConversationLine(msg: Json): string {
    (if IsString(Field(msg, "role"), "user") then "User" else "Assistant") + ": " + Interpolate(Field(msg, "content"))
  }

  function ConversationLines(ms: seq<Json>): (r: seq<string>)
    ensures |r| == |ms|
    ensures forall i :: 0 <= i < |ms| ==> r[i] == ConversationLine(ms[i])
    decreases |ms|
  {
    if |ms| == 0 then [] else [ConversationLine(ms[0])] + ConversationLines(ms[1..])
  }

  /**
   * The conversation text of the `mojo` and `mojo-plus` handlers: one line
   * per message joined by a blank line. Reading `.role` of a `null`
   * element throws, which is `None`.
   */
  function ConversationText(ms: seq<Json>): (r: Option<string>)
    ensures r.None? <==> JNull in ms
  {
    if JNull in ms then None else Some(Join(ConversationLines(ms), "\n\n"))
  }

  /** A message renders as `User: ` exactly when its role is `user`, otherwise as `Assistant: `. */
  lemma ConversationLineRole(msg: Json)
    ensures IsString(Field(msg, "role"), "user") <==> StartsWith(ConversationLine(msg), "User: ")
    ensures !IsString(Field(msg, "role"), "user") <==> StartsWith(ConversationLine(msg), "Assistant: ")
  {
    var line := ConversationLine(msg);
    var rest := Interpolate(Field(msg, "content"));
    if IsString(Field(msg, "role"), "user") {
      assert line == "User: " + rest;
      assert line[..6] == "User: ";
      assert line[0] != "Assistant: "[0];
    } else {
      assert line == "Assistant: " + rest;
      assert line[..11] == "Assistant: ";
      assert line[0] != "User: "[0];
    }
  }

  /** The text of a longer conversation is the texts of its parts, a blank line between. */
  lemma ConversationAppend(xs: seq<Json>, ys: seq<Json>)
    requires |xs| > 0 && |ys| > 0 && JNull !in xs && JNull !in ys
    ensures ConversationText(xs + ys) == Some(ConversationText(xs).value + "\n\n" + ConversationText(ys).value)
  {
    ConversationLinesAppend(xs, ys);
    assert JNull !in xs + ys;
    JoinAppend(ConversationLines(xs), ConversationLines(ys), "\n\n");
  }

  lemma {:induction false} ConversationLinesAppend(xs: seq<Json>, ys: seq<Json>)
    ensures ConversationLines(xs + ys) == ConversationLines(xs) + ConversationLines(ys)
    decreases |xs|
  {
    if |xs| == 0 {
      assert xs + ys == ys;
    } else {
      assert (xs + ys)[0] == xs[0];
      assert (xs + ys)[1..] == xs[1..] + ys;
      ConversationLinesAppend(xs[1..], ys);
    }
  }

  /**
   * `{role: msg.role, content: msg.content}`; a missing property stays
   * missing. Reading `.role` of a `null` message throws, which is `None`.
   */
  function RoleAndContent(msg: Json): (r: Option<Json>)
    ensures r.None? <==> msg == JNull
    ensures r.Some? ==> Field(r.value, "role") == Field(msg, "role") && Field(r.value, "content") == Field(msg, "content")
    ensures r.Some? ==> r.value.JObj? && r.value.fields.Keys <= {"role", "content"}
  {
    if msg == JNull then None
    else
      var role := Field(msg, "role");
      var content := Field(msg, "content");
      var withRole: map<string, Json> := if role.Some? then map["role" := role.value] else map[];
      Some(JObj(if content.Some? then withRole["content" := content.value] else withRole))
  }

  /** `messages.map(...)` over `RoleAndContent`: the first `null` message ends it with `None`. */
  function RolesAndContents(ms: seq<Json>): (r: Option<seq<Json>>)
    ensures r.None? <==> JNull in ms
    ensures r.Some? ==> |r.value| == |ms| && forall i :: 0 <= i < |ms| ==> RoleAndContent(ms[i]) == Some(r.value[i])
    decreases |ms|
  {
    if |ms| == 0 then Some([])
    else
      match RoleAndContent(ms[0])
      case None => None
      case Some(first) =>
        var rest := RolesAndContents(ms[1..]);
        assert ms == [ms[0]] + ms[1..];
        if rest.None? then None else Some([first] + rest.value)
  }

  function SystemMessage(system: string): Json {
    JObj(map["role" := JStr("system"), "content" := JStr(system)])
  }

  /**
   * The model input of the `chat-mojo` function (and, less the system
   * entry, of the AI SDK route): the system message, then each message
   * reduced to its role and content, in order. A `null` message makes the
   * `map` throw, which is `None`.
   */
  function InputMessages(system: string, ms: seq<Json>): (r: Option<seq<Json>>)
    ensures r.None? <==> JNull in ms
    ensures r.Some? ==> |r.value| == |ms| + 1 && r.value[0] == SystemMessage(system)
    ensures r.Some? ==> forall i :: 0 <= i < |ms| ==>
      Field(r.value[i + 1], "role") == Field(ms[i], "role") && Field(r.value[i + 1], "content") == Field(ms[i], "content")
  {
    match RolesAndContents(ms)
    case None => None
    case Some(reduced) => Some([SystemMessage(system)] + reduced)
  }

  /**
   * The model input and the conversation text fail on the same messages,
   * and each entry after the system message renders as the line the
   * `mojo` handlers write for the same message.
   */
  lemma InputMatchesConversation(system: string, ms: seq<Json>)
    ensures InputMessages(system, ms).None? <==> ConversationText(ms).None?
    ensures InputMessages(system, ms).Some? ==> forall k :: 0 <= k < |ms| ==>
      ConversationLine(InputMessages(system, ms).value[k + 1]) == ConversationLines(ms)[k]
  {
  }

  /** Reading `.role` of a `null` message throws this `TypeError` (V8 wording). */
  const NullMessageError: ApiError :=
    ApiError(None, Some("Cannot read " + "properties " + "of null " + "(reading 'role')"))

  /**
   * The model input a handler hands to the model call, or the reply its
   * `catch` gives when building the input threw.
   */
  function ModelInput(h: Handler, system: string, ms: seq<Json>): (r: Result<seq<Json>, Reply>)
    ensures r.Failure? <==> JNull in ms
    ensures r.Failure? ==> r.error == MapError(h, NullMessageError)
    ensures r.Success? ==> Some(r.value) == InputMessages(system, ms)
  {
    match InputMessages(system, ms)
    case None => Failure(MapError(h, NullMessageError))
    case Some(input) => Success(input)
  }

  lemma NullMessageLacksM()
    ensures NullMessageError.message.Some?
    ensures 'm' !in NullMessageError.message.value && 'M' !in NullMessageError.message.value
  {
    var a, b, c, d := "Cannot read ", "properties ", "of null ", "(reading 'role')";
    assert 'm' !in a && 'M' !in a by {}
    assert 'm' !in b && 'M' !in b by {}
    assert 'm' !in c && 'M' !in c by {}
    assert 'm' !in d && 'M' !in d by {}
    NotInAppend('m', a, b); NotInAppend('m', a + b, c); NotInAppend('m', a + b + c, d);
    NotInAppend('M', a, b); NotInAppend('M', a + b, c); NotInAppend('M', a + b + c, d);
  }

  /** The `TypeError` text mentions MCP in neither spelling. */
  lemma NullMessageMentionsNoMcp()
    ensures !MentionsMcp(NullMessageError)
  {
    NullMessageLacksM();
    FirstCharAbsent(NullMessageError.message.value, "mcp");
    FirstCharAbsent(NullMessageError.message.value, "MCP");
  }

  /** A `null` message is answered with the generic 500, never with 429 or 503. */
  lemma NullMessageIsInternal(h: Handler, system: string, ms: seq<Json>)
    requires JNull in ms
    ensures ModelInput(h, system, ms).Failure?
    ensures ModelInput(h, system, ms).error.status == 500
    ensures ModelInput(h, system, ms).error.error == InternalMessage
  {
    NullMessageMentionsNoMcp();
  }

  // ---------------------------------------------------------------------
  // User context.
  // ---------------------------------------------------------------------

  /** The profile row the lookup selects; `interests` is an array column. */
  datatype Profile = Profile(
    fullName: Option<Json>,
    location: Option<Json>,
    age: Option<Json>,
    occupation: Option<Json>,
    interests: Option<seq<Json>>,
    hobbies: Option<Json>,
    goals: Option<Json>,
    bio: Option<Json>)

  /** What the database lookup settles with; `LookupThrew` is caught and ignored. */
  datatype Lookup = Lookup(data: Option<Profile>, failed: bool) | LookupThrew

  /**
   * The Supabase client exists only when both settings are non-empty and
   * are not the placeholder values of the example configuration.
   */
  predicate SupabaseConfigured(url: Option<string>, key: Option<string>) {
    && url.Some? && url.value != "" && key.Some? && key.value != ""
    && url.value != "your_supabase_url_here" && key.value != "your_supabase_anon_key_here"
  }

  /** The Next.js `mojo` and `mojo-plus` routes create their client unconditionally. */
  predicate ClientAvailable(h: Handler, url: Option<string>, key: Option<string>) {
    h == MojoRoute || h == MojoPlusRoute || SupabaseConfigured(url, key)
  }

  /** The profile used: looked up only for a truthy `userId` with a client, kept only without an error. */
  function LookedUpProfile(userId: Option<Json>, client: bool, l: Lookup): (r: Option<Profile>)
    ensures r.Some? <==> Truthy(userId) && client && l.Lookup? && l.data.Some? && !l.failed
    ensures r.Some? ==> r == l.data
  {
    if Truthy(userId) && client && l.Lookup? && l.data.Some? && !l.failed then l.data else None
  }

  /** The name the mojo-plus handlers use: a truthy `full_name` of a successful lookup. */
  function LookedUpName(userId: Option<Json>, client: bool, l: Lookup): (r: Option<Json>)
    ensures r.Some? ==> Truthy(r)
    ensures r.Some? <==> LookedUpProfile(userId, client, l).Some? && Truthy(LookedUpProfile(userId, client, l).value.fullName)
  {
    var p := LookedUpProfile(userId, client, l);
    if p.Some? && Truthy(p.value.fullName) then p.value.fullName else None
  }

  const ContextHeader: string := "\n\n# User Context\n"
  const ContextClosing: string :=
    "\n\nUse this information to make your responses more personalized and relevant, but don't be overly obvious about it. Weave it naturally into your witty, sarcastic responses."
  const ReducedContextClosing: string :=
    "\n\nUse this information to make your responses more personalized and relevant, but don't be overly obvious about it."

  /** The sentence for a field when it is truthy, otherwise nothing. */
  function Sentence(v: Option<Json>, before: string, after: string): (r: string)
    ensures r != "" <==> Truthy(v) && (before != "" || after != "" || ToText(v.value) != "")
    ensures Truthy(v) ==> r == before + ToText(v.value) + after
  {
    if Truthy(v) then before + ToText(v.value) + after else ""
  }

  /** The interests sentence: only for a non-empty list, its items joined by `, `. */
  function InterestsSentence(v: Option<seq<Json>>): (r: string)
    ensures r != "" <==> v.Some? && |v.value| > 0
    ensures v.Some? && |v.value| > 0 ==>
      r == "Their interests include: " + Join(ElementTexts(v.value), ", ") + ". "
  {
    if v.Some? && |v.value| > 0 then "Their interests include: " + Join(ElementTexts(v.value), ", ") + ". " else ""
  }

  /**
   * The eight sentences of the full user context in their fixed order:
   * name, location, age, occupation, interests, hobbies, goals, bio. A
   * sentence is empty exactly when its field is falsy.
   */
  function Sentences(p: Profile): (r: seq<string>)
    ensures |r| == 8
    ensures r[0] != "" <==> Truthy(p.fullName)
    ensures r[1] != "" <==> Truthy(p.location)
    ensures r[2] != "" <==> Truthy(p.age)
    ensures r[3] != "" <==> Truthy(p.occupation)
    ensures r[4] != "" <==> p.interests.Some? && |p.interests.value| > 0
    ensures r[5] != "" <==> Truthy(p.hobbies)
    ensures r[6] != "" <==> Truthy(p.goals)
    ensures r[7] != "" <==> Truthy(p.bio)
  {
    [ Sentence(p.fullName, "The user's name is ", ". "),
      Sentence(p.location, "They're located in ", ". "),
      Sentence(p.age, "They're ", " years old. "),
      Sentence(p.occupation, "They work as a ", ". "),
      InterestsSentence(p.interests),
      Sentence(p.hobbies, "Their hobbies: ", ". "),
      Sentence(p.goals, "Their goals: ", ". "),
      Sentence(p.bio, "About them: ", ". ") ]
  }

  /**
   * The system instruction of the `mojo` handlers: the base prompt, and
   * for a looked-up profile a User Context section listing its truthy
   * fields in order.
   */
  function ProfileInstruction(base: string, p: Option<Profile>): (r: string)
    ensures p.None? ==> r == base
    ensures p.Some? ==> |r| > |base| && StartsWith(r, base + ContextHeader)
    ensures p.Some? ==> r == base + ContextHeader + Concat(Sentences(p.value)) + ContextClosing
  {
    if p.None? then base else base + ContextHeader + Concat(Sentences(p.value)) + ContextClosing
  }

  /**
   * The AI SDK route's reduced context: of the full section's sentences
   * only the name, location and interests ones, with a shorter closing.
   */
  function ReducedInstruction(base: string, p: Option<Profile>): (r: string)
    ensures p.None? ==> r == base
    ensures p.Some? ==> |r| > |base| && StartsWith(r, base + ContextHeader)
    ensures p.Some? ==> var s := Sentences(p.value);
      r == base + ContextHeader + s[0] + s[1] + s[4] + ReducedContextClosing
  {
    if p.None? then base
    else
      var s := Sentences(p.value);
      var r := base + ContextHeader + s[0] + s[1] + s[4] + ReducedContextClosing;
      assert StartsWith(r, base + ContextHeader) by {
        PrefixOfAppend(base + ContextHeader, s[0] + s[1] + s[4] + ReducedContextClosing);
        AppendAssociative(base + ContextHeader, s[0] + s[1] + s[4], ReducedContextClosing);
        AppendAssociative(base + ContextHeader, s[0] + s[1], s[4]);
        AppendAssociative(base + ContextHeader, s[0], s[1]);
      }
      r
  }

  /** The profile with only the fields the reduced context reads. */
  function NameLocationInterests(p: Profile): Profile {
    Profile(p.fullName, p.location, None, None, p.interests, None, None, None)
  }

  /** The reduced context reads the name, location and interests and nothing else. */
  lemma ReducedIgnoresOtherFields(base: string, p: Profile, q: Profile)
    requires p.fullName == q.fullName && p.location == q.location && p.interests == q.interests
    ensures ReducedInstruction(base, Some(p)) == ReducedInstruction(base, Some(q))
  {
  }

  /**
   * The reduced section holds exactly what the full section of the same
   * profile holds once every other field is left out: by
   * ReducedInstruction's contract, its body is this concatenation.
   */
  lemma ReducedIsFullOfThreeFields(p: Profile)
    ensures Concat(Sentences(NameLocationInterests(p))) == Sentences(p)[0] + Sentences(p)[1] + Sentences(p)[4]
  {
    var q := NameLocationInterests(p);
    SentencesOfSameFields(p, q);
    ConcatOfThreeOfEight(Sentences(q));
  }

  /** Profiles agreeing on the name, location and interests agree on those sentences. */
  lemma SentencesOfSameFields(p: Profile, q: Profile)
    requires p.fullName == q.fullName && p.location == q.location && p.interests == q.interests
    ensures Sentences(p)[0] == Sentences(q)[0]
    ensures Sentences(p)[1] == Sentences(q)[1]
    ensures Sentences(p)[4] == Sentences(q)[4]
  {
  }

  /** Eight parts of which only the first, second and fifth may be non-empty. */
  lemma ConcatOfThreeOfEight(s: seq<string>)
    requires |s| == 8 && s[2] == "" && s[3] == "" && s[5] == "" && s[6] == "" && s[7] == ""
    ensures Concat(s) == s[0] + s[1] + s[4]
  {
    assert s == [s[0], s[1]] + ([s[2], s[3]] + [s[4]]) + [s[5], s[6], s[7]];
    ConcatAppend([s[0], s[1]] + ([s[2], s[3]] + [s[4]]), [s[5], s[6], s[7]]);
    ConcatAppend([s[0], s[1]], [s[2], s[3]] + [s[4]]);
    ConcatAppend([s[2], s[3]], [s[4]]);
    AllEmptyConcat([s[2], s[3]]);
    AllEmptyConcat([s[5], s[6], s[7]]);
    ConcatAppend([s[0]], [s[1]]);
    ConcatOne(s[0]);
    ConcatOne(s[1]);
    ConcatOne(s[4]);
  }

  /** A profile with no truthy field still gets the section, with nothing between header and closing. */
  lemma EmptyProfileHasEmptySection(base: string, p: Profile)
    requires !Truthy(p.fullName) && !Truthy(p.location) && !Truthy(p.age) && !Truthy(p.occupation)
    requires p.interests.None? || |p.interests.value| == 0
    requires !Truthy(p.hobbies) && !Truthy(p.goals) && !Truthy(p.bio)
    ensures ProfileInstruction(base, Some(p)) == base + ContextHeader + ContextClosing
  {
    var s := Sentences(p);
    assert forall i :: 0 <= i < 8 ==> s[i] == "";
    AllEmptyConcat(s);
  }

  /** The mojo-plus instruction: a User Context section with the name exactly when one was found. */
  function NameInstruction(base: string, name: Option<Json>): (r: string)
    ensures !Truthy(name) ==> r == base
    ensures Truthy(name) ==> |r| > |base| && StartsWith(r, base + ContextHeader)
  {
    if Truthy(name) then
      base + ContextHeader + "The user's name is " + ToText(name.value) + ". You may address them by name when appropriate."
    else base
  }

  /** The mojo-plus prompt changes exactly when the lookup yields a truthy name. */
  lemma NameContextIffName(base: string, userId: Option<Json>, client: bool, l: Lookup)
    ensures var name := LookedUpName(userId, client, l);
      NameInstruction(base, name) != base <==>
        Truthy(userId) && client && l.Lookup? && l.data.Some? && !l.failed && Truthy(l.data.value.fullName)
  {
  }

  // ---------------------------------------------------------------------
  // The non-streamed reply.
  // ---------------------------------------------------------------------

  const ToolCallTypes: seq<string> := ["image_generation_call", "code_interpreter_call", "mcp_call"]

  predicate IsToolItem(item: Json) {
    IsString(Field(item, "type"), "image_generation_call")
    || IsString(Field(item, "type"), "code_interpreter_call")
    || IsString(Field(item, "type"), "mcp_call")
  }

  /** The output items of the three tool-call types, in order. */
  function ToolItems(output: seq<Json>): (r: seq<Json>)
    ensures |r| <= |output|
    ensures forall i :: 0 <= i < |r| ==> IsToolItem(r[i])
    ensures (forall i :: 0 <= i < |output| ==> IsToolItem(output[i])) ==> r == output
    decreases |output|
  {
    if |output| == 0 then []
    else if IsToolItem(output[0]) then [output[0]] + ToolItems(output[1..])
    else ToolItems(output[1..])
  }

  /** Filtering distributes over concatenation, so with its single-item case it is determined. */
  lemma {:induction false} ToolItemsAppend(xs: seq<Json>, ys: seq<Json>)
    ensures ToolItems(xs + ys) == ToolItems(xs) + ToolItems(ys)
    decreases |xs|
  {
    if |xs| == 0 {
      assert xs + ys == ys;
    } else {
      assert (xs + ys)[0] == xs[0];
      assert (xs + ys)[1..] == xs[1..] + ys;
      ToolItemsAppend(xs[1..], ys);
    }
  }

  lemma ToolItemsOne(item: Json)
    ensures ToolItems([item]) == if IsToolItem(item) then [item] else []
  {
    assert [item][1..] == [];
  }

  /** `toolResults.map(tool => tool.type)` */
  function TypesOf(items: seq<Json>): (r: seq<Json>)
    ensures |r| == |items|
    ensures forall i :: 0 <= i < |items| ==> r[i] == Field(items[i], "type").GetOr(JNull)
    ensures forall i :: 0 <= i < |items| && IsToolItem(items[i]) ==> Field(items[i], "type") == Some(r[i])
    decreases |items|
  {
    if |items| == 0 then [] else [Field(items[0], "type").GetOr(JNull)] + TypesOf(items[1..])
  }

  /**
   * A non-streamed Responses API reply: the text (`''` when missing) and
   * the tool items; 500 when both are empty. The mojo-plus handlers
   * report `reasoning_effort: 'high'` whatever the request asked.
   */
  function ResponsesReply(plus: bool, outputText: Option<string>, output: Option<seq<Json>>): (r: Reply)
    ensures var tools := ToolItems(output.GetOr([]));
      var text := outputText.GetOr("");
      && (r == ErrorReply(500, "No response generated", None) <==> text == "" && |tools| == 0)
      && (r.ErrorReply? || r.Completed?)
      && (r.Completed? ==>
        && r.completion.content == text
        && (r.completion.toolCalls.Some? <==> |tools| > 0)
        && (r.completion.toolCalls.Some? ==> r.completion.toolCalls.value == tools)
        && r.completion.toolsUsed == TypesOf(tools)
        && r.completion.model == (if plus then "mojo++" else "mojo")
        && r.completion.metadataModel == (if plus then "o3-mini" else "gpt-4.1")
        && r.completion.reasoningEffort == (if plus then Some("high") else None))
  {
    var text := outputText.GetOr("");
    var tools := ToolItems(output.GetOr([]));
    if text == "" && |tools| == 0 then ErrorReply(500, "No response generated", None)
    else
      Completed(Completion(
        if plus then "mojo++" else "mojo",
        text,
        if |tools| > 0 then Some(tools) else None,
        if plus then "o3-mini" else "gpt-4.1",
        if plus then Some("high") else None,
        TypesOf(tools)))
  }

  /** The AI SDK's `generateText` result, reduced to the text and the tool calls. */
  function ToolNames(calls: seq<Json>): (r: seq<Json>)
    ensures |r| == |calls|
    ensures forall i :: 0 <= i < |calls| ==> r[i] == Field(calls[i], "toolName").GetOr(JNull)
    decreases |calls|
  {
    if |calls| == 0 then [] else [Field(calls[0], "toolName").GetOr(JNull)] + ToolNames(calls[1..])
  }

  /**
   * The AI SDK route's reply: no 500 for an empty answer; `tool_calls`
   * only when there are some; `tools_used` is the calls' tool names, or
   * empty. (A missing `toolName` is `undefined`, serialised as `null`.)
   */
  function SdkReply(text: string, toolCalls: Option<seq<Json>>): (r: Reply)
    ensures r.Completed? && r.completion.content == text && r.completion.model == "mojo-ai-sdk"
    ensures r.completion.toolCalls.Some? <==> toolCalls.Some? && |toolCalls.value| > 0
    ensures r.completion.toolCalls.Some? ==> r.completion.toolCalls == toolCalls
    ensures |r.completion.toolsUsed| == |toolCalls.GetOr([])|
    ensures r.completion.toolsUsed == ToolNames(toolCalls.GetOr([]))
    ensures forall i :: 0 <= i < |toolCalls.GetOr([])| ==>
      r.completion.toolsUsed[i] == Field(toolCalls.GetOr([])[i], "toolName").GetOr(JNull)
    ensures r.completion.reasoningEffort.None?
  {
    var calls := toolCalls.GetOr([]);
    Completed(Completion("mojo-ai-sdk", text, if |calls| > 0 then toolCalls else None,
      "gpt-4-turbo", None, ToolNames(calls)))
  }

  // ---------------------------------------------------------------------
  // The AI SDK route's tools.
  // ---------------------------------------------------------------------

  datatype SdkTool = ExaSearch | ResolveLibrary(libraryName: Option<Json>) | GetLibraryDocs(libraryId: Option<Json>)

  /** What the tool's `fetch` and `response.json()` settle with; a failure carries `${error}`. */
  datatype ToolFetch = Fetched(data: Json) | FetchFailed(errorText: string)

  /** Reading `.result` of a `null` body throws this `TypeError` (V8 wording), which the tool catches. */
  const NullResultError: string := "TypeError: Cannot read properties of null (reading 'result')"

  function FailurePrefix(t: SdkTool): string {
    match t
    case ExaSearch => "Search failed: "
    case ResolveLibrary(_) => "Library resolution failed: "
    case GetLibraryDocs(_) => "Documentation retrieval failed: "
  }

  function DefaultResult(t: SdkTool): string {
    match t
    case ExaSearch => "Search completed"
    case ResolveLibrary(name) => "Library " + Interpolate(name) + " resolved"
    case GetLibraryDocs(id) => "Documentation retrieved for " + Interpolate(id)
  }

  /**
   * A tool's `execute`: the body's truthy `result`, else the tool's
   * default text; any failure becomes a text naming it. It never throws.
   */
  function ExecuteTool(t: SdkTool, f: ToolFetch): (r: Json)
    ensures f.FetchFailed? ==> r == JStr(FailurePrefix(t) + f.errorText)
    ensures f.Fetched? && f.data == JNull ==> r == JStr(FailurePrefix(t) + NullResultError)
    ensures f.Fetched? && Truthy(Field(f.data, "result")) ==> r == Field(f.data, "result").value
    ensures f.Fetched? && f.data != JNull && !Truthy(Field(f.data, "result")) ==> r == JStr(DefaultResult(t))
  {
    match f
    case FetchFailed(e) => JStr(FailurePrefix(t) + e)
    case Fetched(data) =>
      if data == JNull then JStr(FailurePrefix(t) + NullResultError)
      else
        var res := Field(data, "result");
        if Truthy(res) then res.value else JStr(DefaultResult(t))
  }

  /** The result is a text that starts with the tool's failure prefix. */
  predicate ReadsAsFailure(t: SdkTool, r: Json) {
    r.JStr? && StartsWith(r.s, FailurePrefix(t))
  }

  /**
   * Whatever the fetch settles with, the tool hands the model a truthy
   * value. A thrown fetch or a `null` body always reads as the tool's
   * failure; any other outcome reads so only when the text the tool
   * passes on (the body's `result`, or its default text) happens to
   * start with the same prefix.
   */
  lemma ExecuteToolOutcome(t: SdkTool, f: ToolFetch)
    ensures Truthy(Some(ExecuteTool(t, f)))
    ensures f.FetchFailed? || f.data == JNull ==> ReadsAsFailure(t, ExecuteTool(t, f))
    ensures ReadsAsFailure(t, ExecuteTool(t, f)) <==>
      || f.FetchFailed?
      || f.data == JNull
      || (Truthy(Field(f.data, "result")) && ReadsAsFailure(t, Field(f.data, "result").value))
      || (!Truthy(Field(f.data, "result")) && StartsWith(DefaultResult(t), FailurePrefix(t)))
  {
  }

  /**
   * The search and documentation tools' default texts never read as a
   * failure, so for them a body without a truthy `result` is told apart
   * from a failure.
   */
  lemma DefaultIsNoFailure(t: SdkTool)
    requires !t.ResolveLibrary?
    ensures !StartsWith(DefaultResult(t), FailurePrefix(t))
  {
    var d := DefaultResult(t);
    if t.ExaSearch? {
      assert d[7] != FailurePrefix(t)[7];
    } else {
      assert d[21] == 'e' && FailurePrefix(t)[21] == 'a';
    }
  }

  /**
   * `resolve_library`'s default text embeds the library name, so a name
   * that begins `resolution failed: ` makes a successful lookup read as a
   * failure.
   */
  lemma ResolvedNameCanReadAsFailure()
    ensures var t := ResolveLibrary(Some(JStr("resolution failed: ")));
      ReadsAsFailure(t, ExecuteTool(t, Fetched(JObj(map[]))))
  {
    var name := "resolution failed: ";
    var t := ResolveLibrary(Some(JStr(name)));
    TextRendersAsItself(name);
    assert FailurePrefix(t) == "Library " + name;
    assert DefaultResult(t) == FailurePrefix(t) + " resolved";
  }

}

=== FILE: json.dfy ===
/**
 * JSON values as the chat front end sees them after `JSON.parse`, with the
 * JavaScript notions it applies to them: property access (`v.field`),
 * truthiness, the `||` operator and conversion to text by `+=` or a
 * template literal. `JSON.parse` and `JSON.stringify` themselves are
 * foreign and enter the model as a `JsonCodec` parameter.
 */
module JsonValue {
  import opened Wrappers
  import opened Text

  /** A JSON value; numbers are restricted to integers. */
  datatype Json =
    | JNull
    | JBool(b: bool)
    | JNum(n: int)
    | JStr(s: string)
    | JArr(items: seq<Json>)
    | JObj(fields: map<string, Json>)

  /** A foreign parser/serialiser pair: `JSON.parse` (None when it throws) and `JSON.stringify`. */
  datatype JsonCodec = JsonCodec(parse: string -> Option<Json>, stringify: Json -> string)

  /**
   * What the model needs of the codec for one value: parsing its
   * serialisation gives it back, and the serialisation is one line that is
   * not the `[DONE]` sentinel (true of `JSON.stringify` on any object).
   */
  predicate Faithful(codec: JsonCodec, j: Json) {
    && codec.parse(codec.stringify(j)) == Some(j)
    && '\n' !in codec.stringify(j)
    && codec.stringify(j) != "[DONE]"
  }

  /** `v.key`: None when `v` is not an object or lacks the key (`undefined`). */
  function Field(v: Json, key: string): (r: Option<Json>)
    ensures r.Some? <==> v.JObj? && key in v.fields
    ensures r.Some? ==> r.value == v.fields[key]
  {
    if v.JObj? && key in v.fields then Some(v.fields[key]) else None
  }

  /** JavaScript truthiness of a possibly-undefined value. */
  predicate Truthy(v: Option<Json>) {
    match v
    case None => false
    case Some(JNull) => false
    case Some(JBool(b)) => b
    case Some(JNum(n)) => n != 0
    case Some(JStr(s)) => s != ""
    case Some(_) => true
  }

  /** `a || b`: the first operand when it is truthy, otherwise the second. */
  function Or(a: Option<Json>, b: Option<Json>): (r: Option<Json>)
    ensures Truthy(a) ==> r == a
    ensures !Truthy(a) ==> r == b
  {
    if Truthy(a) then a else b
  }

  /** `v === "text"` */
  predicate IsString(v: Option<Json>, text: string) {
    v == Some(JStr(text))
  }

  /**
   * `String(v)`: how `+=` on a string and a template literal render a
   * value. Array elements that are `null` render as the empty string.
   */
  function ToText(v: Json): string
    decreases v, 1
  {
    match v
    case JNull => "null"
    case JBool(b) => if b then "true" else "false"
    case JNum(n) => IntToString(n)
    case JStr(s) => s
    case JArr(items) => Join(ElementTexts(items), ",")
    case JObj(_) => "[object Object]"
  }

  /** The texts `Array.prototype.join` uses for the elements of `items`. */
  function ElementTexts(items: seq<Json>): (r: seq<string>)
    ensures |r| == |items|
    decreases items, 0
  {
    if |items| == 0 then []
    else [if items[0] == JNull then "" else ToText(items[0])] + ElementTexts(items[1..])
  }

  /** Template-literal rendering of a possibly-undefined value. */
  function Interpolate(v: Option<Json>): string {
    match v
    case None => "undefined"
    case Some(j) => ToText(j)
  }

  /** A text value renders as itself. */
  lemma TextRendersAsItself(s: string)
    ensures ToText(JStr(s)) == s
  {
  }

  /** The property names `0`, `1`, ... of an array or string of length `n`. */
  function IndexKeys(n: nat): set<string> {
    set i | 0 <= i < n :: NatToString(i)
  }

  /**
   * The own enumerable entries an object spread `{...v}` copies: an
   * object's fields, an array's elements and a string's characters under
   * their decimal indexes, and nothing for `null`, a boolean or a number.
   * A string contributes one entry per `char` of the model.
   */
  function SpreadEntries(v: Json): (r: map<string, Json>)
    ensures v.JObj? ==> r == v.fields
    ensures v.JArr? ==> r.Keys == IndexKeys(|v.items|)
    ensures v.JArr? ==> forall i :: 0 <= i < |v.items| ==> r[NatToString(i)] == v.items[i]
    ensures v.JStr? ==> r.Keys == IndexKeys(|v.s|)
    ensures v.JStr? ==> forall i :: 0 <= i < |v.s| ==> r[NatToString(i)] == JStr([v.s[i]])
    ensures v.JNull? || v.JBool? || v.JNum? ==> r == map[]
  {
    NatToStringInjective();
    match v
    case JObj(fields) => fields
    case JArr(items) => map i | 0 <= i < |items| :: NatToString(i) := items[i]
    case JStr(s) => map i | 0 <= i < |s| :: NatToString(i) := JStr([s[i]])
    case _ => map[]
  }

  /**
   * `{...fields, key: v}` as `JSON.stringify` writes it: a present value
   * sets the key, and an `undefined` one leaves no key at all.
   */
  function WithOptional(fields: map<string, Json>, key: string, v: Option<Json>): (r: map<string, Json>)
    ensures v.Some? ==> r == fields[key := v.value]
    ensures v.None? ==> r == fields
  {
    if v.Some? then fields[key := v.value] else fields
  }
}

=== FILE: mcp.dfy ===
/**
 * `MCPManager.callTool`: which local MCP server a tool call goes to, the
 * request body it sends (with its defaults), and how the answer or the
 * failure becomes a tool result. The HTTP exchange is a parameter, and so
 * is the indented `JSON.stringify` used for result text.
 */
module Mcp {
  import opened Wrappers
  import opened Text
  import opened JsonValue

  type Args = map<string, Json>

  datatype ToolCall = ToolCall(name: string, arguments: Args)

  /**
   * A tool result; `content` is `None` where the source would put
   * `undefined` there, and `isError` is false where the source leaves the
   * flag out.
   */
  datatype ToolResult = ToolResult(content: Option<Json>, isError: bool, metadata: map<string, Json>)

  /** The POST a tool call makes: the server's endpoint and the JSON body. */
  datatype Request = Request(url: string, body: map<string, Json>)

  /**
   * What came back: a parsed body from an OK response, a non-OK status
   * with its status text, or a throw (network or parse failure) with the
   * message of an `Error`, or none for any other thrown value.
   */
  datatype Reply = Answered(data: Json) | NotOk(statusText: string) | Threw(message: Option<string>)

  /** The tools `getAvailableTools` lists, with their required argument. */
  datatype ToolSpec = ToolSpec(name: string, required: string)

  const AvailableTools: seq<ToolSpec> := [
    ToolSpec("exa_search", "query"),
    ToolSpec("exa_get_contents", "urls"),
    ToolSpec("context7_resolve_library", "libraryName"),
    ToolSpec("context7_get_docs", "libraryId"),
    ToolSpec("sequential_thinking", "thought")]

  function Names(specs: seq<ToolSpec>): (r: seq<string>)
    ensures |r| == |specs|
    ensures forall i :: 0 <= i < |specs| ==> r[i] == specs[i].name
  {
    seq(|specs|, i requires 0 <= i < |specs| => specs[i].name)
  }

  /** The servers a call can reach. */
  datatype Server = ExaSearch | ExaContents | Context7Resolve | Context7Docs | Thinking

  /** The `switch` in `callTool`: the server a tool name is sent to. */
  function Route(name: string): (r: Option<Server>)
    ensures r.Some? <==> name in Names(AvailableTools)
  {
    var names := Names(AvailableTools);
    assert names == ["exa_search", "exa_get_contents", "context7_resolve_library", "context7_get_docs",
                     "sequential_thinking"];
    if name == "exa_search" then Some(ExaSearch)
    else if name == "exa_get_contents" then Some(ExaContents)
    else if name == "context7_resolve_library" then Some(Context7Resolve)
    else if name == "context7_get_docs" then Some(Context7Docs)
    else if name == "sequential_thinking" then Some(Thinking)
    else None
  }

  /** Distinct servers for distinct listed tools: the dispatch is one-to-one. */
  lemma RouteInjective(a: string, b: string)
    requires Route(a).Some? && Route(a) == Route(b)
    ensures a == b
  {
  }

  // ---------------------------------------------------------------------
  // Request bodies
  // ---------------------------------------------------------------------

  /** `a ?? b` */
  function Nullish(a: Option<Json>, b: Json): (r: Json)
    ensures a.Some? && a.value != JNull ==> r == a.value
    ensures a.None? || a.value == JNull ==> r == b
  {
    if a.Some? && a.value != JNull then a.value else b
  }

  function Arg(args: Args, key: string): Option<Json> {
    if key in args then Some(args[key]) else None
  }

  const DefaultNumResults: int := 10
  const DefaultTokens: int := 10000

  function ServerUrl(s: Server): string {
    match s
    case ExaSearch => "http://localhost:3001/search"
    case ExaContents => "http://localhost:3001/contents"
    case Context7Resolve => "http://localhost:3002/resolve-library-id"
    case Context7Docs => "http://localhost:3002/get-library-docs"
    case Thinking => "http://localhost:3003/think"
  }

  /** The body each server is sent, built from the call's arguments. */
  function Body(s: Server, args: Args): map<string, Json> {
    match s
    case ExaSearch =>
      var m := WithOptional(map[], "query", Arg(args, "query"));
      var m := m["numResults" := Or(Arg(args, "numResults"), Some(JNum(DefaultNumResults))).value];
      var m := WithOptional(m, "includeDomains", Arg(args, "includeDomains"));
      var m := WithOptional(m, "excludeDomains", Arg(args, "excludeDomains"));
      var m := WithOptional(m, "startCrawlDate", Arg(args, "startCrawlDate"));
      WithOptional(m, "endCrawlDate", Arg(args, "endCrawlDate"))
    case ExaContents => WithOptional(map[], "urls", Arg(args, "urls"))
    case Context7Resolve => WithOptional(map[], "libraryName", Arg(args, "libraryName"))
    case Context7Docs =>
      var m := WithOptional(map[], "context7CompatibleLibraryID", Arg(args, "libraryId"));
      var m := WithOptional(m, "topic", Arg(args, "topic"));
      m["tokens" := Or(Arg(args, "tokens"), Some(JNum(DefaultTokens))).value]
    case Thinking =>
      var m := WithOptional(map[], "thought", Arg(args, "thought"));
      var m := m["thoughtNumber" := Or(Arg(args, "thoughtNumber"), Some(JNum(1))).value];
      var m := m["totalThoughts" := Or(Arg(args, "totalThoughts"), Some(JNum(5))).value];
      var m := m["nextThoughtNeeded" := Nullish(Arg(args, "nextThoughtNeeded"), JBool(true))];
      var m := m["isRevision" := Or(Arg(args, "isRevision"), Some(JBool(false))).value];
      WithOptional(m, "revisesThought", Arg(args, "revisesThought"))
  }

  /** The request a call makes: none for a tool that is not listed. */
  function RequestOf(call: ToolCall): (r: Option<Request>)
    ensures r.Some? <==> call.name in Names(AvailableTools)
  {
    match Route(call.name)
    case None => None
    case Some(s) => Some(Request(ServerUrl(s), Body(s, call.arguments)))
  }

  /**
   * `numResults` and `tokens` fall back to their defaults for any falsy
   * value, so an explicit 0 is replaced; a truthy value is sent as given.
   */
  lemma CountDefaults(args: Args)
    ensures var b := Body(ExaSearch, args);
      && (Truthy(Arg(args, "numResults")) ==> b["numResults"] == args["numResults"])
      && (!Truthy(Arg(args, "numResults")) ==> b["numResults"] == JNum(DefaultNumResults))
    ensures var b := Body(Context7Docs, args);
      && (Truthy(Arg(args, "tokens")) ==> b["tokens"] == args["tokens"])
      && (!Truthy(Arg(args, "tokens")) ==> b["tokens"] == JNum(DefaultTokens))
  {
  }

  /** An explicit 0 results is sent as the default 10. */
  lemma ZeroResultsBecomeTen(args: Args)
    requires "numResults" in args && args["numResults"] == JNum(0)
    ensures Body(ExaSearch, args)["numResults"] == JNum(10)
  {
  }

  /**
   * The thinking defaults: thought 1 of 5, not a revision; another thought
   * is asked for only when the caller leaves it unset or null, so an
   * explicit `false` is kept.
   */
  lemma ThinkingDefaults(args: Args)
    ensures var b := Body(Thinking, args);
      && (!Truthy(Arg(args, "thoughtNumber")) ==> b["thoughtNumber"] == JNum(1))
      && (!Truthy(Arg(args, "totalThoughts")) ==> b["totalThoughts"] == JNum(5))
      && (!Truthy(Arg(args, "isRevision")) ==> b["isRevision"] == JBool(false))
      && ("nextThoughtNeeded" !in args || args["nextThoughtNeeded"] == JNull ==> b["nextThoughtNeeded"] == JBool(true))
      && ("nextThoughtNeeded" in args && args["nextThoughtNeeded"] != JNull ==>
            b["nextThoughtNeeded"] == args["nextThoughtNeeded"])
  {
  }

  // ---------------------------------------------------------------------
  // Results
  // ---------------------------------------------------------------------

  /** The `source` each server reports in a result's metadata. */
  function Source(s: Server): string {
    match s
    case ExaSearch => "exa"
    case ExaContents => "exa"
    case Context7Resolve => "context7"
    case Context7Docs => "context7"
    case Thinking => "sequential-thinking"
  }

  /** The text of the error a non-OK response throws. */
  function NotOkPrefix(s: Server): string {
    match s
    case ExaSearch => "Exa search failed: "
    case ExaContents => "Exa contents failed: "
    case Context7Resolve => "Context7 resolve failed: "
    case Context7Docs => "Context7 docs failed: "
    case Thinking => "Sequential Thinking failed: "
  }

  /** The text the caught error is reported under. */
  function ErrorPrefix(s: Server): string {
    match s
    case ExaSearch => "Error searching with Exa: "
    case ExaContents => "Error getting contents from Exa: "
    case Context7Resolve => "Error resolving library ID: "
    case Context7Docs => "Error getting library docs: "
    case Thinking => "Error in sequential thinking: "
  }

  /** The argument each server echoes into its metadata, success or failure. */
  function EchoKey(s: Server): Option<(string, string)> {
    match s
    case ExaSearch => Some(("query", "query"))
    case ExaContents => Some(("urls", "urls"))
    case Context7Resolve => Some(("libraryName", "libraryName"))
    case Context7Docs => Some(("libraryId", "libraryId"))
    case Thinking => None
  }

  /** `{ source, <echoed argument> }`, the metadata every result starts from. */
  function BaseMetadata(s: Server, args: Args): (m: map<string, Json>)
    ensures "source" in m && m["source"] == JStr(Source(s))
  {
    var m := map["source" := JStr(Source(s))];
    match EchoKey(s)
    case None => m
    case Some((metaKey, argKey)) => WithOptional(m, metaKey, Arg(args, argKey))
  }

  /**
   * `x?.length || 0` on a parsed value: an array's or a string's length,
   * an object's own `length` property when that is truthy, and 0 for
   * everything else (a missing value, `null`, a boolean, a number, or an
   * object whose `length` is missing or falsy).
   */
  function LengthOr0(v: Option<Json>): (r: Json)
    ensures v.Some? && v.value.JArr? ==> r == JNum(|v.value.items|)
    ensures v.Some? && v.value.JStr? ==> r == JNum(Utf16Length(v.value.s))
    ensures v.Some? && v.value.JObj? && Truthy(Field(v.value, "length")) ==> r == Field(v.value, "length").value
    ensures v.Some? && v.value.JObj? && !Truthy(Field(v.value, "length")) ==> r == JNum(0)
    ensures v.None? || v.value.JNull? || v.value.JBool? || v.value.JNum? ==> r == JNum(0)
  {
    match v
    case Some(JArr(items)) => JNum(|items|)
    case Some(JStr(s)) => JNum(Utf16Length(s))
    case Some(JObj(_)) =>
      var len := Field(v.value, "length");
      if Truthy(len) then len.value else JNum(0)
    case _ => JNum(0)
  }

  /**
   * The count sent as `numResults` or `numContents` is never falsy other
   * than 0: an empty array or string gives 0 itself, and a falsy object
   * `length` falls back to it.
   */
  lemma CountTruthyOrZero(v: Option<Json>)
    ensures LengthOr0(v) == JNum(0) || Truthy(Some(LengthOr0(v)))
  {
  }

  /** What a server's successful answer becomes. */
  function Answer(s: Server, args: Args, data: Json, pretty: Json -> string): (r: ToolResult)
    requires data != JNull
    ensures !r.isError && "source" in r.metadata && r.metadata["source"] == JStr(Source(s))
    ensures s == ExaSearch ==> "numResults" in r.metadata && r.metadata["numResults"] == LengthOr0(Field(data, "results"))
    ensures s == ExaContents ==> "numContents" in r.metadata && r.metadata["numContents"] == LengthOr0(Field(data, "contents"))
  {
    var base := BaseMetadata(s, args);
    match s
    case ExaSearch =>
      var results := Field(data, "results");
      ToolResult(if results.Some? then Some(JStr(pretty(results.value))) else None, false,
        base["numResults" := LengthOr0(results)])
    case ExaContents =>
      var contents := Field(data, "contents");
      ToolResult(if contents.Some? then Some(JStr(pretty(contents.value))) else None, false,
        base["numContents" := LengthOr0(contents)])
    case Context7Resolve =>
      ToolResult(Some(JStr(pretty(data))), false, WithOptional(base, "libraryId", Field(data, "libraryId")))
    case Context7Docs =>
      var doc := Or(Field(data, "documentation"), Some(JStr(NoDocs)));
      ToolResult(doc, false, WithOptional(WithOptional(base, "topic", Arg(args, "topic")), "tokens", Arg(args, "tokens")))
    case Thinking =>
      var text := Or(Or(Field(data, "result"), Field(data, "thought")), Some(JStr(ThinkingDone)));
      var m := WithOptional(base, "thoughtNumber", Arg(args, "thoughtNumber"));
      var m := WithOptional(m, "totalThoughts", Arg(args, "totalThoughts"));
      ToolResult(text, false, WithOptional(m, "nextThoughtNeeded", Field(data, "nextThoughtNeeded")))
  }

  const NoDocs: string := "No documentation found"
  const ThinkingDone: string := "Thinking process completed"

  /**
   * The message of the error caught for a failed exchange; reading a
   * property of a `null` body throws a `TypeError`, whose engine-specific
   * text is stood in for by `NullBody`.
   */
  function FailureMessage(s: Server, reply: Reply): string
    requires !reply.Answered? || reply.data == JNull
  {
    match reply
    case Answered(_) => NullBody
    case NotOk(status) => NotOkPrefix(s) + status
    case Threw(m) => m.GetOr("Unknown error")
  }

  const NullBody: string := "Cannot read properties of null"

  /** `MCPManager.callTool`: the request made (if any) and the result; it never throws. */
  function CallTool(call: ToolCall, reply: Reply, pretty: Json -> string): (out: (Option<Request>, ToolResult))
    ensures out.0 == RequestOf(call)
    ensures out.0.None? ==>
      out.1 == ToolResult(Some(JStr("Unknown tool: " + call.name)), true, map["toolName" := JStr(call.name)])
    ensures out.0.Some? ==> "source" in out.1.metadata
    ensures out.0.Some? ==> (out.1.isError <==> !reply.Answered? || reply.data == JNull)
    ensures out.0.Some? && reply.Answered? && reply.data != JNull ==>
      out.1 == Answer(Route(call.name).value, call.arguments, reply.data, pretty)
    ensures out.0.Some? && (!reply.Answered? || reply.data == JNull) ==>
      var s := Route(call.name).value;
      out.1 == ToolResult(Some(JStr(ErrorPrefix(s) + FailureMessage(s, reply))), true, BaseMetadata(s, call.arguments))
  {
    match Route(call.name)
    case None =>
      (None, ToolResult(Some(JStr("Unknown tool: " + call.name)), true, map["toolName" := JStr(call.name)]))
    case Some(s) =>
      var req := Request(ServerUrl(s), Body(s, call.arguments));
      if reply.Answered? && reply.data != JNull then (Some(req), Answer(s, call.arguments, reply.data, pretty))
      else
        var msg := ErrorPrefix(s) + FailureMessage(s, reply);
        (Some(req), ToolResult(Some(JStr(msg)), true, BaseMetadata(s, call.arguments)))
  }

  /**
   * A failed exchange is reported in the result, never thrown: the text
   * starts with the server's error prefix and the metadata carries only
   * the source and the echoed argument.
   */
  lemma FailureIsReported(call: ToolCall, reply: Reply, pretty: Json -> string)
    requires call.name in Names(AvailableTools)
    requires !reply.Answered?
    ensures var (_, r) := CallTool(call, reply, pretty);
      && r.isError && r.content.Some? && r.content.value.JStr?
      && StartsWith(r.content.value.s, ErrorPrefix(Route(call.name).value))
      && r.metadata == BaseMetadata(Route(call.name).value, call.arguments)
  {
    var s := Route(call.name).value;
    var msg := ErrorPrefix(s) + FailureMessage(s, reply);
    assert msg[..|ErrorPrefix(s)|] == ErrorPrefix(s);
  }

  /**
   * What `callTool` hands back for an answered search or documentation
   * call: the search's `numResults` is `results?.length || 0` of the
   * body, and missing or empty documentation reads `No documentation found`.
   */
  lemma CallToolAnswers(args: Args, data: Json, pretty: Json -> string)
    requires data != JNull
    ensures var r := CallTool(ToolCall("exa_search", args), Answered(data), pretty).1;
      && !r.isError && "numResults" in r.metadata && r.metadata["numResults"] == LengthOr0(Field(data, "results"))
    ensures !Truthy(Field(data, "documentation")) ==>
      CallTool(ToolCall("context7_get_docs", args), Answered(data), pretty).1.content == Some(JStr(NoDocs))
  {
    assert Route("exa_search") == Some(ExaSearch);
    assert Route("context7_get_docs") == Some(Context7Docs);
    if !Truthy(Field(data, "documentation")) {
      MissingDocs(args, data, pretty);
    }
  }

  /** Documentation that is missing or empty is reported as not found. */
  lemma MissingDocs(args: Args, data: Json, pretty: Json -> string)
    requires data != JNull && !Truthy(Field(data, "documentation"))
    ensures Answer(Context7Docs, args, data, pretty).content == Some(JStr(NoDocs))
  {
  }
}

=== FILE: mcp_config.dfy ===
/**
 * The MCP server entries handed to the model provider, which of them can
 * connect, and the message shown when one cannot. The environment is a
 * parameter: only `EXA_API_KEY` matters.
 */
module McpConfig {
  import opened Wrappers
  import opened Text

  /** `process.env.EXA_API_KEY`: absent, or its text. */
  datatype Env = Env(exaKey: Option<string>)

  /** Whether the key is set to a non-empty value (JavaScript truthiness of a string). */
  predicate KeySet(env: Env) {
    env.exaKey.Some? && env.exaKey.value != ""
  }

  /** One entry: always of type `mcp` and never needing approval, with a fixed tool list. */
  datatype ServerEntry = ServerEntry(
    kind: string, serverLabel: string, url: string, requireApproval: string, allowedTools: seq<string>)

  const ExaUrlPrefix: string := "https://mcp.exa.ai/mcp?exaApiKey="

  const ExaTools: seq<string> := [
    "web_search_exa", "research_paper_search", "company_research", "crawling",
    "wikipedia_search_exa", "github_search"]

  const Context7Entry: ServerEntry :=
    ServerEntry("mcp", "context7", "https://mcp.context7.com/mcp", "never", ["resolve-library-id", "get-library-docs"])

  function ExaEntry(key: string): ServerEntry {
    ServerEntry("mcp", "exa", ExaUrlPrefix + key, "never", ExaTools)
  }

  /** `getMCPTools()`: Exa first when its key is set, then Context7 always. */
  function Tools(env: Env): (r: seq<ServerEntry>)
    ensures |r| > 0 && r[|r| - 1] == Context7Entry
    ensures (exists i :: 0 <= i < |r| && r[i].serverLabel == "exa") <==> KeySet(env)
    ensures forall i :: 0 <= i < |r| && r[i].serverLabel == "exa" ==> r[i].url == ExaUrlPrefix + env.exaKey.value
    ensures forall i :: 0 <= i < |r| ==> r[i].kind == "mcp" && r[i].requireApproval == "never" && |r[i].allowedTools| > 0
  {
    if KeySet(env) then
      var r := [ExaEntry(env.exaKey.value), Context7Entry];
      assert r[0].serverLabel == "exa";
      r
    else
      assert "context7"[0] != "exa"[0];
      [Context7Entry]
  }

  /** `validateMCPConnection(serverLabel)` */
  function CanConnect(env: Env, serverLabel: string): (ok: bool)
    ensures ok <==> (serverLabel == "exa" && KeySet(env)) || serverLabel == "context7"
  {
    if serverLabel == "exa" then KeySet(env)
    else serverLabel == "context7"
  }

  /** The servers that can connect are exactly the ones configured. */
  lemma ConfiguredIffConnectable(env: Env, serverLabel: string)
    ensures CanConnect(env, serverLabel) <==> exists i :: 0 <= i < |Tools(env)| && Tools(env)[i].serverLabel == serverLabel
  {
    var r := Tools(env);
    if CanConnect(env, serverLabel) {
      if serverLabel == "context7" {
        assert r[|r| - 1].serverLabel == serverLabel;
      } else {
        assert r[0].serverLabel == serverLabel;
      }
    }
  }

  const UnknownServerPrefix: string := "Unknown MCP server: "

  /** `getMCPErrorMessage(serverLabel)` */
  function ErrorMessage(serverLabel: string): (msg: string)
    ensures serverLabel == "exa" ==> msg == "Exa API key not configured. Please set EXA_API_KEY environment variable."
    ensures serverLabel == "context7" ==> msg == "Context7 MCP server connection failed."
    ensures serverLabel != "exa" && serverLabel != "context7" ==> msg == UnknownServerPrefix + serverLabel
  {
    if serverLabel == "exa" then "Exa API key not configured. Please set EXA_API_KEY environment variable."
    else if serverLabel == "context7" then "Context7 MCP server connection failed."
    else UnknownServerPrefix + serverLabel
  }

  /** The message for a server nobody configured names it. */
  lemma UnknownMessageNamesServer(env: Env, serverLabel: string)
    requires !CanConnect(env, serverLabel) && serverLabel != "exa"
    ensures Contains(ErrorMessage(serverLabel), serverLabel)
  {
    ContainsEnd(UnknownServerPrefix, serverLabel);
  }
}

=== FILE: message_editor.dfy ===
/**
 * `MessageEditor`: the edit dialog's draft, saving it through the
 * caller's `onSave`, cancelling, reopening, and when the save button is
 * enabled. What `onSave` does is a parameter: it resolves, or rejects
 * with an `Error` message or some other value.
 */
module MessageEditor {
  import opened Wrappers
  import opened Text

  /** The draft, whether a save is in flight, and the error shown. */
  datatype Editor = Editor(content: string, saving: bool, error: Option<string>)

  datatype SaveOutcome = Resolved | RejectedWith(message: Option<string>)

  /** What a save did: the editor after it, what `onSave` received, and whether the dialog closed. */
  datatype Saved = Saved(editor: Editor, sentToSave: Option<string>, closed: bool)

  const EmptyError: string := "Message content cannot be empty"
  const SaveFailed: string := "Failed to save message"
  const MaxLength: nat := 4000

  /**
   * `handleSave`: an all-blank draft only shows the empty error; any other
   * draft is handed to `onSave` trimmed, and the dialog closes only once
   * that resolves. Either way the editor is not saving afterwards.
   */
  function Save(e: Editor, outcome: SaveOutcome): (r: Saved)
    ensures r.sentToSave.None? <==> AllSpace(e.content)
    ensures r.sentToSave.None? ==> r == Saved(e.(error := Some(EmptyError)), None, false)
    ensures r.sentToSave.Some? ==> r.sentToSave.value == Trim(e.content) && !r.editor.saving
    ensures r.sentToSave.Some? ==> r.editor.content == e.content
    ensures r.closed <==> r.sentToSave.Some? && outcome.Resolved?
    ensures r.sentToSave.Some? && outcome.Resolved? ==> r.editor.error.None?
    ensures r.sentToSave.Some? && outcome.RejectedWith? ==>
      r.editor.error == Some(outcome.message.GetOr(SaveFailed))
  {
    TrimEmptyIffAllSpace(e.content);
    if Trim(e.content) == "" then Saved(e.(error := Some(EmptyError)), None, false)
    else
      var error := match outcome
        case Resolved => None
        case RejectedWith(m) => Some(m.GetOr(SaveFailed));
      Saved(Editor(e.content, false, error), Some(Trim(e.content)), outcome.Resolved?)
  }

  /** What `onSave` receives is trimmed and not empty. */
  lemma SavedTextIsClean(e: Editor, outcome: SaveOutcome)
    requires !AllSpace(e.content)
    ensures Save(e, outcome).sentToSave.Some?
    ensures var t := Save(e, outcome).sentToSave.value;
      IsTrimmed(t) && t != "" && Trim(t) == t
  {
    TrimIsTrimmed(e.content);
    TrimIdempotent(e.content);
  }

  /** `handleCancel`: the draft goes back to the initial text and the error clears; the dialog closes. */
  function Cancel(e: Editor, initialContent: string): (r: (Editor, bool))
    ensures r.0.content == initialContent && r.0.error.None? && r.0.saving == e.saving && r.1
  {
    (e.(content := initialContent, error := None), true)
  }

  /** The effect run when the dialog opens: the same reset as cancelling, without closing. */
  function Reopen(e: Editor, initialContent: string): (r: Editor)
    ensures r == Cancel(e, initialContent).0
  {
    e.(content := initialContent, error := None)
  }

  /** `hasChanges`: the drafts differ once both are trimmed. */
  predicate HasChanges(content: string, initialContent: string) {
    Trim(content) != Trim(initialContent)
  }

  /** The save button: not while saving, not without changes, not over 4000 UTF-16 units. */
  predicate SaveEnabled(e: Editor, initialContent: string) {
    !e.saving && HasChanges(e.content, initialContent) && Utf16Length(e.content) <= MaxLength
  }

  /** After a cancel or a reopen there is nothing to save. */
  lemma ResetDisablesSave(e: Editor, initialContent: string)
    ensures !SaveEnabled(Cancel(e, initialContent).0, initialContent)
    ensures !SaveEnabled(Reopen(e, initialContent), initialContent)
  {
  }

  /**
   * An enabled button does not guarantee a save: blanking a message whose
   * initial text was not blank counts as a change, and saving it shows
   * the empty error.
   */
  lemma BlankDraftIsEnabledButRefused()
    ensures var e := Editor(" ", false, None);
      SaveEnabled(e, "hi") && Save(e, Resolved).sentToSave.None?
  {
    assert " "[0] == ' ' && AllSpace(" ");
    assert "hi"[0] == 'h' && !IsSpace("hi"[0]);
    BlankOverTextIsEnabledButRefused(" ", "hi");
  }

  lemma BlankOverTextIsEnabledButRefused(content: string, initialContent: string)
    requires AllSpace(content) && !AllSpace(initialContent) && Utf16Length(content) <= MaxLength
    ensures var e := Editor(content, false, None);
      SaveEnabled(e, initialContent) && Save(e, Resolved).sentToSave.None?
  {
    TrimEmptyIffAllSpace(content);
    TrimEmptyIffAllSpace(initialContent);
  }

  /** Padding the initial text with spaces is not a change. */
  lemma PaddingIsNoChange(pre: string, x: string, post: string)
    requires AllSpace(pre) && AllSpace(post) && IsTrimmed(x) && |x| > 0
    ensures !HasChanges(pre + x + post, x)
  {
    TrimSurrounded(pre, x, post);
    TrimOfTrimmed(x);
  }
}

=== FILE: message_input.dfy ===
/**
 * `MessageInput`: the composer's text and attachments, submitting them,
 * the Enter key, adding and removing attachments, and whether the send
 * button is enabled.
 */
module MessageInput {
  import opened Wrappers
  import opened Text

  datatype Attachment = Attachment(name: string, mimeType: string, size: nat)

  datatype Composer = Composer(value: string, attachments: seq<Attachment>)

  /** What `onSend` received. */
  datatype Sent = Sent(text: string, attachments: seq<Attachment>)

  /** Whether there is anything to send: text that is not all blank, or an attachment. */
  predicate HasSomething(c: Composer) {
    Trim(c.value) != "" || |c.attachments| > 0
  }

  /**
   * `handleSubmit`: with something to send, the trimmed text and the
   * attachments go out and the composer is emptied; otherwise nothing
   * happens.
   */
  function Submit(c: Composer): (r: (Composer, Option<Sent>))
    ensures r.1.Some? <==> !AllSpace(c.value) || |c.attachments| > 0
    ensures r.1.Some? ==> r.1.value == Sent(Trim(c.value), c.attachments) && r.0 == Composer("", [])
    ensures r.1.None? ==> r.0 == c
  {
    TrimEmptyIffAllSpace(c.value);
    if HasSomething(c) then (Composer("", []), Some(Sent(Trim(c.value), c.attachments)))
    else (c, None)
  }

  /** The text sent is trimmed, and it is empty only when attachments carry the message. */
  lemma SentTextIsTrimmed(c: Composer)
    requires Submit(c).1.Some?
    ensures IsTrimmed(Submit(c).1.value.text)
    ensures Submit(c).1.value.text == "" ==> |Submit(c).1.value.attachments| > 0
  {
    TrimIsTrimmed(c.value);
  }

  /** Submitting twice sends once: the emptied composer has nothing left. */
  lemma SubmitOnce(c: Composer)
    ensures Submit(Submit(c).0).1.None? || Submit(c).1.None?
  {
    TrimEmptyIffAllSpace("");
  }

  /** `handleKeyPress`: Enter submits; Shift+Enter and every other key leave the composer to the text field. */
  function KeyPress(c: Composer, key: string, shift: bool): (r: (Composer, Option<Sent>))
    ensures key == "Enter" && !shift ==> r == Submit(c)
    ensures key != "Enter" || shift ==> r == (c, None)
  {
    if key == "Enter" && !shift then Submit(c) else (c, None)
  }

  /** `handleFileSelect`: the chosen files go after the ones already attached, in order. */
  function SelectFiles(c: Composer, files: seq<Attachment>): (r: Composer)
    ensures r.value == c.value
    ensures |r.attachments| == |c.attachments| + |files|
    ensures r.attachments[..|c.attachments|] == c.attachments && r.attachments[|c.attachments|..] == files
  {
    c.(attachments := c.attachments + files)
  }

  /** `handleRemoveAttachment(i)`: the element at position `i` leaves, the rest keep their order. */
  function RemoveAt(xs: seq<Attachment>, index: int): (r: seq<Attachment>)
    ensures 0 <= index < |xs| ==> r == xs[..index] + xs[index + 1..]
    ensures !(0 <= index < |xs|) ==> r == xs
    decreases |xs|
  {
    if |xs| == 0 then []
    else if index == 0 then xs[1..]
    else
      var rest := RemoveAt(xs[1..], index - 1);
      RemoveAtStep(xs, index, rest);
      [xs[0]] + rest
  }

  /** Removing past the first element keeps the first element in front. */
  lemma RemoveAtStep(xs: seq<Attachment>, index: int, rest: seq<Attachment>)
    requires |xs| > 0 && index != 0
    requires 0 <= index - 1 < |xs| - 1 ==> rest == xs[1..][..index - 1] + xs[1..][index - 1 + 1..]
    requires !(0 <= index - 1 < |xs| - 1) ==> rest == xs[1..]
    ensures 0 <= index < |xs| ==> [xs[0]] + rest == xs[..index] + xs[index + 1..]
    ensures !(0 <= index < |xs|) ==> [xs[0]] + rest == xs
  {
    if 0 < index < |xs| {
      assert xs[1..][..index - 1] == xs[1..index];
      assert xs[1..][index..] == xs[index + 1..];
      assert [xs[0]] + xs[1..index] == xs[..index];
    } else {
      assert [xs[0]] + xs[1..] == xs;
    }
  }

  function RemoveAttachment(c: Composer, index: int): (r: Composer)
    ensures r.value == c.value
    ensures r.attachments == RemoveAt(c.attachments, index)
  {
    c.(attachments := RemoveAt(c.attachments, index))
  }

  /** Attaching one file and removing it by its position gives the composer back. */
  lemma {:induction false} RemoveUndoesSelect(c: Composer, f: Attachment)
    ensures RemoveAttachment(SelectFiles(c, [f]), |c.attachments|) == c
  {
    var xs := c.attachments + [f];
    assert xs[..|c.attachments|] == c.attachments;
    assert xs[|c.attachments| + 1..] == [];
  }

  /** `canSend`: something to send and the input not disabled. */
  predicate CanSend(c: Composer, disabled: bool) {
    (Utf16Length(Trim(c.value)) > 0 || |c.attachments| > 0) && !disabled
  }

  /** While the input is enabled, the send button is enabled exactly when submitting would send. */
  lemma CanSendIffSubmitSends(c: Composer)
    ensures CanSend(c, false) <==> Submit(c).1.Some?
  {
    TrimEmptyIffAllSpace(c.value);
  }
}

=== FILE: message_update.dfy ===
/**
 * `updateStreamingMessage`: a new snapshot of a message being streamed.
 * The id is kept, the content replaced, the completion flag set (false
 * when not given), and the metadata merged with the additional entries
 * winning; missing metadata on either side merges as an empty object.
 */
module StreamingMessage {
  import opened Wrappers
  import opened JsonValue

  type Metadata = map<string, Json>

  datatype Message = Message(id: string, content: string, isComplete: bool, metadata: Option<Metadata>)

  /** `{...m}` of a possibly-undefined object. */
  function Entries(m: Option<Metadata>): Metadata {
    m.GetOr(map[])
  }

  function Update(message: Message, newContent: string, additional: Option<Metadata>, isComplete: Option<bool>): (r: Message)
    ensures r.id == message.id && r.content == newContent
    ensures r.isComplete == (isComplete == Some(true))
    ensures r.metadata.Some?
    ensures r.metadata.value.Keys == Entries(message.metadata).Keys + Entries(additional).Keys
    ensures forall k :: k in Entries(additional) ==> r.metadata.value[k] == Entries(additional)[k]
    ensures forall k :: k in Entries(message.metadata) && k !in Entries(additional) ==>
      r.metadata.value[k] == Entries(message.metadata)[k]
  {
    Message(message.id, newContent, isComplete.GetOr(false), Some(Entries(message.metadata) + Entries(additional)))
  }

  /** Two updates in a row are one update with both additions merged, the later winning. */
  lemma UpdateTwice(message: Message, c1: string, a1: Option<Metadata>, f1: Option<bool>,
                    c2: string, a2: Option<Metadata>, f2: Option<bool>)
    ensures Update(Update(message, c1, a1, f1), c2, a2, f2)
         == Update(message, c2, Some(Entries(a1) + Entries(a2)), f2)
  {
    var m1 := Update(message, c1, a1, f1);
    var lhs := Update(m1, c2, a2, f2).metadata.value;
    var rhs := Update(message, c2, Some(Entries(a1) + Entries(a2)), f2).metadata.value;
    assert lhs == rhs;
  }

  /** Repeating an update changes nothing. */
  lemma UpdateIdempotent(message: Message, c: string, a: Option<Metadata>, f: Option<bool>)
    ensures var once := Update(message, c, a, f);
      Update(once, c, a, f) == once
  {
    var once := Update(message, c, a, f);
    assert Update(once, c, a, f).metadata.value == once.metadata.value;
  }
}

=== FILE: navigation.dfy ===
/**
 * `useNavigation`: whether the sidebar is open, as the screen size, the
 * stored `sidebar_collapsed` preference, the toggle and the close button
 * change it. Loading the preference and saving it are events and outputs:
 * the row that arrives, and the value the toggle writes.
 */
module Navigation {
  import opened Wrappers
  import opened JsonValue

  datatype Nav = Nav(isMobile: bool, open: bool, loading: bool)

  datatype Event =
    | PrefsArrived(data: Option<Json>)   // the preferences row, `None` for null
    | PrefsFailed                        // `getUserPreferences` threw
    | ScreenIs(mobile: bool)             // the media query changed
    | Toggled
    | Closed

  const CollapsedKey: string := "sidebar_collapsed"

  /** The first render: open exactly on a desktop screen, and loading. */
  function Init(isMobile: bool): (r: Nav)
    ensures r.open <==> !r.isMobile
    ensures r.isMobile == isMobile && r.loading
  {
    Nav(isMobile, !isMobile, true)
  }

  /**
   * One event. The second component is the `sidebar_collapsed` value the
   * toggle writes, if it writes one.
   */
  function Step(n: Nav, e: Event): (r: (Nav, Option<bool>))
    ensures r.1.Some? <==> e.Toggled? && !n.isMobile
    ensures r.1.Some? ==> r.1.value == !r.0.open
    ensures e.Toggled? ==> r.0 == n.(open := !n.open)
    ensures e.Closed? ==> r.0 == if n.isMobile then n.(open := false) else n
    ensures e.ScreenIs? ==> r.0.isMobile == e.mobile && r.0.loading == n.loading
    ensures e.ScreenIs? ==> (r.0.open <==> n.open && !e.mobile)
    ensures e.PrefsFailed? ==> r.0 == n.(loading := false)
    ensures e.PrefsArrived? ==> !r.0.loading && r.0.isMobile == n.isMobile
    ensures e.PrefsArrived? && Truthy(e.data) && !n.isMobile ==>
      (r.0.open <==> !Truthy(Field(e.data.value, CollapsedKey)))
    ensures e.PrefsArrived? && (!Truthy(e.data) || n.isMobile) ==> r.0.open == n.open
  {
    match e
    case PrefsArrived(data) =>
      var open := if Truthy(data) && !n.isMobile then !Truthy(Field(data.value, CollapsedKey)) else n.open;
      (n.(open := open, loading := false), None)
    case PrefsFailed => (n.(loading := false), None)
    case ScreenIs(mobile) => (n.(isMobile := mobile, open := if mobile then false else n.open), None)
    case Toggled =>
      var newOpen := !n.open;
      (n.(open := newOpen), if n.isMobile then None else Some(!newOpen))
    case Closed => (if n.isMobile then n.(open := false) else n, None)
  }

  function Run(n: Nav, es: seq<Event>): Nav
    decreases |es|
  {
    if |es| == 0 then n else Run(Step(n, es[0]).0, es[1..])
  }

  /** The row as it is stored after the toggle wrote `collapsed`. */
  function RowWith(collapsed: bool): Json {
    JObj(map[CollapsedKey := JBool(collapsed)])
  }

  /**
   * What a desktop toggle saves is what a later desktop load restores: the
   * sidebar comes back in the state the toggle left it.
   */
  lemma PersistThenLoadRestores(n: Nav, later: Nav)
    requires !n.isMobile && !later.isMobile
    ensures var (toggled, written) := Step(n, Toggled);
      written.Some? && Step(later, PrefsArrived(Some(RowWith(written.value)))).0.open == toggled.open
  {
    var written := Step(n, Toggled).1.value;
    assert Field(RowWith(written), CollapsedKey) == Some(JBool(written));
  }

  /** Toggling twice gives the sidebar back, and on desktop the second write undoes the first. */
  lemma ToggleTwice(n: Nav)
    ensures Step(Step(n, Toggled).0, Toggled).0 == n
    ensures !n.isMobile ==> Step(Step(n, Toggled).0, Toggled).1 == Some(!n.open)
  {
  }

  /** The close button is a no-op on desktop. */
  lemma CloseOnDesktopKeeps(n: Nav)
    requires !n.isMobile
    ensures Step(n, Closed).0 == n
  {
  }

  /** Events that cannot open a closed sidebar on a mobile screen: anything but the toggle and a move to desktop. */
  predicate KeepsMobileClosed(e: Event) {
    !e.Toggled? && e != ScreenIs(false)
  }

  /** On a mobile screen the sidebar stays closed until the user toggles it or the screen becomes desktop. */
  lemma {:induction false} MobileStaysClosed(n: Nav, es: seq<Event>)
    requires n.isMobile && !n.open
    requires forall k :: 0 <= k < |es| ==> KeepsMobileClosed(es[k])
    ensures Run(n, es).isMobile && !Run(n, es).open
    decreases |es|
  {
    if |es| > 0 {
      MobileStaysClosed(Step(n, es[0]).0, es[1..]);
    }
  }

  /** Becoming mobile always closes the sidebar, whatever it was before. */
  lemma MobileCloses(n: Nav, es: seq<Event>)
    requires forall k :: 0 <= k < |es| ==> KeepsMobileClosed(es[k])
    ensures !Run(Step(n, ScreenIs(true)).0, es).open
  {
    MobileStaysClosed(Step(n, ScreenIs(true)).0, es);
  }
}

=== FILE: pipeline.dfy ===
/**
 * The stream end to end: the body a route produces, read by
 * `StreamingManager.startStream`. When every read ends on a record
 * boundary, the consumer reports exactly the records the producer sent
 * before the first `[DONE]`: one `onChunk` per text or tool record, with
 * the record's object, and a promise resolved with their text.
 */
module StreamPipeline {
  import opened Wrappers
  import opened Text
  import opened JsonValue
  import opened StreamProducer
  import opened StreamConsumer

  /** The consumer's reading of a well-formed record. */
  function EffectOf(r: Record): LineEffect {
    match r
    case ContentRecord(c) => TextChunk(RecordJson(r), ToText(c))
    case ToolRecord(_, _) => ToolChunk(RecordJson(r))
    case DoneRecord => DoneMarker
  }

  /** The codec round-trips every record payload of `rs`. */
  predicate CodecFits(codec: JsonCodec, rs: seq<Record>) {
    forall i :: 0 <= i < |rs| ==> WellFormed(rs[i]) && (rs[i].DoneRecord? || Faithful(codec, RecordJson(rs[i])))
  }

  /** The records before the first `[DONE]`. */
  function Before(rs: seq<Record>): (r: seq<Record>)
    ensures |r| <= |rs|
    decreases |rs|
  {
    if |rs| == 0 || rs[0].DoneRecord? then [] else [rs[0]] + Before(rs[1..])
  }

  /** The records contain a `[DONE]`: `Before` stops short of their end. */
  predicate DoneIn(rs: seq<Record>) {
    |Before(rs)| < |rs|
  }

  /** `DoneIn` is membership of `[DONE]`. */
  lemma {:induction false} DoneInSpec(rs: seq<Record>)
    ensures DoneIn(rs) <==> DoneRecord in rs
    ensures DoneIn(rs) ==> rs[|Before(rs)|] == DoneRecord && Before(rs) == rs[..|Before(rs)|]
    decreases |rs|
  {
    if |rs| > 0 && !rs[0].DoneRecord? {
      DoneInSpec(rs[1..]);
      assert rs == [rs[0]] + rs[1..];
    }
  }

  /** The text a record carries: a text record's content, nothing for the others. */
  function RecordText(r: Record): string {
    if r.ContentRecord? then ToText(r.content) else ""
  }

  /** The text the records carry, in order. */
  function RecordsText(rs: seq<Record>): string
    decreases |rs|
  {
    if |rs| == 0 then "" else RecordText(rs[0]) + RecordsText(rs[1..])
  }

  /** The objects the records are serialised from, in order. */
  function RecordJsons(rs: seq<Record>): (js: seq<Json>)
    ensures |js| == |rs|
    decreases |rs|
  {
    if |rs| == 0 then [] else [RecordJson(rs[0])] + RecordJsons(rs[1..])
  }

  /** The chunks handed to `onChunk`, in order. */
  function Payloads(calls: seq<Callback>): seq<Json>
    decreases |calls|
  {
    if |calls| == 0 then []
    else (if calls[0].OnChunk? then [calls[0].chunk] else []) + Payloads(calls[1..])
  }

  /** The lines of a body: each record line followed by the empty line that ends it. */
  function FrameLines(codec: JsonCodec, rs: seq<Record>): seq<string>
    decreases |rs|
  {
    if |rs| == 0 then [] else [FrameLine(codec, rs[0]), ""] + FrameLines(codec, rs[1..])
  }

  /** The consumer's reading of those lines. */
  function RecordEffects(rs: seq<Record>): seq<LineEffect>
    decreases |rs|
  {
    if |rs| == 0 then [] else [EffectOf(rs[0]), Ignored] + RecordEffects(rs[1..])
  }

  lemma {:induction false} PayloadsAppend(xs: seq<Callback>, ys: seq<Callback>)
    ensures Payloads(xs + ys) == Payloads(xs) + Payloads(ys)
    decreases |xs|
  {
    if |xs| == 0 {
      assert xs + ys == ys;
    } else {
      assert (xs + ys)[0] == xs[0];
      assert (xs + ys)[1..] == xs[1..] + ys;
      PayloadsAppend(xs[1..], ys);
    }
  }

  /** A record line never contains a newline. */
  lemma FrameLineIsOneLine(codec: JsonCodec, r: Record)
    requires r.DoneRecord? || Faithful(codec, RecordJson(r))
    ensures '\n' !in FrameLine(codec, r)
  {
    var line := FrameLine(codec, r);
    assert line == "data: " + Payload(codec, r);
    forall k | 0 <= k < |line|
      ensures line[k] != '\n'
    {
      if k >= 6 {
        assert line[k] == Payload(codec, r)[k - 6];
      }
    }
  }

  /** The body splits into the record lines, each followed by an empty line, and a final empty piece. */
  lemma {:induction false} SplitBody(codec: JsonCodec, rs: seq<Record>)
    requires CodecFits(codec, rs)
    ensures Split(Body(codec, rs), '\n') == FrameLines(codec, rs) + [""]
    decreases |rs|
  {
    if |rs| > 0 {
      var line := FrameLine(codec, rs[0]);
      var rest := Body(codec, rs[1..]);
      CodecFitsTail(codec, rs);
      SplitBody(codec, rs[1..]);
      FrameLineIsOneLine(codec, rs[0]);
      SplitWithoutSeparator(line, '\n');
      assert Body(codec, rs) == line + ['\n'] + ("" + ['\n'] + rest);
      SplitAround(line, "" + ['\n'] + rest, '\n');
      SplitAround("", rest, '\n');
      assert Split("", '\n') == [""];
      RegroupFrame(line, FrameLines(codec, rs[1..]));
    }
  }

  lemma CodecFitsTail(codec: JsonCodec, rs: seq<Record>)
    requires |rs| > 0 && CodecFits(codec, rs)
    ensures CodecFits(codec, rs[1..])
  {
    forall i | 0 <= i < |rs| - 1
      ensures WellFormed(rs[1..][i]) && (rs[1..][i].DoneRecord? || Faithful(codec, RecordJson(rs[1..][i])))
    {
      assert rs[1..][i] == rs[i + 1];
    }
  }

  /** The split pieces of one frame followed by the rest, regrouped as `FrameLines` lists them. */
  lemma RegroupFrame(line: string, lines: seq<string>)
    ensures [line] + ([""] + (lines + [""])) == ([line, ""] + lines) + [""]
  {
    SeqAssociative([""], lines, [""]);
    SeqAssociative([line], [""] + lines, [""]);
    SeqAssociative([line], [""], lines);
    assert [line] + [""] == [line, ""];
  }


  /** Each record line means to the consumer what the record is. */
  lemma FrameLineDecodes(codec: JsonCodec, r: Record)
    requires WellFormed(r) && (r.DoneRecord? || Faithful(codec, RecordJson(r)))
    ensures Classify(codec, FrameLine(codec, r)) == EffectOf(r)
  {
    var line := FrameLine(codec, r);
    assert line[..|DataPrefix|] == DataPrefix;
    assert line[|DataPrefix|..] == Payload(codec, r);
    if r.ToolRecord? {
      assert Field(RecordJson(r), "content") == None;
      assert Field(RecordJson(r), "type") == Some(JStr(r.tool));
    }
  }

  /** The empty line ending a record means nothing to the consumer. */
  lemma BlankLineIgnored(codec: JsonCodec)
    ensures Classify(codec, "") == Ignored
  {
  }

  /** Reading the lines of a body gives the effects of its records. */
  lemma {:induction false} EffectsOfFrames(codec: JsonCodec, rs: seq<Record>)
    requires CodecFits(codec, rs)
    ensures Effects(Meaning(codec), FrameLines(codec, rs)) == RecordEffects(rs)
    decreases |rs|
  {
    if |rs| > 0 {
      var cl := Meaning(codec);
      assert CodecFits(codec, rs[1..]) by {
        forall i | 0 <= i < |rs| - 1
          ensures WellFormed(rs[1..][i]) && (rs[1..][i].DoneRecord? || Faithful(codec, RecordJson(rs[1..][i])))
        {
          assert rs[1..][i] == rs[i + 1];
        }
      }
      EffectsOfFrames(codec, rs[1..]);
      EffectsAppend(cl, [FrameLine(codec, rs[0]), ""], FrameLines(codec, rs[1..]));
      FrameLineDecodes(codec, rs[0]);
      BlankLineIgnored(codec);
      assert [FrameLine(codec, rs[0]), ""][1..] == [""];
      assert Effects(cl, [FrameLine(codec, rs[0]), ""]) == [EffectOf(rs[0]), Ignored];
    }
  }

  /** Scanning one record that is not `[DONE]` and its blank line. */
  lemma ScanOneRecord(r: Record, xs: seq<LineEffect>, base: string)
    requires !r.DoneRecord?
    ensures var next := base + RecordText(r);
      var p2 := ScanLines(xs, next);
      ScanLines([EffectOf(r), Ignored] + xs, base) == p2.(calls := [OnChunk(RecordJson(r), next)] + p2.calls)
  {
    var next := base + RecordText(r);
    assert [EffectOf(r), Ignored] + xs == [EffectOf(r)] + ([Ignored] + xs);
    assert TextOf(EffectOf(r)) == RecordText(r);
    ScanLinesStep(EffectOf(r), [Ignored] + xs, base);
    ScanLinesStep(Ignored, xs, next);
    assert next + TextOf(Ignored) == next;
    var p2 := ScanLines(xs, next);
    assert p2.calls == [] + p2.calls;
  }

  /** The chunk of a single `onChunk` call, in front of others. */
  lemma PayloadsCons(c: Json, full: string, calls: seq<Callback>)
    ensures Payloads([OnChunk(c, full)] + calls) == [c] + Payloads(calls)
  {
    var whole := [OnChunk(c, full)] + calls;
    assert whole[1..] == calls;
  }

  /** `ScanRecords` one record further: a text or tool record reports its chunk ahead of the rest. */
  lemma ScanRecordsStep(r: Record, rest: seq<Record>, p: Progress, p2: Progress, q: Progress, base: string)
    requires !r.DoneRecord?
    requires p == p2.(calls := [OnChunk(RecordJson(r), base + RecordText(r))] + p2.calls)
    requires var next := base + RecordText(r);
      && (DoneIn(rest) ==> p2.full == next + RecordsText(Before(rest)) && p2.finished
                               && Payloads(p2.calls) == RecordJsons(Before(rest)))
      && (!DoneIn(rest) ==> p2.full == q.full && p2.finished == q.finished
                                && Payloads(p2.calls) == RecordJsons(rest) + Payloads(q.calls))
    ensures base + RecordsText([r] + rest) == (base + RecordText(r)) + RecordsText(rest)
    ensures var rs := [r] + rest;
      && (DoneIn(rs) ==> p.full == base + RecordsText(Before(rs)) && p.finished
                               && Payloads(p.calls) == RecordJsons(Before(rs)))
      && (!DoneIn(rs) ==> p.full == q.full && p.finished == q.finished
                                && Payloads(p.calls) == RecordJsons(rs) + Payloads(q.calls))
  {
    var rs := [r] + rest;
    assert rs[0] == r && rs[1..] == rest;
    RecordsCons(rs);
    PayloadsCons(RecordJson(r), base + RecordText(r), p2.calls);
    AppendAssociative(base, RecordText(r), RecordsText(rest));
    AppendAssociative(base, RecordText(r), RecordsText(Before(rest)));
  }

  /** Unfolding the record functions at a first record that is not `[DONE]`. */
  lemma RecordsCons(rs: seq<Record>)
    requires |rs| > 0 && !rs[0].DoneRecord?
    ensures RecordsText(rs) == RecordText(rs[0]) + RecordsText(rs[1..])
    ensures RecordJsons(rs) == [RecordJson(rs[0])] + RecordJsons(rs[1..])
    ensures Before(rs) == [rs[0]] + Before(rs[1..])
    ensures DoneIn(rs) <==> DoneIn(rs[1..])
    ensures RecordsText(Before(rs)) == RecordText(rs[0]) + RecordsText(Before(rs[1..]))
    ensures RecordJsons(Before(rs)) == [RecordJson(rs[0])] + RecordJsons(Before(rs[1..]))
  {
    var b := [rs[0]] + Before(rs[1..]);
    assert b[0] == rs[0] && b[1..] == Before(rs[1..]);
  }

  /**
   * Scanning the effects of whole records, followed by `tail`: the text
   * and chunks of the records before `[DONE]`, and the scan stops at
   * `[DONE]` or goes on into `tail`.
   */
  lemma {:induction false} ScanRecords(rs: seq<Record>, tail: seq<LineEffect>, base: string)
    ensures var p := ScanLines(RecordEffects(rs) + tail, base);
      var q := ScanLines(tail, base + RecordsText(rs));
      && (DoneIn(rs) ==> p.full == base + RecordsText(Before(rs)) && p.finished
                               && Payloads(p.calls) == RecordJsons(Before(rs)))
      && (!DoneIn(rs) ==> p.full == q.full && p.finished == q.finished
                                && Payloads(p.calls) == RecordJsons(rs) + Payloads(q.calls))
    decreases |rs|
  {
    if |rs| > 0 {
      var r, rest := rs[0], rs[1..];
      assert RecordEffects(rs) == [EffectOf(r), Ignored] + RecordEffects(rest);
      SeqAssociative([EffectOf(r), Ignored], RecordEffects(rest), tail);
      if !r.DoneRecord? {
        var next := base + RecordText(r);
        ScanRecords(rest, tail, next);
        ScanOneRecord(r, RecordEffects(rest) + tail, base);
        assert rs == [r] + rest;
        ScanRecordsStep(r, rest, ScanLines(RecordEffects(rs) + tail, base),
                        ScanLines(RecordEffects(rest) + tail, next), ScanLines(tail, next + RecordsText(rest)), base);
      } else {
        assert Before(rs) == [];
      }
    } else {
      assert RecordEffects(rs) + tail == tail;
      assert base + "" == base;
    }
  }

  /** Records that do not end the stream are kept whole by `Before`. */
  lemma {:induction false} BeforeWithoutDone(rs: seq<Record>)
    requires !DoneIn(rs)
    ensures Before(rs) == rs
    decreases |rs|
  {
    if |rs| > 0 {
      assert !DoneIn(rs[1..]);
      BeforeWithoutDone(rs[1..]);
      assert rs == [rs[0]] + rs[1..];
    }
  }

  /** The consumer's reading of a whole body: its records' effects, and the final empty piece. */
  lemma BodyEffects(codec: JsonCodec, rs: seq<Record>)
    requires CodecFits(codec, rs)
    ensures Effects(Meaning(codec), Split(Body(codec, rs), '\n')) == RecordEffects(rs) + [Ignored]
  {
    var cl := Meaning(codec);
    SplitBody(codec, rs);
    EffectsOfFrames(codec, rs);
    EffectsAppend(cl, FrameLines(codec, rs), [""]);
    BlankLineIgnored(codec);
    assert Effects(cl, [""]) == [Ignored];
  }

  /**
   * One read holding whole records: it ends the run at a `[DONE]` record,
   * and otherwise reports its records and passes their text on.
   */
  lemma RecordRead(cl: Classifier, text: string, rs: seq<Record>, rest: seq<Delivery>, base: string)
    requires Effects(cl, Split(text, '\n')) == RecordEffects(rs) + [Ignored]
    ensures var r := ConsumeReads(cl, [Delivery(false, Data(text))] + rest, base);
      var done := base + RecordsText(Before(rs));
      var r2 := ConsumeReads(cl, rest, base + RecordsText(rs));
      && (DoneIn(rs) ==>
            && r.outcome == Resolved(done)
            && Payloads(r.calls) == RecordJsons(Before(rs))
            && |r.calls| > 0 && r.calls[|r.calls| - 1] == OnComplete(done))
      && (!DoneIn(rs) ==>
            && r.outcome == r2.outcome
            && Payloads(r.calls) == RecordJsons(rs) + Payloads(r2.calls)
            && (|r2.calls| > 0 ==> |r.calls| > 0 && r.calls[|r.calls| - 1] == r2.calls[|r2.calls| - 1]))
  {
    ScanRecords(rs, [Ignored], base);
    DataRead(cl, text, rest, base);
    var p := ScanLines(RecordEffects(rs) + [Ignored], base);
    if DoneIn(rs) {
      PayloadsAppend(p.calls, [OnComplete(p.full)]);
      assert Payloads([OnComplete(p.full)]) == [];
    } else {
      var next := base + RecordsText(rs);
      assert ScanLines([Ignored], next) == Progress([], next, false);
      assert Payloads([]) == [];
      assert RecordJsons(rs) + [] == RecordJsons(rs);
      assert p.full == next && !p.finished;
      var r2 := ConsumeReads(cl, rest, next);
      var r := ConsumeReads(cl, [Delivery(false, Data(text))] + rest, base);
      assert r == Run(p.calls + r2.calls, r2.outcome);
      PayloadsAppend(p.calls, r2.calls);
      if |r2.calls| > 0 {
        assert r.calls[|r.calls| - 1] == r2.calls[|r2.calls| - 1];
      }
    }
  }

  /**
   * A whole body delivered as one read: the consumer calls `onStart`, one
   * `onChunk` per record before the first `[DONE]` carrying that record's
   * object, and `onComplete`; the promise resolves with the records' text.
   */
  lemma SingleReadRoundTrip(codec: JsonCodec, rs: seq<Record>)
    requires CodecFits(codec, rs)
    ensures var run := Consume(Meaning(codec), [Delivery(false, Data(Body(codec, rs)))]);
      && run.outcome == Resolved(RecordsText(Before(rs)))
      && Payloads(run.calls) == RecordJsons(Before(rs))
      && run.calls[0] == OnStart
      && run.calls[|run.calls| - 1] == OnComplete(RecordsText(Before(rs)))
  {
    var cl := Meaning(codec);
    var text := Body(codec, rs);
    BodyEffects(codec, rs);
    RecordRead(cl, text, rs, [], "");
    assert [Delivery(false, Data(text))] + [] == [Delivery(false, Data(text))];
    if !DoneIn(rs) {
      BeforeWithoutDone(rs);
      assert Payloads([OnComplete("" + RecordsText(rs))]) == [];
    }
    assert "" + RecordsText(Before(rs)) == RecordsText(Before(rs));
    ConsumePayloads(cl, [Delivery(false, Data(text))]);
  }

  /** `Before`, `RecordsText` and `RecordJsons` over two consecutive runs of records. */
  lemma {:induction false} BeforeAppend(xs: seq<Record>, ys: seq<Record>)
    ensures DoneIn(xs) ==> Before(xs + ys) == Before(xs)
    ensures !DoneIn(xs) ==> Before(xs + ys) == xs + Before(ys)
    decreases |xs|
  {
    if |xs| == 0 {
      assert xs + ys == ys;
    } else {
      assert (xs + ys)[0] == xs[0];
      assert (xs + ys)[1..] == xs[1..] + ys;
      if !xs[0].DoneRecord? {
        assert DoneIn(xs) <==> DoneIn(xs[1..]);
        BeforeAppend(xs[1..], ys);
        assert xs == [xs[0]] + xs[1..];
      }
    }
  }

  lemma {:induction false} RecordsTextAppend(xs: seq<Record>, ys: seq<Record>)
    ensures RecordsText(xs + ys) == RecordsText(xs) + RecordsText(ys)
    decreases |xs|
  {
    if |xs| == 0 {
      assert xs + ys == ys;
    } else {
      assert (xs + ys)[0] == xs[0];
      assert (xs + ys)[1..] == xs[1..] + ys;
      RecordsTextAppend(xs[1..], ys);
    }
  }

  lemma {:induction false} RecordJsonsAppend(xs: seq<Record>, ys: seq<Record>)
    ensures RecordJsons(xs + ys) == RecordJsons(xs) + RecordJsons(ys)
    decreases |xs|
  {
    if |xs| == 0 {
      assert xs + ys == ys;
    } else {
      assert (xs + ys)[0] == xs[0];
      assert (xs + ys)[1..] == xs[1..] + ys;
      RecordJsonsAppend(xs[1..], ys);
    }
  }

  /** All records of a sequence of groups, in order. */
  function Flatten(groups: seq<seq<Record>>): seq<Record>
    decreases |groups|
  {
    if |groups| == 0 then [] else groups[0] + Flatten(groups[1..])
  }

  /** One read per group, each delivering the group's frames. */
  function AlignedReads(codec: JsonCodec, groups: seq<seq<Record>>): (ds: seq<Delivery>)
    ensures |ds| == |groups|
    decreases |groups|
  {
    if |groups| == 0 then []
    else [Delivery(false, Data(Body(codec, groups[0])))] + AlignedReads(codec, groups[1..])
  }

  lemma CodecFitsParts(codec: JsonCodec, xs: seq<Record>, ys: seq<Record>)
    requires CodecFits(codec, xs + ys)
    ensures CodecFits(codec, xs) && CodecFits(codec, ys)
  {
    forall i | 0 <= i < |xs|
      ensures WellFormed(xs[i]) && (xs[i].DoneRecord? || Faithful(codec, RecordJson(xs[i])))
    {
      assert xs[i] == (xs + ys)[i];
    }
    forall i | 0 <= i < |ys|
      ensures WellFormed(ys[i]) && (ys[i].DoneRecord? || Faithful(codec, RecordJson(ys[i])))
    {
      assert ys[i] == (xs + ys)[|xs| + i];
    }
  }

  /** Every group's body reads, to `cl`, as that group's records. */
  predicate ReadsAsRecords(cl: Classifier, codec: JsonCodec, groups: seq<seq<Record>>) {
    forall i :: 0 <= i < |groups| ==> Effects(cl, Split(Body(codec, groups[i]), '\n')) == RecordEffects(groups[i]) + [Ignored]
  }

  /** The read loop over frame-aligned reads, from accumulated content `base`. */
  lemma {:induction false} AlignedReadsFrom(cl: Classifier, codec: JsonCodec, groups: seq<seq<Record>>, base: string)
    requires ReadsAsRecords(cl, codec, groups)
    ensures var r := ConsumeReads(cl, AlignedReads(codec, groups), base);
      var rs := Flatten(groups);
      && r.outcome == Resolved(base + RecordsText(Before(rs)))
      && Payloads(r.calls) == RecordJsons(Before(rs))
      && |r.calls| > 0 && r.calls[|r.calls| - 1] == OnComplete(base + RecordsText(Before(rs)))
    decreases |groups|
  {
    if |groups| == 0 {
      assert Flatten(groups) == [];
      assert Payloads([OnComplete(base)]) == [];
      assert base + "" == base;
    } else {
      var g, later := groups[0], Flatten(groups[1..]);
      ReadsAsRecordsTail(cl, codec, groups);
      FirstGroupRead(cl, codec, groups, base);
      BeforeAppend(g, later);
      if !DoneIn(g) {
        var next := base + RecordsText(g);
        AlignedReadsFrom(cl, codec, groups[1..], next);
        ContinueAfterGroup(ConsumeReads(cl, AlignedReads(codec, groups), base),
                           ConsumeReads(cl, AlignedReads(codec, groups[1..]), next), g, later, base);
      }
    }
  }

  /** `RecordRead` for the first of the frame-aligned reads. */
  lemma FirstGroupRead(cl: Classifier, codec: JsonCodec, groups: seq<seq<Record>>, base: string)
    requires |groups| > 0 && ReadsAsRecords(cl, codec, groups)
    ensures var g := groups[0];
      var r := ConsumeReads(cl, AlignedReads(codec, groups), base);
      var done := base + RecordsText(Before(g));
      var r2 := ConsumeReads(cl, AlignedReads(codec, groups[1..]), base + RecordsText(g));
      && (DoneIn(g) ==>
            && r.outcome == Resolved(done)
            && Payloads(r.calls) == RecordJsons(Before(g))
            && |r.calls| > 0 && r.calls[|r.calls| - 1] == OnComplete(done))
      && (!DoneIn(g) ==>
            && r.outcome == r2.outcome
            && Payloads(r.calls) == RecordJsons(g) + Payloads(r2.calls)
            && (|r2.calls| > 0 ==> |r.calls| > 0 && r.calls[|r.calls| - 1] == r2.calls[|r2.calls| - 1]))
  {
    var g := groups[0];
    var tail := AlignedReads(codec, groups[1..]);
    assert AlignedReads(codec, groups) == [Delivery(false, Data(Body(codec, g)))] + tail;
    assert Effects(cl, Split(Body(codec, g), '\n')) == RecordEffects(g) + [Ignored];
    RecordRead(cl, Body(codec, g), g, tail, base);
  }

  /** The first group reads as its records, and the later groups read as theirs. */
  lemma ReadsAsRecordsTail(cl: Classifier, codec: JsonCodec, groups: seq<seq<Record>>)
    requires |groups| > 0 && ReadsAsRecords(cl, codec, groups)
    ensures Effects(cl, Split(Body(codec, groups[0]), '\n')) == RecordEffects(groups[0]) + [Ignored]
    ensures ReadsAsRecords(cl, codec, groups[1..])
    ensures Flatten(groups) == groups[0] + Flatten(groups[1..])
  {
    forall i | 0 <= i < |groups| - 1
      ensures Effects(cl, Split(Body(codec, groups[1..][i]), '\n')) == RecordEffects(groups[1..][i]) + [Ignored]
    {
      assert groups[1..][i] == groups[i + 1];
    }
  }

  /**
   * A first group without `[DONE]` hands its records and text on: the run
   * over the later groups, started from the text so far, finishes the job.
   */
  lemma ContinueAfterGroup(r: Run, r2: Run, g: seq<Record>, later: seq<Record>, base: string)
    requires !DoneIn(g) && Before(g + later) == g + Before(later)
    requires r.outcome == r2.outcome
    requires Payloads(r.calls) == RecordJsons(g) + Payloads(r2.calls)
    requires |r2.calls| > 0 ==> |r.calls| > 0 && r.calls[|r.calls| - 1] == r2.calls[|r2.calls| - 1]
    requires var next := base + RecordsText(g);
      && r2.outcome == Resolved(next + RecordsText(Before(later)))
      && Payloads(r2.calls) == RecordJsons(Before(later))
      && |r2.calls| > 0 && r2.calls[|r2.calls| - 1] == OnComplete(next + RecordsText(Before(later)))
    ensures var rs := g + later;
      && r.outcome == Resolved(base + RecordsText(Before(rs)))
      && Payloads(r.calls) == RecordJsons(Before(rs))
      && |r.calls| > 0 && r.calls[|r.calls| - 1] == OnComplete(base + RecordsText(Before(rs)))
  {
    RecordsTextAppend(g, Before(later));
    RecordJsonsAppend(g, Before(later));
    AppendAssociative(base, RecordsText(g), RecordsText(Before(later)));
  }

  /** The records of each group fit the codec when those of all groups do. */
  lemma {:induction false} GroupsReadAsRecords(codec: JsonCodec, groups: seq<seq<Record>>)
    requires CodecFits(codec, Flatten(groups))
    ensures ReadsAsRecords(Meaning(codec), codec, groups)
    decreases |groups|
  {
    if |groups| > 0 {
      assert Flatten(groups) == groups[0] + Flatten(groups[1..]);
      CodecFitsParts(codec, groups[0], Flatten(groups[1..]));
      BodyEffects(codec, groups[0]);
      GroupsReadAsRecords(codec, groups[1..]);
      forall i | 0 <= i < |groups|
        ensures Effects(Meaning(codec), Split(Body(codec, groups[i]), '\n')) == RecordEffects(groups[i]) + [Ignored]
      {
        if i > 0 {
          assert groups[i] == groups[1..][i - 1];
        }
      }
    }
  }

  /**
   * However the body is grouped into reads, as long as no read ends inside
   * a record the consumer reports every record before the first `[DONE]`,
   * in order, and resolves with their text.
   */
  lemma AlignedRoundTrip(codec: JsonCodec, groups: seq<seq<Record>>)
    requires CodecFits(codec, Flatten(groups))
    ensures var run := Consume(Meaning(codec), AlignedReads(codec, groups));
      var rs := Flatten(groups);
      && run.outcome == Resolved(RecordsText(Before(rs)))
      && Payloads(run.calls) == RecordJsons(Before(rs))
  {
    GroupsReadAsRecords(codec, groups);
    AlignedReadsFrom(Meaning(codec), codec, groups, "");
    ConsumePayloads(Meaning(codec), AlignedReads(codec, groups));
    assert "" + RecordsText(Before(Flatten(groups))) == RecordsText(Before(Flatten(groups)));
  }

  /** The opening `onStart` carries no chunk: a run reports what its reads report. */
  lemma ConsumePayloads(cl: Classifier, ds: seq<Delivery>)
    ensures Consume(cl, ds).outcome == ConsumeReads(cl, ds, "").outcome
    ensures Payloads(Consume(cl, ds).calls) == Payloads(ConsumeReads(cl, ds, "").calls)
    ensures Consume(cl, ds).calls[0] == OnStart
    ensures |ConsumeReads(cl, ds, "").calls| > 0 ==>
      Consume(cl, ds).calls[|Consume(cl, ds).calls| - 1] == ConsumeReads(cl, ds, "").calls[|ConsumeReads(cl, ds, "").calls| - 1]
  {
    var r := ConsumeReads(cl, ds, "");
    PayloadsAppend([OnStart], r.calls);
    assert Payloads([OnStart]) == [];
  }

  /**
   * The route's response read in one piece: the promise resolves with the
   * text of the upstream events up to the first completion event, and the
   * chunks are the records the normaliser emitted for them.
   */
  lemma ProduceThenConsume(codec: JsonCodec, events: seq<UpstreamEvent>)
    requires forall i :: 0 <= i < |Emitted(events)| ==>
      Emitted(events)[i].DoneRecord? || Faithful(codec, RecordJson(Emitted(events)[i]))
    ensures var run := Consume(Meaning(codec), [Delivery(false, Data(Produce(codec, events)))]);
      && run.outcome == Resolved(RecordsText(Before(Emitted(events))))
      && Payloads(run.calls) == RecordJsons(Before(Emitted(events)))
  {
    SingleReadRoundTrip(codec, Emitted(events));
  }

  // ---------------------------------------------------------------------
  // A record cut by a read boundary. The consumer splits each read on its
  // own and keeps nothing between reads, so neither half of a record
  // that straddles two reads is a line it can decode.
  // ---------------------------------------------------------------------

  /** One read whose lines all mean nothing to the consumer. */
  lemma IgnoredRead(cl: Classifier, text: string, rest: seq<Delivery>, full: string)
    requires forall k :: 0 <= k < |Split(text, '\n')| ==> cl(Split(text, '\n')[k]).Ignored?
    ensures ConsumeReads(cl, [Delivery(false, Data(text))] + rest, full) == ConsumeReads(cl, rest, full)
  {
    DataRead(cl, text, rest, full);
    IgnoredScan(Effects(cl, Split(text, '\n')), full, cl, Split(text, '\n'));
  }

  lemma {:induction false} IgnoredScan(es: seq<LineEffect>, full: string, cl: Classifier, lines: seq<string>)
    requires es == Effects(cl, lines)
    requires forall k :: 0 <= k < |lines| ==> cl(lines[k]).Ignored?
    ensures ScanLines(es, full) == Progress([], full, false)
    decreases |lines|
  {
    if |lines| > 0 {
      assert es[0] == cl(lines[0]);
      assert full + "" == full;
      IgnoredScan(es[1..], full, cl, lines[1..]);
    }
  }

  /** The front of a record cut inside its payload: a `data: ` line whose payload does not parse. */
  lemma CutFrontIgnored(codec: JsonCodec, payload: string, k: nat)
    requires '\n' !in payload && k <= |payload|
    requires codec.parse(payload[..k]).None? && payload[..k] != DoneSentinel
    ensures var front := DataPrefix + payload[..k];
      forall i :: 0 <= i < |Split(front, '\n')| ==> Meaning(codec)(Split(front, '\n')[i]).Ignored?
  {
    var front := DataPrefix + payload[..k];
    assert '\n' !in front by {
      forall i | 0 <= i < |front|
        ensures front[i] != '\n'
      {
        if i >= |DataPrefix| {
          assert front[i] == payload[i - |DataPrefix|];
        }
      }
    }
    SplitWithoutSeparator(front, '\n');
    UnparsableLineIgnored(codec, payload[..k]);
  }

  /** The back of a record cut inside its payload: a line without the prefix, then two empty lines. */
  lemma CutBackIgnored(codec: JsonCodec, payload: string, k: nat)
    requires '\n' !in payload && k <= |payload|
    requires !StartsWith(payload[k..], DataPrefix)
    ensures var back := payload[k..] + "\n\n";
      forall i :: 0 <= i < |Split(back, '\n')| ==> Meaning(codec)(Split(back, '\n')[i]).Ignored?
  {
    var rest := payload[k..];
    assert '\n' !in rest;
    assert rest + "\n\n" == rest + ['\n'] + ("" + ['\n'] + "");
    SplitWithoutSeparator(rest, '\n');
    SplitAround(rest, "" + ['\n'] + "", '\n');
    SplitAround("", "", '\n');
    assert Split(rest + "\n\n", '\n') == [rest, "", ""];
  }

  /**
   * A text record cut by a read boundary inside its payload is lost. Read
   * whole, the record's text is the resolved content; cut after `k`
   * payload characters (where the front does not parse and the back does
   * not begin with `data: `), the stream resolves with nothing. An
   * instance is `data: {"content":"hi"}` cut after `data: {"`.
   */
  lemma CutRecordIsLost(codec: JsonCodec, c: Json, k: nat)
    requires Truthy(Some(c)) && Faithful(codec, RecordJson(ContentRecord(c)))
    requires var payload := codec.stringify(RecordJson(ContentRecord(c)));
      && k <= |payload|
      && codec.parse(payload[..k]).None? && payload[..k] != DoneSentinel
      && !StartsWith(payload[k..], DataPrefix)
    ensures var body := Body(codec, [ContentRecord(c)]);
      var cut := |DataPrefix| + k;
      && cut <= |body|
      && Consume(Meaning(codec), [Delivery(false, Data(body))]).outcome == Resolved(ToText(c))
      && Consume(Meaning(codec), [Delivery(false, Data(body[..cut])), Delivery(false, Data(body[cut..]))]).outcome == Resolved("")
  {
    var r := ContentRecord(c);
    var payload := codec.stringify(RecordJson(r));
    var body := Body(codec, [r]);
    var cut := |DataPrefix| + k;
    assert body == DataPrefix + payload + "\n\n" by {
      OneFrameBody(codec, r);
      assert Payload(codec, r) == payload;
    }
    assert Consume(Meaning(codec), [Delivery(false, Data(body))]).outcome == Resolved(ToText(c)) by {
      WholeContentRead(codec, c);
    }
    CutBodyIgnored(codec, payload, k, body);
  }

  /** Both halves of a frame cut inside its payload are ignored, so the two reads resolve with nothing. */
  lemma CutBodyIgnored(codec: JsonCodec, payload: string, k: nat, body: string)
    requires '\n' !in payload && k <= |payload| && body == DataPrefix + payload + "\n\n"
    requires codec.parse(payload[..k]).None? && payload[..k] != DoneSentinel
    requires !StartsWith(payload[k..], DataPrefix)
    ensures var cut := |DataPrefix| + k;
      Consume(Meaning(codec), [Delivery(false, Data(body[..cut])), Delivery(false, Data(body[cut..]))]).outcome == Resolved("")
  {
    var cut := |DataPrefix| + k;
    assert body[..cut] == DataPrefix + payload[..k];
    assert body[cut..] == payload[k..] + "\n\n";
    CutFrontIgnored(codec, payload, k);
    CutBackIgnored(codec, payload, k);
    IgnoredReads(Meaning(codec), body[..cut], body[cut..]);
  }

  /** The body of a single record is its one frame. */
  lemma OneFrameBody(codec: JsonCodec, r: Record)
    ensures Body(codec, [r]) == DataPrefix + Payload(codec, r) + "\n\n"
  {
    assert [r][1..] == [];
    assert Frame(codec, r) + "" == Frame(codec, r);
  }

  /** A single text record read whole resolves with its text. */
  lemma WholeContentRead(codec: JsonCodec, c: Json)
    requires Truthy(Some(c)) && Faithful(codec, RecordJson(ContentRecord(c)))
    ensures Consume(Meaning(codec), [Delivery(false, Data(Body(codec, [ContentRecord(c)])))]).outcome == Resolved(ToText(c))
  {
    var rs := [ContentRecord(c)];
    assert CodecFits(codec, rs);
    SingleReadRoundTrip(codec, rs);
    assert rs[1..] == [];
    assert Before(rs) == rs;
    assert RecordsText(rs) == ToText(c) + "";
  }

  /** Two reads whose every line is ignored resolve with nothing. */
  lemma IgnoredReads(cl: Classifier, front: string, back: string)
    requires forall i :: 0 <= i < |Split(front, '\n')| ==> cl(Split(front, '\n')[i]).Ignored?
    requires forall i :: 0 <= i < |Split(back, '\n')| ==> cl(Split(back, '\n')[i]).Ignored?
    ensures Consume(cl, [Delivery(false, Data(front)), Delivery(false, Data(back))]).outcome == Resolved("")
  {
    var later := [Delivery(false, Data(back))];
    IgnoredRead(cl, front, later, "");
    assert [Delivery(false, Data(front))] + later == [Delivery(false, Data(front)), Delivery(false, Data(back))];
    IgnoredRead(cl, back, [], "");
    assert later + [] == later;
  }
}

=== FILE: preferences.dfy ===
/**
 * `PreferencesManager`: the four preference categories, their defaults,
 * the per-category merge, validation, and the cache that saving, loading,
 * the category updates, reset and import keep. The database calls are
 * outside the model: their outcome is a parameter. Listeners are named by
 * tokens; notifying them yields the calls made.
 */
module Preferences {
  import opened Wrappers
  import opened Text
  import opened JsonValue

  /** One category: its settings by name. */
  type Section = map<string, Json>

  datatype Prefs = Prefs(chat: Section, ui: Section, notifications: Section, advanced: Section)

  const DefaultChat: Section := map[
    "defaultModel" := JStr("mojo"),
    "autoScroll" := JBool(true),
    "showTimestamps" := JBool(true),
    "compactMode" := JBool(false),
    "soundEnabled" := JBool(false),
    "streamingEnabled" := JBool(true),
    "reasoningEffort" := JStr("medium")]

  const DefaultUi: Section := map[
    "theme" := JStr("dark"),
    "sidebarCollapsed" := JBool(false),
    "fontSize" := JStr("medium"),
    "animationsEnabled" := JBool(true),
    "glassEffects" := JBool(true)]

  const DefaultNotifications: Section := map[
    "newMessageSound" := JBool(false),
    "browserNotifications" := JBool(false),
    "emailNotifications" := JBool(false),
    "mentionNotifications" := JBool(false)]

  const DefaultAdvanced: Section := map[
    "developerMode" := JBool(false),
    "debugMode" := JBool(false),
    "experimentalFeatures" := JBool(false),
    "telemetryEnabled" := JBool(true)]

  const Defaults: Prefs := Prefs(DefaultChat, DefaultUi, DefaultNotifications, DefaultAdvanced)

  /** The preferences as the JSON object they are stored and exported as. */
  function PrefsJson(p: Prefs): Json {
    JObj(map["chat" := JObj(p.chat), "ui" := JObj(p.ui), "notifications" := JObj(p.notifications),
             "advanced" := JObj(p.advanced)])
  }

  /**
   * `{...v}` for the value an update gives a category: what spreading it
   * copies, and nothing when the update leaves the category out.
   */
  function Entries(v: Option<Json>): Section {
    if v.Some? then SpreadEntries(v.value) else map[]
  }

  /** `{...base, ...v}`: the update's entries win, the others stay. */
  function MergeSection(base: Section, v: Option<Json>): (r: Section)
    ensures r.Keys == base.Keys + Entries(v).Keys
    ensures forall k :: k in Entries(v) ==> r[k] == Entries(v)[k]
    ensures forall k :: k in base && k !in Entries(v) ==> r[k] == base[k]
    ensures v.None? ==> r == base
  {
    base + Entries(v)
  }

  /** Why a call throws. */
  datatype Thrown = NullAccess | StoreFailed(error: Json) | InvalidFormat

  /**
   * `mergePreferences(base, updates)`: each category merged on its own;
   * a category the update does not name is unchanged. Reading a category
   * of `null` throws.
   */
  function Merge(base: Prefs, updates: Json): (r: Result<Prefs, Thrown>)
    ensures r.Failure? <==> updates == JNull
    ensures r.Failure? ==> r.error == NullAccess
    ensures r.Success? ==>
      && r.value.chat == MergeSection(base.chat, Field(updates, "chat"))
      && r.value.ui == MergeSection(base.ui, Field(updates, "ui"))
      && r.value.notifications == MergeSection(base.notifications, Field(updates, "notifications"))
      && r.value.advanced == MergeSection(base.advanced, Field(updates, "advanced"))
  {
    if updates == JNull then Failure(NullAccess)
    else
      Success(Prefs(
        MergeSection(base.chat, Field(updates, "chat")),
        MergeSection(base.ui, Field(updates, "ui")),
        MergeSection(base.notifications, Field(updates, "notifications")),
        MergeSection(base.advanced, Field(updates, "advanced"))))
  }

  /**
   * A category given as a text is spread character by character: each
   * character lands under its index, and a setting whose name is no
   * index keeps its value.
   */
  lemma TextCategorySpreads(base: Prefs, s: string)
    ensures Merge(base, JObj(map["chat" := JStr(s)])).Success?
    ensures forall i :: 0 <= i < |s| ==>
      Merge(base, JObj(map["chat" := JStr(s)])).value.chat[NatToString(i)] == JStr([s[i]])
    ensures forall k :: k in base.chat && k !in IndexKeys(|s|) ==>
      Merge(base, JObj(map["chat" := JStr(s)])).value.chat[k] == base.chat[k]
  {
  }

  /** Merging the same update twice is merging it once. */
  lemma MergeIdempotent(base: Prefs, updates: Json)
    requires updates != JNull
    ensures Merge(Merge(base, updates).value, updates) == Merge(base, updates)
  {
    var once := Merge(base, updates).value;
    var twice := Merge(once, updates).value;
    assert twice.chat == once.chat;
    assert twice.ui == once.ui;
    assert twice.notifications == once.notifications;
    assert twice.advanced == once.advanced;
  }

  /** Merging a preferences object over anything gives back every entry it has. */
  lemma MergeWholeOverrides(base: Prefs, p: Prefs)
    requires base.chat.Keys <= p.chat.Keys && base.ui.Keys <= p.ui.Keys
    requires base.notifications.Keys <= p.notifications.Keys && base.advanced.Keys <= p.advanced.Keys
    ensures Merge(base, PrefsJson(p)) == Success(p)
  {
    MergeWhole(base, p);
    OverlayCovers(base.chat, p.chat);
    OverlayCovers(base.ui, p.ui);
    OverlayCovers(base.notifications, p.notifications);
    OverlayCovers(base.advanced, p.advanced);
  }

  /** The stored object names each category once, holding that category's settings. */
  lemma PrefsJsonFields(p: Prefs)
    ensures Field(PrefsJson(p), "chat") == Some(JObj(p.chat))
    ensures Field(PrefsJson(p), "ui") == Some(JObj(p.ui))
    ensures Field(PrefsJson(p), "notifications") == Some(JObj(p.notifications))
    ensures Field(PrefsJson(p), "advanced") == Some(JObj(p.advanced))
  {
  }

  /** Spreading `d` over a section whose every setting `d` also has gives `d`. */
  lemma OverlayCovers(base: Section, d: Section)
    requires base.Keys <= d.Keys
    ensures base + d == d
  {
  }

  // ---------------------------------------------------------------------
  // Validation
  // ---------------------------------------------------------------------

  predicate ValidModel(v: Json) { v == JStr("mojo") || v == JStr("mojo++") }
  predicate ValidTheme(v: Json) { v == JStr("dark") || v == JStr("light") }

  /** Every default setting is present, and the model and theme are ones the program knows. */
  predicate Conforms(p: Prefs) {
    && DefaultChat.Keys <= p.chat.Keys && DefaultUi.Keys <= p.ui.Keys
    && DefaultNotifications.Keys <= p.notifications.Keys && DefaultAdvanced.Keys <= p.advanced.Keys
    && ValidModel(p.chat["defaultModel"]) && ValidTheme(p.ui["theme"])
  }

  /**
   * `validatePreferences`: the value merged over the defaults, with an
   * unknown model replaced by `mojo` and an unknown theme by `dark`.
   */
  function Validate(j: Json): (r: Result<Prefs, Thrown>)
    ensures r.Failure? <==> j == JNull
    ensures r.Success? ==> Conforms(r.value)
    ensures r.Success? ==> var m := Merge(Defaults, j).value;
      && (ValidModel(m.chat["defaultModel"]) ==> r.value.chat == m.chat)
      && (!ValidModel(m.chat["defaultModel"]) ==> r.value.chat == m.chat["defaultModel" := JStr("mojo")])
      && (ValidTheme(m.ui["theme"]) ==> r.value.ui == m.ui)
      && (!ValidTheme(m.ui["theme"]) ==> r.value.ui == m.ui["theme" := JStr("dark")])
      && r.value.notifications == m.notifications && r.value.advanced == m.advanced
  {
    match Merge(Defaults, j)
    case Failure(e) => Failure(e)
    case Success(m) =>
      var chat := if ValidModel(m.chat["defaultModel"]) then m.chat else m.chat["defaultModel" := JStr("mojo")];
      var ui := if ValidTheme(m.ui["theme"]) then m.ui else m.ui["theme" := JStr("dark")];
      Success(m.(chat := chat, ui := ui))
  }

  /** A conforming value validates to itself. */
  lemma ValidateConforming(p: Prefs)
    requires Conforms(p)
    ensures Validate(PrefsJson(p)) == Success(p)
  {
    MergeWholeOverrides(Defaults, p);
  }

  /** Validating a validated value changes nothing. */
  lemma ValidateIdempotent(j: Json)
    requires j != JNull
    ensures Validate(PrefsJson(Validate(j).value)) == Validate(j)
  {
    ValidateConforming(Validate(j).value);
  }

  // ---------------------------------------------------------------------
  // The manager
  // ---------------------------------------------------------------------

  /** The cache (`null` until something is loaded, saved or read) and the listeners in insertion order. */
  datatype Manager = Manager(cache: Option<Prefs>, listeners: seq<nat>)

  /** One listener call. */
  datatype Delivery = Delivery(listener: nat, prefs: Prefs)

  /**
   * `notifyListeners(p)`: every listener is called with `p`, in order; a
   * listener that throws is caught and does not keep the later ones from
   * being called.
   */
  function Notify(listeners: seq<nat>, p: Prefs): (r: seq<Delivery>)
    ensures |r| == |listeners|
    ensures forall i :: 0 <= i < |r| ==> r[i] == Delivery(listeners[i], p)
    decreases |listeners|
  {
    if |listeners| == 0 then [] else [Delivery(listeners[0], p)] + Notify(listeners[1..], p)
  }

  /** `addListener`: a listener already present is not added again. */
  function AddListener(m: Manager, l: nat): (m': Manager)
    ensures l in m'.listeners && m'.cache == m.cache
    ensures forall x :: x in m'.listeners <==> x in m.listeners || x == l
  {
    if l in m.listeners then m else m.(listeners := m.listeners + [l])
  }

  /** The function `addListener` returns: forget the listener. */
  function RemoveListener(m: Manager, l: nat): (m': Manager)
    ensures l !in m'.listeners && m'.cache == m.cache
    ensures forall x :: x in m'.listeners <==> x in m.listeners && x != l
    decreases |m.listeners|
  {
    if |m.listeners| == 0 then m
    else
      var rest := RemoveListener(m.(listeners := m.listeners[1..]), l);
      if m.listeners[0] == l then rest else rest.(listeners := [m.listeners[0]] + rest.listeners)
  }

  /** `getCachedPreferences()`: the cache, first set to the defaults when empty. */
  function GetCached(m: Manager): (result: (Manager, Prefs))
    ensures result.1 == m.cache.GetOr(Defaults)
    ensures result.0 == m.(cache := Some(result.1))
  {
    var p := m.cache.GetOr(Defaults);
    (m.(cache := Some(p)), p)
  }

  /** What the store call does: throw, or return (with an error object nobody looks at). */
  datatype Store = StoreThrew(error: Json) | StoreReturned(ignored: Option<Json>)

  /** The state after a call, the calls it made to listeners, and what it threw. */
  datatype Outcome = Outcome(m: Manager, deliveries: seq<Delivery>, failure: Option<Thrown>)

  /**
   * `savePreferences(updates)`: merge over the cache (or the defaults),
   * store, then cache and notify. If merging or the store call throws,
   * the error is rethrown and neither the cache nor the listeners see
   * anything; an error the store returns is not inspected.
   */
  function Save(m: Manager, updates: Json, store: Store): (o: Outcome)
    ensures o.failure.Some? <==> updates == JNull || store.StoreThrew?
    ensures o.failure.Some? ==> o.m == m && o.deliveries == []
    ensures o.failure.None? ==>
      var merged := Merge(m.cache.GetOr(Defaults), updates).value;
      && o.m == m.(cache := Some(merged))
      && o.deliveries == Notify(m.listeners, merged)
  {
    match Merge(m.cache.GetOr(Defaults), updates)
    case Failure(e) => Outcome(m, [], Some(e))
    case Success(merged) =>
      if store.StoreThrew? then Outcome(m, [], Some(StoreFailed(store.error)))
      else Outcome(m.(cache := Some(merged)), Notify(m.listeners, merged), None)
  }

  /** An error object returned by the store changes nothing about a save. */
  lemma ReturnedErrorIgnored(m: Manager, updates: Json, e: Json)
    ensures Save(m, updates, StoreReturned(Some(e))) == Save(m, updates, StoreReturned(None))
  {
  }

  datatype Category = ChatCategory | UiCategory | NotificationCategory | AdvancedCategory

  function CategoryName(c: Category): string {
    match c
    case ChatCategory => "chat"
    case UiCategory => "ui"
    case NotificationCategory => "notifications"
    case AdvancedCategory => "advanced"
  }

  function Get(p: Prefs, c: Category): Section {
    match c
    case ChatCategory => p.chat
    case UiCategory => p.ui
    case NotificationCategory => p.notifications
    case AdvancedCategory => p.advanced
  }

  /** `p` with category `c` replaced by `s`. */
  function With(p: Prefs, c: Category, s: Section): (r: Prefs)
    ensures Get(r, c) == s
    ensures forall d :: d != c ==> Get(r, d) == Get(p, d)
  {
    match c
    case ChatCategory => p.(chat := s)
    case UiCategory => p.(ui := s)
    case NotificationCategory => p.(notifications := s)
    case AdvancedCategory => p.(advanced := s)
  }

  /** An update naming one category with an object changes that category only. */
  lemma MergeOneCategory(p: Prefs, c: Category, s: Section)
    ensures Merge(p, JObj(map[CategoryName(c) := JObj(s)])) == Success(With(p, c, Get(p, c) + s))
  {
    MergeSingleton(p, CategoryName(c), s);
  }

  /** An update object with one entry touches only the category of that name, if there is one. */
  lemma MergeSingleton(p: Prefs, name: string, s: Section)
    ensures Merge(p, JObj(map[name := JObj(s)])) == Success(Prefs(
      if name == "chat" then p.chat + s else p.chat,
      if name == "ui" then p.ui + s else p.ui,
      if name == "notifications" then p.notifications + s else p.notifications,
      if name == "advanced" then p.advanced + s else p.advanced))
  {
    SingletonField(name, s, "chat");
    SingletonField(name, s, "ui");
    SingletonField(name, s, "notifications");
    SingletonField(name, s, "advanced");
  }

  lemma SingletonField(name: string, s: Section, k: string)
    ensures Field(JObj(map[name := JObj(s)]), k) == if k == name then Some(JObj(s)) else None
  {
  }

  /** Saving one category over a cache. */
  lemma SaveOneCategory(m: Manager, c: Category, partial: Section, store: Store)
    requires m.cache.Some?
    ensures var o := Save(m, JObj(map[CategoryName(c) := JObj(Get(m.cache.value, c) + partial)]), store);
      o.failure.None? ==> o.m.cache == Some(With(m.cache.value, c, Get(m.cache.value, c) + partial))
  {
    var p := m.cache.value;
    MergeOneCategory(p, c, Get(p, c) + partial);
    OverlayCovers(Get(p, c), Get(p, c) + partial);
  }

  /**
   * `updateChatPreferences` and its three siblings: read the cache, then
   * save the category with the given settings spread over it.
   */
  function UpdateCategory(m: Manager, c: Category, partial: Section, store: Store): (o: Outcome)
    ensures o.failure.None? <==> store.StoreReturned?
    ensures o.failure.None? ==> var current := m.cache.GetOr(Defaults);
      o.m.cache == Some(With(current, c, Get(current, c) + partial))
    ensures o.failure.Some? ==> o.m.cache == Some(m.cache.GetOr(Defaults)) && o.deliveries == []
  {
    var (m1, current) := GetCached(m);
    SaveOneCategory(m1, c, partial, store);
    Save(m1, JObj(map[CategoryName(c) := JObj(Get(current, c) + partial)]), store)
  }

  /** The defaults hold every default setting, with a known model and theme. */
  lemma DefaultsConform()
    ensures Conforms(Defaults)
  {
    assert DefaultChat["defaultModel"] == JStr("mojo");
    assert DefaultUi["theme"] == JStr("dark");
  }

  /** A whole preferences object merged over another: its entries win, category by category. */
  lemma MergeWhole(p: Prefs, d: Prefs)
    ensures Merge(p, PrefsJson(d)) == Success(Overlay(p, d))
  {
    PrefsJsonFields(d);
  }

  /** Spreading `d` over anything keeps every entry of `d`. */
  lemma OverlayKeeps(base: Section, d: Section)
    ensures d.Keys <= (base + d).Keys
    ensures forall k :: k in d ==> (base + d)[k] == d[k]
  {
  }

  /** Spreading a conforming `d` over anything keeps every entry of `d`, and conformance. */
  lemma MergeConformingOver(p: Prefs, d: Prefs)
    requires Conforms(d)
    ensures var r := Merge(p, PrefsJson(d)).value;
      && Conforms(r)
      && forall c, k :: k in Get(d, c) ==> k in Get(r, c) && Get(r, c)[k] == Get(d, c)[k]
  {
    MergeWhole(p, d);
    var r := Overlay(p, d);
    OverlayConforms(p, d);
    forall c, k | k in Get(d, c)
      ensures k in Get(r, c) && Get(r, c)[k] == Get(d, c)[k]
    {
      GetOverlay(p, d, c);
    }
  }

  /** Each category of `d` spread over the same category of `p`. */
  function Overlay(p: Prefs, d: Prefs): Prefs {
    Prefs(p.chat + d.chat, p.ui + d.ui, p.notifications + d.notifications, p.advanced + d.advanced)
  }

  lemma OverlayConforms(p: Prefs, d: Prefs)
    requires Conforms(d)
    ensures Conforms(Overlay(p, d))
  {
    var r := Overlay(p, d);
    OverlayKeeps(p.chat, d.chat);
    OverlayKeeps(p.ui, d.ui);
    OverlayKeeps(p.notifications, d.notifications);
    OverlayKeeps(p.advanced, d.advanced);
    assert r.chat["defaultModel"] == d.chat["defaultModel"];
    assert r.ui["theme"] == d.ui["theme"];
  }

  lemma GetOverlay(p: Prefs, d: Prefs, c: Category)
    ensures Get(Overlay(p, d), c) == Get(p, c) + Get(d, c)
  {
  }

  /** The defaults merged over anything: every default setting takes its default value. */
  lemma MergeDefaultsOver(p: Prefs)
    ensures var r := Merge(p, PrefsJson(Defaults)).value;
      && Conforms(r)
      && forall c, k :: k in Get(Defaults, c) ==> k in Get(r, c) && Get(r, c)[k] == Get(Defaults, c)[k]
  {
    DefaultsConform();
    MergeConformingOver(p, Defaults);
  }

  /** `resetToDefaults()` as written: the defaults merged over the cache. */
  function Reset(m: Manager, store: Store): (o: Outcome)
    ensures o.failure.None? <==> store.StoreReturned?
    ensures o.failure.None? ==> o.m.cache.Some? && Conforms(o.m.cache.value)
    ensures o.failure.None? ==>
      o.m.cache.Some? &&
      forall c, k :: k in Get(Defaults, c) ==> k in Get(o.m.cache.value, c) && Get(o.m.cache.value, c)[k] == Get(Defaults, c)[k]
  {
    MergeDefaultsOver(m.cache.GetOr(Defaults));
    Save(m, PrefsJson(Defaults), store)
  }

  /** When the cache holds only settings the defaults know, reset gives exactly the defaults. */
  lemma ResetOfKnownSettings(m: Manager)
    requires forall c :: Get(m.cache.GetOr(Defaults), c).Keys <= Get(Defaults, c).Keys
    ensures Reset(m, StoreReturned(None)).m.cache == Some(Defaults)
  {
    var cur := m.cache.GetOr(Defaults);
    assert cur.chat.Keys <= DefaultChat.Keys by { assert Get(cur, ChatCategory) == cur.chat; }
    assert cur.ui.Keys <= DefaultUi.Keys by { assert Get(cur, UiCategory) == cur.ui; }
    assert cur.notifications.Keys <= DefaultNotifications.Keys by { assert Get(cur, NotificationCategory) == cur.notifications; }
    assert cur.advanced.Keys <= DefaultAdvanced.Keys by { assert Get(cur, AdvancedCategory) == cur.advanced; }
    MergeWholeOverrides(cur, Defaults);
  }

  /**
   * A setting the defaults do not know survives a reset: after importing
   * `{"chat": {"beta": true}}`, resetting leaves `beta` in the cache.
   */
  lemma ResetKeepsUnknownSetting(m: Manager, k: string, v: Json)
    requires m.cache.Some? && k in m.cache.value.chat && k !in DefaultChat
    ensures var o := Reset(m, StoreReturned(None));
      o.m.cache.Some? && k in o.m.cache.value.chat && o.m.cache.value.chat[k] == m.cache.value.chat[k]
      && o.m.cache != Some(Defaults)
  {
    var cur := m.cache.value;
    MergeWhole(cur, Defaults);
    var o := Reset(m, StoreReturned(None));
    assert o.m.cache == Some(Merge(cur, PrefsJson(Defaults)).value);
    assert o.m.cache.value.chat == cur.chat + DefaultChat;
  }

  /** `resetToDefaults()` as intended: the stored preferences become exactly the defaults. */
  function ResetExact(m: Manager, store: Store): (o: Outcome)
    ensures o.failure.None? <==> store.StoreReturned?
    ensures o.failure.None? ==> o.m.cache == Some(Defaults) && o.deliveries == Notify(m.listeners, Defaults)
    ensures o.failure.Some? ==> o.m == m && o.deliveries == []
  {
    if store.StoreThrew? then Outcome(m, [], Some(StoreFailed(store.error)))
    else Outcome(m.(cache := Some(Defaults)), Notify(m.listeners, Defaults), None)
  }

  /** Where the two agree: on a cache of known settings the intended reset is the written one. */
  lemma ResetExactAgrees(m: Manager, store: Store)
    requires forall c :: Get(m.cache.GetOr(Defaults), c).Keys <= Get(Defaults, c).Keys
    ensures ResetExact(m, store) == Reset(m, store)
  {
    if store.StoreReturned? {
      ResetOfKnownSettings(m);
      assert Reset(m, store) == Reset(m, StoreReturned(None));
    }
  }

  // ---------------------------------------------------------------------
  // Loading, export and import
  // ---------------------------------------------------------------------

  /** What reading the preferences row gave: a thrown error, or the row and an error object. */
  datatype Fetch = FetchThrew | Fetched(data: Option<Json>, error: Option<Json>)

  /** The "no rows" code, which loading treats as "nothing stored yet". */
  const NoRowsCode: string := "PGRST116"

  /** Whether loading gives up: the read threw, or returned an error other than "no rows". */
  predicate LoadFails(f: Fetch) {
    f.FetchThrew? || (Truthy(f.error) && !IsString(Field(f.error.value, "code"), NoRowsCode))
  }

  /**
   * `loadPreferences()`: on failure the defaults are returned and nothing
   * else happens; otherwise the stored preferences, merged over the
   * defaults (the defaults alone when nothing truthy is stored), are
   * cached, sent to the listeners and returned.
   */
  function Load(m: Manager, f: Fetch): (result: (Outcome, Prefs))
    ensures var (o, p) := result;
      && o.failure.None?
      && (LoadFails(f) ==> p == Defaults && o.m == m && o.deliveries == [])
      && (!LoadFails(f) ==> o.m == m.(cache := Some(p)) && o.deliveries == Notify(m.listeners, p))
      && (!LoadFails(f) && Truthy(Stored(f)) ==> Success(p) == Merge(Defaults, Stored(f).value))
      && (!LoadFails(f) && !Truthy(Stored(f)) ==> p == Defaults)
  {
    if LoadFails(f) then (Outcome(m, [], None), Defaults)
    else
      var stored := Stored(f);
      var p := if Truthy(stored) then Merge(Defaults, stored.value).value else Defaults;
      (Outcome(m.(cache := Some(p)), Notify(m.listeners, p), None), p)
  }

  /** `data?.preferences` */
  function Stored(f: Fetch): Option<Json>
    requires f.Fetched?
  {
    if f.data.Some? then Field(f.data.value, "preferences") else None
  }

  /** Loaded preferences always hold every default setting. */
  lemma LoadedHasDefaults(m: Manager, f: Fetch)
    ensures var p := Load(m, f).1;
      forall c :: Get(Defaults, c).Keys <= Get(p, c).Keys
  {
  }

  /** `exportPreferences()`: the cached preferences (the defaults if none) serialised. */
  function Export(m: Manager, codec: JsonCodec): (result: (Manager, string))
    ensures result.1 == codec.stringify(PrefsJson(m.cache.GetOr(Defaults)))
    ensures result.0.cache == Some(m.cache.GetOr(Defaults))
  {
    var (m1, p) := GetCached(m);
    (m1, codec.stringify(PrefsJson(p)))
  }

  /**
   * `importPreferences(text)`: parse, validate, save. Any failure,
   * whether parsing, a `null` value or the store, surfaces as
   * `Invalid preferences format`.
   */
  function Import(m: Manager, codec: JsonCodec, text: string, store: Store): (o: Outcome)
    ensures o.failure.Some? <==> codec.parse(text).None? || codec.parse(text) == Some(JNull) || store.StoreThrew?
    ensures o.failure.Some? ==> o.failure == Some(InvalidFormat) && o.m == m && o.deliveries == []
    ensures o.failure.None? ==> o.m.cache.Some? && Conforms(Validate(codec.parse(text).value).value)
    ensures o.failure.None? ==> o == Save(m, PrefsJson(Validate(codec.parse(text).value).value), store)
    ensures o.failure.None? ==>
      var merged := Merge(m.cache.GetOr(Defaults), PrefsJson(Validate(codec.parse(text).value).value)).value;
      && o.m == m.(cache := Some(merged))
      && o.deliveries == Notify(m.listeners, merged)
  {
    match codec.parse(text)
    case None => Outcome(m, [], Some(InvalidFormat))
    case Some(j) =>
      match Validate(j)
      case Failure(_) => Outcome(m, [], Some(InvalidFormat))
      case Success(v) =>
        var o := Save(m, PrefsJson(v), store);
        if o.failure.Some? then Outcome(m, [], Some(InvalidFormat)) else o
  }

  /**
   * Text that parses to a non-null value, with a store that does not
   * throw, imports successfully. The import leaves a conforming cache
   * that holds every setting of the validated value, so an unknown model
   * or theme in the text arrives as `mojo` or `dark`; every listener
   * hears of it.
   */
  lemma ImportCachesValidated(m: Manager, codec: JsonCodec, text: string, store: Store)
    requires codec.parse(text).Some? && codec.parse(text) != Some(JNull) && !store.StoreThrew?
    ensures Import(m, codec, text, store).failure.None?
    ensures var o := Import(m, codec, text, store);
      var v := Validate(codec.parse(text).value).value;
      && o.m.cache.Some? && Conforms(o.m.cache.value)
      && (forall c, k :: k in Get(v, c) ==> k in Get(o.m.cache.value, c) && Get(o.m.cache.value, c)[k] == Get(v, c)[k])
      && o.deliveries == Notify(m.listeners, o.m.cache.value)
  {
    var v := Validate(codec.parse(text).value).value;
    MergeConformingOver(m.cache.GetOr(Defaults), v);
  }

  /**
   * Exporting and importing back restores the same preferences, provided
   * the serialisation parses back and the cached value conforms.
   */
  lemma ExportImportRoundTrip(m: Manager, codec: JsonCodec)
    requires Conforms(m.cache.GetOr(Defaults))
    requires codec.parse(codec.stringify(PrefsJson(m.cache.GetOr(Defaults)))) == Some(PrefsJson(m.cache.GetOr(Defaults)))
    ensures var (m1, text) := Export(m, codec);
      var o := Import(m1, codec, text, StoreReturned(None));
      o.failure.None? && o.m.cache == Some(m.cache.GetOr(Defaults))
  {
    var p := m.cache.GetOr(Defaults);
    var (m1, text) := Export(m, codec);
    ValidateConforming(p);
    MergeWholeOverrides(p, p);
    ImportValid(m1, codec, text, StoreReturned(None), p);
  }

  /** Importing text that parses to an already conforming value saves that value. */
  lemma ImportValid(m: Manager, codec: JsonCodec, text: string, store: Store, p: Prefs)
    requires codec.parse(text) == Some(PrefsJson(p)) && Conforms(p)
    ensures Import(m, codec, text, store).failure.None? <==> store.StoreReturned?
    ensures store.StoreReturned? ==> Import(m, codec, text, store) == Save(m, PrefsJson(p), store)
  {
    ValidateConforming(p);
  }
}

=== FILE: producer.dfy ===
/**
 * The server side of the chat stream: the `POST` handlers of the `mojo`
 * and `mojo-plus` routes turn each event of the upstream model response
 * into at most one server-sent-event record `data: <payload>\n\n`. Both
 * routes use the same normaliser.
 *
 * A record is a text record `{content}`, a tool record `{type, data}`
 * or the end marker `[DONE]`.
 */
module StreamProducer {
  import opened Wrappers
  import opened Text
  import opened JsonValue

  /**
   * An upstream event, reduced to the four properties the normaliser
   * reads: `type`, `delta`, `content` and `item` (each may be missing).
   */
  datatype UpstreamEvent = UpstreamEvent(kind: Option<string>, delta: Option<Json>, content: Option<Json>, item: Option<Json>)

  datatype Record =
    | ContentRecord(content: Json)
    | ToolRecord(tool: string, data: Json)
    | DoneRecord

  /** The record names a tool event is published under. */
  predicate IsToolName(name: string) {
    name == "image_generation" || name == "code_interpreter" || name == "mcp_call"
  }

  /** What the consumer can rely on: text is truthy and tools carry a known name. */
  predicate WellFormed(r: Record) {
    match r
    case ContentRecord(c) => Truthy(Some(c))
    case ToolRecord(t, _) => IsToolName(t)
    case DoneRecord => true
  }

  /** `event.type?.includes(part)` */
  predicate KindIncludes(e: UpstreamEvent, part: string) {
    e.kind.Some? && Contains(e.kind.value, part)
  }

  /** The tool record name for an output item, by the item's `type`. */
  function ToolName(item: Option<Json>): (r: Option<string>)
    ensures r.Some? ==> IsToolName(r.value)
    ensures r == Some("image_generation") <==> item.Some? && IsString(Field(item.value, "type"), "image_generation_call")
    ensures r == Some("code_interpreter") <==> item.Some? && IsString(Field(item.value, "type"), "code_interpreter_call")
    ensures r == Some("mcp_call") <==> item.Some? && IsString(Field(item.value, "type"), "mcp_call")
  {
    if item.None? then None
    else
      var t := Field(item.value, "type");
      if IsString(t, "image_generation_call") then Some("image_generation")
      else if IsString(t, "code_interpreter_call") then Some("code_interpreter")
      else if IsString(t, "mcp_call") then Some("mcp_call")
      else None
  }

  /** The event carries text the text branch handles. */
  predicate IsTextEvent(e: UpstreamEvent) {
    KindIncludes(e, "text.delta") || Truthy(e.delta)
  }

  /** The event is an output-item event for the tool branch. */
  predicate IsItemEvent(e: UpstreamEvent) {
    e.kind == Some("response.output_item.added") || Truthy(e.item)
  }

  /**
   * The record an upstream event becomes, if any. The branches are tried
   * in order: text, completion, output item, other content. The second
   * half of the completion test (`type === 'response.done'`) is already
   * covered by the first and adds nothing.
   */
  function Normalize(e: UpstreamEvent): (r: Option<Record>)
    ensures r.Some? ==> WellFormed(r.value)
    // The text test comes first: a truthy delta is always what is sent.
    ensures Truthy(e.delta) ==> r == Some(ContentRecord(e.delta.value))
    ensures IsTextEvent(e) ==> r.None? || r.value.ContentRecord?
    // A completion marker only for a `done` event that is not a text event.
    ensures r == Some(DoneRecord) <==> !IsTextEvent(e) && KindIncludes(e, "done")
    // Tool records carry the item itself.
    ensures r.Some? && r.value.ToolRecord? ==>
      !IsTextEvent(e) && !KindIncludes(e, "done") && IsItemEvent(e)
      && e.item.Some? && r.value.data == e.item.value && ToolName(e.item) == Some(r.value.tool)
    // A text record's content is the event's `delta` or `content`.
    ensures r.Some? && r.value.ContentRecord? ==>
      Some(r.value.content) == e.delta || Some(r.value.content) == e.content
  {
    if IsTextEvent(e) then
      var c := Or(Or(e.delta, e.content), Some(JStr("")));
      if Truthy(c) then Some(ContentRecord(c.value)) else None
    else if KindIncludes(e, "done") then Some(DoneRecord)
    else if IsItemEvent(e) then
      match ToolName(e.item)
      case Some(name) => Some(ToolRecord(name, e.item.value))
      case None => None
    else if Truthy(e.content) then Some(ContentRecord(e.content.value))
    else None
  }

  /** The JSON object a record is serialised from. */
  function RecordJson(r: Record): Json {
    match r
    case ContentRecord(c) => JObj(map["content" := c])
    case ToolRecord(t, d) => JObj(map["type" := JStr(t), "data" := d])
    case DoneRecord => JNull
  }

  /** The text after `data: `. */
  function Payload(codec: JsonCodec, r: Record): string {
    if r.DoneRecord? then "[DONE]" else codec.stringify(RecordJson(r))
  }

  /** The record line, without its two terminating newlines. */
  function FrameLine(codec: JsonCodec, r: Record): string {
    "data: " + Payload(codec, r)
  }

  /** One enqueued chunk of the response body. */
  function Frame(codec: JsonCodec, r: Record): string {
    FrameLine(codec, r) + "\n\n"
  }

  /** The records a sequence of upstream events produces, in order. */
  function Emitted(events: seq<UpstreamEvent>): (rs: seq<Record>)
    ensures |rs| <= |events|
    ensures forall i :: 0 <= i < |rs| ==> WellFormed(rs[i])
    decreases |events|
  {
    if |events| == 0 then []
    else
      var rest := Emitted(events[1..]);
      match Normalize(events[0])
      case Some(r) => [r] + rest
      case None => rest
  }

  /** The response body for a sequence of records. */
  function Body(codec: JsonCodec, rs: seq<Record>): string
    decreases |rs|
  {
    if |rs| == 0 then "" else Frame(codec, rs[0]) + Body(codec, rs[1..])
  }

  /** The whole streamed response body for the upstream events. */
  function Produce(codec: JsonCodec, events: seq<UpstreamEvent>): string {
    Body(codec, Emitted(events))
  }

  /** Each record is one frame: bodies of consecutive record runs concatenate. */
  lemma {:induction false} BodyAppend(codec: JsonCodec, xs: seq<Record>, ys: seq<Record>)
    ensures Body(codec, xs + ys) == Body(codec, xs) + Body(codec, ys)
    decreases |xs|
  {
    if |xs| == 0 {
      assert xs + ys == ys;
    } else {
      assert (xs + ys)[0] == xs[0];
      assert (xs + ys)[1..] == xs[1..] + ys;
      BodyAppend(codec, xs[1..], ys);
    }
  }

  /** Events that produce no record leave the body unchanged; others add exactly their frame. */
  lemma ProduceStep(codec: JsonCodec, events: seq<UpstreamEvent>, e: UpstreamEvent)
    ensures Normalize(e).None? ==> Produce(codec, [e] + events) == Produce(codec, events)
    ensures Normalize(e).Some? ==>
      Produce(codec, [e] + events) == Frame(codec, Normalize(e).value) + Produce(codec, events)
  {
    assert ([e] + events)[1..] == events;
  }

  /** A done event that is not a text event yields a `[DONE]` frame, however often it occurs. */
  lemma DoneEventFrame(codec: JsonCodec, e: UpstreamEvent)
    requires KindIncludes(e, "done") && !IsTextEvent(e)
    ensures Produce(codec, [e]) == "data: [DONE]\n\n"
  {
    assert [e][1..] == [];
    assert Emitted([e]) == [DoneRecord];
    assert [DoneRecord][1..] == [];
    assert Body(codec, [DoneRecord]) == Frame(codec, DoneRecord);
  }
}

=== FILE: profile.dfy ===
/**
 * `ProfileModal`: the interests field shown as comma-separated text and
 * parsed back into a list, the normalisation of the form into the stored
 * profile row, and the order of the two writes a save makes. The auth
 * and database calls are parameters: each succeeds or reports an error.
 */
module Profile {
  import opened Wrappers
  import opened Text

  // ---------------------------------------------------------------------
  // Interests
  // ---------------------------------------------------------------------

  /** `.map(i => i.trim())` */
  function TrimAll(pieces: seq<string>): (r: seq<string>)
    ensures |r| == |pieces|
    ensures forall k :: 0 <= k < |r| ==> r[k] == Trim(pieces[k])
  {
    seq(|pieces|, k requires 0 <= k < |pieces| => Trim(pieces[k]))
  }

  /** `.filter(i => i.length > 0)` */
  function NonEmpty(pieces: seq<string>): (r: seq<string>)
    ensures |r| <= |pieces|
    ensures forall k :: 0 <= k < |r| ==> r[k] != "" && r[k] in pieces
    ensures (forall k :: 0 <= k < |pieces| ==> pieces[k] != "") ==> r == pieces
    decreases |pieces|
  {
    if |pieces| == 0 then []
    else if pieces[0] == "" then NonEmpty(pieces[1..])
    else [pieces[0]] + NonEmpty(pieces[1..])
  }

  /** The interests typed in the text field: split at commas, trimmed, blanks dropped. */
  function ParseInterests(text: string): (r: seq<string>)
    ensures forall k :: 0 <= k < |r| ==> Clean(r[k])
  {
    var pieces := Split(text, ',');
    SplitPiecesAvoidSeparator(text, ',');
    var trimmed := TrimAll(pieces);
    forall k | 0 <= k < |trimmed| ensures IsTrimmed(trimmed[k]) && ',' !in trimmed[k] {
      TrimIsTrimmed(pieces[k]);
      TrimSubsequence(pieces[k]);
    }
    NonEmpty(trimmed)
  }

  /** An interest that survives parsing: trimmed, not empty and without a comma. */
  predicate Clean(item: string) {
    IsTrimmed(item) && item != "" && ',' !in item
  }

  /** Trimming removes characters, it adds none. */
  lemma TrimSubsequence(s: string)
    ensures forall ch :: ch in Trim(s) ==> ch in s
  {
    var t := TrimStart(s);
    assert forall ch :: ch in TrimEnd(t) ==> ch in t;
  }

  /** The list as the text field shows it. */
  function ShowInterests(items: seq<string>): string {
    Join(items, ", ")
  }

  /** The pieces `split(',')` makes of the shown list: every item but the first keeps the space of `", "`. */
  function Spaced(items: seq<string>): (r: seq<string>)
    requires |items| > 0
    ensures |r| == |items| && r[0] == items[0]
    ensures forall k :: 1 <= k < |r| ==> r[k] == " " + items[k]
  {
    [items[0]] + seq(|items| - 1, k requires 0 <= k < |items| - 1 => " " + items[k + 1])
  }

  lemma {:induction false} JoinSpaced(items: seq<string>)
    requires |items| > 0
    ensures Join(items, ", ") == Join(Spaced(items), [','])
    decreases |items|
  {
    if |items| > 1 {
      JoinSpaced(items[1..]);
      var tail := Spaced(items[1..]);
      var sp := Spaced(items);
      assert sp[1..] == [" " + items[1]] + tail[1..];
      assert Join(sp[1..], [',']) == " " + Join(tail, [',']) by {
        if |tail| > 1 {
          assert Join(tail, [',']) == tail[0] + [','] + Join(tail[1..], [',']);
          assert ([" " + items[1]] + tail[1..])[1..] == tail[1..];
        }
      }
      assert ", " == [','] + " ";
    }
  }

  /** The spaced pieces carry no comma. */
  lemma SpacedCommaFree(items: seq<string>)
    requires |items| > 0
    requires forall k :: 0 <= k < |items| ==> Clean(items[k])
    ensures forall k :: 0 <= k < |Spaced(items)| ==> ',' !in Spaced(items)[k]
  {
    var sp := Spaced(items);
    forall k | 0 <= k < |sp| ensures ',' !in sp[k] {
      if k > 0 { assert sp[k] == " " + items[k]; }
    }
  }

  /** Trimming the spaced pieces of clean items gives the items. */
  lemma TrimSpaced(items: seq<string>)
    requires |items| > 0
    requires forall k :: 0 <= k < |items| ==> Clean(items[k])
    ensures TrimAll(Spaced(items)) == items
  {
    var sp := Spaced(items);
    forall k | 0 <= k < |sp| ensures Trim(sp[k]) == items[k] {
      if k == 0 {
        TrimOfTrimmed(items[0]);
      } else {
        TrimLeadingSpace(items[k]);
      }
    }
  }

  /** The space `", "` leaves in front of a clean item is trimmed away. */
  lemma TrimLeadingSpace(item: string)
    requires Clean(item)
    ensures Trim(" " + item) == item
  {
    assert AllSpace(" ") && AllSpace("");
    TrimSurrounded(" ", item, "");
    assert " " + item + "" == " " + item;
  }

  /** Showing a list of clean interests and parsing the text gives the list back. */
  lemma ShowThenParse(items: seq<string>)
    requires forall k :: 0 <= k < |items| ==> Clean(items[k])
    ensures ParseInterests(ShowInterests(items)) == items
  {
    if |items| == 0 {
      assert Split("", ',') == [""];
      TrimOfTrimmed("");
    } else {
      var sp := Spaced(items);
      JoinSpaced(items);
      SpacedCommaFree(items);
      JoinThenSplit(sp, ',');
      assert Split(ShowInterests(items), ',') == sp;
      TrimSpaced(items);
    }
  }

  /** Parsing is stable under showing: what was parsed once parses to itself. */
  lemma ParseShowParse(text: string)
    ensures ParseInterests(ShowInterests(ParseInterests(text))) == ParseInterests(text)
  {
    ShowThenParse(ParseInterests(text));
  }

  // ---------------------------------------------------------------------
  // Saving
  // ---------------------------------------------------------------------

  /** The form; an age field left empty is `None`. */
  datatype Form = Form(
    fullName: string, avatarUrl: string, location: string, interestsText: string,
    age: Option<int>, occupation: string, hobbies: string, goals: string, bio: string)

  /** The `users` row written; `None` is SQL null. */
  datatype Row = Row(
    fullName: string, avatarUrl: string, location: Option<string>, interests: seq<string>,
    age: Option<int>, occupation: Option<string>, hobbies: Option<string>, goals: Option<string>,
    bio: Option<string>)

  /** `s || null` */
  function TextOrNull(s: string): (r: Option<string>)
    ensures r.None? <==> s == ""
    ensures r.Some? ==> r.value == s
  {
    if s == "" then None else Some(s)
  }

  /** `age || null`: an empty field and 0 are both stored as null. */
  function AgeOrNull(age: Option<int>): (r: Option<int>)
    ensures r.None? <==> age.None? || age.value == 0
    ensures r.Some? ==> r == age
  {
    if age.Some? && age.value != 0 then age else None
  }

  function RowOf(f: Form): (r: Row)
    ensures r.fullName == f.fullName && r.avatarUrl == f.avatarUrl
    ensures r.interests == ParseInterests(f.interestsText)
    ensures r.age == AgeOrNull(f.age)
    ensures r.location == TextOrNull(f.location) && r.occupation == TextOrNull(f.occupation)
    ensures r.hobbies == TextOrNull(f.hobbies) && r.goals == TextOrNull(f.goals) && r.bio == TextOrNull(f.bio)
  {
    Row(f.fullName, f.avatarUrl, TextOrNull(f.location), ParseInterests(f.interestsText),
        AgeOrNull(f.age), TextOrNull(f.occupation), TextOrNull(f.hobbies), TextOrNull(f.goals),
        TextOrNull(f.bio))
  }

  /** What a save did: the auth metadata sent, the row written (if reached), and the resulting state. */
  datatype SaveResult = SaveResult(
    authSent: (string, string), rowWritten: Option<Row>, error: Option<string>, success: bool, saving: bool)

  const SaveError: string := "Failed to save profile changes"

  /**
   * `handleSave`: the auth metadata is updated first; only if that
   * succeeds is the row written. Any failure shows one fixed message, and
   * the saving flag is off afterwards either way.
   */
  function Save(f: Form, authError: Option<string>, dbError: Option<string>): (r: SaveResult)
    ensures r.authSent == (f.fullName, f.avatarUrl)
    ensures r.rowWritten.Some? <==> authError.None?
    ensures r.rowWritten.Some? ==> r.rowWritten.value == RowOf(f)
    ensures r.success <==> authError.None? && dbError.None?
    ensures r.error.Some? <==> !r.success
    ensures r.error.Some? ==> r.error.value == SaveError
    ensures !r.saving
  {
    if authError.Some? then SaveResult((f.fullName, f.avatarUrl), None, Some(SaveError), false, false)
    else if dbError.Some? then SaveResult((f.fullName, f.avatarUrl), Some(RowOf(f)), Some(SaveError), false, false)
    else SaveResult((f.fullName, f.avatarUrl), Some(RowOf(f)), None, true, false)
  }

  /** The stored interests, shown in the form and saved again, are stored unchanged. */
  lemma StoredInterestsSurviveSave(f: Form, authError: Option<string>, dbError: Option<string>)
    requires authError.None?
    ensures var row := Save(f, authError, dbError).rowWritten.value;
      RowOf(f.(interestsText := ShowInterests(row.interests))).interests == row.interests
  {
    ParseShowParse(f.interestsText);
  }
}

=== FILE: realtime.dfy ===
/**
 * `RealtimeService` and the typing set of `useRealtimeChat`: how database
 * changes become view events, the map of open subscriptions keyed by
 * `chat_<id>`, `user_chats_<id>` and `typing_<id>`, and the map of pending
 * typing auto-stop timers. The channel transport and the timers
 * themselves are outside the model: a channel or a timer is named by a
 * token, and the model records which tokens have been removed or cleared.
 */
module Realtime {
  import opened Wrappers
  import opened Text
  import opened JsonValue

  type Metadata = map<string, Json>

  /** A row of the `messages` table. */
  datatype Row = Row(id: string, role: string, content: string, metadata: Option<Metadata>)

  /** The events a subscriber receives. */
  datatype Event =
    | MessageAdded(row: Row)
    | MessageUpdated(row: Row)
    | MessageDeleted(id: string)
    | ChatUpdated(chat: Json)
    | TypingStart(chatId: string, userId: string)
    | TypingStop(chatId: string, userId: string)

  datatype ChangeKind = Insert | Update | Delete

  /**
   * A change the database reports: to a message row of some chat (with
   * the new row and the id of the old one), or to a chat row owned by
   * some user.
   */
  datatype Change =
    | MessageChange(kind: ChangeKind, chatId: string, newRow: Row, oldId: string)
    | ChatChange(kind: ChangeKind, id: string, userId: string, newChat: Json)

  /**
   * The events of the `chat_<id>` channel: message inserts, updates and
   * deletes of that chat, and updates of the chat row itself. A delete
   * carries only the id of the removed row.
   */
  function ChatEventOf(chatId: string, c: Change): (e: Option<Event>)
    ensures e.Some? && e.value.MessageDeleted? <==> c.MessageChange? && c.chatId == chatId && c.kind == Delete
    ensures e.Some? && e.value.MessageDeleted? ==> e.value.id == c.oldId
    ensures e.Some? && e.value.MessageAdded? <==> c.MessageChange? && c.chatId == chatId && c.kind == Insert
    ensures e.Some? && e.value.MessageUpdated? <==> c.MessageChange? && c.chatId == chatId && c.kind == Update
    ensures e.Some? && (e.value.MessageAdded? || e.value.MessageUpdated?) ==> e.value.row == c.newRow
    ensures e.Some? && e.value.ChatUpdated? <==> c.ChatChange? && c.id == chatId && c.kind == Update
    ensures e.Some? ==> !e.value.TypingStart? && !e.value.TypingStop?
  {
    match c
    case MessageChange(kind, cid, newRow, oldId) =>
      if cid != chatId then None
      else (
        match kind
        case Insert => Some(MessageAdded(newRow))
        case Update => Some(MessageUpdated(newRow))
        case Delete => Some(MessageDeleted(oldId)))
    case ChatChange(kind, id, _, newChat) =>
      if id == chatId && kind == Update then Some(ChatUpdated(newChat)) else None
  }

  /** The events of the `user_chats_<id>` channel: only updates of that user's chats are forwarded. */
  function UserChatsEventOf(userId: string, c: Change): (e: Option<Event>)
    ensures e.Some? <==> c.ChatChange? && c.userId == userId && c.kind == Update
    ensures e.Some? ==> e.value == ChatUpdated(c.newChat)
  {
    if c.ChatChange? && c.userId == userId && c.kind == Update then Some(ChatUpdated(c.newChat)) else None
  }

  /** A message change reaches the chat channel exactly when it belongs to that chat. */
  lemma MessageChangesReachOwnChatOnly(chatId: string, c: Change)
    requires c.MessageChange?
    ensures ChatEventOf(chatId, c).Some? <==> c.chatId == chatId
  {
  }

  // ---------------------------------------------------------------------
  // Subscription keys
  // ---------------------------------------------------------------------

  function ChatKey(chatId: string): string { "chat_" + chatId }
  function UserChatsKey(userId: string): string { "user_chats_" + userId }
  function TypingKey(chatId: string): string { "typing_" + chatId }

  /** The timer key of `sendTypingIndicator`. */
  function TimeoutKey(chatId: string, userId: string): string { chatId + "_" + userId }

  /** A prefix followed by a text determines the text. */
  lemma PrefixCancels(p: string, a: string, b: string)
    requires p + a == p + b
    ensures a == b
  {
    assert a == (p + a)[|p|..];
    assert b == (p + b)[|p|..];
  }

  /**
   * The three key families never collide, and within a family different
   * ids get different keys: subscribing to a chat's typing channel never
   * replaces its message subscription, and two chats never share one.
   */
  lemma KeysAreDistinct(x: string, y: string)
    ensures ChatKey(x) != UserChatsKey(y)
    ensures ChatKey(x) != TypingKey(y)
    ensures UserChatsKey(x) != TypingKey(y)
    ensures ChatKey(x) == ChatKey(y) ==> x == y
    ensures UserChatsKey(x) == UserChatsKey(y) ==> x == y
    ensures TypingKey(x) == TypingKey(y) ==> x == y
  {
    assert ChatKey(x)[0] == 'c';
    assert UserChatsKey(y)[0] == 'u';
    assert TypingKey(y)[0] == 't';
    assert UserChatsKey(x)[0] == 'u';
    if ChatKey(x) == ChatKey(y) { PrefixCancels("chat_", x, y); }
    if UserChatsKey(x) == UserChatsKey(y) { PrefixCancels("user_chats_", x, y); }
    if TypingKey(x) == TypingKey(y) { PrefixCancels("typing_", x, y); }
  }

  // ---------------------------------------------------------------------
  // The service's state
  // ---------------------------------------------------------------------

  /**
   * `subscriptions` maps a key to its channel; `timeouts` maps a
   * `chatId_userId` key to its pending auto-stop timer. `removed` holds
   * the channels passed to `removeChannel`, `cleared` the timers passed to
   * `clearTimeout`, and `next` is the next fresh token.
   */
  datatype Service = Service(
    subscriptions: map<string, nat>,
    timeouts: map<string, nat>,
    removed: set<nat>,
    cleared: set<nat>,
    next: nat)

  const Fresh: Service := Service(map[], map[], {}, {}, 0)

  /** `unsubscribe(key)`: remove the key's channel, if there is one, and forget the key. */
  function Unsubscribe(s: Service, key: string): (s': Service)
    ensures key !in s'.subscriptions
    ensures s'.subscriptions.Keys == s.subscriptions.Keys - {key}
    ensures forall k :: k in s'.subscriptions ==> s'.subscriptions[k] == s.subscriptions[k]
    ensures key in s.subscriptions ==> s'.removed == s.removed + {s.subscriptions[key]}
    ensures key !in s.subscriptions ==> s' == s
    ensures s'.timeouts == s.timeouts && s'.cleared == s.cleared && s'.next == s.next
  {
    if key in s.subscriptions then
      s.(subscriptions := s.subscriptions - {key}, removed := s.removed + {s.subscriptions[key]})
    else s
  }

  /**
   * The common shape of the three `subscribeTo…` methods: drop any
   * subscription under the key, open a fresh channel, store it under the
   * key and return the key.
   */
  function Subscribe(s: Service, key: string): (result: (Service, string))
    ensures var (s', k) := result;
      && k == key
      && key in s'.subscriptions && s'.subscriptions[key] == s.next && s'.next == s.next + 1
      && s'.subscriptions.Keys == s.subscriptions.Keys + {key}
      && (forall other :: other in s.subscriptions && other != key ==> s'.subscriptions[other] == s.subscriptions[other])
      && (key in s.subscriptions ==> s.subscriptions[key] in s'.removed)
      && s'.timeouts == s.timeouts
  {
    var s1 := Unsubscribe(s, key);
    (s1.(subscriptions := s1.subscriptions[key := s.next], next := s.next + 1), key)
  }

  function SubscribeToChat(s: Service, chatId: string): (Service, string) {
    Subscribe(s, ChatKey(chatId))
  }

  function SubscribeToUserChats(s: Service, userId: string): (Service, string) {
    Subscribe(s, UserChatsKey(userId))
  }

  function SubscribeToTyping(s: Service, chatId: string): (Service, string) {
    Subscribe(s, TypingKey(chatId))
  }

  /** `unsubscribeAll()`: every channel removed, every pending timer cleared, both maps empty. */
  function UnsubscribeAll(s: Service): (s': Service)
    ensures s'.subscriptions == map[] && s'.timeouts == map[]
    ensures s'.removed == s.removed + s.subscriptions.Values
    ensures s'.cleared == s.cleared + s.timeouts.Values
    ensures s'.next == s.next
  {
    Service(map[], map[], s.removed + s.subscriptions.Values, s.cleared + s.timeouts.Values, s.next)
  }

  /** The broadcast `sendTypingIndicator` sends on the `typing_<chatId>` channel. */
  datatype Broadcast = Broadcast(channel: string, event: Event)

  /**
   * `sendTypingIndicator(chatId, userId, isTyping)`. Starting clears the
   * pending auto-stop of the same chat and user, broadcasts
   * `typing_start` and schedules a new auto-stop; stopping only
   * broadcasts `typing_stop` and leaves the timer map alone.
   */
  function SendTyping(s: Service, chatId: string, userId: string, isTyping: bool): (result: (Service, Broadcast))
    ensures var (s', b) := result;
      && b.channel == TypingKey(chatId)
      && (isTyping ==> b.event == TypingStart(chatId, userId))
      && (!isTyping ==> b.event == TypingStop(chatId, userId) && s' == s)
      && s'.subscriptions == s.subscriptions && s'.removed == s.removed
  {
    var b := Broadcast(TypingKey(chatId), if isTyping then TypingStart(chatId, userId) else TypingStop(chatId, userId));
    if isTyping then
      var key := TimeoutKey(chatId, userId);
      var cleared := if key in s.timeouts then s.cleared + {s.timeouts[key]} else s.cleared;
      (s.(timeouts := s.timeouts[key := s.next], cleared := cleared, next := s.next + 1), b)
    else (s, b)
  }

  /**
   * Starting to type replaces the pending auto-stop for the same chat and
   * user: the old timer is cleared, exactly one new one is pending, and
   * every other key keeps its timer.
   */
  lemma TypingStartReplacesTimer(s: Service, chatId: string, userId: string)
    ensures var s' := SendTyping(s, chatId, userId, true).0;
      var key := TimeoutKey(chatId, userId);
      && key in s'.timeouts && s'.timeouts[key] == s.next
      && (key in s.timeouts ==> s.timeouts[key] in s'.cleared)
      && s'.timeouts.Keys == s.timeouts.Keys + {key}
      && (forall k :: k in s.timeouts && k != key ==> s'.timeouts[k] == s.timeouts[k])
  {
  }

  /**
   * What the two maps are meant to hold: live channels and pending timers
   * were issued before and have not been removed or cleared, and no two
   * keys share a channel or a timer.
   */
  predicate Sound(s: Service) {
    && (forall k :: k in s.subscriptions ==> s.subscriptions[k] < s.next && s.subscriptions[k] !in s.removed)
    && (forall k :: k in s.timeouts ==> s.timeouts[k] < s.next && s.timeouts[k] !in s.cleared)
    && (forall h :: h in s.removed ==> h < s.next)
    && (forall h :: h in s.cleared ==> h < s.next)
    && (forall k1, k2 :: k1 in s.subscriptions && k2 in s.subscriptions && k1 != k2 ==> s.subscriptions[k1] != s.subscriptions[k2])
    && (forall k1, k2 :: k1 in s.timeouts && k2 in s.timeouts && k1 != k2 ==> s.timeouts[k1] != s.timeouts[k2])
  }

  /** An operation on the service. */
  datatype Op =
    | SubscribeOp(key: string)
    | UnsubscribeOp(key: string)
    | UnsubscribeAllOp
    | TypingOp(chatId: string, userId: string, isTyping: bool)

  function Apply(s: Service, op: Op): Service {
    match op
    case SubscribeOp(key) => Subscribe(s, key).0
    case UnsubscribeOp(key) => Unsubscribe(s, key)
    case UnsubscribeAllOp => UnsubscribeAll(s)
    case TypingOp(chatId, userId, isTyping) => SendTyping(s, chatId, userId, isTyping).0
  }

  lemma SubscribeKeepsSound(s: Service, key: string)
    requires Sound(s)
    ensures Sound(Subscribe(s, key).0)
  {
    var s' := Subscribe(s, key).0;
    forall k1, k2 | k1 in s'.subscriptions && k2 in s'.subscriptions && k1 != k2
      ensures s'.subscriptions[k1] != s'.subscriptions[k2]
    {
      if k1 != key && k2 != key {
        assert s'.subscriptions[k1] == s.subscriptions[k1];
        assert s'.subscriptions[k2] == s.subscriptions[k2];
      }
    }
  }

  lemma TypingKeepsSound(s: Service, chatId: string, userId: string, isTyping: bool)
    requires Sound(s)
    ensures Sound(SendTyping(s, chatId, userId, isTyping).0)
  {
    if isTyping {
      var s' := SendTyping(s, chatId, userId, isTyping).0;
      var key := TimeoutKey(chatId, userId);
      forall k1, k2 | k1 in s'.timeouts && k2 in s'.timeouts && k1 != k2
        ensures s'.timeouts[k1] != s'.timeouts[k2]
      {
        if k1 != key && k2 != key {
          assert s'.timeouts[k1] == s.timeouts[k1];
          assert s'.timeouts[k2] == s.timeouts[k2];
        }
      }
    }
  }

  lemma ApplyKeepsSound(s: Service, op: Op)
    requires Sound(s)
    ensures Sound(Apply(s, op))
  {
    match op
    case SubscribeOp(key) => SubscribeKeepsSound(s, key);
    case UnsubscribeOp(key) =>
    case UnsubscribeAllOp =>
    case TypingOp(chatId, userId, isTyping) => TypingKeepsSound(s, chatId, userId, isTyping);
  }

  function Run(s: Service, ops: seq<Op>): Service
    decreases |ops|
  {
    if |ops| == 0 then s else Run(Apply(s, ops[0]), ops[1..])
  }

  /**
   * Whatever the sequence of calls, a subscribed key holds a channel that
   * was never removed, and no pending timer has been cleared.
   */
  lemma {:induction false} RunKeepsSound(s: Service, ops: seq<Op>)
    requires Sound(s)
    ensures Sound(Run(s, ops))
    decreases |ops|
  {
    if |ops| > 0 {
      ApplyKeepsSound(s, ops[0]);
      RunKeepsSound(Apply(s, ops[0]), ops[1..]);
    }
  }

  // ---------------------------------------------------------------------
  // The typing set of useRealtimeChat
  // ---------------------------------------------------------------------

  /** `typing_start` adds the user, `typing_stop` removes it, anything else is ignored. */
  function Typing(users: set<string>, e: Event): (r: set<string>)
    ensures e.TypingStart? ==> e.userId in r && r - {e.userId} == users - {e.userId}
    ensures e.TypingStop? ==> e.userId !in r && r == users - {e.userId}
    ensures !e.TypingStart? && !e.TypingStop? ==> r == users
  {
    match e
    case TypingStart(_, userId) => users + {userId}
    case TypingStop(_, userId) => users - {userId}
    case _ => users
  }

  function TypingAll(users: set<string>, es: seq<Event>): set<string>
    decreases |es|
  {
    if |es| == 0 then users else TypingAll(Typing(users, es[0]), es[1..])
  }

  /** Whether `e` is a typing event about `u`. */
  predicate About(e: Event, u: string) {
    (e.TypingStart? || e.TypingStop?) && e.userId == u
  }

  /** The last typing event about `u` in `es`, if any. */
  function LastAbout(es: seq<Event>, u: string): (r: Option<Event>)
    ensures r.Some? ==> About(r.value, u)
    decreases |es|
  {
    if |es| == 0 then None
    else if About(es[|es| - 1], u) then Some(es[|es| - 1])
    else LastAbout(es[..|es| - 1], u)
  }

  function TypingAllBack(users: set<string>, es: seq<Event>): set<string>
    decreases |es|
  {
    if |es| == 0 then users else Typing(TypingAllBack(users, es[..|es| - 1]), es[|es| - 1])
  }

  lemma {:induction false} TypingAllAgrees(users: set<string>, es: seq<Event>)
    ensures TypingAll(users, es) == TypingAllBack(users, es)
    decreases |es|
  {
    if |es| > 0 {
      var last := es[|es| - 1];
      var init := es[..|es| - 1];
      TypingAllAgrees(users, init);
      TypingAllSnoc(users, init, last);
      assert init + [last] == es;
    }
  }

  lemma {:induction false} TypingAllSnoc(users: set<string>, es: seq<Event>, e: Event)
    ensures TypingAll(users, es + [e]) == Typing(TypingAll(users, es), e)
    decreases |es|
  {
    if |es| == 0 {
      assert es + [e] == [e];
      assert [e][1..] == [];
    } else {
      assert (es + [e])[0] == es[0];
      assert (es + [e])[1..] == es[1..] + [e];
      TypingAllSnoc(Typing(users, es[0]), es[1..], e);
    }
  }

  /**
   * After any sequence of events a user is shown as typing exactly when
   * the last typing event about them was a start, or there was none and
   * they were typing before.
   */
  lemma {:induction false} TypingFollowsLastEvent(users: set<string>, es: seq<Event>, u: string)
    ensures u in TypingAll(users, es) <==>
      match LastAbout(es, u)
      case Some(e) => e.TypingStart?
      case None => u in users
    decreases |es|
  {
    TypingAllAgrees(users, es);
    TypingBackFollowsLastEvent(users, es, u);
  }

  lemma {:induction false} TypingBackFollowsLastEvent(users: set<string>, es: seq<Event>, u: string)
    ensures u in TypingAllBack(users, es) <==>
      match LastAbout(es, u)
      case Some(e) => e.TypingStart?
      case None => u in users
    decreases |es|
  {
    if |es| > 0 {
      TypingBackFollowsLastEvent(users, es[..|es| - 1], u);
    }
  }
}

=== FILE: registry.dfy ===
/**
 * The bookkeeping of `StreamingManager`: the map `activeStreams` from a
 * stream id to the abort controller of the `startStream` call that
 * registered it. A controller is named by a token; `running` records the
 * `startStream` calls that have not yet reached their `finally` block,
 * and `aborted` the controllers that have been aborted.
 */
module StreamRegistry {

  datatype Registry = Registry(
    active: map<string, nat>,
    aborted: set<nat>,
    running: map<nat, string>,
    next: nat)

  const Empty: Registry := Registry(map[], {}, map[], 0)

  /** `isStreamActive(id)` */
  predicate IsActive(r: Registry, id: string) {
    id in r.active
  }

  /** `getActiveStreamCount()` */
  function Count(r: Registry): nat {
    |r.active|
  }

  /** `cancelStream(id)`: abort the registered controller, if any, and forget it. */
  function Cancel(r: Registry, id: string): (r': Registry)
    ensures !IsActive(r', id)
    ensures forall other :: other != id && other in r.active ==> other in r'.active && r'.active[other] == r.active[other]
    ensures r'.active.Keys == r.active.Keys - {id}
    ensures IsActive(r, id) ==> r'.aborted == r.aborted + {r.active[id]}
    ensures !IsActive(r, id) ==> r' == r
    ensures r'.running == r.running && r'.next == r.next
  {
    if id in r.active then
      r.(active := r.active - {id}, aborted := r.aborted + {r.active[id]})
    else r
  }

  /** `cancelAllStreams()`: abort every registered controller and clear the map. */
  function CancelAll(r: Registry): (r': Registry)
    ensures r'.active == map[]
    ensures r'.aborted == r.aborted + r.active.Values
    ensures r'.running == r.running && r'.next == r.next
  {
    r.(active := map[], aborted := r.aborted + r.active.Values)
  }

  /**
   * The start of `startStream(id)`: cancel a stream registered under the
   * same id, then register a fresh controller. Returns the new state and
   * the controller's token.
   */
  function Begin(r: Registry, id: string): (result: (Registry, nat))
    ensures var (r', t) := result;
      && t == r.next
      && IsActive(r', id) && r'.active[id] == t && r'.running == r.running[t := id]
      && r'.active.Keys == r.active.Keys + {id}
      && (forall other :: other != id && other in r.active ==> r'.active[other] == r.active[other])
      && (IsActive(r, id) ==> r.active[id] in r'.aborted)
  {
    var r1 := Cancel(r, id);
    (r1.(active := r1.active[id := r.next], running := r1.running[r.next := id], next := r.next + 1), r.next)
  }

  /**
   * The `finally` block of the `startStream` call holding controller `t`,
   * as written: it deletes its id from the map, whichever controller is
   * registered there now.
   */
  function Finish(r: Registry, t: nat): (r': Registry)
    requires t in r.running
    ensures !IsActive(r', r.running[t])
    ensures r'.active == r.active - {r.running[t]}
    ensures r'.running == r.running - {t} && r'.aborted == r.aborted
  {
    r.(active := r.active - {r.running[t]}, running := r.running - {t})
  }

  /**
   * The `finally` block as intended: the call removes its id only while
   * its own controller is the one registered there.
   */
  function FinishOwn(r: Registry, t: nat): (r': Registry)
    requires t in r.running
    ensures var id := r.running[t];
      && (id in r.active && r.active[id] == t ==> r'.active == r.active - {id})
      && (!(id in r.active && r.active[id] == t) ==> r'.active == r.active)
    ensures r'.running == r.running - {t} && r'.aborted == r.aborted
  {
    var id := r.running[t];
    var active := if id in r.active && r.active[id] == t then r.active - {id} else r.active;
    r.(active := active, running := r.running - {t})
  }

  /**
   * What the map is meant to say: an id is registered exactly while a
   * running, un-aborted `startStream` call owns it, and the entry names
   * that call's controller.
   */
  predicate Consistent(r: Registry) {
    && (forall id :: id in r.active ==> r.active[id] in r.running && r.running[r.active[id]] == id && r.active[id] !in r.aborted)
    && (forall t :: t in r.running ==> t < r.next)
    && (forall t :: t in r.aborted ==> t < r.next)
    && (forall t :: t in r.running && t !in r.aborted ==> r.running[t] in r.active && r.active[r.running[t]] == t)
  }

  /** In a consistent registry, `isStreamActive` tells whether a live stream holds the id. */
  lemma ActiveMeansLive(r: Registry, id: string)
    requires Consistent(r)
    ensures IsActive(r, id) <==> exists t :: t in r.running && t !in r.aborted && r.running[t] == id
  {
    if IsActive(r, id) {
      var t := r.active[id];
      assert t in r.running && t !in r.aborted && r.running[t] == id;
    }
  }

  lemma EmptyConsistent()
    ensures Consistent(Empty)
  {
  }

  lemma CancelKeepsConsistent(r: Registry, id: string)
    requires Consistent(r)
    ensures Consistent(Cancel(r, id))
  {
  }

  lemma CancelAllKeepsConsistent(r: Registry)
    requires Consistent(r)
    ensures Consistent(CancelAll(r))
  {
  }

  lemma BeginKeepsConsistent(r: Registry, id: string)
    requires Consistent(r)
    ensures Consistent(Begin(r, id).0)
  {
    var r1 := Cancel(r, id);
    CancelKeepsConsistent(r, id);
    var (r', t) := Begin(r, id);
    forall u | u in r'.running && u !in r'.aborted
      ensures r'.running[u] in r'.active && r'.active[r'.running[u]] == u
    {
      if u != t {
        assert u in r1.running && u !in r1.aborted;
        assert r1.running[u] != id;
      }
    }
  }

  /** The intended `finally` keeps the map consistent. */
  lemma FinishOwnKeepsConsistent(r: Registry, t: nat)
    requires Consistent(r) && t in r.running
    ensures Consistent(FinishOwn(r, t))
  {
  }

  /**
   * The interleaving the code allows: stream A runs under id `x`, stream
   * B starts under the same id (aborting A), and A then reaches its
   * `finally`. As written, A's `finally` deletes B's entry: B is still
   * running and not aborted, yet `isStreamActive(x)` is false, and a
   * `cancelStream(x)` can no longer abort B.
   */
  lemma SameIdFinishDropsSuccessor(x: string)
    ensures var (s1, a) := Begin(Empty, x);
      var (s2, b) := Begin(s1, x);
      var s3 := Finish(s2, a);
      && a in s2.aborted
      && b in s3.running && b !in s3.aborted
      && !IsActive(s3, x)
      && b !in Cancel(s3, x).aborted
      && !Consistent(s3)
  {
    var (s1, a) := Begin(Empty, x);
    var (s2, b) := Begin(s1, x);
    var s3 := Finish(s2, a);
    assert s3.running[b] == x;
  }

  /** With the intended `finally`, the same interleaving leaves B registered and cancellable. */
  lemma SameIdFinishOwnKeepsSuccessor(x: string)
    ensures var (s1, a) := Begin(Empty, x);
      var (s2, b) := Begin(s1, x);
      var s3 := FinishOwn(s2, a);
      && IsActive(s3, x) && s3.active[x] == b
      && b in Cancel(s3, x).aborted
      && Consistent(s3)
  {
    EmptyConsistent();
    var (s1, a) := Begin(Empty, x);
    BeginKeepsConsistent(Empty, x);
    var (s2, b) := Begin(s1, x);
    BeginKeepsConsistent(s1, x);
    FinishOwnKeepsConsistent(s2, a);
  }

  /** An operation on the registry, as the program issues them. */
  datatype Op = StartOp(id: string) | CancelOp(id: string) | CancelAllOp | FinishOp(token: nat)

  /** Apply one operation with the intended `finally`; a `finally` of an unknown call is ignored. */
  function Apply(r: Registry, op: Op): Registry {
    match op
    case StartOp(id) => Begin(r, id).0
    case CancelOp(id) => Cancel(r, id)
    case CancelAllOp => CancelAll(r)
    case FinishOp(t) => if t in r.running then FinishOwn(r, t) else r
  }

  lemma ApplyKeepsConsistent(r: Registry, op: Op)
    requires Consistent(r)
    ensures Consistent(Apply(r, op))
  {
    match op
    case StartOp(id) => BeginKeepsConsistent(r, id);
    case CancelOp(id) => CancelKeepsConsistent(r, id);
    case CancelAllOp => CancelAllKeepsConsistent(r);
    case FinishOp(t) =>
      if t in r.running {
        FinishOwnKeepsConsistent(r, t);
      }
  }

  function Run(r: Registry, ops: seq<Op>): Registry
    decreases |ops|
  {
    if |ops| == 0 then r else Run(Apply(r, ops[0]), ops[1..])
  }

  /**
   * With the intended `finally`, after any sequence of operations an id is
   * active exactly while a live stream holds it.
   */
  lemma {:induction false} RunKeepsConsistent(r: Registry, ops: seq<Op>)
    requires Consistent(r)
    ensures Consistent(Run(r, ops))
    decreases |ops|
  {
    if |ops| > 0 {
      ApplyKeepsConsistent(r, ops[0]);
      RunKeepsConsistent(Apply(r, ops[0]), ops[1..]);
    }
  }
}

=== FILE: signup.dfy ===
/**
 * The sign-up page's submit handler: the password checks made before
 * `signUp` is called, and how its reply becomes the error or success
 * state. `signUp` is a parameter: the reply it gives.
 */
module SignUp {
  import opened Wrappers
  import opened Text
  import AccountSettings

  datatype Form = Form(fullName: string, email: string, password: string, confirm: string)

  /** What `signUp` gave back: data with or without a user, or an error with a message. */
  datatype Reply = Returned(hasUser: bool) | Errored(message: Option<string>)

  /** The call made: email, password and full name, in that order. */
  datatype Call = Call(email: string, password: string, fullName: string)

  /** The page after a submit. */
  datatype Submitted = Submitted(call: Option<Call>, error: Option<string>, success: bool, loading: bool)

  const Mismatch: string := "Passwords do not match"
  const TooShort: string := "Password must be at least 6 characters long"
  const SignUpFallback: string := "An error occurred during sign up"

  /** The two checks, mismatch first; `None` when the form may be sent. */
  function Problem(password: string, confirm: string): (r: Option<string>)
    ensures r.None? <==> password == confirm && Utf16Length(password) >= AccountSettings.MinLength
    ensures password != confirm ==> r == Some(Mismatch)
    ensures password == confirm && Utf16Length(password) < AccountSettings.MinLength ==> r == Some(TooShort)
  {
    if password != confirm then Some(Mismatch)
    else if Utf16Length(password) < 6 then Some(TooShort)
    else None
  }

  /**
   * `handleSubmit`: a rejected form shows its error without calling
   * `signUp`; otherwise the reply decides. Success needs a user in the
   * data; an error shows its message or the fallback; data without a user
   * shows neither. Loading is off afterwards in every case.
   */
  function Submit(f: Form, success: bool, reply: Reply): (r: Submitted)
    ensures !r.loading
    ensures r.call.None? <==> Problem(f.password, f.confirm).Some?
    ensures r.call.None? ==> r.error == Problem(f.password, f.confirm) && r.success == success
    ensures r.call.Some? ==> r.call.value == Call(f.email, f.password, f.fullName)
    ensures r.call.Some? ==> (r.success <==> success || reply == Returned(true))
    ensures r.call.Some? && reply.Errored? ==> r.error == Some(AccountSettings.MessageOr(reply.message, SignUpFallback))
    ensures r.call.Some? && reply.Returned? ==> r.error.None?
  {
    var problem := Problem(f.password, f.confirm);
    if problem.Some? then Submitted(None, problem, success, false)
    else
      var call := Some(Call(f.email, f.password, f.fullName));
      match reply
      case Returned(hasUser) => Submitted(call, None, success || hasUser, false)
      case Errored(m) => Submitted(call, Some(AccountSettings.MessageOr(m, SignUpFallback)), success, false)
  }

  /** Sign-up and the password change accept exactly the same passwords; only the mismatch wording differs. */
  lemma SameRulesAsPasswordChange(password: string, confirm: string)
    ensures Problem(password, confirm).None? <==> AccountSettings.PasswordProblem(password, confirm).None?
    ensures password == confirm ==> Problem(password, confirm) == AccountSettings.PasswordProblem(password, confirm)
    ensures password != confirm ==>
      Problem(password, confirm) == Some(Mismatch) && AccountSettings.PasswordProblem(password, confirm) == Some(AccountSettings.Mismatch)
  {
  }

  /** A reply without a user leaves a fresh page neither failed nor succeeded. */
  lemma NoUserNoSuccess(f: Form)
    requires Problem(f.password, f.confirm).None?
    ensures var r := Submit(f, false, Returned(false)); !r.success && r.error.None? && r.call.Some?
  {
  }
}

=== FILE: text.dfy ===
/**
 * The JavaScript string operations the chat front end relies on, over
 * `string` = `seq<char>`: `startsWith`, `includes`, `split` on one
 * character, `join`, `trim`, UTF-16 `length` and decimal number
 * formatting. Each is given a characterisation (a partner lemma or an
 * inverse) so that the modules above can reason about it.
 */
module Text {

  /** `s.startsWith(prefix)` */
  predicate StartsWith(s: string, prefix: string) {
    |prefix| <= |s| && s[..|prefix|] == prefix
  }

  /** `s.includes(sub)`: `sub` occurs somewhere in `s`. */
  predicate Contains(s: string, sub: string)
    decreases |s|
  {
    StartsWith(s, sub) || (|s| > 0 && Contains(s[1..], sub))
  }

  /** A text contains whatever it ends with. */
  lemma {:induction false} ContainsEnd(a: string, b: string)
    ensures Contains(a + b, b)
    decreases |a|
  {
    if |a| == 0 {
      assert a + b == b;
      assert b[..|b|] == b;
    } else {
      assert (a + b)[1..] == a[1..] + b;
      ContainsEnd(a[1..], b);
    }
  }

  /** A text that lacks the first character of `sub` does not contain `sub`. */
  lemma {:induction false} FirstCharAbsent(s: string, sub: string)
    requires |sub| > 0 && sub[0] !in s
    ensures !Contains(s, sub)
    decreases |s|
  {
    if |s| > 0 {
      assert sub[0] !in s[1..];
      FirstCharAbsent(s[1..], sub);
    }
  }

  /** A character missing from both parts is missing from their concatenation. */
  lemma NotInAppend(c: char, a: string, b: string)
    requires c !in a && c !in b
    ensures c !in a + b
  {
  }

  /** A text is a prefix of itself followed by anything. */
  lemma PrefixOfAppend(a: string, b: string)
    ensures StartsWith(a + b, a)
  {
    assert (a + b)[..|a|] == a;
  }

  /** Regrouping a concatenation of three texts. */
  lemma AppendAssociative(a: string, b: string, c: string)
    ensures (a + b) + c == a + (b + c)
  {
  }

  /** Regrouping a concatenation of three sequences of any other kind. */
  lemma SeqAssociative<T>(a: seq<T>, b: seq<T>, c: seq<T>)
    ensures (a + b) + c == a + (b + c)
  {
  }

  /** `parts.join(sep)` */
  function Join(parts: seq<string>, sep: string): string
    decreases |parts|
  {
    if |parts| == 0 then ""
    else if |parts| == 1 then parts[0]
    else parts[0] + sep + Join(parts[1..], sep)
  }

  /** Joining two non-empty lists is joining each, with one separator between. */
  lemma {:induction false} JoinAppend(xs: seq<string>, ys: seq<string>, sep: string)
    requires |xs| > 0 && |ys| > 0
    ensures Join(xs + ys, sep) == Join(xs, sep) + sep + Join(ys, sep)
    decreases |xs|
  {
    assert (xs + ys)[0] == xs[0];
    if |xs| > 1 {
      assert (xs + ys)[1..] == xs[1..] + ys;
      JoinAppend(xs[1..], ys, sep);
    } else {
      assert (xs + ys)[1..] == ys;
    }
  }

  /** Concatenation of all parts, in order: `parts.join('')`. */
  function Concat(parts: seq<string>): string
    decreases |parts|
  {
    if |parts| == 0 then "" else parts[0] + Concat(parts[1..])
  }

  /** A single part concatenates to itself. */
  lemma ConcatOne(a: string)
    ensures Concat([a]) == a
  {
    assert [a][1..] == [];
  }

  /** Concatenating empty parts gives the empty text. */
  lemma {:induction false} AllEmptyConcat(parts: seq<string>)
    requires forall i :: 0 <= i < |parts| ==> parts[i] == ""
    ensures Concat(parts) == ""
    decreases |parts|
  {
    if |parts| > 0 {
      AllEmptyConcat(parts[1..]);
    }
  }

  /** Concatenation distributes over appending part lists. */
  lemma {:induction false} ConcatAppend(xs: seq<string>, ys: seq<string>)
    ensures Concat(xs + ys) == Concat(xs) + Concat(ys)
    decreases |xs|
  {
    if |xs| > 0 {
      assert (xs + ys)[0] == xs[0];
      assert (xs + ys)[1..] == xs[1..] + ys;
      ConcatAppend(xs[1..], ys);
    } else {
      assert xs + ys == ys;
    }
  }

  /**
   * `s.split(sep)` for a one-character separator: always at least one
   * piece, and the empty string splits into `[""]`.
   */
  function Split(s: string, sep: char): (parts: seq<string>)
    ensures |parts| >= 1
    decreases |s|
  {
    if |s| == 0 then [""]
    else
      var rest := Split(s[1..], sep);
      if s[0] == sep then [""] + rest
      else [[s[0]] + rest[0]] + rest[1..]
  }

  /** No piece produced by `Split` contains the separator. */
  lemma {:induction false} SplitPiecesAvoidSeparator(s: string, sep: char)
    ensures forall k :: 0 <= k < |Split(s, sep)| ==> sep !in Split(s, sep)[k]
    decreases |s|
  {
    if |s| > 0 {
      SplitPiecesAvoidSeparator(s[1..], sep);
    }
  }

  /** Joining the pieces of a split with the separator gives the input back. */
  lemma {:induction false} SplitThenJoin(s: string, sep: char)
    ensures Join(Split(s, sep), [sep]) == s
    decreases |s|
  {
    if |s| > 0 {
      SplitThenJoin(s[1..], sep);
      var rest := Split(s[1..], sep);
      if s[0] == sep {
        assert Split(s, sep) == [""] + rest;
        assert ([""] + rest)[1..] == rest;
        assert s == [sep] + s[1..];
      } else if |rest| == 1 {
        assert s == [s[0]] + s[1..];
      } else {
        var parts := Split(s, sep);
        assert parts[1..] == rest[1..];
        assert Join(rest, [sep]) == rest[0] + [sep] + Join(rest[1..], [sep]);
        assert s == [s[0]] + s[1..];
      }
    }
  }

  /** A text without the separator splits into itself alone. */
  lemma {:induction false} SplitWithoutSeparator(s: string, sep: char)
    requires sep !in s
    ensures Split(s, sep) == [s]
    decreases |s|
  {
    if |s| > 0 {
      assert sep !in s[1..];
      SplitWithoutSeparator(s[1..], sep);
      assert s == [s[0]] + s[1..];
    }
  }

  /** `Split` of a text whose first character is the separator. */
  lemma SplitAtSeparator(s: string, sep: char)
    requires |s| > 0 && s[0] == sep
    ensures Split(s, sep) == [""] + Split(s[1..], sep)
  {
  }

  /** `Split` of a text whose first character is not the separator: it joins the first piece. */
  lemma SplitAtOther(s: string, sep: char)
    requires |s| > 0 && s[0] != sep
    ensures var rest := Split(s[1..], sep);
      Split(s, sep) == [[s[0]] + rest[0]] + rest[1..]
  {
  }

  /** The step of `SplitAround` when `x` starts with the separator. */
  lemma SplitAroundSep(x: string, y: string, sep: char)
    requires |x| > 0 && x[0] == sep
    requires Split(x[1..] + [sep] + y, sep) == Split(x[1..], sep) + Split(y, sep)
    ensures Split(x + [sep] + y, sep) == Split(x, sep) + Split(y, sep)
  {
    var whole := x + [sep] + y;
    assert whole[1..] == x[1..] + [sep] + y;
    SplitAtSeparator(whole, sep);
    SplitAtSeparator(x, sep);
    SeqAssociative([""], Split(x[1..], sep), Split(y, sep));
  }

  /** The step of `SplitAround` when `x` starts with another character. */
  lemma SplitAroundOther(x: string, y: string, sep: char)
    requires |x| > 0 && x[0] != sep
    requires Split(x[1..] + [sep] + y, sep) == Split(x[1..], sep) + Split(y, sep)
    ensures Split(x + [sep] + y, sep) == Split(x, sep) + Split(y, sep)
  {
    var whole := x + [sep] + y;
    assert whole[0] == x[0];
    assert whole[1..] == x[1..] + [sep] + y;
    SplitAtOther(whole, sep);
    SplitAtOther(x, sep);
    ExtendFirstPiece(x[0], Split(x[1..], sep), Split(y, sep));
  }

  /** Extending the first piece commutes with appending further pieces. */
  lemma ExtendFirstPiece(c: char, rest: seq<string>, more: seq<string>)
    requires |rest| > 0
    ensures [[c] + (rest + more)[0]] + (rest + more)[1..] == ([[c] + rest[0]] + rest[1..]) + more
  {
    assert (rest + more)[0] == rest[0];
    assert (rest + more)[1..] == rest[1..] + more;
    SeqAssociative([[c] + rest[0]], rest[1..], more);
  }

  /** Splitting distributes over a separator occurrence. */
  lemma {:induction false} SplitAround(x: string, y: string, sep: char)
    ensures Split(x + [sep] + y, sep) == Split(x, sep) + Split(y, sep)
    decreases |x|
  {
    if |x| == 0 {
      var whole := x + [sep] + y;
      assert whole == [sep] + y;
      assert whole[1..] == y;
      SplitAtSeparator(whole, sep);
    } else {
      SplitAround(x[1..], y, sep);
      if x[0] == sep {
        SplitAroundSep(x, y, sep);
      } else {
        SplitAroundOther(x, y, sep);
      }
    }
  }

  /** The step of `SplitConcat` when `a` starts with the separator. */
  lemma SplitConcatSep(a: string, b: string, sep: char)
    requires |a| > 0 && a[0] == sep
    requires var pa' := Split(a[1..], sep);
      Split(a[1..] + b, sep) == pa'[..|pa'| - 1] + Split(pa'[|pa'| - 1] + b, sep)
    ensures var pa := Split(a, sep);
      Split(a + b, sep) == pa[..|pa| - 1] + Split(pa[|pa| - 1] + b, sep)
  {
    var pa' := Split(a[1..], sep);
    var init, rest := pa'[..|pa'| - 1], Split(pa'[|pa'| - 1] + b, sep);
    assert (a + b)[1..] == a[1..] + b;
    SplitAtSeparator(a, sep);
    SplitAtSeparator(a + b, sep);
    var pa := [""] + pa';
    assert pa[..|pa| - 1] == [""] + init;
    assert pa[|pa| - 1] == pa'[|pa'| - 1];
    SeqAssociative([""], init, rest);
  }

  /** The step of `SplitConcat` when `a` starts with another character and its tail has a separator. */
  lemma SplitConcatInner(a: string, b: string, sep: char)
    requires |a| > 0 && a[0] != sep && |Split(a[1..], sep)| > 1
    requires var pa' := Split(a[1..], sep);
      Split(a[1..] + b, sep) == pa'[..|pa'| - 1] + Split(pa'[|pa'| - 1] + b, sep)
    ensures var pa := Split(a, sep);
      Split(a + b, sep) == pa[..|pa| - 1] + Split(pa[|pa| - 1] + b, sep)
  {
    var pa' := Split(a[1..], sep);
    var rest := Split(pa'[|pa'| - 1] + b, sep);
    assert (a + b)[1..] == a[1..] + b;
    assert (a + b)[0] == a[0];
    SplitAtOther(a, sep);
    SplitAtOther(a + b, sep);
    InnerRegroup(a[0], pa', Split(a[1..] + b, sep), rest);
  }

  /** Extending the first piece commutes with replacing the last piece by several. */
  lemma InnerRegroup(c: char, pa': seq<string>, r: seq<string>, rest: seq<string>)
    requires |pa'| > 1 && r == pa'[..|pa'| - 1] + rest
    ensures var pa := [[c] + pa'[0]] + pa'[1..];
      [[c] + r[0]] + r[1..] == pa[..|pa| - 1] + rest
  {
    var n := |pa'|;
    assert r[0] == pa'[0];
    assert r[1..] == pa'[1..n - 1] + rest;
    var head := [[c] + pa'[0]];
    var pa := head + pa'[1..];
    assert pa[..|pa| - 1] == head + pa'[1..n - 1];
    SeqAssociative(head, pa'[1..n - 1], rest);
  }

  /** The step of `SplitConcat` when `a` starts with another character and its tail has none. */
  lemma SplitConcatLast(a: string, b: string, sep: char)
    requires |a| > 0 && a[0] != sep && |Split(a[1..], sep)| == 1
    requires var pa' := Split(a[1..], sep);
      Split(a[1..] + b, sep) == pa'[..|pa'| - 1] + Split(pa'[|pa'| - 1] + b, sep)
    ensures var pa := Split(a, sep);
      Split(a + b, sep) == pa[..|pa| - 1] + Split(pa[|pa| - 1] + b, sep)
  {
    var c, a' := a[0], a[1..];
    var last := Split(a', sep)[0];
    SplitThenJoin(a', sep);
    assert last == a';
    SplitAtOther(a, sep);
    assert Split(a, sep) == [[c] + last];
    assert a == [c] + a';
    assert Split(a' + b, sep) == Split(last + b, sep);
    AppendAssociative([c], a', b);
  }

  /**
   * Splitting a text that continues after `a`: the pieces of `a` that a
   * separator has ended stay as they are, and the last, unfinished piece
   * of `a` is split together with the continuation.
   */
  lemma {:induction false} SplitConcat(a: string, b: string, sep: char)
    ensures var pa := Split(a, sep);
      Split(a + b, sep) == pa[..|pa| - 1] + Split(pa[|pa| - 1] + b, sep)
    decreases |a|
  {
    if |a| == 0 {
      assert a + b == b;
      assert "" + b == b;
    } else {
      SplitConcat(a[1..], b, sep);
      if a[0] == sep {
        SplitConcatSep(a, b, sep);
      } else if |Split(a[1..], sep)| > 1 {
        SplitConcatInner(a, b, sep);
      } else {
        SplitConcatLast(a, b, sep);
      }
    }
  }

  /** The inverse direction of `SplitThenJoin`. */
  lemma {:induction false} JoinThenSplit(parts: seq<string>, sep: char)
    requires |parts| >= 1
    requires forall k :: 0 <= k < |parts| ==> sep !in parts[k]
    ensures Split(Join(parts, [sep]), sep) == parts
    decreases |parts|
  {
    if |parts| == 1 {
      SplitWithoutSeparator(parts[0], sep);
    } else {
      JoinThenSplit(parts[1..], sep);
      SplitWithoutSeparator(parts[0], sep);
      SplitAround(parts[0], Join(parts[1..], [sep]), sep);
      assert parts == [parts[0]] + parts[1..];
    }
  }

  /**
   * The characters `String.prototype.trim` removes: the ECMAScript
   * WhiteSpace and LineTerminator code points.
   */
  predicate IsSpace(ch: char) {
    || ch == '\t' || ch == '\n' || ch == '\U{000B}' || ch == '\U{000C}' || ch == '\r'
    || ch == ' ' || ch == '\U{00A0}' || ch == '\U{1680}'
    || ('\U{2000}' <= ch <= '\U{200A}')
    || ch == '\U{2028}' || ch == '\U{2029}' || ch == '\U{202F}' || ch == '\U{205F}'
    || ch == '\U{3000}' || ch == '\U{FEFF}'
  }

  /** Every character of `s` is trimmable. */
  predicate AllSpace(s: string) {
    forall k :: 0 <= k < |s| ==> IsSpace(s[k])
  }

  /** `s` neither begins nor ends with a trimmable character. */
  predicate IsTrimmed(s: string) {
    |s| == 0 || (!IsSpace(s[0]) && !IsSpace(s[|s| - 1]))
  }

  /** `s.trimStart()`: the longest suffix that does not start with a space. */
  function TrimStart(s: string): (r: string)
    ensures |r| <= |s| && r == s[|s| - |r|..]
    ensures AllSpace(s[..|s| - |r|])
    ensures |r| == 0 || !IsSpace(r[0])
    decreases |s|
  {
    if |s| > 0 && IsSpace(s[0]) then
      var r := TrimStart(s[1..]);
      assert s[..|s| - |r|] == [s[0]] + s[1..][..|s| - 1 - |r|];
      r
    else s
  }

  /** `s.trimEnd()`: the longest prefix that does not end with a space. */
  function TrimEnd(s: string): (r: string)
    ensures |r| <= |s| && r == s[..|r|]
    ensures AllSpace(s[|r|..])
    ensures |r| == 0 || !IsSpace(r[|r| - 1])
    decreases |s|
  {
    if |s| > 0 && IsSpace(s[|s| - 1]) then TrimEnd(s[..|s| - 1]) else s
  }

  /** `s.trim()` */
  function Trim(s: string): string {
    TrimEnd(TrimStart(s))
  }

  /** A text without leading spaces keeps its first character through `TrimEnd` unless it empties. */
  lemma TrimEndKeepsStart(s: string)
    requires |s| == 0 || !IsSpace(s[0])
    ensures IsTrimmed(TrimEnd(s))
  {
    var r := TrimEnd(s);
    if |r| > 0 {
      assert r[0] == s[0];
    }
  }

  /** The result of `Trim` has no surrounding spaces, and is the middle of its input. */
  lemma TrimIsTrimmed(s: string)
    ensures IsTrimmed(Trim(s))
    ensures |Trim(s)| <= |s|
  {
    TrimEndKeepsStart(TrimStart(s));
  }

  /** Trimming an already trimmed text changes nothing. */
  lemma TrimOfTrimmed(s: string)
    requires IsTrimmed(s)
    ensures Trim(s) == s
  {
  }

  /** `Trim` is idempotent. */
  lemma TrimIdempotent(s: string)
    ensures Trim(Trim(s)) == Trim(s)
  {
    TrimIsTrimmed(s);
    TrimOfTrimmed(Trim(s));
  }

  /** A text trims to empty exactly when it consists of spaces only. */
  lemma TrimEmptyIffAllSpace(s: string)
    ensures Trim(s) == "" <==> AllSpace(s)
  {
    var t := TrimStart(s);
    if Trim(s) == "" {
      assert AllSpace(t[0..]);
      assert |t| == 0;
      assert s[..|s|] == s;
    }
  }

  /** Spaces around a trimmed text are exactly what `Trim` removes. */
  lemma {:induction false} TrimSurrounded(pre: string, x: string, post: string)
    requires AllSpace(pre) && AllSpace(post) && IsTrimmed(x) && |x| > 0
    ensures Trim(pre + x + post) == x
    decreases |pre| + |post|
  {
    if |pre| > 0 {
      assert (pre + x + post)[1..] == pre[1..] + x + post;
      TrimSurrounded(pre[1..], x, post);
    } else if |post| > 0 {
      assert pre + x + post == x + post;
      var whole := x + post;
      assert TrimStart(whole) == whole;
      assert whole[..|whole| - 1] == x + post[..|post| - 1];
      TrimSurrounded(pre, x, post[..|post| - 1]);
    } else {
      assert pre + x + post == x;
    }
  }

  /** `s.length`: the number of UTF-16 code units of `s`. */
  function Utf16Length(s: string): (n: nat)
    ensures |s| <= n <= 2 * |s|
    ensures (forall k :: 0 <= k < |s| ==> s[k] as int <= 0xFFFF) ==> n == |s|
    decreases |s|
  {
    if |s| == 0 then 0
    else (if s[0] as int > 0xFFFF then 2 else 1) + Utf16Length(s[1..])
  }

  /** The decimal digit for `d`. */
  function DigitChar(d: nat): char
    requires d < 10
  {
    ['0', '1', '2', '3', '4', '5', '6', '7', '8', '9'][d]
  }

  /** The value of a decimal digit. */
  function DigitValue(ch: char): nat
    requires '0' <= ch <= '9'
  {
    (ch as int - '0' as int) as nat
  }

  predicate IsDigits(s: string) {
    |s| > 0 && forall k :: 0 <= k < |s| ==> '0' <= s[k] <= '9'
  }

  /** The number a string of decimal digits denotes. */
  function DigitsValue(s: string): nat
    requires forall k :: 0 <= k < |s| ==> '0' <= s[k] <= '9'
    decreases |s|
  {
    if |s| == 0 then 0 else 10 * DigitsValue(s[..|s| - 1]) + DigitValue(s[|s| - 1])
  }

  /** `String(n)` for a non-negative integer: its shortest decimal form. */
  function NatToString(n: nat): (s: string)
    ensures IsDigits(s)
    ensures |s| > 1 ==> s[0] != '0'
    decreases n
  {
    if n < 10 then [DigitChar(n)] else NatToString(n / 10) + [DigitChar(n % 10)]
  }

  /** Reading back the decimal form of `n` gives `n`. */
  lemma {:induction false} NatToStringRoundTrip(n: nat)
    ensures DigitsValue(NatToString(n)) == n
    decreases n
  {
    var s := NatToString(n);
    if n >= 10 {
      NatToStringRoundTrip(n / 10);
      assert s[..|s| - 1] == NatToString(n / 10);
      assert DigitValue(s[|s| - 1]) == n % 10;
    } else {
      assert DigitValue(s[0]) == n;
    }
  }

  /** Distinct numbers have distinct decimal forms. */
  lemma NatToStringInjective()
    ensures forall i: nat, j: nat :: NatToString(i) == NatToString(j) ==> i == j
  {
    forall i: nat, j: nat | NatToString(i) == NatToString(j)
      ensures i == j
    {
      NatToStringRoundTrip(i);
      NatToStringRoundTrip(j);
    }
  }

  /** `String(n)` for an integer: a leading '-' for negative values. */
  function IntToString(n: int): (s: string)
    ensures n >= 0 ==> IsDigits(s)
    ensures n < 0 ==> |s| > 1 && s[0] == '-' && IsDigits(s[1..])
  {
    if n >= 0 then NatToString(n) else "-" + NatToString(-n)
  }

  /** `Math.ceil(n / d)` for non-negative `n` and positive `d`. */
  function CeilDiv(n: nat, d: nat): (q: nat)
    requires d > 0
    ensures q * d >= n
    ensures q == 0 || (q - 1) * d < n
  {
    (n + d - 1) / d
  }
}

=== FILE: toast.dfy ===
/**
 * `ToastProvider`: the bounded queue of visible toasts, adding and hiding
 * them, the severity shortcuts and the context lookup. The generated id
 * is a parameter; scheduling the auto-hide is reported as a request, and
 * the timer firing is a later `Hide`.
 */
module Toasts {
  import opened Wrappers

  datatype Severity = Success | Info | Warning | Error

  datatype Toast = Toast(id: string, message: string, severity: Severity, duration: int)

  const DefaultMaxToasts: int := 3
  const DefaultDuration: int := 4000

  /**
   * `xs.slice(-n)`: JavaScript clamps the start to 0, and `-0` is `0`, so
   * a limit of 0 (or less than the length, negated) keeps everything from
   * the computed start.
   */
  function SliceLast<T>(xs: seq<T>, n: int): (r: seq<T>)
    ensures n > 0 ==> |r| == if |xs| < n then |xs| else n
    ensures n > 0 ==> r == xs[|xs| - |r|..]
    ensures n == 0 ==> r == xs
  {
    var start := -n;
    var from := if start < 0 then (if |xs| + start < 0 then 0 else |xs| + start) else (if start > |xs| then |xs| else start);
    xs[from..]
  }

  /** What `showToast` did: the new queue and the auto-hide it asked for, if any. */
  datatype Shown = Shown(queue: seq<Toast>, autoHide: Option<(string, int)>)

  /**
   * `showToast(message, severity = 'info', duration = 4000)`: the toast is
   * appended and only the last `maxToasts` are kept; a positive duration
   * schedules hiding it.
   */
  function Show(queue: seq<Toast>, maxToasts: int, id: string, message: string,
                severity: Option<Severity>, duration: Option<int>): (r: Shown)
    ensures var t := Toast(id, message, severity.GetOr(Info), duration.GetOr(DefaultDuration));
      maxToasts > 0 ==> |r.queue| > 0 && r.queue[|r.queue| - 1] == t
    ensures maxToasts > 0 ==> |r.queue| == if |queue| < maxToasts then |queue| + 1 else maxToasts
    ensures maxToasts > 0 && |queue| < maxToasts ==> r.queue[..|queue|] == queue
    ensures maxToasts > 0 ==> r.queue[..|r.queue| - 1] == queue[|queue| + 1 - |r.queue|..]
    ensures r.autoHide.Some? <==> duration.GetOr(DefaultDuration) > 0
    ensures r.autoHide.Some? ==> r.autoHide.value == (id, duration.GetOr(DefaultDuration))
  {
    var t := Toast(id, message, severity.GetOr(Info), duration.GetOr(DefaultDuration));
    var q := SliceLast(queue + [t], maxToasts);
    assert maxToasts > 0 ==> q == (queue + [t])[|queue| + 1 - |q|..];
    assert maxToasts > 0 ==> q[..|q| - 1] == queue[|queue| + 1 - |q|..];
    Shown(q, if t.duration > 0 then Some((id, t.duration)) else None)
  }

  /** `hideToast(id)`: every toast with that id leaves; the rest keep their order. */
  function Hide(queue: seq<Toast>, id: string): (r: seq<Toast>)
    ensures forall i :: 0 <= i < |r| ==> r[i].id != id
    ensures forall t :: t in r <==> t in queue && t.id != id
    ensures |r| <= |queue|
    ensures (forall i :: 0 <= i < |queue| ==> queue[i].id != id) ==> r == queue
    decreases |queue|
  {
    if |queue| == 0 then []
    else if queue[0].id == id then Hide(queue[1..], id)
    else [queue[0]] + Hide(queue[1..], id)
  }

  /** `Hide` keeps exactly the surviving toasts, in order: hiding distributes over a split queue. */
  lemma {:induction false} HideAppend(a: seq<Toast>, b: seq<Toast>, id: string)
    ensures Hide(a + b, id) == Hide(a, id) + Hide(b, id)
    decreases |a|
  {
    if |a| == 0 {
      assert a + b == b;
    } else {
      assert (a + b)[0] == a[0];
      assert (a + b)[1..] == a[1..] + b;
      HideAppend(a[1..], b, id);
    }
  }

  /** Showing a toast under a fresh id and hiding it again restores a queue that had room. */
  lemma ShowThenHide(queue: seq<Toast>, maxToasts: int, id: string, message: string,
                     severity: Option<Severity>, duration: Option<int>)
    requires |queue| < maxToasts
    requires forall i :: 0 <= i < |queue| ==> queue[i].id != id
    ensures Hide(Show(queue, maxToasts, id, message, severity, duration).queue, id) == queue
  {
    var t := Toast(id, message, severity.GetOr(Info), duration.GetOr(DefaultDuration));
    var q := Show(queue, maxToasts, id, message, severity, duration).queue;
    assert q == queue + [t];
    HideAppend(queue, [t], id);
    assert Hide([t], id) == [];
  }

  /** What happens to the queue: a toast shown, or a toast hidden (by its timer or its close button). */
  datatype Action = ShowAction(id: string, message: string, severity: Option<Severity>, duration: Option<int>)
                  | HideAction(id: string)

  function Apply(queue: seq<Toast>, maxToasts: int, a: Action): seq<Toast> {
    match a
    case ShowAction(id, message, severity, duration) => Show(queue, maxToasts, id, message, severity, duration).queue
    case HideAction(id) => Hide(queue, id)
  }

  function Run(queue: seq<Toast>, maxToasts: int, actions: seq<Action>): seq<Toast>
    decreases |actions|
  {
    if |actions| == 0 then queue else Run(Apply(queue, maxToasts, actions[0]), maxToasts, actions[1..])
  }

  /** However toasts are shown and hidden, no more than `maxToasts` are ever on screen. */
  lemma {:induction false} RunStaysBounded(queue: seq<Toast>, maxToasts: int, actions: seq<Action>)
    requires maxToasts > 0 && |queue| <= maxToasts
    ensures |Run(queue, maxToasts, actions)| <= maxToasts
    decreases |actions|
  {
    if |actions| > 0 {
      RunStaysBounded(Apply(queue, maxToasts, actions[0]), maxToasts, actions[1..]);
    }
  }

  /** A limit of 0 takes `slice(-0)`, which is the whole queue: nothing is dropped. */
  lemma ZeroLimitKeepsAll(queue: seq<Toast>, id: string, message: string)
    ensures |Show(queue, 0, id, message, None, None).queue| == |queue| + 1
  {
  }

  /** `showSuccess`, `showError`, `showWarning`, `showInfo`: the severity fixed, the duration passed on. */
  function ShowWith(queue: seq<Toast>, maxToasts: int, id: string, message: string,
                    severity: Severity, duration: Option<int>): (r: Shown)
    ensures maxToasts > 0 ==> |r.queue| > 0 && r.queue[|r.queue| - 1].severity == severity
    ensures maxToasts > 0 ==>
      r.queue[|r.queue| - 1] == Toast(id, message, severity, duration.GetOr(DefaultDuration))
    ensures maxToasts > 0 ==> |r.queue| == if |queue| < maxToasts then |queue| + 1 else maxToasts
    ensures maxToasts > 0 ==> r.queue[..|r.queue| - 1] == queue[|queue| + 1 - |r.queue|..]
    ensures r.autoHide.Some? <==> duration.GetOr(DefaultDuration) > 0
    ensures r.autoHide.Some? ==> r.autoHide.value == (id, duration.GetOr(DefaultDuration))
  {
    Show(queue, maxToasts, id, message, Some(severity), duration)
  }

  /** An unspecified severity is `info`, and an unspecified duration hides after 4000 ms. */
  lemma ShowDefaults(queue: seq<Toast>, id: string, message: string)
    ensures var r := Show(queue, DefaultMaxToasts, id, message, None, None);
      r.queue[|r.queue| - 1] == Toast(id, message, Info, 4000) && r.autoHide == Some((id, 4000))
  {
  }

  const OutsideProvider: string := "useToast must be used within a ToastProvider"

  /** `useToast()`: the context, or the error thrown outside a provider. */
  function UseToast<T>(context: Option<T>): (r: Result<T, string>)
    ensures r.Success? <==> context.Some?
    ensures r.Success? ==> r.value == context.value
    ensures r.Failure? ==> r.error == OutsideProvider
  {
    match context
    case Some(c) => Result.Success(c)
    case None => Failure(OutsideProvider)
  }
}

=== FILE: wrappers.dfy ===
/** Failure-carrying datatypes shared by every module of the model. */
module Wrappers {

  /** A value that may be missing: `undefined`/`null` in the source. */
  datatype Option<+T> = None | Some(value: T) {

    /** Returns the value, or `default` when there is none. */
    function GetOr(default: T): T {
      match this
      case Some(v) => v
      case None => default
    }
  }

  /** The outcome of an operation that either returns or throws. */
  datatype Result<+R, +E> = Success(value: R) | Failure(error: E) {

    predicate IsFailure() {
      Failure?
    }

    function PropagateFailure<U>(): Result<U, E>
      requires Failure?
    {
      Failure(error)
    }

    function Extract(): R
      requires Success?
    {
      value
    }
  }
}
